=== FILE: README.md ===
# sage-patchbot, modelled in Dafny

sage-patchbot tests SageMath trac tickets automatically. Each client machine takes these steps in turn:

- picks the most interesting open ticket;
- merges its git branch into a base release;
- builds it;
- runs the doctests and a list of plugins;
- posts a report to a central server.

The server keeps the reports of every ticket, merges them into one status, and serves logs.

This project models the deterministic bookkeeping of that system as pure Dafny functions over immutable datatypes. Anything the system gets from outside becomes an input:

- shell commands, git, make, trac, HTTP and the database;
- the clock and random numbers.

## Modules

- `Version`: `comparable_version`, `compare_version` and `latest_version`. A version string becomes a list of tagged segments, compared lexicographically.
- `Reports`: the client and legacy `prune_pending` and `current_reports`. These are the report filters both sides share.
- `Server`: the server's side of reports:
  - `status_order` with `min_status` and `get_ticket_status`;
  - `is_good_machine` and `post_report`, as a pure ingest function;
  - `log_name`, the server `prune_pending` and `extract_plugin_log`.
- `Tools`: `extraction_machine` and the selection and purge of tickets with many reports.
- `Selection`: how the client chooses a ticket:
  - `compare_machines`;
  - `rate_ticket`, with the `git rev-list` counts as an input;
  - the maximum pick of `get_one_ticket`;
  - the time-of-day window;
  - the plugin list of `get_local_config`.
- `Markers`: the `boundary` marker lines around the parts of a log.
- `Skips`: the deadlines of the client's `to_skip` table. A `SkipTicket` without a delay asks for `float('inf')` seconds, a deadline that never passes.
- `Pipeline`: `test_a_ticket` as a state machine. Abstract step outcomes drive the stage reached, the status reported, the plugin records and the skip deadline.
- `Plugins`:
  - `PluginResult`;
  - the added-line counter `exclude_new_in_diff`, with each regex an opaque predicate, and the two plugins built on it;
  - the file conditions;
  - the `startup_modules` and `coverage` comparisons;
  - `commit_messages` and the `find_lazy_imports` grouping.
- `Trac`: the git-era trac client:
  - `extract_tag`, `extract_participants` and `extract_depends_on`;
  - `inplace_safe`, over the list of changed paths;
  - the decision flow of `pull_from_trac`;
  - `git_commit` and the ticket-info fields.
- `Multipart`: the multipart/form-data encoder (RFC 7578, with the delimiter lines of section 5.1.1 of RFC 2046). The random boundary is a list of picks.
- `LegacyTrac`: the Mercurial-era client in `src/trac.py`:
  - `get_patch_url`, `extract_status`, `min_non_neg` and `ensure_safe`;
  - the dependency walk, the reuse of the queued prefix and the renaming of duplicates in `pull_from_trac`.
- `Lex`, `Seqs`, `Strings` and `Wrappers`: Python's list comparison, `sort`, `max`, `remove`, `sorted(set(...))`, `find`, `split`, `strip`, `int` and `str`, with Python exceptions as `Result` errors that name the exception.

Python integers are unbounded, and so are Dafny's. No wrap-around is involved.

## Model

| member | source | states |
|---|---|---|
| Version.InsertDotsComplete | sage_patchbot/util.py:216 | After the `re.sub`, no digit run follows a character that is neither a digit nor a dot |
| Version.InsertDotsKeepsText | sage_patchbot/util.py:216 | The substitution only inserts dots: with every '.' removed, input and output are the same text |
| Version.InsertDotsFixed | sage_patchbot/util.py:216 | A version whose digits already follow a digit or a dot is left unchanged |
| Version.InsertDotsIdempotent | sage_patchbot/util.py:216 | Applying the substitution to its own output changes nothing |
| Version.Comparable | sage_patchbot/util.py:201-223 | `comparable_version` always yields at least one segment (its closing (0,'z') is stated by Version.ComparableEndsWithZ) |
| Version.TagNat | sage_patchbot/util.py:218-222 | `maybe_int` turns the decimal rendering of n into (1, n), under Python 2 and Python 3 `int` alike |
| Version.TagWord | sage_patchbot/util.py:218-222 | A segment whose last character is neither a digit nor whitespace is not an int and stays (0, s) |
| Version.ComparableEndsWithZ | sage_patchbot/util.py:216-223 | For every version, the last element of the list is (0, 'z') |
| Version.ComparableRc0 | sage_patchbot/util.py:207-208 | '6.6.rc0' becomes [(1,6),(1,6),(0,'rc'),(1,0),(0,'z')] |
| Version.ComparableSixSix | sage_patchbot/util.py:210-211 | '6.6' becomes [(1,6),(1,6),(0,'z')] |
| Version.ComparableBeta4 | sage_patchbot/util.py:213-214 | '6.6.beta4' becomes [(1,6),(1,6),(0,'beta'),(1,4),(0,'z')] |
| Version.BetaBeforeRc | sage_patchbot/util.py:207-214 | Under list comparison 6.6.beta4 comes before 6.6.rc0 |
| Version.RcBeforeRelease | sage_patchbot/util.py:207-214 | Under list comparison 6.6.rc0 comes before 6.6 |
| Version.SegLtIsStrictTotal | sage_patchbot/util.py:218-222 | Tagged segments are strictly and totally ordered: numbers before words, then by value |
| Version.LexIsStrictTotal | sage_patchbot/util.py:122-123 | The lexicographic order on segment lists is a strict total order |
| Version.LatestVersion | sage_patchbot/util.py:65-72 | None exactly for no reports; otherwise one of the reports' bases that no other base exceeds |
| Version.CompareVersion | src/util.py:210-228 | `cmp` of the two lists: 0 iff they are equal, -1 iff the first is smaller, 1 iff it is larger |
| Version.CompareVersionAntisymmetric | src/util.py:228 | Swapping the arguments negates the result |
| Version.CompareRcWithRelease | src/util.py:216-217 | compare_version('6.4.rc0','6.4') is -1 |
| Version.CompareRcWithBeta | src/util.py:219-220 | compare_version('6.4.rc0','6.4.beta2') is 1 |
| Version.CompareReleases | src/util.py:222-223 | compare_version('6.4','6.3') is 1 |
| Version.ComparePointRelease | src/util.py:225-226 | compare_version('6.3','6.3.1') is -1 |
| Reports.PruneInPlace | sage_patchbot/util.py:55-61 | The loop that removes from the list it iterates. It only ever removes Pending reports: the other reports stay, in order, and the result is a sub-multiset of the input. It never lengthens the list, and a stale report at the starting index makes it strictly shorter. Every report that is not stale keeps its full count. It raises ValueError only when some Pending report's time does not parse |
| Reports.PrunePending | sage_patchbot/util.py:39-62 | A ticket without reports gives []. Otherwise the result is drawn from the ticket's reports, keeps every settled report in order, and keeps every report that is not stale with its full count. It raises ValueError only when some Pending report's time does not parse |
| Reports.PruneInPlaceIsRef | sage_patchbot/util.py:55-61 | On a list without repeated reports, the loop equals a reference pass: a stale report is dropped and the report after it is kept without being examined, every other report is kept, and the first unparsable Pending time met raises ValueError |
| Reports.PrunePendingIsRef | sage_patchbot/util.py:39-62 | `prune_pending` on a ticket whose reports are all distinct is that reference pass over its reports |
| Reports.PruneInPlaceSkipsNext | sage_patchbot/util.py:55-61 | Two Pending reports of the pruned machine in a row: only the first is removed, and the second stays although it matches |
| Reports.PruneCopy | src/util.py:51-72 | Iterating over a copy. It fails iff a Pending report's time does not parse. Otherwise it keeps exactly the reports that are not Pending-and-(same machine or older than the timeout), in order. The condition is "or", although the docstring says "and" |
| Reports.PruneCopyRemovesAllStale | src/util.py:65-71 | After the pass over the copy, no matching Pending report is left |
| Reports.Fresh | src/util.py:65-71 | Reference for the prune: the kept reports are reports of the ticket that are not stale, and every report that is not stale is kept |
| Reports.ResolveBase | sage_patchbot/util.py:117-118 | Every base other than 'latest' is kept. 'latest' becomes the base of one of the reports |
| Reports.SelectReports | sage_patchbot/util.py:120-136 | Every kept report has an acceptable base. For tickets other than 0 it also has the ticket's commit, spkgs and dependencies. Under `unique` machines are distinct. Time order is kept |
| Reports.CurrentReports | sage_patchbot/util.py:75-136 | ValueError iff `newer` is set without a base. No 'reports' key gives []. The output is drawn from the ticket's reports and sorted by time. Every report returned passes `base_ok` for the resolved base. For other tickets each report also has the ticket's commit, spkgs and dependencies, and under `unique` machine keys are distinct |
| Reports.CurrentOf | sage_patchbot/util.py:114-136 | Past the early returns, the result is drawn from the reports and sorted by time. Every report kept passes `base_ok` for the base resolved against the time-sorted reports. For other tickets each report also has the ticket's commit, spkgs and dependencies, and under `unique` machine keys are distinct |
| Reports.CurrentReportsComplete | sage_patchbot/util.py:129-136 | Without `unique`, every report of a ticket other than 0 that passes the filter is returned |
| Reports.CurrentReportsTicketZero | sage_patchbot/util.py:125-126 | Ticket 0 keeps every report whose base passes `base_ok`, whatever `unique` says: no commit, spkgs, dependency or machine filter applies |
| Reports.CurrentReportsUnique | sage_patchbot/util.py:100-112 | With `unique`, each report kept is the earliest of its machine key among the matching reports, and every machine key that has a match is represented |
| Reports.FirstPerKeySorted | sage_patchbot/util.py:114-115 | The unique selection keeps the time order of the sorted reports |
| Reports.LegacyCurrentReports | src/util.py:133-144 | For tickets other than 0 it agrees with the package version. For ticket 0 with reports it raises NameError, because it reads the undefined `report` |
| Seqs.SortBy | sage_patchbot/util.py:115 | `list.sort(key=...)` returns a permutation of its input |
| Seqs.SortBySorted | sage_patchbot/util.py:115 | The sorted list is ordered by key |
| Seqs.SortByStable | sage_patchbot/util.py:115 | The sort is stable: the elements with any one key keep their input order |
| Seqs.FirstMaxIndex | sage_patchbot/util.py:70 | `max(..., key=...)` picks an element that nothing exceeds, and every earlier element is strictly smaller |
| Seqs.FirstPerKey | sage_patchbot/util.py:100-108 | The `seen`-set filter keeps elements with distinct keys, none already seen |
| Seqs.FirstPerKeyComplete | sage_patchbot/util.py:100-108 | Every key not seen before is represented in the result |
| Seqs.FirstPerKeyEarliest | sage_patchbot/util.py:100-108 | Each kept element is the first element of the input with its key |
| Seqs.FilterMembers | sage_patchbot/util.py:126 | A list comprehension with a condition keeps exactly the members that satisfy it |
| Seqs.Filter | sage_patchbot/util.py:126 | The comprehension keeps a sub-multiset of the list, holding only members that satisfy the condition and every member that does |
| Seqs.RemoveFirstMultiset | sage_patchbot/util.py:59 | `list.remove(x)` takes out exactly one copy of x |
| Seqs.RemoveFirst | sage_patchbot/util.py:59 | `list.remove(x)` shortens the list by one when x is present and leaves it alone otherwise |
| Seqs.SortedSet | sage_patchbot/server/tools.py:118 | `sorted(set(xs))` is strictly sorted and has exactly the members of xs |
| Seqs.StrictlySortedUnique | sage_patchbot/server/tools.py:118 | Two strictly sorted lists with the same members are equal, so the result of `sorted(set(...))` is determined |
| Seqs.SumResults | sage_patchbot/plugins.py:393-395 | A `sum` over counts that may raise: it raises iff one count raises, with that count's error. It is 0 iff every count is 0, and positive iff some count is positive |
| Lex.LexLtAtMismatch | sage_patchbot/util.py:122-123 | Python's list comparison is decided at the first mismatch. A proper prefix is smaller |
| Lex.LexLtTransitive | sage_patchbot/util.py:122-123 | List comparison is transitive when the element order is a strict total order |
| Lex.LexLtTotal | sage_patchbot/util.py:122-123 | Any two different lists are comparable |
| Lex.PrefixIsSmaller | sage_patchbot/util.py:122-123 | A proper prefix compares smaller |
| Strings.Find | sage_patchbot/trac.py:211-214 | `str.find` gives the first occurrence at or after the start. None means there is no occurrence there |
| Strings.Split | sage_patchbot/util.py:223 | `str.split(sep)` gives at least one piece. No piece contains sep, and joining the pieces with sep gives the text back |
| Strings.SplitJoin | sage_patchbot/trac.py:96 | Splitting on a one-character separator undoes joining pieces that do not contain it |
| Strings.Strip | sage_patchbot/trac.py:217 | `str.strip()` is an infix of the text with no whitespace at either end. It is empty iff the text is all whitespace |
| Strings.StripIdempotent | sage_patchbot/trac.py:217 | Stripping twice is stripping once |
| Strings.Lines | sage_patchbot/server/serve.py:727 | The lines `StringIO` yields concatenate back to the text |
| Strings.LinesShape | sage_patchbot/server/serve.py:727 | Each line is non-empty and ends at its only newline; only the last may lack one |
| Strings.PyIntOfNatString | sage_patchbot/util.py:220 | `int(str(n)) == n` for every natural number |
| Strings.NatToStringRoundTrip | sage_patchbot/util.py:220 | The decimal digits `str(n)` produces have the value n |
| Strings.Py2IntAgrees | src/util.py:204 | Python 2 `int` and Python 3 `int` read a string the same way when it has no underscore and none of the separators \x1c to \x1f |
| Strings.Py2IntInfoSeparator | src/util.py:204 | '\x1c12' is 12 for Python 3 `int` and a ValueError for Python 2 `int`, which does not count \x1c as whitespace |
| Strings.LStripChars | src/trac.py:133 | `lstrip(chars)` drops a prefix made only of the given characters, and what is left does not start with one |
| Strings.RStripChars | src/trac.py:133 | `rstrip(chars)` drops a suffix made only of the given characters, and what is left does not end with one |
| Strings.StripChars | src/trac.py:133 | `strip(chars)` is a slice of the text whose cut-off prefix and suffix are made only of the given characters, and the slice neither starts nor ends with one of them |
| Strings.StripPy2 | src/trac.py:116 | Python 2 `strip()` on a byte string equals Python 3 `strip()` when the text has none of the separators \x1c to \x1f |
| Markers.Boundary | sage_patchbot/patchbot.py:217-236 | The marker is fill, space, label, space, fill. The fill is '='×10 for plugin parts, '='×30 for tickets and '+'×10 for spkgs. The end of a plugin part is labelled 'end ' + name |
| Markers.PluginMarkersDiffer | sage_patchbot/patchbot.py:223-229 | The marker opening a plugin's output is never the one closing it |
| Markers.BoundaryHasNoNewline | sage_patchbot/patchbot.py:236 | A marker for a name without a newline is a single line |
| Markers.BoundaryInjective | sage_patchbot/patchbot.py:236 | Different names get different markers of the same kind |
| Server.MinStatus | sage_patchbot/server/serve.py:933-944 | Raises iff the list is empty or has a status missing from `status_order`. Otherwise it returns a member of the list whose rank is the least |
| Server.MinStatusFailureFirst | sage_patchbot/server/serve.py:941 | min_status(['TestsPassed','TestsFailed']) is 'TestsFailed' |
| Server.ShownReports | sage_patchbot/server/serve.py:1000-1002 | The reports counted are the ticket's own, and when a machine is given they are all on exactly that machine |
| Server.GetTicketStatus | sage_patchbot/server/serve.py:982-1016 | No report gives count 0 with Spkg, NoPatch or New. Otherwise the count is the number of reports. Agreeing statuses give that status twice. Mixed statuses give min_status and the ','-joined list, and they raise iff one is unknown |
| Server.SingleIsWorst | sage_patchbot/server/serve.py:1003-1009 | The single status is ranked, and it ranks no worse than any status shown |
| Server.CompositeRoundTrip | sage_patchbot/server/serve.py:1004-1008 | Splitting the composite status on ',' gives back the statuses in report order (one status when they all agree) |
| Server.IsGoodMachine | sage_patchbot/server/serve.py:470-488 | A missing ticket 0 raises. When ticket 0 has no reports the machine is good. Otherwise the verdict is the one its reports give (MachineVerdict) |
| Server.MachineVerdict | sage_patchbot/server/serve.py:480-488 | Raises iff some report has an empty machine. True only if a newest report of the machine passed or failed its tests. False only if the machine has no report, or a newest one has another status |
| Server.NewestGood | sage_patchbot/server/serve.py:483-488 | True only if a newest report of the machine passed or failed its tests. False only if the machine has no report, or a newest one has another status |
| Server.ToReport | sage_patchbot/server/serve.py:584-585 | A posted report is accepted iff all five fields (status, spkgs, base, machine, time) are present |
| Server.GoodMachineDecidedByLatest | sage_patchbot/server/serve.py:482-488 | When the machine's newest ticket-0 report is unique, its status alone decides |
| Server.PostReport | sage_patchbot/server/serve.py:569-609 | A report is saved iff all of these hold: it is a dict with the five fields; its machine is not blacklisted; the ticket is 0 or the machine is good; the as-written server prune does not raise; no log is already stored under its log name. A saved ticket's reports are the pruned old ones plus the new report last. `retry` becomes False if present, and nothing else of the ticket changes. The logs the prune removes are named after the ticket's text; the log store afterwards holds exactly the old logs less those, plus the new report's log when saved |
| Server.PostKeepsOnePending | sage_patchbot/server/serve.py:596-597 | After a saved post, the new report is last, and no earlier Pending report of the same machine remains |
| Server.PostTwiceRefused | sage_patchbot/server/serve.py:596-609 | Posting the same finished report a second time saves nothing: its log name is already in the store, so `db.logs.put` raises and the bare `except` swallows it |
| Server.LogName | sage_patchbot/server/serve.py:612-618 | The name starts with '/log/', then 'Pending/' for a Pending report, then the ticket's text, and ends with '/' and the report's time |
| Server.DictNameNotIdName | sage_patchbot/server/serve.py:612-618 | A log name built from a ticket dict's text (starting with '{') never equals one built from a ticket number |
| Server.DeletedNeverStored | sage_patchbot/server/serve.py:596-598 | The as-written prune never removes the log the post is about to store |
| Server.FreshIdempotent | sage_patchbot/server/serve.py:642-651 | Pruning what pruning left changes nothing |
| Server.ServerPrune | sage_patchbot/server/serve.py:621-651 | As written: the reports kept are those of the copy-based prune, and the logs removed are named after the ticket dict's text |
| Server.ServerPruneMissesLogs | sage_patchbot/server/serve.py:647-650 | No log name the written prune removes is the name under which `post_report` stored any report's log |
| Server.ServerPruneFixed | sage_patchbot/server/serve.py:621-651 | Corrected: the reports kept are those of the copy-based prune, and the logs removed are exactly the stored logs of the reports pruned |
| Server.PruneLogsComplete | sage_patchbot/server/serve.py:642-650 | Every pruned report has its log removed, and kept plus removed account for all the reports |
| Server.PruneLogs | sage_patchbot/server/serve.py:642-650 | At most one log name per report, each the stored log name of a stale report |
| Server.ExtractIncluding | sage_patchbot/server/serve.py:727-733 | Once collecting, the loop takes every line up to and including the first end marker, or to the end |
| Server.ExtractLinesIsSection | sage_patchbot/server/serve.py:725-734 | The loop's output equals the reference definition: from the first start marker through the first end marker after it |
| Server.ExtractPluginLog | sage_patchbot/server/serve.py:718-734 | The plugin's log is the concatenated section between its own start and end marker lines |
| Server.ExtractPluginLogRoundTrip | sage_patchbot/server/serve.py:718-734 | Around a plugin's output framed by its two markers, and with no earlier marker, extraction returns the framed part exactly |
| Tools.LogNameSegments | sage_patchbot/server/serve.py:612-618 | A log name is '/log', an optional '/Pending', the ticket, the escaped machine parts and the time, joined by '/' |
| Tools.LogSegmentsEnd | sage_patchbot/server/serve.py:612-618 | A log name ends with the escaped short machine name and then the time |
| Tools.MachineOfLog | sage_patchbot/server/tools.py:115-118 | The machine of a log id is its second-to-last segment other than 'Pending'. IndexError iff fewer than two such segments exist |
| Tools.MachineOfLogName | sage_patchbot/server/tools.py:115-118 | For an id built by `log_name`, the extracted machine is the escaped short machine name |
| Tools.ExtractionMachine | sage_patchbot/server/tools.py:106-118 | Fails iff some id has too few segments. Otherwise the result is strictly sorted (no duplicates) and holds exactly the machines of the ids |
| Tools.TicketsWithManyReports | sage_patchbot/server/tools.py:11-20 | The ids returned are exactly those of tickets with a 'reports' list longer than N |
| Tools.PyTail | sage_patchbot/server/tools.py:35 | Python's `old[-n:]`, including the clamping, and `old[-0:]` being the whole list |
| Tools.Purge | sage_patchbot/server/tools.py:23-35 | As written: AssertionError iff n ≥ N. Tickets with more than N reports keep `old[-n:]`; the others are unchanged |
| Tools.PurgeZeroKeepsAll | sage_patchbot/server/tools.py:31-35 | With n = 0 the written purge changes no ticket |
| Tools.KeepLast | sage_patchbot/server/tools.py:25 | The latest n reports: a suffix of length min(n, len) (none for n ≤ 0) |
| Tools.PurgeKeepLast | sage_patchbot/server/tools.py:23-35 | Corrected: tickets with more than N reports keep exactly their latest n reports |
| Tools.PyTailIsKeepLast | sage_patchbot/server/tools.py:35 | For every positive n the written slice is the latest n reports |
| Tools.PurgeAgreesWhenPositive | sage_patchbot/server/tools.py:31-35 | The written and the corrected purge agree for every positive n |
| Selection.PyHead | sage_patchbot/patchbot.py:117-118 | `a[:k]` is a prefix of length k, clamped, with negative k counting from the end |
| Selection.Diffs | sage_patchbot/patchbot.py:119 | One entry per zipped pair: 1 where the entries differ, 0 where they agree |
| Selection.CompareMachines | sage_patchbot/patchbot.py:102-122 | Both machines are cut to `machine_match`. The result has one 0/1 entry per zipped pair, plus one 1 iff the lengths differ |
| Selection.CompareMachinesSame | sage_patchbot/patchbot.py:116-122 | The result is all zeros iff the truncated machines are equal |
| Selection.ParseAll | sage_patchbot/patchbot.py:279 | The list comprehension raises iff some piece does not parse; otherwise one value per piece, in order |
| Selection.ParseInterval | sage_patchbot/patchbot.py:272-278 | A stripped piece with '-' splits into exactly two numbers, start and end. Without '-' it is one number h with end h+1. Anything else raises ValueError |
| Selection.ParseTimeOfDay | sage_patchbot/patchbot.py:279 | One window per comma-separated piece, each the parse of its piece. It raises iff some piece does not parse |
| Selection.OneWindow | sage_patchbot/patchbot.py:279 | Text without a comma is a single window |
| Selection.ParseRange | sage_patchbot/patchbot.py:273-276 | A stripped "a-b" with two numbers is the window (a, b) |
| Selection.SingleHourWindow | sage_patchbot/patchbot.py:277-278 | An hour "h" alone is the window (h, h+1) |
| Selection.ParsePlainNumber | sage_patchbot/patchbot.py:277-278 | Any stripped number without '-' is the one-hour window it starts |
| Selection.AnyAllows | sage_patchbot/patchbot.py:290-296 | The loop returns True iff some window allows the time |
| Selection.CheckTimeOfDay | sage_patchbot/patchbot.py:282-296 | Raises iff the setting does not parse. Otherwise True iff some window allows the time: start ≤ t ≤ end when start < end, else t ≤ end or t ≥ start |
| Selection.SameEndsAlwaysOpen | sage_patchbot/patchbot.py:291-295 | A window "h-h" is open at every time of day |
| Selection.DefaultWindowAlwaysOpen | sage_patchbot/patchbot.py:262 | The default "0-0" allows every time |
| Selection.LastPiece | sage_patchbot/patchbot.py:642 | `name.split('.')[-1]` has no dot and leaves a dotless name unchanged |
| Selection.PluginNames | sage_patchbot/patchbot.py:638-645 | A name is selected iff one of these holds: it is docbuild and `plugin_only` is off; or some plugins/enabled spelling of it survives the removal of the disabled ones and reduces to it |
| Selection.PluginList | sage_patchbot/patchbot.py:637-647 | The plugins run are exactly the available ones among the selected names |
| Selection.DocbuildIsMandatory | sage_patchbot/patchbot.py:644-645 | Without `plugin_only`, docbuild runs even when it is disabled |
| Selection.DisabledPluginSkipped | sage_patchbot/patchbot.py:638-642 | A plugin other than docbuild does not run when every spelling it was requested under is disabled |
| Selection.ReportUniqueness | sage_patchbot/patchbot.py:923-928 | A report's uniqueness tuple is 0/1 entries. It is all zeros iff the report's base is up to date and the machines match |
| Selection.ScanOne | sage_patchbot/patchbot.py:909-929 | One report step. UnboundLocalError or KeyError in these cases: a report with a git_base but no 'behind' bonus; or a first report without git_base. Otherwise uniqueness becomes the lexicographic min of the old value and the report's tuple |
| Selection.ScanReports | sage_patchbot/patchbot.py:905-929 | Scanning never raises uniqueness and keeps it non-negative. Its score and its final uniqueness are characterised by Selection.ScanScore, Selection.ScanUniquenessBound and Selection.ScanUniquenessAttained |
| Selection.Untestable | sage_patchbot/patchbot.py:831-870 | A ticket that passes every early check has a branch, a known commit and a non-empty list of authors, all trusted |
| Selection.BaseScore | sage_patchbot/patchbot.py:863-893 | With every bonus zero the base score is zero, and with every bonus non-negative it is non-negative |
| Selection.BonusSum | sage_patchbot/patchbot.py:871-880 | A sum of bonuses is zero when each is zero and non-negative when each is |
| Selection.DuplicateMakesZero | sage_patchbot/patchbot.py:927-929 | A current report on our machine with an up-to-date base drives uniqueness to all zeros |
| Selection.CurrentFor | sage_patchbot/patchbot.py:955-966 | With no base configured, `current_reports(newer=True)` raises. A result exists only when `prune_pending` on the ticket succeeded first |
| Selection.PrunedTicket | sage_patchbot/patchbot.py:900 | `prune_pending(ticket)` in `rate_ticket`: it fails exactly when the prune does, changes nothing but the reports, and replaces them with the pruned list |
| Selection.ScanFor | sage_patchbot/patchbot.py:900-937 | The prune always runs. A retried ticket keeps (100,) and its base score, and fails only when the prune fails. Otherwise the result is the report loop over `current_reports(newer=True)` from (100,) and the base score |
| Selection.ScanScore | sage_patchbot/patchbot.py:910-935 | The score the loop adds is the sum, over the reports, of the `behind` bonus times the report's own count (when it has a git_base), the `applies` bonus unless it failed to apply, less the `unique` bonus |
| Selection.ScanUniquenessBound | sage_patchbot/patchbot.py:923-929 | Every report had an `only_in_base` to be scored with, and the final uniqueness is no greater than any report's tuple |
| Selection.ScanUniquenessAttained | sage_patchbot/patchbot.py:905-929 | The final uniqueness is (100,) or the tuple of one of the reports, so with the bound it is their minimum |
| Selection.RatedIsScan | sage_patchbot/patchbot.py:905-953 | The rating of a rated ticket without retry is the loop's final uniqueness and score, and -id |
| Selection.RatedScore | sage_patchbot/patchbot.py:863-935 | A rated ticket without retry scores its base score plus the sum of what each current report adds |
| Selection.RatedUniqueness | sage_patchbot/patchbot.py:905-929 | A rated ticket without retry carries the least tuple among (100,) and its current reports' tuples |
| Selection.RetryRating | sage_patchbot/patchbot.py:900-953 | A retried testable ticket: the prune's error, or no rating under a running skip, or exactly ((100,), base score, -id) |
| Selection.RatedWhenScanned | sage_patchbot/patchbot.py:941-953 | A testable ticket other than 0, not retried, whose scan does not end at all zeros and that is not under a running skip is rated (uniqueness, score, -id), and its entry leaves `to_skip` |
| Selection.ZeroScanNotRated | sage_patchbot/patchbot.py:941-943 | A scan that ends at all zeros gives no rating |
| Selection.DuplicateScanZero | sage_patchbot/patchbot.py:923-929 | A current report from our machine on an up-to-date base makes `rate_ticket`'s scan end at all zeros |
| Selection.DuplicateFromStart | sage_patchbot/patchbot.py:923-929 | Scanning from (100,) a list that holds a report of our machine on an up-to-date base ends at all zeros |
| Selection.RateTicket | sage_patchbot/patchbot.py:809-953 | Ticket 0 gets the int-headed rating. The listed rejections give None. A rating has -id last, a uniqueness at most (100,) that is not all zeros, and a ticket other than 0 that is not under a running skip. Only the ticket's own entry can leave `to_skip`, and only once it has expired. A retried ticket keeps (100,) |
| Selection.AlreadyTestedNotPicked | sage_patchbot/patchbot.py:923-943 | A ticket our machine already tested on the current base is not rated |
| Selection.SmallerIdPreferred | sage_patchbot/patchbot.py:953 | With equal uniqueness and score, the smaller ticket id has the greater rating |
| Selection.RatingLtTransitive | sage_patchbot/patchbot.py:791 | The order on tuple ratings is transitive |
| Selection.RatingLtTotal | sage_patchbot/patchbot.py:791 | Any two different tuple ratings are comparable |
| Selection.RatingLtAsymmetric | sage_patchbot/patchbot.py:791 | No two tuple ratings are each below the other |
| Selection.MaxIndex | sage_patchbot/patchbot.py:791-805 | The last element after sorting: every other rating is smaller |
| Selection.KeepRated | sage_patchbot/patchbot.py:788 | Exactly the pairs whose rating is not None are kept |
| Selection.KeepRatedWellRated | sage_patchbot/patchbot.py:784-788 | With distinct ids and -id in each rating, the kept pairs still have distinct ids and consistent ratings |
| Selection.PickBest | sage_patchbot/patchbot.py:788-807 | None iff nothing is rated. TypeError iff ticket 0's int-headed rating meets another rating. Otherwise a pair of the list whose rating exceeds all others |
| Selection.RateAll | sage_patchbot/patchbot.py:784-785 | One rating per ticket, in order, each tuple rating carrying its own ticket's -id. The skip map only loses entries |
| Selection.RateAllKeepsRunning | sage_patchbot/patchbot.py:784-785 | Rating the tickets one after another keeps every `to_skip` entry that has not expired, unchanged |
| Selection.RateAllHonoursSkips | sage_patchbot/patchbot.py:784-785 | No ticket other than 0 whose skip is still running gets a rating, whatever was rated before it |
| Selection.GetOneTicket | sage_patchbot/patchbot.py:757-807 | The ticket returned is one of the candidates, with its own rating. A ticket other than 0 under a running skip is not returned, and every skip that has not expired stays in the table |
| Selection.SkippedForeverNeverPicked | sage_patchbot/patchbot.py:945-950 | A ticket whose `to_skip` deadline is the infinite default is never returned, and its entry is never deleted |
| Skips.SkipUntil | sage_patchbot/util.py:309-311 | The deadline `time.time() + delay` is infinite iff the delay is the default `float('inf')`. A finite deadline expires exactly when the clock passes now plus the delay; the infinite one never expires |
| Pipeline.StatusesKnownToServer | sage_patchbot/patchbot.py:205-214 | Every status a stage reports is in the server's `status_order`. It is Pending iff the run was interrupted by the network or a skip |
| Pipeline.StatusOf | sage_patchbot/patchbot.py:205-214 | Every status in the table is ranked by the server, and only network_error and skipped map to Pending |
| Pipeline.StatusOfInjective | sage_patchbot/patchbot.py:205-214 | Different stages report different statuses, except network_error and skipped |
| Pipeline.RecordOf | sage_patchbot/patchbot.py:1106-1135 | An exception records (name, False, None) and a plain return records (name, True, None). A PluginResult records (name, status == Passed, data) iff its baseline is not None |
| Pipeline.RecordAll | sage_patchbot/patchbot.py:1106-1137 | At most one record per plugin run |
| Pipeline.RecordedNamesRan | sage_patchbot/patchbot.py:1132-1135 | Every recorded name is that of a plugin that ran |
| Pipeline.PluginsPassedIff | sage_patchbot/patchbot.py:1138-1139 | `plugins_passed` holds iff no plugin raised or returned a Failed result with a baseline |
| Pipeline.PassedAppend | sage_patchbot/patchbot.py:1138-1139 | `all` over two record lists is the conjunction of both |
| Pipeline.UnrecordedFailureIgnored | sage_patchbot/patchbot.py:1123-1135 | A Failed result without baseline leaves no record and does not fail the run |
| Pipeline.TestTicket | sage_patchbot/patchbot.py:1052-1195 | The reported status is always ranked by the server. Completion and a skip deadline exclude each other. `plugin_only` and full runs end in their own stages. A ticket with spkgs never builds. The plugin stages agree with `plugins_passed`, and the records are all or none |
| Pipeline.PluginsAndTests | sage_patchbot/patchbot.py:1138-1169 | After the build, a `plugin_only` run ends in a plugin stage and a full run in a test stage. The stage agrees with whether every plugin passed. An interrupted step leaves the ticket built with a skip deadline. Every plugin is recorded |
| Pipeline.ApplyFailureReported | sage_patchbot/patchbot.py:1055-1058 | A failing pull reports ApplyFailed |
| Pipeline.BuildFailureReported | sage_patchbot/patchbot.py:1079-1087 | A failing build reports BuildFailed |
| Pipeline.TestFailureReported | sage_patchbot/patchbot.py:1162-1166 | Failing doctests report TestsFailed |
| Pipeline.TestsPassedReported | sage_patchbot/patchbot.py:1148-1169 | Passing doctests report TestsPassed if every plugin passed, PluginFailed otherwise |
| Pipeline.PluginOnlyReported | sage_patchbot/patchbot.py:1148-1149 | Under `plugin_only` the run reports PluginOnly or PluginOnlyFailed, by the plugins alone |
| Pipeline.SpkgReported | sage_patchbot/patchbot.py:1066-1077 | A ticket with spkgs reports Spkg once applied and is skipped for twelve hours |
| Pipeline.InterruptionReportsPending | sage_patchbot/patchbot.py:1052-1185 | The run reports Pending iff its first failing step, whichever it is, fails with a network problem or a SkipTicket |
| Pipeline.FirstStop | sage_patchbot/patchbot.py:1052-1169 | The first failing step in the order `test_a_ticket` takes them, skipping the Pending reports under `plugin_only`, `git format-patch` for ticket 0 and the tests under `plugin_only`, and stopping after the applied report for a ticket with spkgs. Done means every step up to the tests ran |
| Pipeline.DeadlineOfFirstStop | sage_patchbot/patchbot.py:1066-1185 | The `to_skip` deadline a run sets is an hour after a network problem, the SkipTicket's own delay, or half a day after any other exception or for a ticket with spkgs. A run that finishes sets none |
| Pipeline.PullOutcome | sage_patchbot/patchbot.py:1171-1185 | The pull's exception goes to the network clause if it is one of the network exceptions, to the SkipTicket clause if it is the SkipTicket `pull_from_trac` raises, whose delay is the default infinity, and otherwise to the last clause |
| Pipeline.UnsafeSkippedForever | sage_patchbot/trac.py:327-330 | An unsafe ticket under `safe_only` reports Pending and gets an infinite `to_skip` deadline, which no later time passes |
| Pipeline.FormatPatchFailureReportsTestsFailed | sage_patchbot/patchbot.py:1094-1095 | A failing `git format-patch` after a good build reports TestsFailed |
| Plugins.MakeResult | sage_patchbot/plugins.py:68-72 | AssertionError iff the status is neither 'Passed' nor 'Failed'. Otherwise the data is kept, and the baseline is the given one when it is truthy, else the data |
| Plugins.NoBaselineIffNothingGiven | sage_patchbot/plugins.py:72 | The baseline is None iff neither a truthy baseline nor any data was given |
| Plugins.BadLines | sage_patchbot/plugins.py:433-441 | The count of flagged lines never exceeds the number of lines |
| Plugins.CountFrom | sage_patchbot/plugins.py:422-442 | The loop either counts the flagged lines or fails with UnboundLocalError |
| Plugins.CountFromFails | sage_patchbot/plugins.py:433-439 | The loop fails iff a flagged line comes before any '+++' or '@@ ' header, whose variables it prints |
| Plugins.ExcludeNewInDiff | sage_patchbot/plugins.py:403-442 | The result is the number of flagged added lines, at most the number of lines. UnboundLocalError iff a flagged line precedes its headers |
| Plugins.HeadersNeverCount | sage_patchbot/plugins.py:424-432 | Lines starting '---', '+++' or '@@ ', and a bare '+', are never counted, whatever the regex |
| Plugins.WellFormedDiffCounts | sage_patchbot/plugins.py:422-442 | A diff whose flagged lines all follow a file header and a hunk header is counted in full |
| Plugins.SumOverRegexes | sage_patchbot/plugins.py:393-395 | The sum raises iff some regex's count raises. It is 0 iff each regex counts 0, and positive iff some regex counts a positive number |
| Plugins.ExcludeNew | sage_patchbot/plugins.py:367-400 | Passes iff every regex counts 0 lines. ValueError iff every count succeeds and one is positive |
| Plugins.SumOverFiles | sage_patchbot/plugins.py:220-229 | The total over the files the condition admits is 0 iff each such file's sum is 0 |
| Plugins.ExcludeNewFileByFile | sage_patchbot/plugins.py:195-235 | Passes iff every regex counts 0 lines in the diff of every admitted file |
| Plugins.SkippedFilesDoNotMatter | sage_patchbot/plugins.py:221-227 | When the condition admits no file, the check passes whatever the diffs hold |
| Plugins.LastExtension | sage_patchbot/plugins.py:463 | `split(os.path.extsep)[-1]` holds no dot |
| Plugins.LastExtensionOf | sage_patchbot/plugins.py:463 | The last extension of 'stem.ext' is ext |
| Plugins.FileConditionsByExtension | sage_patchbot/plugins.py:462-482 | python3_py looks at .py and .rst files, python3_pyx at .pyx files |
| Plugins.FileConditionsPartition | sage_patchbot/plugins.py:517-518 | python3's condition holds exactly for the files one of the other two conditions admits, and those two never overlap |
| Plugins.StartupModules | sage_patchbot/plugins.py:669-710 | The baseline is the module list. No baseline gives Passed with empty data. Otherwise `new` and `removed` are the sorted differences both ways, and the result is Failed iff `new` is non-empty |
| Plugins.StartupAgainstOwnBaseline | sage_patchbot/plugins.py:688-710 | Against the list it pickled itself, a run passes with no change |
| Plugins.CoverageTable | sage_patchbot/plugins.py:120-149 | The totals are the sums of docs and funcs over all recognised lines |
| Plugins.CoverageTableKeys | sage_patchbot/plugins.py:120-126 | The table has an entry for exactly the modules some line names |
| Plugins.CoverageTableEntry | sage_patchbot/plugins.py:126 | The last line naming a module sets its entry |
| Plugins.AnyRegressed | sage_patchbot/plugins.py:129-143 | The status turns Failed iff some line regresses against the baseline |
| Plugins.ChangedEntries | sage_patchbot/plugins.py:157-161 | The data is exactly the current entries the baseline does not hold with the same counts |
| Plugins.CoverageCheck | sage_patchbot/plugins.py:93-169 | The baseline stored is the new table. Failed iff there is a baseline and a module regressed: not fully documented with no baseline functions, or more undocumented than before. The data is None without a baseline, else the changed entries |
| Plugins.CoverageAgainstOwnBaseline | sage_patchbot/plugins.py:120-169 | Against the table it pickled itself, a run passes with no changed entries |
| Plugins.HasDiffLine | sage_patchbot/plugins.py:658-664 | A patch is valid iff some line starts with 'diff ' |
| Plugins.CommitMessages | sage_patchbot/plugins.py:648-666 | Passes iff every patch has a 'diff ' line; otherwise ValueError |
| Plugins.LazyGroups | sage_patchbot/plugins.py:316-329 | Each group emitted starts with 'lazy_import' and ends with ')', and there are no more groups than lines |
| Plugins.FindLazyImports | sage_patchbot/plugins.py:302-329 | The statements handed on each start with 'lazy_import' and end with ')' |
| Plugins.NoImportNoGroups | sage_patchbot/plugins.py:319-329 | Without a 'lazy_import' line, nothing is emitted |
| Plugins.MultiLineImport | sage_patchbot/plugins.py:317-329 | An import spread over lines is emitted once, joined, at its closing line |
| Plugins.FirstLineOpens | sage_patchbot/plugins.py:319-321 | A 'lazy_import' line that does not close starts the open group |
| Plugins.MiddleLines | sage_patchbot/plugins.py:324-329 | Lines after an open group are appended to it until one ends with ')' |
| Trac.TagNameOfPlain | sage_patchbot/trac.py:207-210 | For a tag '<name>' whose name has no space, the end tag repeats the name |
| Trac.TagName | sage_patchbot/trac.py:207-209 | The name the end tag repeats holds no space |
| Trac.ExtractTagAt | sage_patchbot/trac.py:211-217 | When the start tag opens the text and its end tag is the first one, the stripped content between them is returned |
| Trac.ExtractTagShape | sage_patchbot/trac.py:199-217 | A missing start tag gives None, and any text returned is already stripped |
| Trac.ExtractTag | sage_patchbot/trac.py:199-217 | Text comes back only when the text contains both the tag and its end tag, and it has no surrounding whitespace |
| Trac.ExtractTagRoundTrip | sage_patchbot/trac.py:199-217 | '<name>' + content + '</name>' gives content back when content holds no '<' and is stripped |
| Trac.CreatorsMembers | sage_patchbot/trac.py:228-233 | A name is collected iff it is non-empty and some chunk yields it |
| Trac.Creators | sage_patchbot/trac.py:228-233 | The collected names never include the empty one |
| Trac.ExtractParticipants | sage_patchbot/trac.py:220-233 | The participants never include the empty name |
| Trac.DependsOnLayout | sage_patchbot/trac.py:236-243 | The list is every '#N' number in order, with the leftmost version match in front when there is one |
| Trac.ExtractDependsOn | sage_patchbot/trac.py:236-243 | One entry per '#N' number, plus one for the version match when there is one. Every entry after the first is a ticket |
| Trac.HashNumbers | sage_patchbot/trac.py:238-239 | At most one number per two characters of text, since each needs a '#' and a digit |
| Trac.VersionSearch | sage_patchbot/trac.py:240 | A version match always starts with 'sage-' |
| Trac.TicketDeps | sage_patchbot/trac.py:239 | One ticket dependency per number, in order |
| Trac.NoVersionWithoutS | sage_patchbot/trac.py:240 | Text without an 's' has no version match |
| Trac.TwoDigitMinorCut | sage_patchbot/trac.py:240 | The regex `(\.\d)+` takes one digit per dot: in 'sage-9.10' it matches only 'sage-9.1' |
| Trac.HashNumbersOfField | sage_patchbot/trac.py:238-239 | The ticket numbers of a field "#a, #b, ..." are read back in order |
| Trac.DependsOnOfTicketList | sage_patchbot/trac.py:236-243 | A field that lists only tickets gives exactly those tickets, in order |
| Trac.AllSafe | sage_patchbot/trac.py:255-278 | True iff every non-empty path begins with one of the safe directories, ends with a safe extension, or is one of the four listed files |
| Trac.InplaceSafe | sage_patchbot/trac.py:246-278 | Safe iff every non-empty line of the diff's file list is a safe path |
| Trac.EmptyDiffIsSafe | sage_patchbot/trac.py:255-258 | An empty diff is safe |
| Trac.AllSafeAppend | sage_patchbot/trac.py:255-278 | The verdict does not depend on how the list of paths is cut in two |
| Trac.TryBlock | sage_patchbot/trac.py:304-345 | Whenever the try block raises, `is_safe` is still False. The exception raised is SkipTicket or the failure of one of the steps. A temporary directory exists only outside safe-only mode, and it is named from the prefix and the ticket |
| Trac.Handle | sage_patchbot/trac.py:346-357 | An exception always leaves `pull_from_trac`. A merge failure or an unsafe run re-raises the exception itself. An unsafe run without `safe_only` removes its clone and restores SAGE_ROOT; otherwise the clone and SAGE_ROOT are left as they were |
| Trac.PullFromTrac | sage_patchbot/trac.py:281-357 | After an exception, no temporary clone is left. The exception is either one a step raised or SkipTicket. A clone is named with the suffix and the id, and only then does SAGE_ROOT point to it (never with `safe_only`) |
| Trac.MessageBranchUnreachable | sage_patchbot/trac.py:354-357 | Every exception is re-raised unchanged, so the `exn.message` branch is never reached |
| Trac.TicketZeroStaysInPlace | sage_patchbot/trac.py:309-312 | Ticket 0 only resets its branches, clones nothing and leaves SAGE_ROOT alone |
| Trac.UnsafeSkippedWhenSafeOnly | sage_patchbot/trac.py:327-330 | An unsafe diff under `safe_only` raises SkipTicket |
| Trac.UnsafeCloned | sage_patchbot/trac.py:327-355 | An unsafe diff without `safe_only` clones into the temporary directory and sets SAGE_ROOT to it. A failing clone removes it, restores SAGE_ROOT and re-raises |
| Trac.MergeFailureReraised | sage_patchbot/trac.py:320-325 | A failed merge re-raises its own exception, or the abort's |
| Trac.FirstWord | sage_patchbot/trac.py:193 | `split()[0]` is a non-empty run of non-whitespace, or IndexError on blank text |
| Trac.GitCommit | sage_patchbot/trac.py:189-196 | A blank branch gives 'unknown'; any other answer is the first word of `ls-remote`'s output |
| Trac.BranchAuthors | sage_patchbot/trac.py:89-92 | At most one author, and none unless the branch starts with 'u/' |
| Trac.UserBranchAuthor | sage_patchbot/trac.py:91-92 | A branch 'u/name/topic' credits the trimmed name |
| Trac.NamesOfMembers | sage_patchbot/trac.py:95-100 | A full name is listed iff it is a non-empty trimmed comma-separated piece |
| Trac.NamesOf | sage_patchbot/trac.py:95-100 | The set of full names never holds the empty name |
| Trac.FullnamesRoundTrip | sage_patchbot/trac.py:95-100 | Names written as a comma-separated list are read back as a set |
| Trac.TicketInfoOf | sage_patchbot/trac.py:62-121 | Ticket 0 gets the fixed base record. Otherwise: spkgs iff 'packages' is in the component; a repository iff the branch is not blank; full names without the empty one; the commit of the branch; the dependencies parsed from the field |
| Multipart.IdGenerator | sage_patchbot/http_post_file.py:13-17 | `size` characters, each drawn from A–Z0–9 |
| Multipart.BoundaryPlain | sage_patchbot/http_post_file.py:13-17 | A generated boundary holds no '-', CR or LF |
| Multipart.ContentTypeOf | sage_patchbot/http_post_file.py:86-87 | The guessed MIME type when there is a non-empty guess, otherwise a non-empty default |
| Multipart.AllFieldLines | sage_patchbot/http_post_file.py:67-71 | Four lines per field |
| Multipart.AllFileLines | sage_patchbot/http_post_file.py:72-78 | Five lines per file |
| Multipart.BodyLines | sage_patchbot/http_post_file.py:64-80 | 4 lines per field plus 5 per file, then the closing delimiter and an empty line |
| Multipart.EncodeMultipart | sage_patchbot/http_post_file.py:44-83 | The content type is "multipart/form-data; boundary=B", and the body ends with "--B--" CRLF |
| Multipart.EmptyForm | sage_patchbot/http_post_file.py:54-57 | With no fields and no files the body is exactly "--B--" CRLF |
| Multipart.FieldAt | sage_patchbot/http_post_file.py:67-71 | Field i is the lines 4i to 4i+3: delimiter, disposition with its name, empty line, value |
| Multipart.FileAt | sage_patchbot/http_post_file.py:72-78 | File j is five lines: delimiter, disposition with name and filename, content type, empty line, bytes |
| Multipart.BodyLayout | sage_patchbot/http_post_file.py:64-81 | All fields come first, in order, then all files, in order |
| Multipart.DelimiterPerPart | sage_patchbot/http_post_file.py:67-81 | Every part opens with its own "--B" line |
| LegacyTrac.PatchUrl | src/trac.py:27-31 | The URL starts with the server, the attachment kind and '/ticket/', and ends with '/' + patch |
| LegacyTrac.RawUrlOfAttachmentUrl | src/trac.py:27-31 | The raw URL is the attachment URL with 'raw-' inserted after the server prefix |
| LegacyTrac.StatusOfPageWithoutTag | src/trac.py:130-132 | A page without the status tag has status 'unknown' |
| LegacyTrac.ExtractTag | src/trac.py:98-116 | The Python 2 `extract_tag` finds text exactly when the current one does, only when both tags occur, and trims it of Python 2 whitespace |
| LegacyTrac.ExtractTagAgrees | src/trac.py:98-116 | On a page without the separators \x1c to \x1f it extracts exactly what the current `extract_tag` does |
| LegacyTrac.ExtractStatus | src/trac.py:126-135 | A page without the status tag gives 'unknown'; the status returned never starts or ends with Python 2 whitespace |
| LegacyTrac.CleanStatus | src/trac.py:133-135 | The cleaned status is drawn from the characters of the tag's text and never starts or ends with Python 2 whitespace |
| LegacyTrac.CleanDefect | src/trac.py:133-135 | '(w defect)' is cleaned to w, for a trimmed w without parentheses, 'defect' or 'enhancement' |
| LegacyTrac.CleanEnhancement | src/trac.py:133-135 | '(w enhancement)' is cleaned to w, for the same words w |
| LegacyTrac.ExtractStatusOfDefect | src/trac.py:126-135 | A page whose status tag holds '(w defect)' has status w |
| LegacyTrac.RemoveAll | src/trac.py:134 | `replace(word, '')` never lengthens the text, shortens it by at least the word when the text contains it, and only keeps characters the text had |
| LegacyTrac.RemoveAllFirst | src/trac.py:134 | When no occurrence starts before the word in u + word + v, `replace` keeps u, drops the word and carries on with v |
| LegacyTrac.StripWrapped | src/trac.py:133 | `strip('()')` removes the wrapping parentheses of a word without any |
| LegacyTrac.RemoveAllAbsent | src/trac.py:134 | Replacing a word the text does not contain changes nothing |
| LegacyTrac.CleanParenthesised | src/trac.py:133-135 | A parenthesised stripped word without 'defect' or 'enhancement' is read back as the word |
| LegacyTrac.LeastNonNeg | src/trac.py:242 | Reference: the least non-negative element, None iff there is none |
| LegacyTrac.MinNonNeg | src/trac.py:241-248 | IndexError iff there are no arguments. Otherwise the least non-negative argument when there is one, else the first argument |
| LegacyTrac.EnsureSafeName | src/trac.py:263-271 | Accepted iff every character is in [-+A-Za-z0-9._] (the empty name too); ValueError otherwise |
| LegacyTrac.EnsureSafeAll | src/trac.py:272-274 | A collection is accepted iff each of its names is |
| LegacyTrac.SafeNameHasNoSpace | src/trac.py:263-267 | An accepted name holds no space, ';' or '/' |
| LegacyTrac.MatchedPrefix | src/trac.py:330-341 | The queued entries before k are non-empty and have the wanted digests. The entry at k is empty or mismatched, unless a list ended |
| LegacyTrac.MatchedPrefixIsLongest | src/trac.py:332-341 | Every prefix that matches is no longer than the one found |
| LegacyTrac.PushPlan | src/trac.py:330-341 | Pop back to '-a' or the last good patch, and push the desired series after the matched prefix |
| LegacyTrac.OldsBlocks | src/trac.py:353-355 | The suffix added after k renames is k blocks of '-old', one after another |
| LegacyTrac.RenameTarget | src/trac.py:353-355 | The loop ends with a name not in the series: the patch plus k ≥ 1 times '-old', all shorter forms being in the series |
| LegacyTrac.HandleDuplicate | src/trac.py:349-356 | A new patch needs no rename. A duplicate raises without `force`, and with it gets a fresh '-old' name |
| LegacyTrac.PatchEntries | src/trac.py:322-324 | Succeeds iff every entry splits on '#' into exactly two pieces; then each entry is its file and hash, in order. ValueError otherwise |
| LegacyTrac.Visit | src/trac.py:298-324 | The walk only extends: tickets seen and patches wanted grow. A new ticket is recorded at its place. No ticket is seen twice |
| LegacyTrac.VisitDeps | src/trac.py:313-319 | Walking the dependencies only extends the walk and sees no ticket twice |
| LegacyTrac.DesiredSeries | src/trac.py:296-325 | The walk starts at the ticket itself and visits each ticket once |
| LegacyTrac.MergedDependencySkipped | src/trac.py:304-310 | A closed dependency merged at or below the base adds no patches |
| LegacyTrac.TestedTicketNotSkipped | src/trac.py:304-312 | The ticket under test is never skipped as merged: it is visited as a dependency that is not merged would be, and with spkgs it raises NotImplementedError |
| LegacyTrac.NewerVersionRejected | src/trac.py:315-317 | A dependency on a version newer than the base raises ValueError |
| LegacyTrac.OwnPatchesLast | src/trac.py:320-324 | A visited ticket's own patches come last, after its dependencies' |
| LegacyTrac.SeenTicketIgnored | src/trac.py:299-300 | A ticket already seen is not walked again |
| LegacyTrac.PullPlan | src/trac.py:296-341 | A plan exists iff the walk succeeds and the queued series and every desired patch pass `ensure_safe`. The plan is then the push plan of the queued series against the desired one. A failed walk gives its own error, and a failed safety check gives ValueError |

## Left out

- Shell commands, git, make, hg, trac XML-RPC, HTTP, MongoDB/GridFS and the file system are not modelled. Their results are parameters: step outcomes, `ls-remote` output, diffs, page maps, digest functions and `rev-list` counts.
- The clock and date parsing are a `Clock` parameter (a parse function and `now`). `now_str` is a string parameter. Each run reads the clock once.
- Random numbers are the list of picks `IdGenerator` receives. The MIME type guess is a function parameter.
- Concurrency, signals (the `Tee` timeout) and logging output are not modelled.
- Floating point: time-of-day hours are whole hours (`float("1.5")` is not accepted), and the time compared is minutes past midnight. The statistics of `startup_time` and the coverage percentages are not modelled.
- Plugins.ExcludeNewInDiff: each regex is an opaque predicate on the text after the '+'; the regex engine itself is not modelled.
- Trac.VersionSearch: `\w` is taken as ASCII letters, digits and '_'.
- Plugins.CoverageCheck: the data is the set of changed entries, not the list `sorted` makes of it.
- Plugins.StartupModules: the modules come from the printed output as a parameter; the `sys.modules` scan is not modelled.
- Plugins.FindLazyImports: `process_one_lazy_import` (JSON decoding of the statement) is not modelled. The model ends with the joined statements.
- Selection.GetOneTicket: requires distinct ticket ids. Sorting two pairs with equal ratings would compare the ticket dicts, which Python 3 refuses; that case is not modelled.
- Selection.PluginList: the list of available plugins is a parameter; `locate_plugin` is not modelled.
- Server.IsGoodMachine: when several newest reports of the machine share a time, the contract says that one of them decides, not which one the stable sort leaves last.
- Markers.Boundary: a kind other than the four the source knows is not representable. The source would fail with an unbound variable, and no caller passes one.
- Pipeline.TestTicket: these parts of `test_a_ticket` are not modelled: the five-fold retry of the final report, the removal of the temporary SAGE_ROOT, the banner and environment setup, `check_spkg`, and the uncaught-`BaseException` clause.
- Pipeline.TestTicket: the first Pending report (sage_patchbot/patchbot.py:1042-1043) is sent before the `try` block. If it raises, the exception leaves `test_a_ticket` with no `to_skip` entry and no final report; the model starts after that report.
- Pipeline.TestTicket: the `os.mkdir` and `pickle.dump` that save a plugin's baseline in the `finally` clause (sage_patchbot/patchbot.py:1123-1129) are taken to succeed. If one raised, the records would stop at that plugin and the run would end as a network error (an `OSError`) or stay at the built stage, so the contract that the records are all or none does not cover that case.
- Multipart.EncodeMultipart: the UTF-8 encoding `by` applies is the identity here, because text and bytes are both character sequences. A dict of fields is given as its item sequence.
- LegacyTrac.PullPlan: the read of each queued patch file (and its IOError) is a digest function parameter. The hg `qpush`/`qpop`/`qimport` commands, with their retry, are not modelled.
- LegacyTrac.VisitDeps: every string dependency is compared with the base as a version. `extract_depends_on` only yields strings that match `sage-\d+(\.\d)+`, so each has a '.', and the walk never sees any other string. The model does not state that restriction on its input.
- Reports.PruneInPlaceIsRef: stated for lists without repeated reports. `list.remove` removes the first equal report, which for a repeated report can be an earlier copy than the one the loop is looking at.
- Trac.TicketInfoOf: `last_activity` and `last_trac_activity` are clock values and are not modelled. `page_hash` of the base record is not modelled either.
- Version.Comparable: its own contract states only that the list is non-empty. Its shape is stated by Version.ComparableEndsWithZ, Version.TagNat and Version.TagWord.
- Pipeline.RecordAll: its own contract bounds the number of records only. Their contents are stated by Pipeline.RecordOf, Pipeline.RecordedNamesRan and Pipeline.PluginsPassedIff.
- Trac.VersionSearch: its own contract states only the 'sage-' prefix. The layout of the field is stated by Trac.DependsOnLayout.
- Trac.Creators: its own contract only excludes the empty name. Membership is stated by Trac.CreatorsMembers.
- Trac.NamesOf: its own contract only excludes the empty name. Membership is stated by Trac.NamesOfMembers.
- Trac.TagName: its own contract only excludes spaces. The plain case is stated by Trac.TagNameOfPlain.
- Trac.ExtractParticipants: its own contract only excludes the empty name. Membership is stated by Trac.CreatorsMembers for any extraction function, including `extract_tag` on '<dc:creator>'.
- Trac.DependsOnLayout: the regex search is modelled as the leftmost greedy match. Backtracking into a shorter `(\.\w+)?` never changes the leftmost match, and this is not proved.
- Whitespace and digits are ASCII only: `strip`, `split` and `\d` in Python 3 also accept other Unicode spaces and digits, and the model does not. The Python 2 client in src/ works on byte strings, where `strip()` and `int()` skip only space, \t, \n, \v, \f and \r; the model uses that set (`Strings.Py2Space`) there.
- Server.PostReport: the ticket's text used in log names is a parameter that stays fixed during the prune. In the source, `str(ticket)` changes as reports are removed, but it always starts with '{', which is all Server.DictNameNotIdName uses. The log's content and a failure of `save_ticket` are not modelled.
- Trac.ExtractDependsOn: its own contract does not say that the version match comes first. Trac.DependsOnLayout states the layout.
- `extract_patches`, `extract_title`, `scrape`, `shorten`, the HTML and SVG rendering, `get_query` and the database layer are not modelled. They are regex heuristics, templating or storage.

## Findings

| source | as written | input that shows it | evidently intended | confidence | as-written member | corrected member |
|---|---|---|---|---|---|---|
| sage_patchbot/server/serve.py:647 | The server's `prune_pending` calls `log_name(ticket, report)` with the ticket dict, so the removed log is named after the dict's text | A Pending report of machine M on ticket 123, stored under '/log/Pending/123/…'. Posting M's next report removes '/log/Pending/{…}/…' instead | Remove the log stored under `log_name(ticket['id'], report)` | not executed | Server.ServerPruneMissesLogs | Server.ServerPruneFixed |
| sage_patchbot/server/tools.py:35 | `old[-n:]` with n = 0 is the whole list | `purge_tickets_with_many_reports(5, 0)` with a ticket of 6 reports keeps all 6 | Keep only the latest n reports: none for n = 0 | not executed | Tools.PurgeZeroKeepsAll | Tools.PurgeKeepLast |

=== FILE: legacy_trac.dfy ===
/** The Mercurial-era trac client (src/trac.py): patch URLs, the status cleanup, the
    `min_non_neg` helper, the patch-name safety check, and the parts of `pull_from_trac`
    that decide what to push: the dependency walk, the reuse of the longest matching
    prefix of the queued series, and the renaming of duplicate patches. Page scraping,
    hashing and the hg commands are parameters or left out. */
module LegacyTrac {
  import opened Wrappers
  import opened Strings
  import opened Reports
  import opened Version
  import opened Seqs
  import Trac

  const TracUrl: string := "http://trac.sagemath.org/sage_trac"

  // ---- get_patch_url ----

  function AttachmentKind(raw: bool): string {
    if raw then "/raw-attachment" else "/attachment"
  }

  /** `get_patch_url(ticket, patch, raw)`. */
  function PatchUrl(ticket: int, patch: string, raw: bool): (r: string)
    ensures StartsWith(r, TracUrl + AttachmentKind(raw) + "/ticket/")
    ensures EndsWith(r, "/" + patch)
  {
    var front := TracUrl + AttachmentKind(raw) + "/ticket/";
    UrlAffixes(front, IntToString(ticket), patch);
    front + (IntToString(ticket) + "/" + patch)
  }

  lemma UrlAffixes(front: string, num: string, patch: string)
    ensures StartsWith(front + (num + "/" + patch), front)
    ensures EndsWith(front + (num + "/" + patch), "/" + patch)
  {
    var r := front + (num + "/" + patch);
    assert r[..|front|] == front;
    assert r[|r| - |"/" + patch|..] == "/" + patch;
  }

  lemma RawInsert(u: string, x: string)
    ensures u + "/raw-attachment" + x == u + "/raw-" + (u + "/attachment" + x)[|u| + 1..]
  {
    assert (u + "/attachment" + x)[|u| + 1..] == "attachment" + x;
    assert "/raw-attachment" == "/raw-" + "attachment";
  }

  /** The raw URL is the attachment URL with 'raw-' inserted after the server prefix. */
  lemma RawUrlOfAttachmentUrl(ticket: int, patch: string)
    ensures PatchUrl(ticket, patch, true) ==
      TracUrl + "/raw-" + PatchUrl(ticket, patch, false)[|TracUrl| + 1..]
  {
    PatchUrlParts(ticket, patch, true);
    PatchUrlParts(ticket, patch, false);
    RawInsert(TracUrl, "/ticket/" + IntToString(ticket) + "/" + patch);
  }

  /** The URL as the server prefix, the kind of link and the attachment's path. */
  lemma PatchUrlParts(ticket: int, patch: string, raw: bool)
    ensures PatchUrl(ticket, patch, raw) ==
      TracUrl + AttachmentKind(raw) + ("/ticket/" + IntToString(ticket) + "/" + patch)
  {
    var front := TracUrl + AttachmentKind(raw);
    ConcatAssoc(front, "/ticket/", IntToString(ticket) + "/" + patch);
    ConcatAssoc("/ticket/", IntToString(ticket), "/" + patch);
    ConcatAssoc("/ticket/" + IntToString(ticket), "/", patch);
    ConcatAssoc(IntToString(ticket), "/", patch);
  }

  // ---- extract_status ----

  /** Python's `s.replace(pat, '')`: one left-to-right pass removing non-overlapping
      occurrences. */
  function RemoveAll(s: string, pat: string): (r: string)
    requires |pat| > 0
    ensures |r| <= |s|
    ensures Contains(s, pat) ==> |r| <= |s| - |pat|
    ensures forall i :: 0 <= i < |r| ==> r[i] in s
    decreases |s|
  {
    if |s| == 0 then ""
    else if OccursAt(s, pat, 0) then RemoveAll(s[|pat|..], pat)
    else
      ContainsPastHead(s, pat);
      [s[0]] + RemoveAll(s[1..], pat)
  }

  /** An occurrence that is not at the head is an occurrence in the tail. */
  lemma ContainsPastHead(s: string, pat: string)
    requires |s| > 0
    ensures Contains(s, pat) && !OccursAt(s, pat, 0) ==> Contains(s[1..], pat)
  {
    if Contains(s, pat) && !OccursAt(s, pat, 0) {
      var i: nat :| i <= |s| && OccursAt(s, pat, i);
      assert s[1..][i - 1..i - 1 + |pat|] == s[i..i + |pat|];
      assert OccursAt(s[1..], pat, i - 1);
    }
  }

  lemma OccursInTail(s: string, pat: string, i: nat)
    requires |s| > 0
    ensures OccursAt(s[1..], pat, i) ==> OccursAt(s, pat, i + 1)
  {
    if i + |pat| <= |s[1..]| {
      assert s[1..][i..i + |pat|] == s[i + 1..i + 1 + |pat|];
    }
  }

  lemma ContainsInTail(s: string, pat: string)
    requires |s| > 0 && !Contains(s, pat)
    ensures !Contains(s[1..], pat)
  {
    forall i: nat | i <= |s[1..]|
      ensures !OccursAt(s[1..], pat, i)
    {
      OccursInTail(s, pat, i);
    }
  }

  /** Removing a pattern the text does not contain changes nothing. */
  lemma {:induction false} RemoveAllAbsent(s: string, pat: string)
    requires |pat| > 0 && !Contains(s, pat)
    ensures RemoveAll(s, pat) == s
    decreases |s|
  {
    if |s| > 0 {
      assert !OccursAt(s, pat, 0);
      ContainsInTail(s, pat);
      RemoveAllAbsent(s[1..], pat);
    }
  }

  /** The first occurrence goes, what precedes it stays, and the pass carries on after it:
      when no occurrence starts inside `u`, `(u + pat + v).replace(pat, '')` is `u`
      followed by `v.replace(pat, '')`. */
  lemma {:induction false} RemoveAllFirst(u: string, pat: string, v: string)
    requires |pat| > 0 && !Contains(u + pat[..|pat| - 1], pat)
    ensures RemoveAll(u + pat + v, pat) == u + RemoveAll(v, pat)
    decreases |u|
  {
    if |u| == 0 {
      assert u + pat + v == pat + v;
      RemoveAllAt(pat, v);
    } else {
      RemoveAllPastHead(u, pat, v);
      RemoveAllFirst(u[1..], pat, v);
      ConsTail(u, RemoveAll(v, pat));
    }
  }

  lemma RemoveAllAt(pat: string, v: string)
    requires |pat| > 0
    ensures RemoveAll(pat + v, pat) == RemoveAll(v, pat)
  {
    var s := pat + v;
    assert s[..|pat|] == pat && s[|pat|..] == v;
  }

  /** One step of `RemoveAllFirst`: the head of `u` is kept and the pass moves on. */
  lemma RemoveAllPastHead(u: string, pat: string, v: string)
    requires |pat| > 0 && |u| > 0 && !Contains(u + pat[..|pat| - 1], pat)
    ensures !Contains(u[1..] + pat[..|pat| - 1], pat)
    ensures RemoveAll(u + pat + v, pat) == [u[0]] + RemoveAll(u[1..] + pat + v, pat)
  {
    var s := u + pat + v;
    var h := u + pat[..|pat| - 1];
    assert s[0..|pat|] == h[0..|pat|];
    assert !OccursAt(h, pat, 0);
    assert s[1..] == u[1..] + pat + v;
    assert h[1..] == u[1..] + pat[..|pat| - 1];
    ContainsInTail(h, pat);
  }

  /** A pattern cannot occur across a character it does not contain. */
  lemma NoCrossing(u: string, c: char, t: string, pat: string)
    requires c !in pat && !Contains(u, pat) && !Contains(t, pat)
    ensures !Contains(u + [c] + t, pat)
  {
    var s := u + [c] + t;
    forall i: nat | i <= |s|
      ensures !OccursAt(s, pat, i)
    {
      if i + |pat| <= |s| {
        var window := s[i..i + |pat|];
        if i + |pat| <= |u| {
          assert window == u[i..i + |pat|];
          assert !OccursAt(u, pat, i);
        } else if i > |u| {
          assert window == t[i - |u| - 1..i - |u| - 1 + |pat|];
          assert !OccursAt(t, pat, i - |u| - 1);
        } else {
          assert window[|u| - i] == c;
        }
      }
    }
  }

  /** A text without the first character of the pattern does not contain it. */
  lemma NoFirstChar(s: string, pat: string)
    requires |pat| > 0 && pat[0] !in s
    ensures !Contains(s, pat)
  {
    forall i: nat | i <= |s| && i + |pat| <= |s|
      ensures !OccursAt(s, pat, i)
    {
      assert s[i..i + |pat|][0] == s[i];
    }
  }

  const StatusTag: string := "<span class=\"status\">"

  /** `extract_tag(sgml, tag)` of this client: as the current client's, except that the
      text is trimmed of Python 2's whitespace only. */
  function ExtractTag(sgml: string, tag: string): (r: Option<string>)
    ensures r.Some? <==> Trac.ExtractTag(sgml, tag).Some?
    ensures r.Some? ==> Contains(sgml, tag) && Contains(sgml, Trac.EndTag(tag))
    ensures r.Some? && |r.value| > 0 ==> r.value[0] !in Py2Space && r.value[|r.value| - 1] !in Py2Space
  {
    match Find(sgml, tag, 0)
    case None => None
    case Some(start) =>
      match Find(sgml, Trac.EndTag(tag), start)
      case None => None
      case Some(end) => Some(StripChars(Trac.Slice(sgml, start + |tag|, end), Py2Space))
  }

  /** On a page without information separators both clients extract the same text. */
  lemma ExtractTagAgrees(sgml: string, tag: string)
    requires NoInfoSeparators(sgml)
    ensures ExtractTag(sgml, tag) == Trac.ExtractTag(sgml, tag)
  {
    match Find(sgml, tag, 0)
    case None =>
    case Some(start) =>
      match Find(sgml, Trac.EndTag(tag), start)
      case None =>
      case Some(end) =>
        var text := Trac.Slice(sgml, start + |tag|, end);
        if start + |tag| <= end {
          assert forall k :: 0 <= k < |text| ==> text[k] == sgml[start + |tag| + k];
        }
        StripPy2(text);
  }

  /** The cleanup `extract_status` applies to the tag's text. */
  function CleanStatus(status: string): (r: string)
    ensures forall i :: 0 <= i < |r| ==> r[i] in status
    ensures |r| > 0 ==> r[0] !in Py2Space && r[|r| - 1] !in Py2Space
  {
    var a := StripChars(status, {'(', ')'});
    var b := RemoveAll(a, "defect");
    var c := RemoveAll(b, "enhancement");
    var r := StripChars(c, Py2Space);
    CharsWithin(r, c, b);
    CharsWithin(r, b, a);
    CharsWithin(r, a, status);
    r
  }

  lemma CharsWithin(r: string, s: string, t: string)
    requires forall k :: 0 <= k < |r| ==> r[k] in s
    requires forall k :: 0 <= k < |s| ==> s[k] in t
    ensures forall k :: 0 <= k < |r| ==> r[k] in t
  {
    forall k | 0 <= k < |r|
      ensures r[k] in t
    {
      var m :| 0 <= m < |s| && s[m] == r[k];
    }
  }

  /** `extract_status(html)`. */
  function ExtractStatus(html: string): (r: string)
    ensures !Contains(html, StatusTag) ==> r == "unknown"
    ensures |r| > 0 ==> r[0] !in Py2Space && r[|r| - 1] !in Py2Space
  {
    match ExtractTag(html, StatusTag)
    case None => "unknown"
    case Some(status) => CleanStatus(status)
  }

  /** A page without the status tag has an unknown status. */
  lemma StatusOfPageWithoutTag(html: string)
    requires !Contains(html, StatusTag)
    ensures ExtractStatus(html) == "unknown"
  {
  }

  /** Stripping a character set from text wrapped in one opening and one closing member
      of the set, where the text has none, gives the text. */
  lemma StripWrapped(w: string, open: char, close: char, chars: set<char>)
    requires open in chars && close in chars
    requires forall i :: 0 <= i < |w| ==> w[i] !in chars
    ensures StripChars([open] + w + [close], chars) == w
  {
    var s := [open] + w + [close];
    assert s[1..] == w + [close];
    if |w| == 0 {
      assert LStripChars(w + [close], chars) == LStripChars([close][1..], chars);
    } else {
      assert (w + [close])[0] == w[0];
      assert LStripChars(s, chars) == w + [close];
      assert (w + [close])[..|w|] == w;
      assert RStripChars(w + [close], chars) == RStripChars(w, chars);
      assert w[|w| - 1] !in chars;
      assert RStripChars(w, chars) == w;
    }
  }

  /** Stripping a trimmed text followed by one member of the set gives the text. */
  lemma StripTrailing(w: string, c: char, chars: set<char>)
    requires c in chars && StripChars(w, chars) == w
    ensures StripChars(w + [c], chars) == w
  {
    if |w| == 0 {
      assert LStripChars([c], chars) == LStripChars([c][1..], chars);
    } else {
      assert w[0] !in chars;
      assert (w + [c])[0] == w[0];
      assert (w + [c])[..|w|] == w;
      assert LStripChars(w, chars) == w;
    }
  }

  /** A word as the status cleanup expects it: trimmed, without parentheses, and without
      either ticket-type word. */
  predicate PlainStatus(w: string) {
    '(' !in w && ')' !in w && StripChars(w, Py2Space) == w &&
    !Contains(w, "defect") && !Contains(w, "enhancement")
  }

  /** A parenthesised status word without the ticket-type words is read back as the word. */
  lemma CleanParenthesised(w: string)
    requires PlainStatus(w)
    ensures CleanStatus("(" + w + ")") == w
  {
    StripWrapped(w, '(', ')', {'(', ')'});
    assert "(" + w + ")" == ['('] + w + [')'];
    RemoveAllAbsent(w, "defect");
    RemoveAllAbsent(w, "enhancement");
  }

  /** The four steps of `CleanStatus`, each given by its result. */
  lemma CleanStatusSteps(status: string, a: string, b: string, c: string, r: string)
    requires StripChars(status, {'(', ')'}) == a
    requires RemoveAll(a, "defect") == b && RemoveAll(b, "enhancement") == c
    requires StripChars(c, Py2Space) == r
    ensures CleanStatus(status) == r
  {
  }

  /** Trac's "(word defect)" status is read back as the word. */
  lemma CleanDefect(w: string)
    requires PlainStatus(w)
    ensures CleanStatus("(" + w + " defect)") == w
  {
    UnwrapClosed(w, " defect", " defect)");
    RemoveDefect(w);
    KeepSpacedEnhancement(w);
    StripTrailing(w, ' ', Py2Space);
    CleanStatusSteps("(" + w + " defect)", w + " defect", w + " ", w + " ", w);
  }

  /** Trac's "(word enhancement)" status is read back as the word. */
  lemma CleanEnhancement(w: string)
    requires PlainStatus(w)
    ensures CleanStatus("(" + w + " enhancement)") == w
  {
    UnwrapClosed(w, " enhancement", " enhancement)");
    KeepEnhancement(w);
    RemoveEnhancement(w);
    StripTrailing(w, ' ', Py2Space);
    CleanStatusSteps("(" + w + " enhancement)", w + " enhancement", w + " enhancement", w + " ", w);
  }

  /** `strip('()')` unwraps "(w kind)", written with its closing parenthesis attached to
      the type word as Trac writes it. */
  lemma UnwrapClosed(w: string, kind: string, closed: string)
    requires '(' !in w && ')' !in w && '(' !in kind && ')' !in kind
    requires closed == kind + ")"
    ensures StripChars("(" + w + closed, {'(', ')'}) == w + kind
  {
    ConcatAssoc("(" + w, kind, ")");
    UnwrapTyped(w, kind);
  }

  lemma KeepSpacedEnhancement(w: string)
    requires !Contains(w, "enhancement")
    ensures RemoveAll(w + " ", "enhancement") == w + " "
  {
    KeepSpaced(w, "enhancement");
  }

  /** `strip('()')` unwraps a parenthesised status and type. */
  lemma UnwrapTyped(w: string, kind: string)
    requires '(' !in w && ')' !in w && '(' !in kind && ')' !in kind
    ensures StripChars("(" + w + kind + ")", {'(', ')'}) == w + kind
  {
    assert "(" + w + kind + ")" == ['('] + (w + kind) + [')'];
    StripWrapped(w + kind, '(', ')', {'(', ')'});
  }

  lemma RemoveDefect(w: string)
    requires !Contains(w, "defect")
    ensures RemoveAll(w + " defect", "defect") == w + " "
  {
    NoCrossing(w, ' ', "defec", "defect");
    assert "defect"[..5] == "defec";
    assert w + " defect" == (w + " ") + "defect" + "";
    assert (w + " ") + "defec" == w + [' '] + "defec";
    RemoveAllFirst(w + " ", "defect", "");
  }

  lemma RemoveEnhancement(w: string)
    requires !Contains(w, "enhancement")
    ensures RemoveAll(w + " enhancement", "enhancement") == w + " "
  {
    NoCrossing(w, ' ', "enhancemen", "enhancement");
    assert "enhancement"[..10] == "enhancemen";
    assert w + " enhancement" == (w + " ") + "enhancement" + "";
    assert (w + " ") + "enhancemen" == w + [' '] + "enhancemen";
    RemoveAllFirst(w + " ", "enhancement", "");
  }

  /** "defect" cannot appear in a word without it followed by " enhancement". */
  lemma KeepEnhancement(w: string)
    requires !Contains(w, "defect")
    ensures RemoveAll(w + " enhancement", "defect") == w + " enhancement"
  {
    DefectNotInEnhancement();
    KeepAcross(w, ' ', "enhancement", "defect");
    SpacedWords();
    ConcatAssoc(w, [' '], "enhancement");
  }

  /** The ticket-type words after a space. */
  lemma SpacedWords()
    ensures " enhancement" == [' '] + "enhancement" && " defect" == [' '] + "defect"
  {
  }

  lemma DefectNotInEnhancement()
    ensures !Contains("enhancement", "defect") && ' ' !in "defect"
  {
    NoFirstChar("enhancement", "defect");
  }

  /** Removing a pattern from two texts without it, joined by a character it lacks,
      changes nothing. */
  lemma KeepAcross(u: string, c: char, t: string, pat: string)
    requires |pat| > 0 && c !in pat && !Contains(u, pat) && !Contains(t, pat)
    ensures RemoveAll(u + [c] + t, pat) == u + [c] + t
  {
    NoCrossing(u, c, t, pat);
    RemoveAllAbsent(u + [c] + t, pat);
  }

  /** A word followed by a space does not gain a pattern without a space. */
  lemma KeepSpaced(w: string, pat: string)
    requires |pat| > 0 && ' ' !in pat && !Contains(w, pat)
    ensures RemoveAll(w + " ", pat) == w + " "
  {
    NoFirstChar("", pat);
    NoCrossing(w, ' ', "", pat);
    assert w + [' '] + "" == w + " ";
    RemoveAllAbsent(w + " ", pat);
  }

  /** A page whose status tag holds "(word defect)" has the status word. */
  lemma ExtractStatusOfDefect(html: string, w: string)
    requires PlainStatus(w)
    requires ExtractTag(html, StatusTag) == Some("(" + w + " defect)")
    ensures ExtractStatus(html) == w
  {
    CleanDefect(w);
  }

  // ---- min_non_neg ----

  /** `min_non_neg(*rest)`: the least non-negative argument, the first argument when none
      is non-negative, and the `IndexError` of `rest[0]` when there are none. */
  function MinNonNeg(rest: seq<int>): (r: Result<int>)
    ensures r.Ok? <==> |rest| > 0
    ensures r.Ok? && (exists i :: 0 <= i < |rest| && rest[i] >= 0) ==>
      r.value >= 0 && r.value in rest && forall i :: 0 <= i < |rest| && rest[i] >= 0 ==> r.value <= rest[i]
    ensures r.Ok? && (forall i :: 0 <= i < |rest| ==> rest[i] < 0) ==> r.value == rest[0]
    ensures r.Err? ==> r.error == "IndexError"
  {
    if |rest| == 0 then Err("IndexError")
    else match LeastNonNeg(rest)
      case None => Ok(rest[0])
      case Some(m) => Ok(m)
  }

  /** The least non-negative element, if any. */
  function LeastNonNeg(xs: seq<int>): (r: Option<int>)
    ensures r.None? <==> forall i :: 0 <= i < |xs| ==> xs[i] < 0
    ensures r.Some? ==> r.value >= 0 && r.value in xs
    ensures r.Some? ==> forall i :: 0 <= i < |xs| && xs[i] >= 0 ==> r.value <= xs[i]
  {
    if |xs| == 0 then None
    else
      var rest := LeastNonNeg(xs[1..]);
      assert forall i :: 1 <= i < |xs| ==> xs[i] == xs[1..][i - 1];
      if xs[0] < 0 then rest
      else if rest.Some? && rest.value < xs[0] then rest
      else Some(xs[0])
  }

  // ---- ensure_safe ----

  /** The characters of `[-+A-Za-z0-9._]`. */
  predicate SafeChar(c: char) {
    c == '-' || c == '+' || 'A' <= c <= 'Z' || 'a' <= c <= 'z' || IsDigit(c) || c == '.' || c == '_'
  }

  /** Where the greedy match of `[-+A-Za-z0-9._]*` from `i` ends. */
  function SafeRunEnd(s: string, i: nat): (k: nat)
    requires i <= |s|
    ensures i <= k <= |s| && (forall j :: i <= j < k ==> SafeChar(s[j])) && (k == |s| || !SafeChar(s[k]))
    decreases |s| - i
  {
    if i < |s| && SafeChar(s[i]) then SafeRunEnd(s, i + 1) else i
  }

  /** `ensure_safe(name)` for one string. */
  function EnsureSafeName(s: string): (r: Result<()>)
    ensures r.Ok? <==> forall i :: 0 <= i < |s| ==> SafeChar(s[i])
    ensures r.Err? ==> r.error == "ValueError"
  {
    if SafeRunEnd(s, 0) == |s| then Ok(()) else Err("ValueError")
  }

  /** `ensure_safe(items)` for a collection of names: the first unsafe one raises. */
  function EnsureSafeAll(items: seq<string>): (r: Result<()>)
    ensures r.Ok? <==> forall k :: 0 <= k < |items| ==> EnsureSafeName(items[k]).Ok?
    ensures r.Err? ==> r.error == "ValueError"
  {
    if |items| == 0 then Ok(())
    else if EnsureSafeName(items[0]).Err? then EnsureSafeName(items[0])
    else
      assert forall k :: 1 <= k < |items| ==> items[k] == items[1..][k - 1];
      EnsureSafeAll(items[1..])
  }

  /** What the check is for: an accepted name holds no space (nor any shell syntax). */
  lemma SafeNameHasNoSpace(s: string)
    requires EnsureSafeName(s).Ok?
    ensures ' ' !in s && ';' !in s && '/' !in s
  {
    assert forall i :: 0 <= i < |s| ==> s[i] != ' ' && s[i] != ';' && s[i] != '/';
  }

  // ---- reuse of the queued series ----

  /** One patch to apply: its digest, file name and URL. */
  datatype Wanted = Wanted(hash: string, patch: string, url: string)

  /** The length of the longest prefix of the queued `series` whose files have the digests
      the desired series expects; it stops at the first empty entry or mismatch.
      `digestOf(name)` is the digest of the queued patch file `name`. */
  function MatchedPrefix(series: seq<string>, desired: seq<Wanted>, digestOf: string -> string): (k: nat)
    ensures k <= |series| && k <= |desired|
    ensures forall i :: 0 <= i < k ==> series[i] != "" && digestOf(series[i]) == desired[i].hash
    ensures k < |series| && k < |desired| ==> series[k] == "" || digestOf(series[k]) != desired[k].hash
  {
    if |series| == 0 || |desired| == 0 || series[0] == "" || digestOf(series[0]) != desired[0].hash then 0
    else
      var k := 1 + MatchedPrefix(series[1..], desired[1..], digestOf);
      assert forall i :: 1 <= i < k ==> series[i] == series[1..][i - 1] && desired[i] == desired[1..][i - 1];
      k
  }

  /** The matched prefix is the longest one: any prefix that matches is no longer. */
  lemma MatchedPrefixIsLongest(series: seq<string>, desired: seq<Wanted>, digestOf: string -> string, j: nat)
    requires j <= |series| && j <= |desired|
    requires forall i :: 0 <= i < j ==> series[i] != "" && digestOf(series[i]) == desired[i].hash
    ensures j <= MatchedPrefix(series, desired, digestOf)
  {
  }

  /** The name `hg qpop` goes back to ('-a' for all) and the patches still to push. */
  function PushPlan(series: seq<string>, desired: seq<Wanted>, digestOf: string -> string): (r: (string, seq<Wanted>))
    ensures var k := MatchedPrefix(series, desired, digestOf);
      && r.1 == desired[k..]
      && r.0 == (if k == 0 then "-a" else series[k - 1])
  {
    var k := MatchedPrefix(series, desired, digestOf);
    (if k == 0 then "-a" else series[k - 1], desired[k..])
  }

  // ---- duplicate patches ----

  /** `k` copies of '-old'. */
  function Olds(k: nat): (r: string)
    ensures |r| == 4 * k
  {
    if k == 0 then "" else Olds(k - 1) + "-old"
  }

  /** The suffix after `k` renames is made of `k` whole '-old' blocks. */
  lemma {:induction false} OldsBlocks(k: nat)
    ensures forall i :: 0 <= i < k ==> Olds(k)[4 * i..4 * i + 4] == "-old"
  {
    if k > 0 {
      OldsBlocks(k - 1);
      var p := Olds(k - 1);
      assert Olds(k) == p + "-old";
      assert Olds(k)[4 * (k - 1)..4 * k] == "-old";
      assert forall i :: 0 <= i < k - 1 ==> Olds(k)[4 * i..4 * i + 4] == p[4 * i..4 * i + 4];
    }
  }

  /** The length of the longest name in the series. */
  function MaxLen(series: seq<string>): (m: nat)
    ensures forall i :: 0 <= i < |series| ==> |series[i]| <= m
  {
    if |series| == 0 then 0
    else
      var m := MaxLen(series[1..]);
      assert forall i :: 1 <= i < |series| ==> series[i] == series[1..][i - 1];
      if |series[0]| > m then |series[0]| else m
  }

  /** The `while old_patch in series: old_patch += '-old'` loop: it ends with the first
      name of the form `patch` + '-old'… that the series does not hold. */
  method RenameTarget(patch: string, series: seq<string>) returns (oldPatch: string)
    requires patch in series
    ensures oldPatch !in series
    ensures StartsWith(oldPatch, patch + "-old")
    ensures exists k: nat :: (k >= 1 && oldPatch == patch + Olds(k) &&
      forall j :: 0 <= j < k ==> patch + Olds(j) in series)
  {
    oldPatch := patch;
    ghost var k: nat := 0;
    assert patch + Olds(0) == patch;
    while oldPatch in series
      invariant oldPatch == patch + Olds(k)
      invariant forall j :: 0 <= j < k ==> patch + Olds(j) in series
      invariant k == 0 ==> oldPatch in series
      decreases MaxLen(series) + 1 - |oldPatch|
    {
      var i :| 0 <= i < |series| && series[i] == oldPatch;
      assert |oldPatch| <= MaxLen(series);
      oldPatch := oldPatch + "-old";
      k := k + 1;
      assert oldPatch == patch + Olds(k);
    }
    OldsStartsWithOld(k);
    assert oldPatch[..|patch + "-old"|] == patch + Olds(k)[..4];
  }

  /** What happens to a patch to push: nothing when its name is new, the 'Duplicate
      patch' exception without `force`, otherwise the name the old one is renamed to. */
  method HandleDuplicate(patch: string, series: seq<string>, force: bool) returns (r: Result<Option<string>>)
    ensures patch !in series ==> r == Ok(None)
    ensures patch in series && !force ==> r == Err("Exception")
    ensures patch in series && force ==>
      (r.Ok? && r.value.Some? && r.value.value !in series && StartsWith(r.value.value, patch + "-old"))
  {
    if patch !in series {
      return Ok(None);
    }
    if !force {
      return Err("Exception");
    }
    var name := RenameTarget(patch, series);
    return Ok(Some(name));
  }

  lemma {:induction false} OldsStartsWithOld(k: nat)
    requires k >= 1
    ensures Olds(k)[..4] == "-old"
  {
    if k > 1 {
      OldsStartsWithOld(k - 1);
      assert Olds(k)[..4] == Olds(k - 1)[..4];
    }
  }

  // ---- the dependency walk ----

  /** The fields of a scraped ticket page the walk reads. */
  datatype LegacyTicket = LegacyTicket(
    status: string, merged: Option<string>, milestone: Option<string>,
    spkgs: bool, dependsOn: seq<Dep>, patches: seq<string>)

  /** The walk's state: `seen_deps` and `desired_series`. */
  datatype Walk = Walk(seen: seq<int>, desired: seq<Wanted>)

  /** A closed dependency already merged into the base (or without a merge version). */
  predicate AlreadyMerged(d: LegacyTicket, base: string) {
    var merged := if d.merged.Some? then d.merged else d.milestone;
    Contains(d.status, "closed") && (merged.None? || CompareVersion(merged.value, base) <= 0)
  }

  /** 'file#hash' entries as patches to fetch from the ticket's raw attachments. */
  function PatchEntries(ticket: int, patches: seq<string>): (r: Result<seq<Wanted>>)
    ensures r.Ok? ==> |r.value| == |patches|
    ensures r.Ok? ==> forall i :: 0 <= i < |patches| ==> patches[i] == r.value[i].patch + "#" + r.value[i].hash
    ensures r.Err? ==> r.error == "ValueError"
    ensures r.Ok? <==> forall i :: 0 <= i < |patches| ==> |Split(patches[i], "#")| == 2
  {
    if |patches| == 0 then Ok([])
    else
      var pieces := Split(patches[0], "#");
      SplitTwoTail(patches);
      if |pieces| != 2 then Err("ValueError")
      else match PatchEntries(ticket, patches[1..])
        case Err(e) => Err(e)
        case Ok(rest) =>
          assert Join(pieces, "#") == pieces[0] + "#" + pieces[1];
          var head := Wanted(pieces[1], pieces[0], PatchUrl(ticket, pieces[0], true));
          PatchEntriesCons(patches, head, rest);
          Ok([head] + rest)
  }

  lemma PatchEntriesCons(patches: seq<string>, head: Wanted, rest: seq<Wanted>)
    requires |patches| > 0 && patches[0] == head.patch + "#" + head.hash
    requires |rest| == |patches| - 1
    requires forall i :: 0 <= i < |rest| ==> patches[1..][i] == rest[i].patch + "#" + rest[i].hash
    ensures forall i :: 0 <= i < |patches| ==> patches[i] == ([head] + rest)[i].patch + "#" + ([head] + rest)[i].hash
  {
    forall i | 1 <= i < |patches|
      ensures patches[i] == ([head] + rest)[i].patch + "#" + ([head] + rest)[i].hash
    {
      assert patches[i] == patches[1..][i - 1] && ([head] + rest)[i] == rest[i - 1];
    }
  }

  lemma SplitTwoTail(patches: seq<string>)
    requires |patches| > 0
    ensures (forall i :: 0 <= i < |patches| ==> |Split(patches[i], "#")| == 2) <==>
      |Split(patches[0], "#")| == 2 && forall i :: 0 <= i < |patches[1..]| ==> |Split(patches[1..][i], "#")| == 2
  {
    if forall i :: 0 <= i < |patches[1..]| ==> |Split(patches[1..][i], "#")| == 2 {
      forall i | 1 <= i < |patches|
        ensures |Split(patches[i], "#")| == 2
      {
        assert patches[i] == patches[1..][i - 1];
      }
    }
  }

  function SeenSet(seen: seq<int>): set<int> {
    set t | t in seen
  }

  /** The number of scraped pages not yet visited: the measure of the walk. */
  function Unseen(pages: map<int, LegacyTicket>, seen: seq<int>): nat {
    |pages.Keys - SeenSet(seen)|
  }

  lemma UnseenShrinks(pages: map<int, LegacyTicket>, seen: seq<int>, t: int)
    requires t in pages && t !in seen
    ensures Unseen(pages, seen + [t]) < Unseen(pages, seen)
  {
    assert SeenSet(seen + [t]) == SeenSet(seen) + {t};
    assert pages.Keys - SeenSet(seen + [t]) == (pages.Keys - SeenSet(seen)) - {t};
  }

  lemma SubsetCard(a: set<int>, b: set<int>)
    requires a <= b
    ensures |a| <= |b|
  {
    assert b == a + (b - a);
    assert a * (b - a) == {};
  }

  lemma UnseenMonotone(pages: map<int, LegacyTicket>, seen: seq<int>, more: seq<int>)
    ensures Unseen(pages, seen + more) <= Unseen(pages, seen)
  {
    SubsetCard(pages.Keys - SeenSet(seen + more), pages.Keys - SeenSet(seen));
  }

  /** A walk that went on has no more unseen pages than before. */
  lemma ExtendsUnseen(pages: map<int, LegacyTicket>, w: Walk, w2: Walk)
    requires Extends(w, w2)
    ensures Unseen(pages, w2.seen) <= Unseen(pages, w.seen)
  {
    assert w2.seen == w.seen + w2.seen[|w.seen|..];
    UnseenMonotone(pages, w.seen, w2.seen[|w.seen|..]);
  }

  /** `w2` extends `w`: the walk only appends to both lists. */
  predicate Extends(w: Walk, w2: Walk) {
    |w.seen| <= |w2.seen| && w2.seen[..|w.seen|] == w.seen &&
    |w.desired| <= |w2.desired| && w2.desired[..|w.desired|] == w.desired
  }

  lemma ExtendsTrans(a: Walk, b: Walk, c: Walk)
    requires Extends(a, b) && Extends(b, c)
    ensures Extends(a, c)
  {
    assert c.seen[..|a.seen|] == c.seen[..|b.seen|][..|a.seen|];
    assert c.desired[..|a.desired|] == c.desired[..|b.desired|][..|a.desired|];
  }

  /** `append_patch_list(ticket, dependency)`: `pages` holds the pages `scrape` can
      fetch (any other ticket raises), `base` is the installed version. */
  function Visit(pages: map<int, LegacyTicket>, base: string, ticket: int, dependency: bool, w: Walk): (r: Result<Walk>)
    ensures r.Ok? ==> Extends(w, r.value)
    ensures r.Ok? && ticket !in w.seen ==> |r.value.seen| > |w.seen| && r.value.seen[|w.seen|] == ticket
    ensures r.Ok? && NoDup(w.seen) ==> NoDup(r.value.seen)
    decreases Unseen(pages, w.seen), 0, 0
  {
    if ticket in w.seen then Ok(w)
    else
      var w1 := Walk(w.seen + [ticket], w.desired);
      assert Extends(w, w1);
      if ticket !in pages then Err("HTTPError")
      else
        var d := pages[ticket];
        if dependency && AlreadyMerged(d, base) then Ok(w1)
        else if d.spkgs then Err("NotImplementedError")
        else
          UnseenShrinks(pages, w.seen, ticket);
          match VisitDeps(pages, base, d.dependsOn, w1)
          case Err(e) => Err(e)
          case Ok(w2) =>
            match PatchEntries(ticket, d.patches)
            case Err(e) => Err(e)
            case Ok(ps) =>
              VisitStep(w, ticket, w2, ps);
              Ok(Walk(w2.seen, w2.desired + ps))
  }

  lemma NoDupAppend(xs: seq<int>, t: int)
    requires NoDup(xs) && t !in xs
    ensures NoDup(xs + [t])
  {
  }

  /** The bookkeeping of one visit: the ticket is recorded after the walk so far, then the
      dependencies are walked, then the ticket's patches are appended. */
  lemma VisitStep(w: Walk, ticket: int, w2: Walk, ps: seq<Wanted>)
    requires ticket !in w.seen
    requires Extends(Walk(w.seen + [ticket], w.desired), w2)
    requires NoDup(w.seen + [ticket]) ==> NoDup(w2.seen)
    ensures var w3 := Walk(w2.seen, w2.desired + ps);
      && Extends(w, w3)
      && |w3.seen| > |w.seen| && w3.seen[|w.seen|] == ticket
      && (NoDup(w.seen) ==> NoDup(w3.seen))
  {
    var w1 := Walk(w.seen + [ticket], w.desired);
    var w3 := Walk(w2.seen, w2.desired + ps);
    assert Extends(w, w1);
    assert Extends(w2, w3) by {
      assert w3.desired[..|w2.desired|] == w2.desired;
    }
    ExtendsTrans(w1, w2, w3);
    ExtendsTrans(w, w1, w3);
    assert w3.seen[|w.seen|] == w3.seen[..|w1.seen|][|w.seen|];
    if NoDup(w.seen) {
      NoDupAppend(w.seen, ticket);
    }
  }

  /** The loop of `append_patch_list` over the dependencies: a version newer than the base
      raises, an older one is passed over, a ticket is walked as a dependency. */
  function VisitDeps(pages: map<int, LegacyTicket>, base: string, deps: seq<Dep>, w: Walk): (r: Result<Walk>)
    ensures r.Ok? ==> Extends(w, r.value)
    ensures r.Ok? && NoDup(w.seen) ==> NoDup(r.value.seen)
    decreases Unseen(pages, w.seen), 1, |deps|
  {
    if |deps| == 0 then Ok(w)
    else match deps[0]
      case DVersion(v) =>
        if CompareVersion(base, v) < 0 then Err("ValueError") else VisitDeps(pages, base, deps[1..], w)
      case DTicket(n) =>
        match Visit(pages, base, n, true, w)
        case Err(e) => Err(e)
        case Ok(w2) =>
          ExtendsUnseen(pages, w, w2);
          match VisitDeps(pages, base, deps[1..], w2)
          case Err(e) => Err(e)
          case Ok(w3) =>
            ExtendsTrans(w, w2, w3);
            Ok(w3)
  }

  /** The desired series of a ticket: the walk from the ticket itself. */
  function DesiredSeries(pages: map<int, LegacyTicket>, base: string, ticket: int): (r: Result<Walk>)
    ensures r.Ok? ==> NoDup(r.value.seen) && |r.value.seen| >= 1 && r.value.seen[0] == ticket
  {
    Visit(pages, base, ticket, false, Walk([], []))
  }

  /** A closed dependency merged at or below the base is recorded as seen and adds no
      patches. */
  lemma MergedDependencySkipped(pages: map<int, LegacyTicket>, base: string, t: int, w: Walk)
    requires t in pages && t !in w.seen && AlreadyMerged(pages[t], base)
    ensures Visit(pages, base, t, true, w) == Ok(Walk(w.seen + [t], w.desired))
  {
  }

  /** The ticket being tested is never skipped as merged, even when it is closed: it is
      visited exactly as a dependency that is not merged, so with spkgs it raises. */
  lemma TestedTicketNotSkipped(pages: map<int, LegacyTicket>, base: string, t: int, w: Walk)
    requires t in pages && t !in w.seen
    ensures pages[t].spkgs ==> Visit(pages, base, t, false, w) == Err("NotImplementedError")
    ensures !AlreadyMerged(pages[t], base) ==> Visit(pages, base, t, false, w) == Visit(pages, base, t, true, w)
  {
  }

  /** A dependency on a version newer than the base stops the walk with `ValueError`. */
  lemma NewerVersionRejected(pages: map<int, LegacyTicket>, base: string, v: string, rest: seq<Dep>, w: Walk)
    requires CompareVersion(base, v) < 0
    ensures VisitDeps(pages, base, [DVersion(v)] + rest, w) == Err("ValueError")
  {
    var deps := [DVersion(v)] + rest;
    assert deps[0] == DVersion(v);
  }

  /** A visited ticket's own patches come last, after those of its dependencies. */
  lemma OwnPatchesLast(pages: map<int, LegacyTicket>, base: string, t: int, dependency: bool, w: Walk)
    requires t in pages && t !in w.seen
    requires Visit(pages, base, t, dependency, w).Ok?
    requires !(dependency && AlreadyMerged(pages[t], base))
    ensures PatchEntries(t, pages[t].patches).Ok?
    ensures var d := Visit(pages, base, t, dependency, w).value.desired;
      var ps := PatchEntries(t, pages[t].patches).value;
      |ps| <= |d| && d[|d| - |ps|..] == ps
  {
    var r := Visit(pages, base, t, dependency, w);
    var w1 := Walk(w.seen + [t], w.desired);
    var w2 := VisitDeps(pages, base, pages[t].dependsOn, w1);
    var ps := PatchEntries(t, pages[t].patches).value;
    assert r.value.desired == w2.value.desired + ps;
  }

  /** A ticket already seen is not walked again. */
  lemma SeenTicketIgnored(pages: map<int, LegacyTicket>, base: string, t: int, dependency: bool, w: Walk)
    requires t in w.seen
    ensures Visit(pages, base, t, dependency, w) == Ok(w)
  {
  }

  /** What `pull_from_trac` decides before running hg: the walk, the safety checks of the
      queued and desired names, and the reuse of the queued prefix. */
  function PullPlan(pages: map<int, LegacyTicket>, base: string, ticket: int,
                    series: seq<string>, digestOf: string -> string): (r: Result<(string, seq<Wanted>)>)
    ensures r.Ok? <==>
      && DesiredSeries(pages, base, ticket).Ok?
      && EnsureSafeAll(series).Ok?
      && EnsureSafeAll(PatchNames(DesiredSeries(pages, base, ticket).value.desired)).Ok?
    ensures r.Ok? ==> r.value == PushPlan(series, DesiredSeries(pages, base, ticket).value.desired, digestOf)
    ensures r.Err? ==> r.error == if DesiredSeries(pages, base, ticket).Err? then DesiredSeries(pages, base, ticket).error else "ValueError"
    ensures r.Ok? ==> forall i :: 0 <= i < |r.value.1| ==> EnsureSafeName(r.value.1[i].patch).Ok?
  {
    match DesiredSeries(pages, base, ticket)
    case Err(e) => Err(e)
    case Ok(w) =>
      if EnsureSafeAll(series).Err? then Err("ValueError")
      else if EnsureSafeAll(PatchNames(w.desired)).Err? then Err("ValueError")
      else
        var plan := PushPlan(series, w.desired, digestOf);
        var k := MatchedPrefix(series, w.desired, digestOf);
        assert forall i :: 0 <= i < |plan.1| ==> plan.1[i] == w.desired[k + i] && PatchNames(w.desired)[k + i] == w.desired[k + i].patch;
        Ok(plan)
  }

  function PatchNames(ws: seq<Wanted>): (r: seq<string>)
    ensures |r| == |ws| && forall i :: 0 <= i < |ws| ==> r[i] == ws[i].patch
  {
    if |ws| == 0 then [] else [ws[0].patch] + PatchNames(ws[1..])
  }
}

=== FILE: lex.dfy ===
/** Python's ordering of lists, tuples and strings: the first position where the two
    sequences differ decides, and a proper prefix is smaller. Every ordering the source
    sorts or compares by (report times, tagged version lists, uniqueness tuples, module
    names) is an instance of `LexLt` for some strict total order on the elements. */
module Lex {

  /** `lt` is a strict total order: irreflexive, transitive and connected. */
  ghost predicate StrictTotal<T(!new)>(lt: (T, T) -> bool) {
    && (forall x :: !lt(x, x))
    && (forall x, y, z :: lt(x, y) && lt(y, z) ==> lt(x, z))
    && (forall x, y :: x != y ==> lt(x, y) || lt(y, x))
  }

  predicate LexLt<T(==)>(a: seq<T>, b: seq<T>, lt: (T, T) -> bool) {
    if |a| == 0 then |b| > 0
    else if |b| == 0 then false
    else if a[0] != b[0] then lt(a[0], b[0])
    else LexLt(a[1..], b[1..], lt)
  }

  predicate LexLe<T(==)>(a: seq<T>, b: seq<T>, lt: (T, T) -> bool) {
    a == b || LexLt(a, b, lt)
  }

  /** The first index where `a` and `b` differ, or the shorter length. */
  function Mismatch<T(==)>(a: seq<T>, b: seq<T>): (k: nat)
    ensures k <= |a| && k <= |b|
    ensures a[..k] == b[..k]
    ensures k < |a| && k < |b| ==> a[k] != b[k]
    ensures a == b ==> k == |a|
  {
    if |a| == 0 || |b| == 0 || a[0] != b[0] then 0
    else
      var k := 1 + Mismatch(a[1..], b[1..]);
      assert a[..k] == [a[0]] + a[1..][..k - 1];
      assert b[..k] == [b[0]] + b[1..][..k - 1];
      k
  }

  /** Closed form of `LexLt`: the comparison is decided at the first mismatch. */
  lemma {:induction false} LexLtAtMismatch<T>(a: seq<T>, b: seq<T>, lt: (T, T) -> bool)
    ensures LexLt(a, b, lt) <==>
      (var k := Mismatch(a, b);
       if k == |a| then k < |b| else k < |b| && lt(a[k], b[k]))
  {
    if |a| == 0 || |b| == 0 || a[0] != b[0] {
    } else {
      LexLtAtMismatch(a[1..], b[1..], lt);
    }
  }

  lemma {:induction false} LexLtIrreflexive<T(!new)>(a: seq<T>, lt: (T, T) -> bool)
    ensures !LexLt(a, a, lt)
  {
    if |a| > 0 {
      LexLtIrreflexive(a[1..], lt);
    }
  }

  lemma {:induction false} LexLtTransitive<T(!new)>(a: seq<T>, b: seq<T>, c: seq<T>, lt: (T, T) -> bool)
    requires StrictTotal(lt)
    requires LexLt(a, b, lt) && LexLt(b, c, lt)
    ensures LexLt(a, c, lt)
  {
    if |a| == 0 {
    } else if a[0] == b[0] && b[0] == c[0] {
      LexLtTransitive(a[1..], b[1..], c[1..], lt);
    }
  }

  lemma {:induction false} LexLtTotal<T(!new)>(a: seq<T>, b: seq<T>, lt: (T, T) -> bool)
    requires StrictTotal(lt)
    ensures a == b || LexLt(a, b, lt) || LexLt(b, a, lt)
  {
    if |a| == 0 || |b| == 0 {
    } else if a[0] == b[0] {
      LexLtTotal(a[1..], b[1..], lt);
      if a[1..] == b[1..] {
        assert a == [a[0]] + a[1..] && b == [b[0]] + b[1..];
      }
    }
  }

  lemma LexLtAsymmetric<T(!new)>(a: seq<T>, b: seq<T>, lt: (T, T) -> bool)
    requires StrictTotal(lt)
    ensures !(LexLt(a, b, lt) && LexLt(b, a, lt))
  {
    if LexLt(a, b, lt) && LexLt(b, a, lt) {
      LexLtTransitive(a, b, a, lt);
      LexLtIrreflexive(a, lt);
    }
  }

  /** A proper prefix is smaller. */
  lemma {:induction false} PrefixIsSmaller<T(!new)>(a: seq<T>, b: seq<T>, lt: (T, T) -> bool)
    requires |a| < |b| && b[..|a|] == a
    ensures LexLt(a, b, lt)
  {
    if |a| > 0 {
      assert a[0] == b[0];
      assert b[1..][..|a| - 1] == a[1..];
      PrefixIsSmaller(a[1..], b[1..], lt);
    }
  }

  // ---- the element orders used by the model ----

  predicate CharLt(x: char, y: char) { x < y }

  predicate IntLt(x: int, y: int) { x < y }

  lemma CharLtIsStrictTotal()
    ensures StrictTotal(CharLt)
  {
  }

  lemma IntLtIsStrictTotal()
    ensures StrictTotal(IntLt)
  {
  }

  /** Python's `<` on two `str` values (code point by code point). */
  predicate StrLt(a: string, b: string) {
    LexLt(a, b, CharLt)
  }

  predicate StrLe(a: string, b: string) {
    LexLe(a, b, CharLt)
  }

  /** Python's `<` on two tuples of ints. */
  predicate IntsLt(a: seq<int>, b: seq<int>) {
    LexLt(a, b, IntLt)
  }

  lemma StrLtTransitive(a: string, b: string, c: string)
    requires StrLt(a, b) && StrLt(b, c)
    ensures StrLt(a, c)
  {
    CharLtIsStrictTotal();
    LexLtTransitive(a, b, c, CharLt);
  }

  lemma StrLtTotal(a: string, b: string)
    ensures a == b || StrLt(a, b) || StrLt(b, a)
  {
    CharLtIsStrictTotal();
    LexLtTotal(a, b, CharLt);
  }

  lemma StrLtAsymmetric(a: string, b: string)
    ensures !(StrLt(a, b) && StrLt(b, a))
  {
    CharLtIsStrictTotal();
    LexLtAsymmetric(a, b, CharLt);
  }

  lemma StrLtIsStrictTotal()
    ensures StrictTotal(StrLt)
  {
    forall a: string
      ensures !StrLt(a, a)
    {
      StrLtAsymmetric(a, a);
    }
    forall a: string, b: string, c: string | StrLt(a, b) && StrLt(b, c)
      ensures StrLt(a, c)
    {
      StrLtTransitive(a, b, c);
    }
    forall a: string, b: string
      ensures a == b || StrLt(a, b) || StrLt(b, a)
    {
      StrLtTotal(a, b);
    }
  }

  lemma IntsLtTransitive(a: seq<int>, b: seq<int>, c: seq<int>)
    requires IntsLt(a, b) && IntsLt(b, c)
    ensures IntsLt(a, c)
  {
    IntLtIsStrictTotal();
    LexLtTransitive(a, b, c, IntLt);
  }

  lemma IntsLtTotal(a: seq<int>, b: seq<int>)
    ensures a == b || IntsLt(a, b) || IntsLt(b, a)
  {
    IntLtIsStrictTotal();
    LexLtTotal(a, b, IntLt);
  }

  lemma IntsLtAsymmetric(a: seq<int>, b: seq<int>)
    ensures !(IntsLt(a, b) && IntsLt(b, a))
  {
    IntLtIsStrictTotal();
    LexLtAsymmetric(a, b, IntLt);
  }
}

=== FILE: markers.dfy ===
/** The marker lines a patchbot prints around the parts of its log
    (sage_patchbot/patchbot.py `boundary`), which the server later searches for. */
module Markers {
  import opened Strings

  /** The kinds of log part `boundary` knows. Any other kind makes the source fail with
      an unbound local variable; no caller passes one. */
  datatype Part = PluginPart | PluginEnd | TicketPart | SpkgPart

  function Repeat(c: char, n: nat): (r: string)
    ensures |r| == n
    ensures forall i :: 0 <= i < n ==> r[i] == c
  {
    if n == 0 then "" else [c] + Repeat(c, n - 1)
  }

  /** The fill character and its count for each kind of part. */
  function Fill(kind: Part): (char, nat) {
    match kind
    case PluginPart => ('=', 10)
    case PluginEnd => ('=', 10)
    case TicketPart => ('=', 30)
    case SpkgPart => ('+', 10)
  }

  /** The text between the fills: the end of a plugin part names itself `'end ' + name`. */
  function Label(name: string, kind: Part): string {
    if kind == PluginEnd then "end " + name else name
  }

  /** `' '.join((letter * length, name, letter * length))`, where the end of a plugin
      part names itself `'end ' + name`. */
  function Boundary(name: string, kind: Part): (r: string)
    ensures |r| == 2 * Fill(kind).1 + 2 + |Label(name, kind)|
    ensures var n := Fill(kind).1;
      r[..n] == Repeat(Fill(kind).0, n) && r[n] == ' ' &&
      r[n + 1..n + 1 + |Label(name, kind)|] == Label(name, kind)
    ensures var n := Fill(kind).1;
      r[n + 1 + |Label(name, kind)|] == ' ' && r[n + 2 + |Label(name, kind)|..] == Repeat(Fill(kind).0, n)
  {
    var c := Fill(kind).0;
    var n := Fill(kind).1;
    var text := Label(name, kind);
    var r := Repeat(c, n) + " " + text + " " + Repeat(c, n);
    assert r[..n] == Repeat(c, n);
    assert r[n + 1..n + 1 + |text|] == text;
    assert r[n + 2 + |text|..] == Repeat(c, n);
    r
  }

  /** The marker that opens a plugin's output is never the one that closes it, so the
      server's extraction can tell them apart. */
  lemma PluginMarkersDiffer(name: string)
    ensures Boundary(name, PluginPart) != Boundary(name, PluginEnd)
  {
  }

  /** A marker for a name without a newline is one line of text. */
  lemma BoundaryHasNoNewline(name: string, kind: Part)
    requires '\n' !in name
    ensures '\n' !in Boundary(name, kind)
  {
    var c := Fill(kind).0;
    var n := Fill(kind).1;
    assert Boundary(name, kind) == Repeat(c, n) + " " + Label(name, kind) + " " + Repeat(c, n);
    assert '\n' !in Label(name, kind);
  }

  /** Different plugins get different opening markers. */
  lemma BoundaryInjective(a: string, b: string, kind: Part)
    requires Boundary(a, kind) == Boundary(b, kind)
    ensures a == b
  {
    var n := Fill(kind).1;
    var la := Label(a, kind);
    var lb := Label(b, kind);
    assert |la| == |lb|;
    assert la == Boundary(a, kind)[n + 1..n + 1 + |la|];
    assert la == lb;
    if kind == PluginEnd {
      assert a == la[4..] && b == lb[4..];
    }
  }
}

=== FILE: multipart.dfy ===
/** The multipart/form-data encoder the patchbot uses to upload reports
    (sage_patchbot/http_post_file.py), after RFC 7578 with the delimiter lines of
    section 5.1.1 of RFC 2046. Text and bytes are both sequences of characters here;
    the random boundary and the MIME type guess are parameters. */
module Multipart {
  import opened Wrappers
  import opened Strings

  const CRLF: string := "\r\n"

  /** The characters `id_generator` draws from: A–Z then 0–9. */
  const BoundaryChars: string := "ABCDEFGHIJKLMNOPQRSTUVWXYZ0123456789"

  /** The default boundary length. */
  const DefaultBoundarySize: nat := 26

  predicate IsBoundaryChar(c: char) {
    'A' <= c <= 'Z' || '0' <= c <= '9'
  }

  /** `id_generator(size)`, with `picks[i]` the index `random.choice` drew for the i-th
      character; the length of `picks` is `size`. */
  function IdGenerator(picks: seq<nat>): (r: string)
    requires forall i :: 0 <= i < |picks| ==> picks[i] < |BoundaryChars|
    ensures |r| == |picks|
    ensures forall i :: 0 <= i < |r| ==> r[i] == BoundaryChars[picks[i]] && IsBoundaryChar(r[i])
  {
    if |picks| == 0 then ""
    else
      BoundaryCharAt(picks[0]);
      [BoundaryChars[picks[0]]] + IdGenerator(picks[1..])
  }

  /** Every character of the alphabet is a boundary character. */
  lemma BoundaryCharAt(k: nat)
    requires k < |BoundaryChars|
    ensures IsBoundaryChar(BoundaryChars[k])
  {
  }

  /** A form field `(name, value)`. */
  datatype Field = Field(name: string, value: string)

  /** An uploaded file `(name, filename, value)`. */
  datatype FilePart = FilePart(name: string, filename: string, value: string)

  /** `get_content_type(filename)`: the guessed MIME type, or the generic one when the
      guess is missing or empty. */
  function ContentTypeOf(filename: string, guess: string -> Option<string>): (r: string)
    ensures r != ""
    ensures guess(filename).Some? && guess(filename).value != "" ==> r == guess(filename).value
  {
    match guess(filename)
    case Some(t) => if t != "" then t else "application/octet-stream"
    case None => "application/octet-stream"
  }

  function Delimiter(boundary: string): string {
    "--" + boundary
  }

  function CloseDelimiter(boundary: string): string {
    "--" + boundary + "--"
  }

  /** The four lines of one field. */
  function FieldLines(boundary: string, f: Field): seq<string> {
    [Delimiter(boundary), "Content-Disposition: form-data; name=\"" + f.name + "\"", "", f.value]
  }

  /** The five lines of one file. */
  function FileLines(boundary: string, f: FilePart, guess: string -> Option<string>): seq<string> {
    [Delimiter(boundary),
     "Content-Disposition: form-data; name=\"" + f.name + "\"; filename=\"" + f.filename + "\"",
     "Content-Type: " + ContentTypeOf(f.filename, guess),
     "",
     f.value]
  }

  function AllFieldLines(boundary: string, fields: seq<Field>): (r: seq<string>)
    ensures |r| == 4 * |fields|
  {
    if |fields| == 0 then [] else FieldLines(boundary, fields[0]) + AllFieldLines(boundary, fields[1..])
  }

  function AllFileLines(boundary: string, files: seq<FilePart>, guess: string -> Option<string>): (r: seq<string>)
    ensures |r| == 5 * |files|
  {
    if |files| == 0 then [] else FileLines(boundary, files[0], guess) + AllFileLines(boundary, files[1..], guess)
  }

  /** The list `L` the body is joined from. */
  function BodyLines(boundary: string, fields: seq<Field>, files: seq<FilePart>,
                     guess: string -> Option<string>): (r: seq<string>)
    ensures |r| == 4 * |fields| + 5 * |files| + 2
    ensures r[|r| - 2] == CloseDelimiter(boundary) && r[|r| - 1] == ""
  {
    AllFieldLines(boundary, fields) + AllFileLines(boundary, files, guess) + [CloseDelimiter(boundary), ""]
  }

  /** `encode_multipart_formdata(fields, files)` with the given boundary: the content
      type and the body. */
  function EncodeMultipart(boundary: string, fields: seq<Field>, files: seq<FilePart>,
                           guess: string -> Option<string>): (r: (string, string))
    ensures r.0 == "multipart/form-data; boundary=" + boundary
    ensures EndsWith(r.1, CloseDelimiter(boundary) + CRLF)
  {
    var lines := BodyLines(boundary, fields, files, guess);
    ClosingLines(lines[..|lines| - 2], CloseDelimiter(boundary));
    assert lines == lines[..|lines| - 2] + [CloseDelimiter(boundary), ""];
    ("multipart/form-data; boundary=" + boundary, Join(lines, CRLF))
  }

  /** Joining lines that end with `close` and an empty line ends with `close` and CRLF. */
  lemma ClosingLines(front: seq<string>, close: string)
    ensures EndsWith(Join(front + [close, ""], CRLF), close + CRLF)
  {
    var j := Join(front + [close, ""], CRLF);
    if |front| == 0 {
      assert j == close + CRLF + "";
    } else {
      assert front + [close, ""] == (front + [close]) + [""];
      JoinAppend(front + [close], "", CRLF);
      JoinAppend(front, close, CRLF);
      assert j == Join(front, CRLF) + CRLF + close + CRLF;
      assert j[|j| - |close + CRLF|..] == close + CRLF;
    }
  }

  /** With no fields and no files the body is the closing delimiter alone. */
  lemma EmptyForm(boundary: string, guess: string -> Option<string>)
    ensures EncodeMultipart(boundary, [], [], guess).1 == "--" + boundary + "--\r\n"
  {
    var lines := BodyLines(boundary, [], [], guess);
    assert lines == [CloseDelimiter(boundary), ""];
    assert Join(lines, CRLF) == CloseDelimiter(boundary) + CRLF + "";
    assert CloseDelimiter(boundary) + CRLF + "" == "--" + boundary + "--\r\n";
  }

  /** Field `i` occupies lines 4i to 4i+3. */
  lemma {:induction false} FieldAt(boundary: string, fields: seq<Field>, i: nat)
    requires i < |fields|
    ensures AllFieldLines(boundary, fields)[4 * i..4 * i + 4] == FieldLines(boundary, fields[i])
  {
    if i > 0 {
      FieldAt(boundary, fields[1..], i - 1);
      assert AllFieldLines(boundary, fields)[4 * i..4 * i + 4]
          == AllFieldLines(boundary, fields[1..])[4 * (i - 1)..4 * (i - 1) + 4];
    }
  }

  /** File `j` occupies five lines from 5j. */
  lemma {:induction false} FileAt(boundary: string, files: seq<FilePart>, guess: string -> Option<string>, j: nat)
    requires j < |files|
    ensures AllFileLines(boundary, files, guess)[5 * j..5 * j + 5] == FileLines(boundary, files[j], guess)
  {
    if j > 0 {
      FileAt(boundary, files[1..], guess, j - 1);
      assert AllFileLines(boundary, files, guess)[5 * j..5 * j + 5]
          == AllFileLines(boundary, files[1..], guess)[5 * (j - 1)..5 * (j - 1) + 5];
    }
  }

  /** The layout of the body's lines: every field in order, then every file in order, each
      opened by a delimiter line, then the closing delimiter and an empty line. */
  lemma BodyLayout(boundary: string, fields: seq<Field>, files: seq<FilePart>,
                   guess: string -> Option<string>, i: nat, j: nat)
    ensures var lines := BodyLines(boundary, fields, files, guess);
      && (i < |fields| ==> lines[4 * i..4 * i + 4] == FieldLines(boundary, fields[i]))
      && (j < |files| ==> lines[4 * |fields| + 5 * j..4 * |fields| + 5 * j + 5] == FileLines(boundary, files[j], guess))
  {
    if i < |fields| {
      FieldLayout(boundary, fields, files, guess, i);
    }
    if j < |files| {
      FileLayout(boundary, fields, files, guess, j);
    }
  }

  lemma FieldLayout(boundary: string, fields: seq<Field>, files: seq<FilePart>,
                    guess: string -> Option<string>, i: nat)
    requires i < |fields|
    ensures BodyLines(boundary, fields, files, guess)[4 * i..4 * i + 4] == FieldLines(boundary, fields[i])
  {
    var fl := AllFieldLines(boundary, fields);
    var gl := AllFileLines(boundary, files, guess);
    FieldAt(boundary, fields, i);
    SliceOfFront(fl, gl, [CloseDelimiter(boundary), ""], 4 * i, 4 * i + 4);
  }

  lemma FileLayout(boundary: string, fields: seq<Field>, files: seq<FilePart>,
                   guess: string -> Option<string>, j: nat)
    requires j < |files|
    ensures BodyLines(boundary, fields, files, guess)[4 * |fields| + 5 * j..4 * |fields| + 5 * j + 5] ==
      FileLines(boundary, files[j], guess)
  {
    var fl := AllFieldLines(boundary, fields);
    var gl := AllFileLines(boundary, files, guess);
    FileAt(boundary, files, guess, j);
    ChunkOfMiddle(fl, gl, [CloseDelimiter(boundary), ""], 5 * j, 5, FileLines(boundary, files[j], guess));
  }

  lemma ChunkOfMiddle<T>(a: seq<T>, b: seq<T>, c: seq<T>, lo: nat, n: nat, chunk: seq<T>)
    requires lo + n <= |b| && b[lo..lo + n] == chunk
    ensures (a + b + c)[|a| + lo..|a| + lo + n] == chunk
  {
    SliceOfMiddle(a, b, c, lo, lo + n);
  }

  lemma SliceOfFront<T>(a: seq<T>, b: seq<T>, c: seq<T>, lo: nat, hi: nat)
    requires lo <= hi <= |a|
    ensures (a + b + c)[lo..hi] == a[lo..hi]
  {
  }

  lemma SliceOfMiddle<T>(a: seq<T>, b: seq<T>, c: seq<T>, lo: nat, hi: nat)
    requires lo <= hi <= |b|
    ensures (a + b + c)[|a| + lo..|a| + hi] == b[lo..hi]
  {
  }

  /** Every part starts with a delimiter line, so the body holds one per part before the
      closing one. */
  lemma DelimiterPerPart(boundary: string, fields: seq<Field>, files: seq<FilePart>,
                         guess: string -> Option<string>, i: nat, j: nat)
    ensures var lines := BodyLines(boundary, fields, files, guess);
      && (i < |fields| ==> lines[4 * i] == Delimiter(boundary))
      && (j < |files| ==> lines[4 * |fields| + 5 * j] == Delimiter(boundary))
  {
    BodyLayout(boundary, fields, files, guess, i, j);
    var lines := BodyLines(boundary, fields, files, guess);
    if i < |fields| {
      assert lines[4 * i] == lines[4 * i..4 * i + 4][0];
    }
    if j < |files| {
      assert lines[4 * |fields| + 5 * j] == lines[4 * |fields| + 5 * j..4 * |fields| + 5 * j + 5][0];
    }
  }

  /** A generated boundary never holds '-', '\r' or '\n', so a delimiter line cannot be
      mistaken for a longer one. */
  lemma BoundaryPlain(picks: seq<nat>)
    requires forall i :: 0 <= i < |picks| ==> picks[i] < |BoundaryChars|
    ensures '-' !in IdGenerator(picks) && '\r' !in IdGenerator(picks) && '\n' !in IdGenerator(picks)
  {
    var b := IdGenerator(picks);
    assert forall i :: 0 <= i < |b| ==> IsBoundaryChar(b[i]);
  }
}

=== FILE: pipeline.dfy ===
/** The bookkeeping of `Patchbot.test_a_ticket` (sage_patchbot/patchbot.py): the stage a
    run reaches, the status reported for it, how plugin outcomes are recorded, and when
    the ticket goes on the skip list. Each shell, network or file step is an abstract
    outcome passed in, and the clock is one reading `now`. */
module Pipeline {
  import opened Wrappers
  import opened Plugins
  import Server
  import Trac
  import opened Skips

  /** The values `state` takes. */
  datatype Stage =
    | Started | Applied | Built | Tested | TestsPassedPluginsFailed
    | PluginsPassedOnly | PluginsFailedOnly | SpkgDone | NetworkError | Skipped

  /** The `status` table: the status reported for the last stage reached. */
  function StatusOf(s: Stage): (r: string)
    ensures r in Server.StatusOrder
    ensures r == "Pending" <==> s == NetworkError || s == Skipped
  {
    match s
    case Started => "ApplyFailed"
    case Applied => "BuildFailed"
    case Built => "TestsFailed"
    case Tested => "TestsPassed"
    case TestsPassedPluginsFailed => "PluginFailed"
    case PluginsPassedOnly => "PluginOnly"
    case PluginsFailedOnly => "PluginOnlyFailed"
    case SpkgDone => "Spkg"
    case NetworkError => "Pending"
    case Skipped => "Pending"
  }

  /** Every status a run reports is one the server ranks, and only an interrupted run
      reports Pending. */
  lemma StatusesKnownToServer(s: Stage)
    ensures StatusOf(s) in Server.StatusOrder
    ensures StatusOf(s) == "Pending" <==> s == NetworkError || s == Skipped
  {
  }

  /** Distinct stages report distinct statuses, except the two ways to be interrupted. */
  lemma StatusOfInjective(a: Stage, b: Stage)
    requires StatusOf(a) == StatusOf(b)
    ensures a == b || ({a, b} == {NetworkError, Skipped})
  {
  }

  // ---- plugin outcomes ----

  /** How the call of one plugin ends: it raises (or a step before it does), it returns
      something other than a `PluginResult`, or it returns a `PluginResult`. */
  datatype PluginRun<D> = Raised | ReturnedPlain | ReturnedResult(result: PluginResult<D>)

  /** An entry of `plugins_results`. */
  datatype Record<D> = Record(name: string, passed: bool, data: Option<D>)

  /** What the `finally` clause appends for one plugin: a `PluginResult` counts only when
      it has a baseline. */
  function RecordOf<D>(name: string, run: PluginRun<D>): (r: seq<Record<D>>)
    ensures |r| <= 1
    ensures |r| == 1 ==> r[0].name == name
    ensures run.Raised? ==> r == [Record(name, false, None)]
    ensures run.ReturnedPlain? ==> r == [Record(name, true, None)]
    ensures run.ReturnedResult? ==> (r == [] <==> run.result.baseline.None?)
    ensures run.ReturnedResult? && |r| == 1 ==>
      r[0].data == run.result.data && (r[0].passed <==> run.result.status == Passed)
  {
    match run
    case Raised => [Record(name, false, None)]
    case ReturnedPlain => [Record(name, true, None)]
    case ReturnedResult(res) =>
      if res.baseline.Some? then [Record(name, res.status == Passed, res.data)] else []
  }

  /** `plugins_results` after the loop over the configured plugins. */
  function RecordAll<D>(runs: seq<(string, PluginRun<D>)>): (r: seq<Record<D>>)
    ensures |r| <= |runs|
  {
    if |runs| == 0 then []
    else RecordOf(runs[0].0, runs[0].1) + RecordAll(runs[1..])
  }

  /** `plugins_passed`: all recorded flags are set. */
  predicate PluginsPassed<D>(records: seq<Record<D>>) {
    forall i :: 0 <= i < |records| ==> records[i].passed
  }

  /** A run that makes the plugins fail: it raised, or it returned a failed result that
      has a baseline. */
  predicate FailingRun<D>(run: PluginRun<D>) {
    run.Raised? || (run.ReturnedResult? && run.result.baseline.Some? && run.result.status == Failed)
  }

  /** The plugins pass exactly when no run fails; results without a baseline are never
      looked at. */
  lemma {:induction false} PluginsPassedIff<D>(runs: seq<(string, PluginRun<D>)>)
    ensures PluginsPassed(RecordAll(runs)) <==> forall i :: 0 <= i < |runs| ==> !FailingRun(runs[i].1)
  {
    if |runs| > 0 {
      var head := RecordOf(runs[0].0, runs[0].1);
      var tail := RecordAll(runs[1..]);
      PluginsPassedIff(runs[1..]);
      assert RecordAll(runs) == head + tail;
      assert PluginsPassed(head + tail) <==> PluginsPassed(head) && PluginsPassed(tail) by {
        PassedAppend(head, tail);
      }
      assert forall i :: 1 <= i < |runs| ==> runs[i] == runs[1..][i - 1];
    }
  }

  lemma PassedAppend<D>(a: seq<Record<D>>, b: seq<Record<D>>)
    ensures PluginsPassed(a + b) <==> PluginsPassed(a) && PluginsPassed(b)
  {
    if PluginsPassed(a + b) {
      assert forall i :: 0 <= i < |a| ==> (a + b)[i] == a[i];
      assert forall i :: 0 <= i < |b| ==> (a + b)[|a| + i] == b[i];
    }
  }

  /** Every recorded name is the name of a plugin that was run. */
  lemma {:induction false} RecordedNamesRan<D>(runs: seq<(string, PluginRun<D>)>, i: int)
    requires 0 <= i < |RecordAll(runs)|
    ensures exists k :: 0 <= k < |runs| && runs[k].0 == RecordAll(runs)[i].name
  {
    var head := RecordOf(runs[0].0, runs[0].1);
    assert RecordAll(runs) == head + RecordAll(runs[1..]);
    if i >= |head| {
      RecordedNamesRan(runs[1..], i - |head|);
      var k :| 0 <= k < |runs[1..]| && runs[1..][k].0 == RecordAll(runs[1..])[i - |head|].name;
      assert runs[k + 1] == runs[1..][k];
    }
  }

  /** A failed `PluginResult` with neither data nor baseline leaves no trace: the run
      still counts as passing. */
  lemma UnrecordedFailureIgnored<D>(name: string, res: PluginResult<D>)
    requires res.status == Failed && res.baseline.None?
    ensures RecordAll([(name, ReturnedResult(res))]) == []
    ensures PluginsPassed(RecordAll<D>([(name, ReturnedResult(res))]))
  {
    assert RecordAll<D>([(name, ReturnedResult(res))]) == RecordOf(name, ReturnedResult(res)) + RecordAll<D>([]);
  }

  // ---- the run ----

  /** How a step that can raise ends, by the clause that catches it: an `HTTPError`,
      `socket.error` or `ConfigException`; a `SkipTicket` with its delay; any other
      exception. Under Python 3 `socket.error` is `OSError`, so every `OSError` raised
      in the `try` block (a failing `tempfile.mkdtemp` or `os.listdir`, say) is a
      `NetworkFailure` too. */
  datatype Outcome = Done | NetworkFailure | SkipFor(delay: Delay) | Failure

  /** The outcomes of the steps of one run, in order. `reportApplied`, `reportBuilt` and
      `reportPlugins` are the Pending reports sent along the way; `formatPatch` is `git
      format-patch`, run for tickets other than 0. */
  datatype Steps<D> = Steps(
    pull: Outcome,
    reportApplied: Outcome,
    build: Outcome,
    reportBuilt: Outcome,
    formatPatch: Outcome,
    plugins: seq<(string, PluginRun<D>)>,
    reportPlugins: Outcome,
    tests: Outcome)

  /** The stage reached, the plugin records, and the new `to_skip` deadline if one is set. */
  datatype Run<D> = Run(stage: Stage, records: seq<Record<D>>, skipUntil: Option<Deadline>)

  const HalfDay: int := 12 * 60 * 60
  const Hour: int := 60 * 60

  /** The `except` clauses: a network problem or a skip reports Pending, any other
      exception reports the stage reached so far. */
  function Interrupted<D>(stage: Stage, outcome: Outcome, records: seq<Record<D>>, now: int): (r: Run<D>)
    requires outcome != Done
    ensures r.records == records && r.skipUntil.Some?
    ensures outcome.Failure? ==> r.stage == stage && r.skipUntil == Some(At(now + HalfDay))
    ensures outcome.NetworkFailure? ==> r.stage == NetworkError && r.skipUntil == Some(At(now + Hour))
    ensures outcome.SkipFor? ==> r.stage == Skipped && r.skipUntil == Some(SkipUntil(now, outcome.delay))
  {
    match outcome
    case NetworkFailure => Run(NetworkError, records, Some(At(now + Hour)))
    case SkipFor(delay) => Run(Skipped, records, Some(SkipUntil(now, delay)))
    case Failure => Run(stage, records, Some(At(now + HalfDay)))
  }

  /** A run that finished its last step, with tests or with plugins only. */
  predicate Completed(s: Stage) {
    s == Tested || s == TestsPassedPluginsFailed || s == PluginsPassedOnly || s == PluginsFailedOnly
  }

  /** The `try` block of `test_a_ticket` for a ticket with id `id`, `spkgs` set when it
      carries packages, under the `plugin_only` setting. */
  function TestTicket<D>(id: int, spkgs: bool, pluginOnly: bool, steps: Steps<D>, now: int): (r: Run<D>)
    ensures StatusOf(r.stage) in Server.StatusOrder
    ensures r.skipUntil.None? <==> Completed(r.stage)
    ensures pluginOnly ==> r.stage != Tested && r.stage != TestsPassedPluginsFailed
    ensures !pluginOnly ==> r.stage != PluginsPassedOnly && r.stage != PluginsFailedOnly
    ensures spkgs ==> r.stage in {Started, Applied, SpkgDone, NetworkError, Skipped}
    ensures r.stage == SpkgDone ==> spkgs && r.skipUntil == Some(At(now + HalfDay))
    ensures r.stage == Tested || r.stage == PluginsPassedOnly ==> PluginsPassed(r.records)
    ensures r.stage == TestsPassedPluginsFailed || r.stage == PluginsFailedOnly ==> !PluginsPassed(r.records)
    ensures r.records == [] || r.records == RecordAll(steps.plugins)
  {
    var r := if steps.pull != Done then Interrupted(Started, steps.pull, [], now)
      else if !pluginOnly && steps.reportApplied != Done then Interrupted(Applied, steps.reportApplied, [], now)
      else if spkgs then Run(SpkgDone, [], Some(At(now + HalfDay)))
      else if steps.build != Done then Interrupted(Applied, steps.build, [], now)
      else if !pluginOnly && steps.reportBuilt != Done then Interrupted(Built, steps.reportBuilt, [], now)
      else if id != 0 && steps.formatPatch != Done then Interrupted(Built, steps.formatPatch, [], now)
      else PluginsAndTests(pluginOnly, steps, now);
    StatusesKnownToServer(r.stage);
    r
  }

  /** The steps after the build: the plugins, the report of their results and the
      tests. */
  function PluginsAndTests<D>(pluginOnly: bool, steps: Steps<D>, now: int): (r: Run<D>)
    ensures r.skipUntil.None? <==> Completed(r.stage)
    ensures r.stage in {Built, NetworkError, Skipped, Tested, TestsPassedPluginsFailed, PluginsPassedOnly, PluginsFailedOnly}
    ensures pluginOnly ==> r.stage != Tested && r.stage != TestsPassedPluginsFailed
    ensures !pluginOnly ==> r.stage != PluginsPassedOnly && r.stage != PluginsFailedOnly
    ensures r.stage == Tested || r.stage == PluginsPassedOnly ==> PluginsPassed(r.records)
    ensures r.stage == TestsPassedPluginsFailed || r.stage == PluginsFailedOnly ==> !PluginsPassed(r.records)
    ensures r.records == RecordAll(steps.plugins)
  {
    var records := RecordAll(steps.plugins);
    var passed := PluginsPassed(records);
    if steps.reportPlugins != Done then Interrupted(Built, steps.reportPlugins, records, now)
    else if pluginOnly then Run(if passed then PluginsPassedOnly else PluginsFailedOnly, records, None)
    else if steps.tests != Done then Interrupted(Built, steps.tests, records, now)
    else Run(if passed then Tested else TestsPassedPluginsFailed, records, None)
  }

  /** The status `test_a_ticket` reports and returns. */
  function Reported<D>(id: int, spkgs: bool, pluginOnly: bool, steps: Steps<D>, now: int): string {
    StatusOf(TestTicket(id, spkgs, pluginOnly, steps, now).stage)
  }

  /** All steps up to and including the build succeed. */
  predicate BuiltFine<D>(spkgs: bool, pluginOnly: bool, steps: Steps<D>) {
    steps.pull == Done && (pluginOnly || steps.reportApplied == Done) && !spkgs && steps.build == Done
  }

  /** All steps up to the tests succeed. */
  predicate ReadyForTests<D>(id: int, spkgs: bool, pluginOnly: bool, steps: Steps<D>) {
    && BuiltFine(spkgs, pluginOnly, steps)
    && (pluginOnly || steps.reportBuilt == Done)
    && (id == 0 || steps.formatPatch == Done)
    && steps.reportPlugins == Done
  }

  lemma ApplyFailureReported<D>(id: int, spkgs: bool, pluginOnly: bool, steps: Steps<D>, now: int)
    requires steps.pull == Failure
    ensures Reported(id, spkgs, pluginOnly, steps, now) == "ApplyFailed"
  {
  }

  lemma BuildFailureReported<D>(id: int, pluginOnly: bool, steps: Steps<D>, now: int)
    requires steps.pull == Done && (pluginOnly || steps.reportApplied == Done) && steps.build == Failure
    ensures Reported(id, false, pluginOnly, steps, now) == "BuildFailed"
  {
  }

  lemma TestFailureReported<D>(id: int, steps: Steps<D>, now: int)
    requires ReadyForTests(id, false, false, steps) && steps.tests == Failure
    ensures Reported(id, false, false, steps, now) == "TestsFailed"
  {
  }

  /** Passing tests report TestsPassed exactly when no plugin fails, PluginFailed
      otherwise. */
  lemma TestsPassedReported<D>(id: int, steps: Steps<D>, now: int)
    requires ReadyForTests(id, false, false, steps) && steps.tests == Done
    ensures Reported(id, false, false, steps, now) ==
      (if forall i :: 0 <= i < |steps.plugins| ==> !FailingRun(steps.plugins[i].1)
       then "TestsPassed" else "PluginFailed")
  {
    PluginsPassedIff(steps.plugins);
  }

  /** Under `plugin_only` the run ends after the plugins, whatever the tests would do. */
  lemma PluginOnlyReported<D>(id: int, steps: Steps<D>, now: int)
    requires ReadyForTests(id, false, true, steps)
    ensures Reported(id, false, true, steps, now) ==
      (if forall i :: 0 <= i < |steps.plugins| ==> !FailingRun(steps.plugins[i].1)
       then "PluginOnly" else "PluginOnlyFailed")
  {
    PluginsPassedIff(steps.plugins);
  }

  /** A ticket with packages is reported Spkg once applied, and skipped for half a day. */
  lemma SpkgReported<D>(id: int, pluginOnly: bool, steps: Steps<D>, now: int)
    requires steps.pull == Done && (pluginOnly || steps.reportApplied == Done)
    ensures Reported(id, true, pluginOnly, steps, now) == "Spkg"
    ensures TestTicket(id, true, pluginOnly, steps, now).skipUntil == Some(At(now + HalfDay))
  {
  }

  /** The outcome of the first step of the run that does not succeed, in the order
      `test_a_ticket` takes them, or `Done` when none fails. A ticket with packages
      stops after the applied report; the Pending reports are not sent under
      `plugin_only`; `git format-patch` runs for tickets other than 0; the tests do not
      run under `plugin_only`. */
  function FirstStop<D>(id: int, spkgs: bool, pluginOnly: bool, steps: Steps<D>): (o: Outcome)
    ensures o != Done ==>
      o in {steps.pull, steps.reportApplied, steps.build, steps.reportBuilt,
            steps.formatPatch, steps.reportPlugins, steps.tests}
    ensures o == Done && !spkgs ==> ReadyForTests(id, false, pluginOnly, steps) && (pluginOnly || steps.tests == Done)
  {
    if steps.pull != Done then steps.pull
    else if !pluginOnly && steps.reportApplied != Done then steps.reportApplied
    else if spkgs then Done
    else if steps.build != Done then steps.build
    else if !pluginOnly && steps.reportBuilt != Done then steps.reportBuilt
    else if id != 0 && steps.formatPatch != Done then steps.formatPatch
    else if steps.reportPlugins != Done then steps.reportPlugins
    else if !pluginOnly && steps.tests != Done then steps.tests
    else Done
  }

  /** The run reports Pending exactly when its first failing step, wherever it is, fails
      with a network problem or a skip. */
  lemma InterruptionReportsPending<D>(id: int, spkgs: bool, pluginOnly: bool, steps: Steps<D>, now: int)
    ensures Reported(id, spkgs, pluginOnly, steps, now) == "Pending" <==>
      FirstStop(id, spkgs, pluginOnly, steps).NetworkFailure? || FirstStop(id, spkgs, pluginOnly, steps).SkipFor?
  {
    StatusesKnownToServer(TestTicket(id, spkgs, pluginOnly, steps, now).stage);
  }

  /** The `to_skip` deadline a run sets is the one its first failing step asks for: an
      hour after a network problem, the `SkipTicket`'s own delay, half a day after any
      other exception or for a ticket with packages, and none for a finished run. */
  lemma DeadlineOfFirstStop<D>(id: int, spkgs: bool, pluginOnly: bool, steps: Steps<D>, now: int)
    ensures var o := FirstStop(id, spkgs, pluginOnly, steps);
      var r := TestTicket(id, spkgs, pluginOnly, steps, now);
      && (o.NetworkFailure? ==> r.skipUntil == Some(At(now + Hour)))
      && (o.SkipFor? ==> r.skipUntil == Some(SkipUntil(now, o.delay)))
      && (o.Failure? ==> r.skipUntil == Some(At(now + HalfDay)))
      && (o.Done? ==> r.skipUntil == if spkgs then Some(At(now + HalfDay)) else None)
  {
  }

  /** Which `except` clause catches what `pull_from_trac` raised. `network` names the
      exceptions the first clause catches: `HTTPError`, `ConfigException`, and
      `socket.error` (`OSError`) with its subclasses. The only `SkipTicket` the pull
      raises, for an unsafe ticket under `safe_only`, is raised without a delay and so
      takes the default, `float('inf')`. */
  function PullOutcome(p: Trac.Pulled, network: set<string>): (o: Outcome)
    requires "SkipTicket" !in network
    ensures o == Done <==> p.raised.None?
    ensures o.NetworkFailure? <==> p.raised.Some? && p.raised.value in network
    ensures o.SkipFor? <==> p.raised == Some("SkipTicket")
    ensures o.SkipFor? ==> o.delay == Forever
  {
    match p.raised
    case None => Done
    case Some(e) => if e in network then NetworkFailure else if e == "SkipTicket" then SkipFor(Forever) else Failure
  }

  /** A ticket that `safe_only` refuses as unsafe is reported Pending and skipped for
      good: its `to_skip` deadline is infinity, which no later clock reading passes. */
  lemma UnsafeSkippedForever<D>(sageRoot: string, env: string, id: int, pullSteps: Trac.PullSteps, prefix: string,
                                network: set<string>, spkgs: bool, pluginOnly: bool, steps: Steps<D>, now: int)
    requires id != 0 && pullSteps.prepare.None? && pullSteps.fetch.None? && pullSteps.merge.None?
    requires pullSteps.diff.Ok? && !Trac.InplaceSafe(pullSteps.diff.value)
    requires "SkipTicket" !in network
    requires steps.pull == PullOutcome(Trac.PullFromTrac(sageRoot, env, id, true, pullSteps, prefix), network)
    ensures Reported(id, spkgs, pluginOnly, steps, now) == "Pending"
    ensures var r := TestTicket(id, spkgs, pluginOnly, steps, now);
      r.stage == Skipped && r.skipUntil == Some(Never) && forall later :: !Expired(r.skipUntil.value, later)
  {
    Trac.UnsafeSkippedWhenSafeOnly(sageRoot, env, id, pullSteps, prefix);
  }

  /** A failing `git format-patch` after a good build is reported as a test failure. */
  lemma FormatPatchFailureReportsTestsFailed<D>(id: int, pluginOnly: bool, steps: Steps<D>, now: int)
    requires id != 0 && BuiltFine(false, pluginOnly, steps)
    requires (pluginOnly || steps.reportBuilt == Done) && steps.formatPatch == Failure
    ensures Reported(id, false, pluginOnly, steps, now) == "TestsFailed"
  {
  }
}

=== FILE: plugins.dfy ===
/** The pure parts of the patchbot's plugins (sage_patchbot/plugins.py): the result record,
    the pattern-exclusion counters over `git diff` output, the file filters, the
    comparisons `startup_modules` and `coverage` make against a stored baseline, and the
    line grouping of `find_lazy_imports`. Git and Sage output is passed in as text or
    lines; each regular expression is an opaque predicate. */
module Plugins {
  import opened Wrappers
  import opened Strings
  import opened Seqs

  // ---- PluginResult ----

  datatype PluginStatus = Passed | Failed

  function StatusName(s: PluginStatus): string {
    match s
    case Passed => "Passed"
    case Failed => "Failed"
  }

  /** A `PluginResult`: `baseline` is what the patchbot pickles for later runs. The data
      of each plugin has its own type `D`. */
  datatype PluginResult<D> = PluginResult(status: PluginStatus, data: Option<D>, baseline: Option<D>)

  /** `PluginResult(status, data, baseline)`: the status must be 'Passed' or 'Failed',
      and a missing or falsy baseline (`truthy` is Python's truth test on `D`) is
      replaced by the data. */
  function MakeResult<D>(status: string, data: Option<D>, baseline: Option<D>, truthy: D -> bool)
    : (r: Result<PluginResult<D>>)
    ensures r.Err? <==> status != "Passed" && status != "Failed"
    ensures r.Err? ==> r.error == "AssertionError"
    ensures r.Ok? ==> r.value.data == data && StatusName(r.value.status) == status
    ensures r.Ok? && baseline.Some? && truthy(baseline.value) ==> r.value.baseline == baseline
    ensures r.Ok? && (baseline.None? || !truthy(baseline.value)) ==> r.value.baseline == data
  {
    if status != "Passed" && status != "Failed" then Err("AssertionError")
    else
      var st := if status == "Passed" then Passed else Failed;
      var kept := if baseline.Some? && truthy(baseline.value) then baseline else data;
      Ok(PluginResult(st, data, kept))
  }

  /** A result ends up without a baseline (and so, in the patchbot's loop, unrecorded)
      exactly when neither a truthy baseline nor any data was given. */
  lemma NoBaselineIffNothingGiven<D>(status: PluginStatus, data: Option<D>, baseline: Option<D>,
                                      truthy: D -> bool)
    ensures MakeResult(StatusName(status), data, baseline, truthy).Ok?
    ensures MakeResult(StatusName(status), data, baseline, truthy).value.baseline.None?
      <==> data.None? && (baseline.None? || !truthy(baseline.value))
  {
  }

  // ---- exclude_new_in_diff ----

  /** A style regex: whether it starts with '^', and an opaque matcher for the rest of it
      (`rest(s)` holds when that part matches a prefix of `s`). */
  datatype Regex = Regex(anchored: bool, rest: string -> bool)

  /** `bad.match(line)`, where '^r' was compiled as '\+r' and 'r' as '\+.*r'. The lines
      are stripped lines of a diff, so '.' meets no newline. */
  predicate Matches(re: Regex, line: string) {
    |line| > 0 && line[0] == '+' &&
    if re.anchored then re.rest(line[1..])
    else exists k :: 1 <= k <= |line| && re.rest(line[k..])
  }

  /** How `exclude_new_in_diff` reads one line once it is stripped. */
  datatype LineKind = Ignored | FileHeader | HunkHeader | Body(bad: bool)

  function KindOf(re: Regex, raw: string): LineKind {
    var line := Strip(raw);
    if StartsWith(line, "---") || line == "+" then Ignored
    else if StartsWith(line, "+++") then FileHeader
    else if StartsWith(line, "@@ ") then HunkHeader
    else Body(Matches(re, line))
  }

  predicate IsBad(re: Regex, raw: string) {
    KindOf(re, raw) == Body(true)
  }

  /** The number of lines the regex flags. */
  function BadLines(re: Regex, lines: seq<string>): (n: nat)
    ensures n <= |lines|
  {
    if |lines| == 0 then 0
    else (if IsBad(re, lines[0]) then 1 else 0) + BadLines(re, lines[1..])
  }

  /** Some line before index `i` is of the given kind. */
  predicate SeenBefore(re: Regex, lines: seq<string>, i: int, kind: LineKind) {
    exists j :: 0 <= j < i && j < |lines| && KindOf(re, lines[j]) == kind
  }

  /** A flagged line that comes before any '+++' header (when none was seen yet), or before
      any '@@ ' header, reads `file_line_printed` or `pos_line_printed` while unbound. */
  predicate Unbound(re: Regex, lines: seq<string>, file: bool, hunk: bool) {
    exists i :: 0 <= i < |lines| && IsBad(re, lines[i]) &&
      ((!file && !SeenBefore(re, lines, i, FileHeader)) || (!hunk && !SeenBefore(re, lines, i, HunkHeader)))
  }

  lemma SeenBeforeStep(re: Regex, lines: seq<string>, i: int, kind: LineKind)
    requires 1 <= i <= |lines|
    ensures SeenBefore(re, lines, i, kind)
      <==> KindOf(re, lines[0]) == kind || SeenBefore(re, lines[1..], i - 1, kind)
  {
    if SeenBefore(re, lines, i, kind) && KindOf(re, lines[0]) != kind {
      var j :| 0 <= j < i && j < |lines| && KindOf(re, lines[j]) == kind;
      assert lines[1..][j - 1] == lines[j];
    }
    if SeenBefore(re, lines[1..], i - 1, kind) {
      var j :| 0 <= j < i - 1 && j < |lines[1..]| && KindOf(re, lines[1..][j]) == kind;
      assert lines[j + 1] == lines[1..][j];
    }
  }

  /** `Unbound` unrolled by one line: the first line either fails at once or updates the
      two header flags for the rest. */
  lemma UnboundStep(re: Regex, lines: seq<string>, file: bool, hunk: bool)
    requires |lines| > 0
    ensures var k := KindOf(re, lines[0]);
      Unbound(re, lines, file, hunk) <==>
        (IsBad(re, lines[0]) && (!file || !hunk)) ||
        Unbound(re, lines[1..], file || k == FileHeader, hunk || k == HunkHeader)
  {
    var k := KindOf(re, lines[0]);
    if Unbound(re, lines, file, hunk) && !(IsBad(re, lines[0]) && (!file || !hunk)) {
      UnboundLater(re, lines, file, hunk);
    }
    if Unbound(re, lines[1..], file || k == FileHeader, hunk || k == HunkHeader) {
      UnboundEarlier(re, lines, file, hunk);
    }
    if IsBad(re, lines[0]) && (!file || !hunk) {
      assert !SeenBefore(re, lines, 0, FileHeader) && !SeenBefore(re, lines, 0, HunkHeader);
    }
  }

  /** An unbound read past the first line is an unbound read of the rest, with the
      first line's header taken into account. */
  lemma UnboundLater(re: Regex, lines: seq<string>, file: bool, hunk: bool)
    requires |lines| > 0 && Unbound(re, lines, file, hunk)
    requires !(IsBad(re, lines[0]) && (!file || !hunk))
    ensures var k := KindOf(re, lines[0]);
      Unbound(re, lines[1..], file || k == FileHeader, hunk || k == HunkHeader)
  {
    var k := KindOf(re, lines[0]);
    var i :| 0 <= i < |lines| && IsBad(re, lines[i]) &&
      ((!file && !SeenBefore(re, lines, i, FileHeader)) || (!hunk && !SeenBefore(re, lines, i, HunkHeader)));
    assert i != 0;
    UnboundShift(re, lines, file, hunk, i);
  }

  /** A flagged line past the first, read while unbound, is one of the rest. */
  lemma UnboundShift(re: Regex, lines: seq<string>, file: bool, hunk: bool, i: int)
    requires 1 <= i < |lines| && IsBad(re, lines[i])
    requires (!file && !SeenBefore(re, lines, i, FileHeader)) || (!hunk && !SeenBefore(re, lines, i, HunkHeader))
    ensures var k := KindOf(re, lines[0]);
      IsBad(re, lines[1..][i - 1]) &&
      ((!(file || k == FileHeader) && !SeenBefore(re, lines[1..], i - 1, FileHeader)) ||
       (!(hunk || k == HunkHeader) && !SeenBefore(re, lines[1..], i - 1, HunkHeader)))
  {
    SeenBeforeStep(re, lines, i, FileHeader);
    SeenBeforeStep(re, lines, i, HunkHeader);
    assert lines[1..][i - 1] == lines[i];
  }

  /** An unbound read of the rest is one of the whole. */
  lemma UnboundEarlier(re: Regex, lines: seq<string>, file: bool, hunk: bool)
    requires |lines| > 0
    requires var k := KindOf(re, lines[0]);
      Unbound(re, lines[1..], file || k == FileHeader, hunk || k == HunkHeader)
    ensures Unbound(re, lines, file, hunk)
  {
    var k := KindOf(re, lines[0]);
    var file' := file || k == FileHeader;
    var hunk' := hunk || k == HunkHeader;
    var i :| 0 <= i < |lines[1..]| && IsBad(re, lines[1..][i]) &&
      ((!file' && !SeenBefore(re, lines[1..], i, FileHeader)) ||
       (!hunk' && !SeenBefore(re, lines[1..], i, HunkHeader)));
    SeenBeforeStep(re, lines, i + 1, FileHeader);
    SeenBeforeStep(re, lines, i + 1, HunkHeader);
    assert lines[i + 1] == lines[1..][i];
  }

  /** The loop of `exclude_new_in_diff` from a point where the '+++' and '@@ ' headers
      have (`file`, `hunk`) or have not been seen. */
  function CountFrom(re: Regex, lines: seq<string>, file: bool, hunk: bool): (r: Result<nat>)
    ensures r.Err? ==> r.error == "UnboundLocalError"
    ensures r.Ok? ==> r.value == BadLines(re, lines)
  {
    if |lines| == 0 then Ok(0)
    else
      var k := KindOf(re, lines[0]);
      if k == Body(true) && (!file || !hunk) then Err("UnboundLocalError")
      else
        var rest := CountFrom(re, lines[1..], file || k == FileHeader, hunk || k == HunkHeader);
        if rest.Err? then rest
        else if k == Body(true) then Ok(rest.value + 1)
        else rest
  }

  /** The loop fails exactly when some flagged line finds a header flag unbound. */
  lemma {:induction false} CountFromFails(re: Regex, lines: seq<string>, file: bool, hunk: bool)
    ensures CountFrom(re, lines, file, hunk).Err? <==> Unbound(re, lines, file, hunk)
  {
    if |lines| > 0 {
      var k := KindOf(re, lines[0]);
      UnboundStep(re, lines, file, hunk);
      CountFromFails(re, lines[1..], file || k == FileHeader, hunk || k == HunkHeader);
    }
  }

  /** `exclude_new_in_diff(gitdiff, regex)`: the number of stripped added lines the regex
      matches, headers and bare '+' lines never counting. */
  function ExcludeNewInDiff(diff: seq<string>, re: Regex): (r: Result<nat>)
    ensures r.Ok? ==> r.value == BadLines(re, diff) && r.value <= |diff|
    ensures r.Err? <==> Unbound(re, diff, false, false)
    ensures r.Err? ==> r.error == "UnboundLocalError"
  {
    CountFromFails(re, diff, false, false);
    CountFrom(re, diff, false, false)
  }

  /** Headers and lone '+' lines are never flagged, whatever the regex. */
  lemma HeadersNeverCount(re: Regex, raw: string)
    requires var line := Strip(raw);
      StartsWith(line, "---") || StartsWith(line, "+++") || StartsWith(line, "@@ ") || line == "+"
    ensures !IsBad(re, raw)
  {
  }

  /** A diff whose flagged lines all follow both kinds of header is counted in full. */
  lemma WellFormedDiffCounts(re: Regex, diff: seq<string>, h: nat)
    requires h + 1 < |diff|
    requires KindOf(re, diff[h]) == FileHeader && KindOf(re, diff[h + 1]) == HunkHeader
    requires forall i :: 0 <= i <= h + 1 ==> !IsBad(re, diff[i])
    ensures ExcludeNewInDiff(diff, re) == Ok(BadLines(re, diff))
  {
    if Unbound(re, diff, false, false) {
      var i :| 0 <= i < |diff| && IsBad(re, diff[i]) &&
        (!SeenBefore(re, diff, i, FileHeader) || !SeenBefore(re, diff, i, HunkHeader));
      assert i > h + 1;
      assert SeenBefore(re, diff, i, FileHeader) && SeenBefore(re, diff, i, HunkHeader);
    }
  }

  // ---- exclude_new and exclude_new_file_by_file ----

  /** The counts of all regexes over one diff, added up; the first error stops the sum. */
  function SumOverRegexes(regexes: seq<Regex>, diff: seq<string>): (r: Result<nat>)
    ensures r.Ok? <==> forall i :: 0 <= i < |regexes| ==> ExcludeNewInDiff(diff, regexes[i]).Ok?
    ensures r.Err? ==> r.error == "UnboundLocalError"
    ensures r == Ok(0) <==> forall i :: 0 <= i < |regexes| ==> ExcludeNewInDiff(diff, regexes[i]) == Ok(0)
    ensures r.Ok? ==>
      (r.value > 0 <==> exists i :: 0 <= i < |regexes| && ExcludeNewInDiff(diff, regexes[i]).Ok? &&
                                    ExcludeNewInDiff(diff, regexes[i]).value > 0)
  {
    var counts := seq(|regexes|, i requires 0 <= i < |regexes| => ExcludeNewInDiff(diff, regexes[i]));
    assert forall i :: 0 <= i < |regexes| ==> counts[i] == ExcludeNewInDiff(diff, regexes[i]);
    SumResults(counts)
  }

  /** `exclude_new(ticket, regex, msg)`: a `ValueError` when any regex flags a line of the
      diff; an unbound-variable error passes through. */
  function ExcludeNew(regexes: seq<Regex>, diff: seq<string>): (r: Result<()>)
    ensures r.Ok? <==> forall i :: 0 <= i < |regexes| ==> ExcludeNewInDiff(diff, regexes[i]) == Ok(0)
    ensures r == Err("ValueError") <==>
      (forall i :: 0 <= i < |regexes| ==> ExcludeNewInDiff(diff, regexes[i]).Ok?) &&
      exists i :: 0 <= i < |regexes| && ExcludeNewInDiff(diff, regexes[i]).value > 0
    ensures r.Err? ==> r.error in {"ValueError", "UnboundLocalError"}
  {
    var total := SumOverRegexes(regexes, diff);
    if total.Err? then Err(total.error)
    else if total.value > 0 then Err("ValueError")
    else Ok(())
  }

  /** A changed file whose diff is read: it passes the file condition and reading its diff
      raised no `IOError` (`None`). */
  predicate Examined(f: string, condition: string -> bool, diffOf: string -> Option<seq<string>>) {
    condition(f) && diffOf(f).Some?
  }

  /** The per-file sums of `exclude_new_file_by_file`, over the files it examines. */
  function SumOverFiles(regexes: seq<Regex>, files: seq<string>, condition: string -> bool,
                        diffOf: string -> Option<seq<string>>): (r: Result<nat>)
    ensures r.Err? ==> r.error == "UnboundLocalError"
    ensures r == Ok(0) <==> forall j :: 0 <= j < |files| && Examined(files[j], condition, diffOf) ==>
      SumOverRegexes(regexes, diffOf(files[j]).value) == Ok(0)
  {
    var sums := seq(|files|, j requires 0 <= j < |files| =>
      if Examined(files[j], condition, diffOf) then SumOverRegexes(regexes, diffOf(files[j]).value) else Ok(0));
    assert forall j :: 0 <= j < |files| ==>
      sums[j] == (if Examined(files[j], condition, diffOf) then SumOverRegexes(regexes, diffOf(files[j]).value) else Ok(0));
    SumResults(sums)
  }

  /** `exclude_new_file_by_file`: a `ValueError` when any regex flags a line of the diff of
      any examined file. */
  function ExcludeNewFileByFile(regexes: seq<Regex>, files: seq<string>, condition: string -> bool,
                                diffOf: string -> Option<seq<string>>): (r: Result<()>)
    ensures r.Ok? <==> forall j, i ::
      (0 <= j < |files| && Examined(files[j], condition, diffOf) && 0 <= i < |regexes|) ==>
      ExcludeNewInDiff(diffOf(files[j]).value, regexes[i]) == Ok(0)
    ensures r.Err? ==> r.error in {"ValueError", "UnboundLocalError"}
  {
    var total := SumOverFiles(regexes, files, condition, diffOf);
    if total.Err? then Err(total.error)
    else if total.value > 0 then Err("ValueError")
    else Ok(())
  }

  /** Files the condition turns away are never read, so they cannot fail the check. */
  lemma SkippedFilesDoNotMatter(regexes: seq<Regex>, files: seq<string>, condition: string -> bool,
                                diffOf: string -> Option<seq<string>>)
    requires forall j :: 0 <= j < |files| ==> !condition(files[j])
    ensures ExcludeNewFileByFile(regexes, files, condition, diffOf) == Ok(())
  {
  }

  // ---- file conditions ----

  /** `a_file.split(os.path.extsep)[-1]`: the text after the last '.', or the whole name. */
  function LastExtension(f: string): (r: string)
    ensures '.' !in r
  {
    var parts := Split(f, ".");
    NoDotWhenNotContained(parts[|parts| - 1]);
    parts[|parts| - 1]
  }

  lemma NoDotWhenNotContained(t: string)
    requires !Contains(t, ".")
    ensures '.' !in t
  {
    forall k | 0 <= k < |t|
      ensures t[k] != '.'
    {
      assert t[k..k + 1] == [t[k]];
      assert !OccursAt(t, ".", k);
    }
  }

  lemma LastExtensionOf(stem: string, ext: string)
    requires '.' !in ext
    ensures LastExtension(stem + "." + ext) == ext
  {
    SplitCharAppend(stem, '.', ext);
    assert stem + "." + ext == stem + ['.'] + ext;
  }

  lemma LastExtensionNoDot(f: string)
    requires '.' !in f
    ensures LastExtension(f) == f
  {
    SplitNoSep(f, '.');
  }

  /** `not_cython` of `python3_py`: Python and reST files. */
  predicate NotCython(f: string) {
    LastExtension(f) in ["py", "rst"]
  }

  /** `is_cython` of `python3_pyx`. */
  predicate IsCython(f: string) {
    LastExtension(f) == "pyx"
  }

  /** `python_or_cython_or_rst` of `python3`. */
  predicate PythonOrCythonOrRst(f: string) {
    LastExtension(f) in ["py", "pyx", "rst"]
  }

  /** The `python3` plugin looks at exactly the files the two narrower plugins share out. */
  lemma FileConditionsPartition(f: string)
    ensures PythonOrCythonOrRst(f) <==> NotCython(f) || IsCython(f)
    ensures !(NotCython(f) && IsCython(f))
  {
  }

  /** What each condition says of a named file `stem.ext`. */
  lemma FileConditionsByExtension(stem: string, ext: string)
    requires '.' !in ext
    ensures NotCython(stem + "." + ext) <==> ext == "py" || ext == "rst"
    ensures IsCython(stem + "." + ext) <==> ext == "pyx"
  {
    LastExtensionOf(stem, ext);
  }

  // ---- startup_modules ----

  /** The values `startup_modules` produces: the module list it pickles, the empty dict it
      reports without a baseline, and the dict of new and removed modules. */
  datatype StartupValue = ModuleList(names: seq<string>) | NoComparison
                        | ModuleChanges(added: seq<string>, removed: seq<string>)

  /** Python's truth value of each of them. */
  predicate StartupTruthy(v: StartupValue) {
    match v
    case ModuleList(names) => |names| > 0
    case NoComparison => false
    case ModuleChanges(_, _) => true
  }

  function Without(xs: seq<string>, ys: seq<string>): (r: seq<string>)
    ensures forall z :: z in r <==> z in xs && z !in ys
  {
    var r := Filter(xs, (z: string) => z !in ys);
    FilterMembers(xs, (z: string) => z !in ys);
    r
  }

  /** `startup_modules`, from the printed module names (`output`) and the pickled list. */
  function StartupModules(output: string, baseline: Option<seq<string>>): (r: PluginResult<StartupValue>)
    ensures r.baseline == Some(ModuleList(Split(output, "\n")))
    ensures baseline.None? ==> r.status == Passed && r.data == Some(NoComparison)
    ensures baseline.Some? ==> r.data.Some? && r.data.value.ModuleChanges?
    ensures baseline.Some? ==> var modules := Split(output, "\n");
      var ch := r.data.value;
      && StrictlySorted(ch.added) && StrictlySorted(ch.removed)
      && (forall z :: z in ch.added <==> z in modules && z !in baseline.value)
      && (forall z :: z in ch.removed <==> z in baseline.value && z !in modules)
      && (r.status == Failed <==> |ch.added| > 0)
  {
    var modules := Split(output, "\n");
    var (status, data) :=
      if baseline.None? then (Passed, NoComparison)
      else
        var added := SortedSet(Without(modules, baseline.value));
        var removed := SortedSet(Without(baseline.value, modules));
        (if |added| > 0 then Failed else Passed, ModuleChanges(added, removed));
    MakeResult(StatusName(status), Some(data), Some(ModuleList(modules)), StartupTruthy).value
  }

  /** Compared with the list it pickled itself, a run reports no change and passes. */
  lemma StartupAgainstOwnBaseline(output: string)
    ensures var r := StartupModules(output, Some(Split(output, "\n")));
      r.status == Passed && r.data == Some(ModuleChanges([], []))
  {
    var r := StartupModules(output, Some(Split(output, "\n")));
    NoMembersEmpty(r.data.value.added);
    NoMembersEmpty(r.data.value.removed);
  }

  lemma NoMembersEmpty(xs: seq<string>)
    ensures (forall z :: z !in xs) ==> xs == []
  {
    if |xs| > 0 {
      assert xs[0] in xs;
    }
  }

  // ---- coverage ----

  /** A line of `sage -coverageall` the regex recognises: module, documented, total. */
  datatype CoverageLine = CoverageLine(name: string, docs: nat, funcs: nat)

  /** The table `coverage` builds and pickles: per module (docs, funcs), and the totals it
      keeps under the key `None`. */
  datatype Coverage = Coverage(modules: map<string, (nat, nat)>, total: (nat, nat))

  /** What `coverage` returns: the table as baseline, the changed entries as data. The
      data is `sorted(current_set - baseline_set)`; here the set itself. */
  datatype CoverageValue = Table(table: Coverage) | Changes(entries: set<(string, (nat, nat))>)

  function SumDocs(lines: seq<CoverageLine>): nat {
    if |lines| == 0 then 0 else SumDocs(lines[..|lines| - 1]) + lines[|lines| - 1].docs
  }

  function SumFuncs(lines: seq<CoverageLine>): nat {
    if |lines| == 0 then 0 else SumFuncs(lines[..|lines| - 1]) + lines[|lines| - 1].funcs
  }

  /** No later line names the module of line `i`. */
  predicate LastOfModule(lines: seq<CoverageLine>, i: int)
    requires 0 <= i < |lines|
  {
    forall j :: i < j < |lines| ==> lines[j].name != lines[i].name
  }

  /** The table `current` after the loop: one entry per module named, with the totals. */
  function CoverageTable(lines: seq<CoverageLine>): (c: Coverage)
    ensures c.total == (SumDocs(lines), SumFuncs(lines))
  {
    if |lines| == 0 then Coverage(map[], (0, 0))
    else
      var last := lines[|lines| - 1];
      var c := CoverageTable(lines[..|lines| - 1]);
      Coverage(c.modules[last.name := (last.docs, last.funcs)], (c.total.0 + last.docs, c.total.1 + last.funcs))
  }

  /** The table has an entry for exactly the modules some line names. */
  lemma {:induction false} CoverageTableKeys(lines: seq<CoverageLine>, m: string)
    ensures m in CoverageTable(lines).modules <==> exists i :: 0 <= i < |lines| && lines[i].name == m
  {
    if |lines| > 0 {
      var init := lines[..|lines| - 1];
      CoverageTableKeys(init, m);
      if exists i :: 0 <= i < |init| && init[i].name == m {
        var i :| 0 <= i < |init| && init[i].name == m;
        assert lines[i] == init[i];
      }
      if exists i :: 0 <= i < |lines| && lines[i].name == m {
        var i :| 0 <= i < |lines| && lines[i].name == m;
        if i < |init| {
          assert init[i] == lines[i];
        }
      }
    }
  }

  /** The last line naming a module sets its entry. */
  lemma {:induction false} CoverageTableEntry(lines: seq<CoverageLine>, i: int)
    requires 0 <= i < |lines| && LastOfModule(lines, i)
    ensures lines[i].name in CoverageTable(lines).modules
    ensures CoverageTable(lines).modules[lines[i].name] == (lines[i].docs, lines[i].funcs)
  {
    if i < |lines| - 1 {
      var init := lines[..|lines| - 1];
      assert init[i] == lines[i];
      assert LastOfModule(init, i) by {
        forall j | i < j < |init|
          ensures init[j].name != init[i].name
        {
          assert init[j] == lines[j];
        }
      }
      CoverageTableEntry(init, i);
    }
  }

  /** The checks that turn the status to Failed: a module absent from the baseline (or
      with no functions there) that is not fully documented, or one whose count of
      undocumented functions grew. */
  predicate Regressed(base: Coverage, line: CoverageLine) {
    var before := if line.name in base.modules then base.modules[line.name] else (0, 0);
    if before.1 == 0 then line.funcs != line.docs
    else line.funcs as int - line.docs as int > before.1 as int - before.0 as int
  }

  function AnyRegressed(base: Coverage, lines: seq<CoverageLine>): (b: bool)
    ensures b <==> exists i :: 0 <= i < |lines| && Regressed(base, lines[i])
  {
    if |lines| == 0 then false
    else
      assert forall i :: 1 <= i < |lines| ==> lines[i] == lines[1..][i - 1];
      Regressed(base, lines[0]) || AnyRegressed(base, lines[1..])
  }

  /** The entries of `current` that the baseline does not hold with the same counts. */
  function ChangedEntries(cur: Coverage, base: Coverage): (s: set<(string, (nat, nat))>)
    ensures forall m, v :: (m, v) in s <==>
      m in cur.modules && cur.modules[m] == v && !(m in base.modules && base.modules[m] == v)
  {
    set m | m in cur.modules && !(m in base.modules && base.modules[m] == cur.modules[m]) :: (m, cur.modules[m])
  }

  /** `coverage`, from the recognised lines and the pickled table. */
  function CoverageCheck(lines: seq<CoverageLine>, baseline: Option<Coverage>): (r: PluginResult<CoverageValue>)
    ensures r.baseline == Some(Table(CoverageTable(lines)))
    ensures r.status == Failed <==> baseline.Some? && exists i :: 0 <= i < |lines| && Regressed(baseline.value, lines[i])
    ensures baseline.None? ==> r.data.None?
    ensures baseline.Some? ==> r.data.Some? && r.data.value.Changes?
    ensures baseline.Some? ==> (forall m, v :: (m, v) in r.data.value.entries <==>
      m in CoverageTable(lines).modules && CoverageTable(lines).modules[m] == v &&
      !(m in baseline.value.modules && baseline.value.modules[m] == v))
  {
    var current := CoverageTable(lines);
    var failed := baseline.Some? && AnyRegressed(baseline.value, lines);
    var data := if baseline.Some? then Some(Changes(ChangedEntries(current, baseline.value))) else None;
    MakeResult(StatusName(if failed then Failed else Passed), data, Some(Table(current)), _ => true).value
  }

  /** Module names are distinct. */
  predicate DistinctModules(lines: seq<CoverageLine>) {
    forall i, j :: 0 <= i < j < |lines| ==> lines[i].name != lines[j].name
  }

  /** Measured against the table it pickled itself, a run passes and reports no change. */
  lemma CoverageAgainstOwnBaseline(lines: seq<CoverageLine>)
    requires DistinctModules(lines)
    requires forall i :: 0 <= i < |lines| ==> lines[i].docs <= lines[i].funcs
    ensures var r := CoverageCheck(lines, Some(CoverageTable(lines)));
      r.status == Passed && r.data == Some(Changes({}))
  {
    var t := CoverageTable(lines);
    forall i | 0 <= i < |lines|
      ensures !Regressed(t, lines[i])
    {
      CoverageTableEntry(lines, i);
    }
    assert ChangedEntries(t, t) == {};
  }

  // ---- commit_messages ----

  function HasDiffLine(patch: seq<string>): (b: bool)
    ensures b <==> exists j :: 0 <= j < |patch| && StartsWith(patch[j], "diff ")
  {
    if |patch| == 0 then false
    else
      assert forall j :: 1 <= j < |patch| ==> patch[j] == patch[1..][j - 1];
      StartsWith(patch[0], "diff ") || HasDiffLine(patch[1..])
  }

  /** `commit_messages`: every patch file (given by its lines) must reach a line starting
      with 'diff ' after its header, or the plugin raises `ValueError`. */
  function CommitMessages(patches: seq<seq<string>>): (r: Result<()>)
    ensures r.Ok? <==> forall i :: 0 <= i < |patches| ==> HasDiffLine(patches[i])
    ensures r.Err? ==> r.error == "ValueError"
  {
    if |patches| == 0 then Ok(())
    else if !HasDiffLine(patches[0]) then Err("ValueError")
    else
      assert forall i :: 1 <= i < |patches| ==> patches[i] == patches[1..][i - 1];
      CommitMessages(patches[1..])
  }

  // ---- find_lazy_imports ----

  predicate StartsImport(line: string) {
    StartsWith(line, "lazy_import")
  }

  lemma ConcatStartsWith(parts: seq<string>, p: string)
    requires |parts| > 0 && StartsWith(parts[0], p)
    ensures StartsWith(Concat(parts), p)
  {
    assert Concat(parts) == parts[0] + Concat(parts[1..]);
    assert Concat(parts)[..|p|] == parts[0][..|p|];
  }

  /** The grouping loop of `find_lazy_imports` over stripped lines: a line starting with
      'lazy_import' (re)starts a group, the other lines extend an open group, and the
      first line ending in ')' emits the joined group. `stored` is the open group. */
  function LazyGroups(lines: seq<string>, stored: seq<string>): (r: seq<string>)
    requires |stored| > 0 ==> StartsImport(stored[0])
    ensures |r| <= |lines|
    ensures forall i :: 0 <= i < |r| ==> StartsImport(r[i]) && EndsWith(r[i], ")")
  {
    if |lines| == 0 then []
    else
      var line := lines[0];
      var start := StartsImport(line);
      var group := if start then [line] else if |stored| > 0 then stored + [line] else [];
      if |group| > 0 && EndsWith(line, ")") then
        ConcatStartsWith(group, "lazy_import");
        ConcatAppend(group[..|group| - 1], line);
        assert group == group[..|group| - 1] + [line];
        [Concat(group)] + LazyGroups(lines[1..], [])
      else LazyGroups(lines[1..], group)
  }

  function StripAll(lines: seq<string>): (r: seq<string>)
    ensures |r| == |lines|
    ensures forall i :: 0 <= i < |lines| ==> r[i] == Strip(lines[i])
  {
    if |lines| == 0 then [] else [Strip(lines[0])] + StripAll(lines[1..])
  }

  /** The joined import statements `find_lazy_imports` hands on, from `git grep` output. */
  function FindLazyImports(grep: seq<string>): (r: seq<string>)
    ensures |r| <= |grep|
    ensures forall i :: 0 <= i < |r| ==> StartsImport(r[i]) && EndsWith(r[i], ")")
  {
    LazyGroups(StripAll(grep), [])
  }

  /** Without an opening 'lazy_import' line, no group is ever emitted. */
  lemma {:induction false} NoImportNoGroups(lines: seq<string>)
    requires forall i :: 0 <= i < |lines| ==> !StartsImport(lines[i])
    ensures LazyGroups(lines, []) == []
  {
    if |lines| > 0 {
      assert forall i :: 0 <= i < |lines[1..]| ==> lines[1..][i] == lines[i + 1];
      NoImportNoGroups(lines[1..]);
    }
  }

  /** A statement spread over lines is emitted once, joined, at its closing line. */
  lemma MultiLineImport(first: string, middle: seq<string>, last: string)
    requires StartsImport(first) && !EndsWith(first, ")")
    requires forall i :: 0 <= i < |middle| ==> !StartsImport(middle[i]) && !EndsWith(middle[i], ")")
    requires !StartsImport(last) && EndsWith(last, ")")
    ensures LazyGroups([first] + middle + [last], []) == [Concat([first] + middle + [last])]
  {
    var lines := [first] + middle + [last];
    var tail := middle + [last];
    assert lines == [first] + tail;
    FirstLineOpens(first, tail);
    MiddleLines([first], middle, last);
  }

  /** An opening line that does not close starts the open group. */
  lemma FirstLineOpens(first: string, tail: seq<string>)
    requires StartsImport(first) && !EndsWith(first, ")")
    ensures LazyGroups([first] + tail, []) == LazyGroups(tail, [first])
  {
    assert ([first] + tail)[0] == first && ([first] + tail)[1..] == tail;
  }

  lemma {:induction false} MiddleLines(stored: seq<string>, middle: seq<string>, last: string)
    requires |stored| > 0 && StartsImport(stored[0])
    requires forall i :: 0 <= i < |middle| ==> !StartsImport(middle[i]) && !EndsWith(middle[i], ")")
    requires !StartsImport(last) && EndsWith(last, ")")
    ensures LazyGroups(middle + [last], stored) == [Concat(stored + middle + [last])]
    decreases |middle|
  {
    if |middle| == 0 {
      assert middle + [last] == [last] && stored + middle + [last] == stored + [last];
      assert [last][1..] == [];
      assert LazyGroups([last], stored) == [Concat(stored + [last])] + LazyGroups([], []);
    } else {
      var rest := middle[1..];
      var lines := middle + [last];
      assert lines[0] == middle[0];
      assert lines[1..] == rest + [last];
      assert LazyGroups(lines, stored) == LazyGroups(rest + [last], stored + [middle[0]]);
      assert forall i :: 0 <= i < |rest| ==> rest[i] == middle[i + 1];
      MiddleLines(stored + [middle[0]], rest, last);
      assert stored + [middle[0]] + rest + [last] == stored + middle + [last];
    }
  }
}

=== FILE: reports.dfy ===
/** Tickets and the reports patchbots post about them, and the report bookkeeping of
    sage_patchbot/util.py and its Python 2 predecessor src/util.py: `prune_pending` and
    `current_reports`. Report times are the source's fixed-format strings, compared as
    strings; the age of a report comes from a parse function and a current time, both
    parameters, in seconds. */
module Reports {
  import opened Wrappers
  import opened Strings
  import opened Lex
  import opened Seqs
  import opened Version

  /** An entry of a ticket's `depends_on` list: a ticket number, or (first, when present)
      a Sage version. */
  datatype Dep = DTicket(n: int) | DVersion(v: string)

  /** A report dict. Optional keys are `Option`s; `deps` is absent in old reports. */
  datatype Report = Report(
    status: string,
    machine: seq<string>,
    time: string,
    base: string,
    spkgs: bool,
    gitCommit: Option<string>,
    deps: Option<seq<Dep>>,
    gitBase: Option<string>)

  /** A ticket dict; `reports` is `None` when the key is absent. */
  datatype Ticket = Ticket(
    id: int,
    reports: Option<seq<Report>>,
    spkgs: bool,
    dependsOn: seq<Dep>,
    gitCommit: Option<string>,
    retry: Option<bool>,
    lastActivity: Option<string>)

  /** Default age, in seconds, after which a Pending report is stale. */
  const PendingTimeout: int := 6 * 60 * 60

  /** What `prune_pending` needs from the outside world: the current time and the
      parser of report times (`None` where the parser raises). */
  datatype Clock = Clock(now: int, parse: string -> Option<int>)

  /** A Pending report is removed when it comes from `machine` or is older than `timeout`. */
  predicate Stale(rep: Report, machine: Option<seq<string>>, clock: Clock, timeout: int) {
    rep.status == "Pending" &&
    clock.parse(rep.time).Some? &&
    (Some(rep.machine) == machine || clock.now - clock.parse(rep.time).value > timeout)
  }

  /** The loop raises when it meets a Pending report whose time does not parse. */
  predicate Unparsable(rep: Report, clock: Clock) {
    rep.status == "Pending" && clock.parse(rep.time).None?
  }

  /** sage_patchbot/util.py `prune_pending`: a `for` loop over the list it removes from.
      `i` is the loop's position; removing the current element shifts the next one
      into that position, so the loop never looks at it. */
  function PruneInPlace(reports: seq<Report>, i: nat, machine: Option<seq<string>>,
                        clock: Clock, timeout: int): (r: Result<seq<Report>>)
    ensures r.Ok? ==> multiset(r.value) <= multiset(reports)
    ensures r.Ok? ==> Filter(r.value, Settled) == Filter(reports, Settled)
    ensures r.Ok? ==> forall x :: x in reports && !Stale(x, machine, clock, timeout) ==>
      multiset(r.value)[x] == multiset(reports)[x]
    ensures r.Err? ==> r.error == "ValueError" && exists j :: 0 <= j < |reports| && Unparsable(reports[j], clock)
    ensures r.Ok? ==> |r.value| <= |reports|
    ensures r.Ok? && i < |reports| && Stale(reports[i], machine, clock, timeout) ==> |r.value| < |reports|
    decreases |reports| - i
  {
    if i >= |reports| then Ok(reports)
    else if Unparsable(reports[i], clock) then Err("ValueError")
    else if Stale(reports[i], machine, clock, timeout) then
      RemovePendingAt(reports, i);
      var rest := RemoveFirst(reports, reports[i]);
      var r := PruneInPlace(rest, i + 1, machine, clock, timeout);
      PruneStaleStep(reports, reports[i], rest, r, machine, clock, timeout);
      r
    else PruneInPlace(reports, i + 1, machine, clock, timeout)
  }

  /** What survives pruning `rest`, the reports less one copy of the stale `x`, is what
      survives pruning `reports` itself. */
  lemma PruneStaleStep(reports: seq<Report>, x: Report, rest: seq<Report>, r: Result<seq<Report>>,
                       machine: Option<seq<string>>, clock: Clock, timeout: int)
    requires Stale(x, machine, clock, timeout)
    requires x in reports && rest == RemoveFirst(reports, x)
    requires r.Ok? ==> forall y :: y in rest && !Stale(y, machine, clock, timeout) ==>
      multiset(r.value)[y] == multiset(rest)[y]
    requires r.Err? ==> exists j :: 0 <= j < |rest| && Unparsable(rest[j], clock)
    ensures r.Ok? ==> forall y :: y in reports && !Stale(y, machine, clock, timeout) ==>
      multiset(r.value)[y] == multiset(reports)[y]
    ensures r.Err? ==> exists j :: 0 <= j < |reports| && Unparsable(reports[j], clock)
  {
    RemoveFirstOthers(reports, x);
    if r.Ok? {
      forall y | y in reports && !Stale(y, machine, clock, timeout)
        ensures multiset(r.value)[y] == multiset(reports)[y]
      {
        assert y != x;
        assert y in multiset(reports);
        assert y in rest;
      }
    } else {
      var j :| 0 <= j < |rest| && Unparsable(rest[j], clock);
      assert rest[j] in reports;
      var k :| 0 <= k < |reports| && reports[k] == rest[j];
    }
  }

  /** Removing the Pending report at `i` drops one report and keeps the settled ones. */
  lemma RemovePendingAt(reports: seq<Report>, i: nat)
    requires i < |reports| && reports[i].status == "Pending"
    ensures |RemoveFirst(reports, reports[i])| == |reports| - 1
    ensures multiset(RemoveFirst(reports, reports[i])) <= multiset(reports)
    ensures Filter(RemoveFirst(reports, reports[i]), Settled) == Filter(reports, Settled)
  {
    RemovePendingKeepsOthers(reports, reports[i]);
    RemoveFirstMultiset(reports, reports[i]);
  }

  /** A report that is not Pending. */
  predicate Settled(rep: Report) {
    rep.status != "Pending"
  }

  /** Removing a Pending report leaves the other reports as they were. */
  lemma {:induction false} RemovePendingKeepsOthers(reports: seq<Report>, x: Report)
    requires x.status == "Pending"
    ensures Filter(RemoveFirst(reports, x), Settled) == Filter(reports, Settled)
  {
    if |reports| > 0 {
      assert reports == [reports[0]] + reports[1..];
      FilterAppend([reports[0]], reports[1..], Settled);
      if reports[0] == x {
        assert Filter([reports[0]], Settled) == [] by {
          assert [reports[0]][1..] == [];
        }
      } else {
        RemovePendingKeepsOthers(reports[1..], x);
        assert RemoveFirst(reports, x) == [reports[0]] + RemoveFirst(reports[1..], x);
        FilterAppend([reports[0]], RemoveFirst(reports[1..], x), Settled);
      }
    }
  }

  /** `prune_pending(ticket, machine, timeout)` of sage_patchbot/util.py. */
  function PrunePending(t: Ticket, machine: Option<seq<string>>, clock: Clock, timeout: int)
    : (r: Result<seq<Report>>)
    ensures t.reports.None? ==> r == Ok([])
    ensures t.reports.Some? && r.Ok? ==> multiset(r.value) <= multiset(t.reports.value)
    ensures t.reports.Some? && r.Ok? ==> Filter(r.value, Settled) == Filter(t.reports.value, Settled)
    ensures t.reports.Some? && r.Ok? ==> forall x :: x in t.reports.value && !Stale(x, machine, clock, timeout) ==>
      multiset(r.value)[x] == multiset(t.reports.value)[x]
    ensures r.Err? ==>
      r.error == "ValueError" && t.reports.Some? &&
      exists j :: 0 <= j < |t.reports.value| && Unparsable(t.reports.value[j], clock)
  {
    match t.reports
    case None => Ok([])
    case Some(reports) => PruneInPlace(reports, 0, machine, clock, timeout)
  }

  /** Reference for the in-place loop on a list without repeated reports. A stale report
      is dropped, and the report after it, shifted into the examined position, is kept
      without being examined; any other report is kept. Examining a Pending report whose
      time does not parse raises. */
  function InPlaceRef(reports: seq<Report>, machine: Option<seq<string>>, clock: Clock, timeout: int)
    : Result<seq<Report>>
    decreases |reports|
  {
    if |reports| == 0 then Ok([])
    else if Unparsable(reports[0], clock) then Err("ValueError")
    else if Stale(reports[0], machine, clock, timeout) then
      if |reports| == 1 then Ok([])
      else
        var rest :- InPlaceRef(reports[2..], machine, clock, timeout);
        Ok([reports[1]] + rest)
    else
      var rest :- InPlaceRef(reports[1..], machine, clock, timeout);
      Ok([reports[0]] + rest)
  }

  /** `p` followed by a successful result, or the error. */
  function After(p: seq<Report>, r: Result<seq<Report>>): Result<seq<Report>> {
    if r.Ok? then Ok(p + r.value) else r
  }

  /** With the examined reports `p` all kept, the loop goes on as the reference does on
      the rest. */
  lemma {:induction false} PruneInPlaceFrom(p: seq<Report>, s: seq<Report>, machine: Option<seq<string>>,
                                            clock: Clock, timeout: int)
    requires NoDup(p + s)
    ensures PruneInPlace(p + s, |p|, machine, clock, timeout) == After(p, InPlaceRef(s, machine, clock, timeout))
    decreases |s|, 1
  {
    if |s| == 0 {
      AppendEmpty(p, s);
    } else if Unparsable(s[0], clock) {
      assert (p + s)[|p|] == s[0];
    } else if Stale(s[0], machine, clock, timeout) {
      FromStale(p, s, machine, clock, timeout);
    } else {
      FromKept(p, s, machine, clock, timeout);
    }
  }

  /** `PruneInPlaceFrom` when the next report is stale. */
  lemma {:induction false} FromStale(p: seq<Report>, s: seq<Report>, machine: Option<seq<string>>,
                                     clock: Clock, timeout: int)
    requires NoDup(p + s) && |s| > 0
    requires !Unparsable(s[0], clock) && Stale(s[0], machine, clock, timeout)
    ensures PruneInPlace(p + s, |p|, machine, clock, timeout) == After(p, InPlaceRef(s, machine, clock, timeout))
    decreases |s|, 0
  {
    NoDupSplit(p, s);
    StaleAt(p, s, machine, clock, timeout);
    if |s| == 1 {
      AppendEmpty(p, s[1..]);
    } else {
      ShiftPastNext(p, s);
      PruneInPlaceFrom(p + [s[1]], s[2..], machine, clock, timeout);
      AfterCons(p, s[1], InPlaceRef(s[2..], machine, clock, timeout));
    }
  }

  /** `PruneInPlaceFrom` when the next report is kept. */
  lemma {:induction false} FromKept(p: seq<Report>, s: seq<Report>, machine: Option<seq<string>>,
                                    clock: Clock, timeout: int)
    requires NoDup(p + s) && |s| > 0
    requires !Unparsable(s[0], clock) && !Stale(s[0], machine, clock, timeout)
    ensures PruneInPlace(p + s, |p|, machine, clock, timeout) == After(p, InPlaceRef(s, machine, clock, timeout))
    decreases |s|, 0
  {
    assert (p + s)[|p|] == s[0];
    PruneKeptUnfold(p + s, |p|, machine, clock, timeout);
    ShiftIntoPrefix(p, s);
    PruneInPlaceFrom(p + [s[0]], s[1..], machine, clock, timeout);
    AfterCons(p, s[0], InPlaceRef(s[1..], machine, clock, timeout));
  }

  /** One step of the loop past a report it keeps. */
  lemma PruneKeptUnfold(reports: seq<Report>, i: nat, machine: Option<seq<string>>, clock: Clock, timeout: int)
    requires i < |reports| && !Unparsable(reports[i], clock) && !Stale(reports[i], machine, clock, timeout)
    ensures PruneInPlace(reports, i, machine, clock, timeout) == PruneInPlace(reports, i + 1, machine, clock, timeout)
  {
  }

  /** Examining a stale report that the examined prefix does not hold removes exactly it. */
  lemma StaleAt(p: seq<Report>, s: seq<Report>, machine: Option<seq<string>>, clock: Clock, timeout: int)
    requires |s| > 0 && s[0] !in p
    requires !Unparsable(s[0], clock) && Stale(s[0], machine, clock, timeout)
    ensures PruneInPlace(p + s, |p|, machine, clock, timeout) == PruneInPlace(p + s[1..], |p| + 1, machine, clock, timeout)
  {
    assert (p + s)[|p|] == s[0];
    PruneStaleUnfold(p + s, |p|, machine, clock, timeout);
    RemoveFirstHead(p, s);
  }

  /** One stale step of the loop. */
  lemma PruneStaleUnfold(reports: seq<Report>, i: nat, machine: Option<seq<string>>, clock: Clock, timeout: int)
    requires i < |reports| && !Unparsable(reports[i], clock) && Stale(reports[i], machine, clock, timeout)
    ensures PruneInPlace(reports, i, machine, clock, timeout) ==
      PruneInPlace(RemoveFirst(reports, reports[i]), i + 1, machine, clock, timeout)
  {
  }

  /** In a list without repeats, the first element after `p` is not in `p`, and dropping
      it leaves a list without repeats. */
  lemma NoDupSplit<T>(p: seq<T>, s: seq<T>)
    requires NoDup(p + s) && |s| > 0
    ensures s[0] !in p && NoDup(p + s[1..])
  {
    assert (p + s)[|p|] == s[0];
    assert forall k :: 0 <= k < |p| ==> p[k] == (p + s)[k];
    assert (p + s)[..|p|] + (p + s)[|p| + 1..] == p + s[1..];
    NoDupRemoveAt(p + s, |p|);
  }

  /** Moving one kept report into the prefix. */
  lemma AfterCons(p: seq<Report>, x: Report, r: Result<seq<Report>>)
    ensures r.Ok? ==> After(p + [x], r) == After(p, Ok([x] + r.value))
    ensures r.Err? ==> After(p + [x], r) == r
  {
    if r.Ok? {
      assert (p + [x]) + r.value == p + ([x] + r.value);
    }
  }

  /** On a list without repeated reports, the in-place loop is the reference. */
  lemma PruneInPlaceIsRef(reports: seq<Report>, machine: Option<seq<string>>, clock: Clock, timeout: int)
    requires NoDup(reports)
    ensures PruneInPlace(reports, 0, machine, clock, timeout) == InPlaceRef(reports, machine, clock, timeout)
  {
    assert [] + reports == reports;
    PruneInPlaceFrom([], reports, machine, clock, timeout);
    var r := InPlaceRef(reports, machine, clock, timeout);
    if r.Ok? {
      assert [] + r.value == r.value;
    }
  }

  /** `prune_pending` on a ticket whose reports are all different is the reference. */
  lemma PrunePendingIsRef(t: Ticket, machine: Option<seq<string>>, clock: Clock, timeout: int)
    requires t.reports.Some? && NoDup(t.reports.value)
    ensures PrunePending(t, machine, clock, timeout) == InPlaceRef(t.reports.value, machine, clock, timeout)
  {
    PruneInPlaceIsRef(t.reports.value, machine, clock, timeout);
  }

  /** The loop over `list(reports)` of the server's and src/util.py's `prune_pending`:
      `cur` is the list being pruned, `rest` the part of the copy still to visit. */
  function PruneCopyLoop(cur: seq<Report>, rest: seq<Report>, machine: Option<seq<string>>,
                         clock: Clock, timeout: int): Result<seq<Report>>
    decreases |rest|
  {
    if |rest| == 0 then Ok(cur)
    else if Unparsable(rest[0], clock) then Err("ValueError")
    else if Stale(rest[0], machine, clock, timeout) then
      PruneCopyLoop(RemoveFirst(cur, rest[0]), rest[1..], machine, clock, timeout)
    else PruneCopyLoop(cur, rest[1..], machine, clock, timeout)
  }

  /** `prune_pending` iterating over a copy (the server's and src/util.py's). */
  function PruneCopy(reports: seq<Report>, machine: Option<seq<string>>, clock: Clock, timeout: int)
    : (r: Result<seq<Report>>)
    ensures r.Err? <==> exists i :: 0 <= i < |reports| && Unparsable(reports[i], clock)
    ensures r.Ok? ==> r.value == Fresh(reports, machine, clock, timeout)
  {
    assert [] + reports == reports;
    PruneCopyExact([], [], reports, machine, clock, timeout);
    PruneCopyLoop(reports, reports, machine, clock, timeout)
  }

  /** The reports that are not `Stale`, in order. */
  function Fresh(reports: seq<Report>, machine: Option<seq<string>>, clock: Clock, timeout: int)
    : (r: seq<Report>)
    ensures forall i :: 0 <= i < |r| ==> r[i] in reports && !Stale(r[i], machine, clock, timeout)
    ensures forall i :: 0 <= i < |reports| && !Stale(reports[i], machine, clock, timeout) ==>
      reports[i] in r
  {
    if |reports| == 0 then []
    else
      var rest := Fresh(reports[1..], machine, clock, timeout);
      assert forall i :: 0 < i < |reports| ==> reports[i] == reports[1..][i - 1];
      if Stale(reports[0], machine, clock, timeout) then rest else [reports[0]] + rest
  }

  lemma {:induction false} FreshAppend(a: seq<Report>, x: Report, machine: Option<seq<string>>,
                                       clock: Clock, timeout: int)
    ensures Fresh(a + [x], machine, clock, timeout) ==
      Fresh(a, machine, clock, timeout) + (if Stale(x, machine, clock, timeout) then [] else [x])
  {
    if |a| == 0 {
      assert a + [x] == [x] && [x][1..] == [];
    } else {
      assert (a + [x])[0] == a[0] && (a + [x])[1..] == a[1..] + [x];
      FreshAppend(a[1..], x, machine, clock, timeout);
    }
  }

  /** Invariant of the copy loop: the visited prefix is already filtered and the rest is
      untouched, because a stale report's first occurrence is in the untouched part. */
  lemma {:induction false} PruneCopyExact(cur: seq<Report>, done: seq<Report>, rest: seq<Report>,
                                          machine: Option<seq<string>>, clock: Clock, timeout: int)
    requires cur == Fresh(done, machine, clock, timeout)
    ensures var r := PruneCopyLoop(cur + rest, rest, machine, clock, timeout);
      (r.Err? <==> exists i :: 0 <= i < |rest| && Unparsable(rest[i], clock)) &&
      (r.Ok? ==> r.value == Fresh(done + rest, machine, clock, timeout))
    decreases |rest|
  {
    if |rest| == 0 {
      assert cur + rest == cur && done + rest == done;
    } else {
      var x := rest[0];
      var tail := rest[1..];
      assert rest == [x] + tail;
      if !Unparsable(x, clock) {
        PruneCopyFront(cur, done, x, tail, machine, clock, timeout);
        ConcatAssoc(done, [x], tail);
        PruneCopyExact(Fresh(done + [x], machine, clock, timeout), done + [x], tail, machine, clock, timeout);
      }
      UnparsableStep(rest, clock);
    }
  }

  /** One visited report: afterwards the list is the filtered longer prefix followed by
      the untouched rest. */
  lemma PruneCopyFront(cur: seq<Report>, done: seq<Report>, x: Report, tail: seq<Report>,
                       machine: Option<seq<string>>, clock: Clock, timeout: int)
    requires cur == Fresh(done, machine, clock, timeout) && !Unparsable(x, clock)
    ensures PruneCopyLoop(cur + ([x] + tail), [x] + tail, machine, clock, timeout) ==
      PruneCopyLoop(Fresh(done + [x], machine, clock, timeout) + tail, tail, machine, clock, timeout)
  {
    FreshAppend(done, x, machine, clock, timeout);
    if Stale(x, machine, clock, timeout) {
      assert Fresh(done + [x], machine, clock, timeout) == cur + [] == cur;
      assert x !in cur;
      StaleVisited(cur, x, tail, machine, clock, timeout);
    } else {
      assert Fresh(done + [x], machine, clock, timeout) == cur + [x];
      KeptVisited(cur, x, tail, machine, clock, timeout);
    }
  }

  /** A stale report not yet removed from the front part is removed where it stands. */
  lemma StaleVisited(cur: seq<Report>, x: Report, tail: seq<Report>,
                     machine: Option<seq<string>>, clock: Clock, timeout: int)
    requires x !in cur && !Unparsable(x, clock) && Stale(x, machine, clock, timeout)
    ensures PruneCopyLoop(cur + ([x] + tail), [x] + tail, machine, clock, timeout) ==
      PruneCopyLoop(cur + tail, tail, machine, clock, timeout)
  {
    var rest := [x] + tail;
    assert rest[0] == x && rest[1..] == tail;
    assert cur + rest == cur + [x] + tail;
    RemoveFirstAfter(cur, x, tail);
  }

  /** A report that is kept moves from the rest to the front part. */
  lemma KeptVisited(cur: seq<Report>, x: Report, tail: seq<Report>,
                    machine: Option<seq<string>>, clock: Clock, timeout: int)
    requires !Unparsable(x, clock) && !Stale(x, machine, clock, timeout)
    ensures PruneCopyLoop(cur + ([x] + tail), [x] + tail, machine, clock, timeout) ==
      PruneCopyLoop((cur + [x]) + tail, tail, machine, clock, timeout)
  {
    var rest := [x] + tail;
    assert rest[0] == x && rest[1..] == tail;
    assert cur + rest == (cur + [x]) + tail;
  }

  /** Some report is unparsable iff the first is or one of the rest is. */
  lemma UnparsableStep(rest: seq<Report>, clock: Clock)
    requires |rest| > 0
    ensures (exists i :: 0 <= i < |rest| && Unparsable(rest[i], clock)) <==>
      Unparsable(rest[0], clock) || exists i :: 0 <= i < |rest[1..]| && Unparsable(rest[1..][i], clock)
  {
    assert forall i :: 0 < i < |rest| ==> rest[i] == rest[1..][i - 1];
  }

  /** The loop over a copy removes every stale report, so none is left afterwards. */
  lemma PruneCopyRemovesAllStale(reports: seq<Report>, machine: Option<seq<string>>,
                                 clock: Clock, timeout: int)
    requires PruneCopy(reports, machine, clock, timeout).Ok?
    ensures forall rep :: rep in PruneCopy(reports, machine, clock, timeout).value ==>
      !Stale(rep, machine, clock, timeout)
  {
  }

  /** The in-place loop does not: of two Pending reports of the pruning machine in a
      row, the second is skipped and stays. */
  lemma PruneInPlaceSkipsNext(a: Report, b: Report, clock: Clock)
    requires a != b && a.status == "Pending" && b.status == "Pending"
    requires a.machine == b.machine
    requires clock.parse(a.time).Some? && clock.parse(b.time).Some?
    ensures PruneInPlace([a, b], 0, Some(a.machine), clock, PendingTimeout) == Ok([b])
    ensures Stale(b, Some(a.machine), clock, PendingTimeout)
  {
    var m := Some(a.machine);
    assert RemoveFirst([a, b], a) == [b];
    assert PruneInPlace([b], 1, m, clock, PendingTimeout) == Ok([b]);
    PruneStaleUnfold([a, b], 0, m, clock, PendingTimeout);
  }

  // ---- current_reports ----

  /** The `base` argument after `'latest'` has been resolved against the reports. */
  function ResolveBase(base: Option<string>, sorted: seq<Report>): (r: Option<string>)
    ensures base != Some("latest") ==> r == base
    ensures base == Some("latest") && |sorted| > 0 ==> r.Some? && exists i :: 0 <= i < |sorted| && r.value == sorted[i].base
  {
    if base == Some("latest") then
      var bases := seq(|sorted|, i requires 0 <= i < |sorted| => sorted[i].base);
      var r := LatestVersion(bases, false);
      assert r.Some? ==> r.value in bases;
      r
    else base
  }

  /** `base_ok`: no base, the same base, or (with `newer`) a report base at least as new. */
  predicate BaseOk(base: Option<string>, newer: bool, reportBase: string) {
    base.None? || base.value == "" || base.value == reportBase ||
    (newer && LexLe(Comparable(base.value, false), Comparable(reportBase, false), SegLt))
  }

  /** `filtre_fun` without the `first` part: the report is about the ticket's current
      branch, spkgs and dependencies, and on an acceptable base. */
  predicate Matches(t: Ticket, base: Option<string>, newer: bool, rep: Report) {
    t.gitCommit == rep.gitCommit && t.spkgs == rep.spkgs &&
    t.dependsOn == rep.deps.GetOr([]) && BaseOk(base, newer, rep.base)
  }

  /** The key reports are made unique by: `':'.join(report['machine'])`. */
  function MachineKey(rep: Report): string {
    Join(rep.machine, ":")
  }

  function ByTime(rep: Report): string {
    rep.time
  }

  /** The reports `Matches` accepts, in order. */
  function Matching(t: Ticket, sorted: seq<Report>, b: Option<string>, newer: bool): seq<Report> {
    Filter(sorted, (rep: Report) => Matches(t, b, newer, rep))
  }

  /** The filtering part of `current_reports`, over the reports already sorted by time
      and with the base already resolved. */
  function SelectReports(t: Ticket, sorted: seq<Report>, b: Option<string>, unique: bool, newer: bool)
    : (r: seq<Report>)
    requires SortedBy(sorted, ByTime, StrLt)
    ensures forall i :: 0 <= i < |r| ==> r[i] in sorted && BaseOk(b, newer, r[i].base)
    ensures t.id != 0 ==> forall i :: 0 <= i < |r| ==> Matches(t, b, newer, r[i])
    ensures unique && t.id != 0 ==>
      forall i, j :: 0 <= i < j < |r| ==> MachineKey(r[i]) != MachineKey(r[j])
    ensures SortedBy(r, ByTime, StrLt)
  {
    if t.id == 0 then
      FilterSorted(sorted, (rep: Report) => BaseOk(b, newer, rep.base), ByTime, StrLt);
      Filter(sorted, (rep: Report) => BaseOk(b, newer, rep.base))
    else
      var matching := Matching(t, sorted, b, newer);
      FilterSorted(sorted, (rep: Report) => Matches(t, b, newer, rep), ByTime, StrLt);
      if unique then
        FirstPerKeySorted(matching, MachineKey, {});
        FirstPerKey(matching, MachineKey, {})
      else matching
  }

  /** `current_reports(ticket, base, unique, newer)` of sage_patchbot/util.py. */
  function CurrentReports(t: Ticket, base: Option<string>, unique: bool, newer: bool)
    : (r: Result<seq<Report>>)
    ensures r.Err? <==> newer && (base.None? || base.value == "")
    ensures r.Ok? && t.reports.None? ==> r.value == []
    ensures r.Ok? && t.reports.Some? ==> forall i :: 0 <= i < |r.value| ==> r.value[i] in t.reports.value
    ensures r.Ok? && t.id != 0 ==> forall i :: 0 <= i < |r.value| ==> t.gitCommit == r.value[i].gitCommit
    ensures r.Ok? && t.reports.Some? ==>
      var b := ResolveBase(base, SortBy(t.reports.value, ByTime, StrLt));
      && (forall i :: 0 <= i < |r.value| ==> BaseOk(b, newer, r.value[i].base))
      && (t.id != 0 ==> forall i :: 0 <= i < |r.value| ==> Matches(t, b, newer, r.value[i]))
    ensures r.Ok? && unique && t.id != 0 ==>
      forall i, j :: 0 <= i < j < |r.value| ==> MachineKey(r.value[i]) != MachineKey(r.value[j])
    ensures r.Ok? ==> SortedBy(r.value, ByTime, StrLt)
  {
    if newer && (base.None? || base.value == "") then Err("ValueError")
    else if t.reports.None? then Ok([])
    else Ok(CurrentOf(t, t.reports.value, base, unique, newer))
  }

  /** `current_reports` once the ticket is known to have the reports `reports`. */
  function CurrentOf(t: Ticket, reports: seq<Report>, base: Option<string>, unique: bool, newer: bool)
    : (r: seq<Report>)
    ensures forall i :: 0 <= i < |r| ==> r[i] in reports
    ensures t.id != 0 ==> forall i :: 0 <= i < |r| ==> t.gitCommit == r[i].gitCommit
    ensures var b := ResolveBase(base, SortBy(reports, ByTime, StrLt));
      && (forall i :: 0 <= i < |r| ==> BaseOk(b, newer, r[i].base))
      && (t.id != 0 ==> forall i :: 0 <= i < |r| ==> Matches(t, b, newer, r[i]))
    ensures unique && t.id != 0 ==> forall i, j :: 0 <= i < j < |r| ==> MachineKey(r[i]) != MachineKey(r[j])
    ensures SortedBy(r, ByTime, StrLt)
  {
    var sorted := SortBy(reports, ByTime, StrLt);
    StrLtIsStrictTotal();
    SortBySorted(reports, ByTime, StrLt);
    SortedMembers(reports);
    SelectReports(t, sorted, ResolveBase(base, sorted), unique, newer)
  }

  lemma SortedMembers(reports: seq<Report>)
    ensures forall x :: x in SortBy(reports, ByTime, StrLt) ==> x in reports
  {
    forall x | x in SortBy(reports, ByTime, StrLt)
      ensures x in reports
    {
      assert x in multiset(SortBy(reports, ByTime, StrLt));
    }
  }

  /** The unique selection keeps the order of the reports it keeps. */
  lemma FirstPerKeySorted(xs: seq<Report>, key: Report -> string, seen: set<string>)
    requires SortedBy(xs, ByTime, StrLt)
    ensures SortedBy(FirstPerKey(xs, key, seen), ByTime, StrLt)
    decreases |xs|
  {
    if |xs| > 0 {
      var seen' := if key(xs[0]) in seen then seen else seen + {key(xs[0])};
      FirstPerKeySorted(xs[1..], key, seen');
      var r' := FirstPerKey(xs[1..], key, seen');
      forall j | 0 <= j < |r'|
        ensures !StrLt(ByTime(r'[j]), ByTime(xs[0]))
      {
        var k :| 0 <= k < |xs[1..]| && xs[1..][k] == r'[j];
        assert xs[k + 1] == r'[j];
      }
    }
  }

  /** Without `unique`, every matching report of a ticket other than 0 is returned. */
  lemma CurrentReportsComplete(t: Ticket, base: Option<string>, newer: bool, rep: Report)
    requires t.id != 0 && t.reports.Some? && rep in t.reports.value
    requires !newer || (base.Some? && base.value != "")
    requires Matches(t, ResolveBase(base, SortBy(t.reports.value, ByTime, StrLt)), newer, rep)
    ensures CurrentReports(t, base, false, newer).Ok?
    ensures rep in CurrentReports(t, base, false, newer).value
  {
    var sorted := SortBy(t.reports.value, ByTime, StrLt);
    assert rep in multiset(sorted);
    var i :| 0 <= i < |sorted| && sorted[i] == rep;
    StrLtIsStrictTotal();
    SortBySorted(t.reports.value, ByTime, StrLt);
  }

  /** Ticket 0 keeps every report on an acceptable base, whatever `unique` says: its
      branch neither matches the branch nor makes the machines unique. */
  lemma CurrentReportsTicketZero(t: Ticket, base: Option<string>, unique: bool, newer: bool, rep: Report)
    requires t.id == 0 && t.reports.Some? && rep in t.reports.value
    requires !newer || (base.Some? && base.value != "")
    requires BaseOk(ResolveBase(base, SortBy(t.reports.value, ByTime, StrLt)), newer, rep.base)
    ensures CurrentReports(t, base, unique, newer).Ok?
    ensures rep in CurrentReports(t, base, unique, newer).value
  {
    var sorted := SortBy(t.reports.value, ByTime, StrLt);
    assert rep in multiset(sorted);
    var i :| 0 <= i < |sorted| && sorted[i] == rep;
    StrLtIsStrictTotal();
    SortBySorted(t.reports.value, ByTime, StrLt);
  }

  /** For ticket 0 the `unique` flag changes nothing. */
  lemma TicketZeroIgnoresUnique(t: Ticket, base: Option<string>, newer: bool)
    requires t.id == 0
    ensures CurrentReports(t, base, true, newer) == CurrentReports(t, base, false, newer)
  {
  }

  /** With `unique`, each kept report is the earliest (by time, then by position) matching
      report of its machine, and every machine with a matching report keeps one. */
  lemma CurrentReportsUnique(t: Ticket, base: Option<string>, newer: bool)
    requires t.id != 0 && t.reports.Some?
    requires !newer || (base.Some? && base.value != "")
    ensures var sorted := SortBy(t.reports.value, ByTime, StrLt);
      var matching := Matching(t, sorted, ResolveBase(base, sorted), newer);
      var r := CurrentReports(t, base, true, newer).value;
      (forall i :: 0 <= i < |r| ==> FirstWithKey(matching, MachineKey, r[i])) &&
      (forall i :: 0 <= i < |matching| ==> exists j :: 0 <= j < |r| && MachineKey(r[j]) == MachineKey(matching[i]))
  {
    var sorted := SortBy(t.reports.value, ByTime, StrLt);
    var matching := Matching(t, sorted, ResolveBase(base, sorted), newer);
    assert CurrentReports(t, base, true, newer).value == FirstPerKey(matching, MachineKey, {});
    FirstPerKeyExact(matching, MachineKey);
  }

  /** `current_reports` of src/util.py: the same, except that the ticket-0 branch names
      an undefined variable and raises `NameError` as soon as there is a report to test. */
  function LegacyCurrentReports(t: Ticket, base: Option<string>, unique: bool, newer: bool)
    : (r: Result<seq<Report>>)
    ensures t.id != 0 ==> r == CurrentReports(t, base, unique, newer)
    ensures t.id == 0 && t.reports.Some? && |t.reports.value| > 0 && !(newer && (base.None? || base.value == "")) ==>
      r == Err("NameError")
  {
    if newer && (base.None? || base.value == "") then Err("ValueError")
    else if t.reports.None? then Ok([])
    else if t.id == 0 then
      if |t.reports.value| == 0 then Ok([]) else Err("NameError")
    else CurrentReports(t, base, unique, newer)
  }
}

=== FILE: selection.dfy ===
/** How a patchbot client decides what to do next (sage_patchbot/patchbot.py):
    `compare_machines`, the rating of one ticket, the pick of the best-rated ticket,
    the window of running hours, and the plugins the configuration asks for. Git's
    `rev-list` counts, the clock and the server's ticket list are parameters. */
module Selection {
  import opened Wrappers
  import opened Strings
  import opened Lex
  import opened Seqs
  import opened Reports
  import opened Skips

  // ---- compare_machines ----

  /** Python's `xs[:k]`: a negative `k` counts from the end, both directions clamp. */
  function PyHead<T>(xs: seq<T>, k: int): (r: seq<T>)
    ensures r <= xs
    ensures 0 <= k ==> |r| == if k <= |xs| then k else |xs|
    ensures k < 0 ==> |r| == if |xs| + k >= 0 then |xs| + k else 0
  {
    var end := if k >= 0 then (if k <= |xs| then k else |xs|) else (if |xs| + k >= 0 then |xs| + k else 0);
    xs[..end]
  }

  /** The part of a machine description `compare_machines` looks at. */
  function Truncate(machine: seq<string>, machineMatch: Option<int>): seq<string> {
    match machineMatch
    case None => machine
    case Some(k) => PyHead(machine, k)
  }

  /** `[x != y for x, y in zip(a, b)]`, with `True` written 1 and `False` 0. */
  function Diffs(a: seq<string>, b: seq<string>): (r: seq<int>)
    ensures |r| == if |a| <= |b| then |a| else |b|
    ensures forall i :: 0 <= i < |r| ==> (r[i] == 0 <==> a[i] == b[i]) && (r[i] == 1 <==> a[i] != b[i])
  {
    if |a| == 0 || |b| == 0 then []
    else [if a[0] != b[0] then 1 else 0] + Diffs(a[1..], b[1..])
  }

  /** `compare_machines(a, b, machine_match)`: one entry per position both (truncated)
      machines have, 1 where they differ, and one more 1 when their lengths differ. */
  function CompareMachines(a: seq<string>, b: seq<string>, machineMatch: Option<int>): (r: seq<int>)
    ensures var x := Truncate(a, machineMatch); var y := Truncate(b, machineMatch);
      |r| == (if |x| <= |y| then |x| else |y|) + (if |x| != |y| then 1 else 0)
    ensures forall i :: 0 <= i < |r| ==> r[i] == 0 || r[i] == 1
  {
    var x := Truncate(a, machineMatch);
    var y := Truncate(b, machineMatch);
    Diffs(x, y) + (if |x| != |y| then [1] else [])
  }

  /** `not any(xs)`. */
  predicate AllZero(xs: seq<int>) {
    forall i :: 0 <= i < |xs| ==> xs[i] == 0
  }

  /** Two machines count as the same exactly when their truncated descriptions are equal. */
  lemma CompareMachinesSame(a: seq<string>, b: seq<string>, machineMatch: Option<int>)
    ensures AllZero(CompareMachines(a, b, machineMatch)) <==> Truncate(a, machineMatch) == Truncate(b, machineMatch)
  {
    var x := Truncate(a, machineMatch);
    var y := Truncate(b, machineMatch);
    var r := CompareMachines(a, b, machineMatch);
    var d := Diffs(x, y);
    assert r[..|d|] == d;
    assert |x| != |y| ==> r[|r| - 1] == 1;
    if AllZero(r) {
      assert |x| == |y|;
      forall i | 0 <= i < |x|
        ensures x[i] == y[i]
      {
        assert d[i] == r[i];
      }
    }
  }

  // ---- the running-hours window ----

  /** One allowed range of hours; `17` alone stands for `17-18`. */
  datatype Interval = Interval(start: int, end: int)

  /** `parse_interval`: `"a-b"` or a single hour `"h"`, around optional whitespace. A
      second '-' breaks the two-name unpacking and a non-number breaks `float`; both
      raise `ValueError`. */
  function ParseInterval(ss: string): (r: Result<Interval>)
    ensures r.Ok? && '-' !in Strip(ss) ==> PyInt(Strip(ss)) == Some(r.value.start) && r.value.end == r.value.start + 1
    ensures r.Ok? && '-' in Strip(ss) ==>
      |Split(Strip(ss), "-")| == 2 &&
      PyInt(Split(Strip(ss), "-")[0]) == Some(r.value.start) && PyInt(Split(Strip(ss), "-")[1]) == Some(r.value.end)
    ensures r.Err? ==> r.error == "ValueError"
  {
    var t := Strip(ss);
    if '-' in t then
      var parts := Split(t, "-");
      if |parts| != 2 then Err("ValueError")
      else match (PyInt(parts[0]), PyInt(parts[1]))
        case (Some(a), Some(b)) => Ok(Interval(a, b))
        case _ => Err("ValueError")
    else
      match PyInt(t)
      case Some(h) => Ok(Interval(h, h + 1))
      case None => Err("ValueError")
  }

  /** `parse_time_of_day`: the comma-separated intervals, all parsed before any is used. */
  function ParseTimeOfDay(s: string): (r: Result<seq<Interval>>)
    ensures r.Err? ==> exists i :: 0 <= i < |Split(s, ",")| && ParseInterval(Split(s, ",")[i]).Err?
    ensures r.Err? <== exists i :: 0 <= i < |Split(s, ",")| && ParseInterval(Split(s, ",")[i]).Err?
    ensures r.Ok? ==> |r.value| == |Split(s, ",")|
    ensures r.Ok? ==> forall i :: 0 <= i < |r.value| ==> ParseInterval(Split(s, ",")[i]) == Ok(r.value[i])
  {
    ParseAll(Split(s, ","), ParseInterval)
  }

  /** A list comprehension over a parser: the first piece that does not parse raises. */
  function ParseAll<T>(pieces: seq<string>, parse: string -> Result<T>): (r: Result<seq<T>>)
    ensures r.Err? <==> exists i :: 0 <= i < |pieces| && parse(pieces[i]).Err?
    ensures r.Ok? ==> |r.value| == |pieces|
    ensures r.Ok? ==> forall i :: 0 <= i < |r.value| ==> parse(pieces[i]) == Ok(r.value[i])
  {
    if |pieces| == 0 then Ok([])
    else
      assert forall i :: 0 < i < |pieces| ==> pieces[i] == pieces[1..][i - 1];
      match parse(pieces[0])
      case Err(e) => Err(e)
      case Ok(first) =>
        match ParseAll(pieces[1..], parse)
        case Err(e) =>
          var i :| 0 <= i < |pieces[1..]| && parse(pieces[1..][i]).Err?;
          assert parse(pieces[i + 1]).Err?;
          Err(e)
        case Ok(rest) => Ok([first] + rest)
  }

  /** A single piece parses to the one-element list of its value. */
  lemma ParseAllOne<T>(piece: string, v: T, parse: string -> Result<T>)
    requires parse(piece) == Ok(v)
    ensures ParseAll([piece], parse) == Ok([v])
  {
    assert [piece][0] == piece;
    assert [piece][1..] == [];
    assert ParseAll([], parse) == Ok([]);
    assert [v] + [] == [v];
  }

  /** The test `check_time_of_day` applies to one interval, at `minute` minutes past
      midnight; the source's `hour + minute / 60` is compared with whole hours, which is
      the same as comparing minutes with `60 *` those hours. */
  predicate Allows(iv: Interval, minute: int) {
    if iv.start < iv.end then 60 * iv.start <= minute <= 60 * iv.end
    else minute <= 60 * iv.end || 60 * iv.start <= minute
  }

  /** The loop of `check_time_of_day`: `True` at the first interval that allows the time. */
  function AnyAllows(ivs: seq<Interval>, minute: int): (r: bool)
    ensures r <==> exists i :: 0 <= i < |ivs| && Allows(ivs[i], minute)
  {
    if |ivs| == 0 then false
    else if Allows(ivs[0], minute) then true
    else
      assert forall i :: 0 < i < |ivs| ==> ivs[i] == ivs[1..][i - 1];
      AnyAllows(ivs[1..], minute)
  }

  /** `check_time_of_day(hours)` at `minute` minutes past midnight, local time. */
  function CheckTimeOfDay(hours: string, minute: int): (r: Result<bool>)
    ensures r.Err? <==> ParseTimeOfDay(hours).Err?
    ensures r == Ok(true) <==> (ParseTimeOfDay(hours).Ok? &&
      exists i :: 0 <= i < |ParseTimeOfDay(hours).value| && Allows(ParseTimeOfDay(hours).value[i], minute))
  {
    var ivs :- ParseTimeOfDay(hours);
    Ok(AnyAllows(ivs, minute))
  }

  /** A window whose end is its start, such as the default `"0-0"`, is open all day. */
  lemma SameEndsAlwaysOpen(h: nat, minute: int)
    ensures CheckTimeOfDay(NatToString(h) + "-" + NatToString(h), minute) == Ok(true)
  {
    var t := NatToString(h) + "-" + NatToString(h);
    SameEndsParse(h);
    OneWindow(t, Interval(h, h));
    assert Allows(ParseTimeOfDay(t).value[0], minute);
  }

  /** "h-h" is one window from h to h. */
  lemma SameEndsParse(h: nat)
    ensures var t := NatToString(h) + "-" + NatToString(h);
      ',' !in t && ParseInterval(t) == Ok(Interval(h, h))
  {
    var x := NatToString(h);
    var t := x + "-" + x;
    DigitsText(x, t);
    StripNoSpace(t);
    assert Split(t, "-") == [x, x] by {
      SplitCharAppend(x, '-', x);
      SplitNoSep(x, '-');
      assert x + ['-'] + x == t;
    }
    PyIntOfNatString(h);
    ParseRange(t, x, x, h, h);
  }

  lemma DigitsText(x: string, t: string)
    requires AllDigits(x) && t == x + "-" + x
    ensures '-' !in x && '-' in t
    ensures forall i :: 0 <= i < |t| ==> !IsSpace(t[i]) && t[i] != ','
  {
    assert forall i :: 0 <= i < |x| ==> IsDigit(x[i]);
    assert t[|x|] == '-';
  }

  /** The default setting `"0-0"`. */
  lemma DefaultWindowAlwaysOpen(minute: int)
    ensures CheckTimeOfDay("0-0", minute) == Ok(true)
  {
    ZeroZeroText();
    SameEndsAlwaysOpen(0, minute);
  }

  lemma ZeroZeroText()
    ensures NatToString(0) + "-" + NatToString(0) == "0-0"
  {
  }

  /** Text without a comma is a single window. */
  lemma OneWindow(hours: string, iv: Interval)
    requires ',' !in hours && ParseInterval(hours) == Ok(iv)
    ensures ParseTimeOfDay(hours) == Ok([iv])
  {
    SplitNoSep(hours, ',');
    ParseAllOne(hours, iv, ParseInterval);
  }

  /** A stripped `"a-b"` with two numbers is the window from `a` to `b`. */
  lemma ParseRange(t: string, x: string, y: string, a: int, b: int)
    requires Strip(t) == t && '-' in t && Split(t, "-") == [x, y]
    requires PyInt(x) == Some(a) && PyInt(y) == Some(b)
    ensures ParseInterval(t) == Ok(Interval(a, b))
  {
  }

  /** A window of a single hour `"h"` runs from `h` to `h + 1`. */
  lemma SingleHourWindow(h: nat)
    ensures ParseInterval(NatToString(h)) == Ok(Interval(h, h + 1))
  {
    var t := NatToString(h);
    StripNoSpace(t);
    PyIntOfNatString(h);
    assert forall i :: 0 <= i < |t| ==> IsDigit(t[i]);
    ParsePlainNumber(t, h);
  }

  /** A stripped number without '-' is the one-hour window it starts. */
  lemma ParsePlainNumber(t: string, h: int)
    requires Strip(t) == t && PyInt(t) == Some(h) && '-' !in t
    ensures ParseInterval(t) == Ok(Interval(h, h + 1))
  {
  }

  /** Text without whitespace is its own strip. */
  lemma StripNoSpace(s: string)
    requires forall i :: 0 <= i < |s| ==> !IsSpace(s[i])
    ensures Strip(s) == s
  {
    assert LStrip(s) == s;
    assert RStrip(s) == s;
  }

  // ---- the plugin list of get_local_config ----

  /** The plugins the package ships, in the order they run (sage_patchbot/plugins.py). */
  const PluginsAvailable: seq<string> := [
    "commit_messages", "coverage", "deprecation_number", "doctest_continuation",
    "foreign_latex", "python3_pyx", "python3", "pyflakes", "pycodestyle", "blocks",
    "triple_colon", "trac_links", "trailing_whitespace", "startup_time",
    "startup_modules", "docbuild", "docbuild_pdf", "git_rev_list"]

  /** `name.split('.')[-1]`: `plugins.X` and `X` name the same plugin. */
  function LastPiece(name: string): (r: string)
    ensures '.' !in r
    ensures '.' !in name ==> r == name
  {
    var pieces := Split(name, ".");
    assert '.' !in name ==> pieces == [name] by {
      if '.' !in name {
        SplitNoSep(name, '.');
      }
    }
    assert !Contains(pieces[|pieces| - 1], ".");
    assert '.' !in pieces[|pieces| - 1] by {
      if '.' in pieces[|pieces| - 1] {
        var i :| 0 <= i < |pieces[|pieces| - 1]| && pieces[|pieces| - 1][i] == '.';
        assert OccursAt(pieces[|pieces| - 1], ".", i);
      }
    }
    pieces[|pieces| - 1]
  }

  /** The set of plugin names: `(plugins | enabled) - disabled` on the names as given,
      cut to their last piece, plus `docbuild` unless only plugins are run. */
  function PluginNames(plugins: seq<string>, enabled: seq<string>, disabled: seq<string>, pluginOnly: bool)
    : (r: set<string>)
    ensures forall name :: name in r <==>
      (name == "docbuild" && !pluginOnly) || Selected(plugins, enabled, disabled, name)
  {
    var raw := (set x | x in plugins) + (set x | x in enabled) - (set x | x in disabled);
    var cut := set x | x in raw :: LastPiece(x);
    assert forall name :: name in cut <==> Selected(plugins, enabled, disabled, name) by {
      forall name
        ensures name in cut <==> Selected(plugins, enabled, disabled, name)
      {
        if Selected(plugins, enabled, disabled, name) {
          var x :| (x in plugins || x in enabled) && x !in disabled && LastPiece(x) == name;
          assert x in raw;
        }
      }
    }
    if pluginOnly then cut else cut + {"docbuild"}
  }

  /** Some requested, non-disabled name (as written in the configuration) cuts to `name`. */
  ghost predicate Selected(plugins: seq<string>, enabled: seq<string>, disabled: seq<string>, name: string) {
    exists x :: (x in plugins || x in enabled) && x !in disabled && LastPiece(x) == name
  }

  /** The `plugins` entry of `get_local_config`: the plugins of `available` (the
      package's `PluginsAvailable`) that are asked for, in that order. */
  function PluginList(available: seq<string>, plugins: seq<string>, enabled: seq<string>,
                      disabled: seq<string>, pluginOnly: bool): (r: seq<string>)
    ensures forall name :: name in r <==> name in available && name in PluginNames(plugins, enabled, disabled, pluginOnly)
  {
    var names := PluginNames(plugins, enabled, disabled, pluginOnly);
    FilterMembers(available, (p: string) => p in names);
    Filter(available, (p: string) => p in names)
  }

  /** The documentation build runs whenever the patchbot does more than plugins, even
      when the configuration disables it. */
  lemma DocbuildIsMandatory(plugins: seq<string>, enabled: seq<string>, disabled: seq<string>)
    ensures "docbuild" in PluginList(PluginsAvailable, plugins, enabled, disabled, false)
  {
    assert PluginsAvailable[15] == "docbuild";
  }

  /** A plugin disabled under every spelling it was asked for under does not run. */
  lemma DisabledPluginSkipped(available: seq<string>, plugins: seq<string>, enabled: seq<string>,
                              disabled: seq<string>, name: string)
    requires name != "docbuild"
    requires forall x :: (x in plugins || x in enabled) && LastPiece(x) == name ==> x in disabled
    ensures name !in PluginList(available, plugins, enabled, disabled, false)
  {
  }

  // ---- rate_ticket ----

  /** A rating: the base ticket 0's `((100), 100, 0)`, whose first component is an int
      rather than a tuple, or `(uniqueness, rating, -id)` for any other ticket. */
  datatype Rating = BaseRating | Rated(uniqueness: seq<int>, score: int, negId: int)

  /** A ticket as the server lists it: its report bookkeeping and the trac fields the
      rating reads. An absent `git_branch`, `component` or `authors_fullnames` is `None`. */
  datatype Candidate = Candidate(
    ticket: Ticket,
    gitBranch: Option<string>,
    status: string,
    milestone: string,
    authorsFullnames: Option<seq<string>>,
    authors: seq<string>,
    participants: seq<string>,
    component: Option<string>,
    priority: string)

  /** The configuration the rating reads: bonuses, trusted authors, this machine, how
      much of a machine description to compare, and the Sage version tested against. */
  datatype BotConfig = BotConfig(
    bonus: map<string, int>,
    trusted: set<string>,
    machine: seq<string>,
    machineMatch: Option<int>,
    base: string)

  const ReviewStatuses: seq<string> := ["needs_review", "positive_review", "needs_info", "needs_work"]

  const ExcludedMilestones: seq<string> :=
    ["sage-duplicate/invalid/wontfix", "sage-feature", "sage-pending", "sage-wishlist"]

  /** `bonus.get(key, 0)`. */
  function Bonus(cfg: BotConfig, key: string): int {
    if key in cfg.bonus then cfg.bonus[key] else 0
  }

  /** The reasons `rate_ticket` gives up on a ticket before looking at its reports. */
  predicate Untestable(c: Candidate, cfg: BotConfig)
    ensures !Untestable(c, cfg) ==>
      && c.gitBranch.Some? && c.ticket.gitCommit.Some? && c.ticket.gitCommit.value != "unknown"
      && c.authorsFullnames.Some? && |c.authorsFullnames.value| > 0
      && forall i :: 0 <= i < |c.authorsFullnames.value| ==> c.authorsFullnames.value[i] in cfg.trusted
  {
    || c.gitBranch.None? || c.gitBranch.value == ""
    || c.status !in ReviewStatuses
    || c.milestone in ExcludedMilestones
    || c.ticket.gitCommit.None? || c.ticket.gitCommit.value == "unknown"
    || c.authorsFullnames.None? || |c.authorsFullnames.value| == 0
    || (exists i :: 0 <= i < |c.authorsFullnames.value| && c.authorsFullnames.value[i] !in cfg.trusted)
  }

  /** The sum of the bonuses of a list of names. */
  function BonusSum(cfg: BotConfig, names: seq<string>): (r: int)
    ensures (forall i :: 0 <= i < |names| ==> Bonus(cfg, names[i]) == 0) ==> r == 0
    ensures (forall i :: 0 <= i < |names| ==> Bonus(cfg, names[i]) >= 0) ==> r >= 0
  {
    if |names| == 0 then 0 else Bonus(cfg, names[0]) + BonusSum(cfg, names[1..])
  }

  /** The rating before the reports are scanned: authors twice (by full name and by
      trac name), participants, component, status, priority and the ticket number. */
  function BaseScore(c: Candidate, cfg: BotConfig): (r: int)
    requires c.authorsFullnames.Some?
    ensures (forall k :: k in cfg.bonus ==> cfg.bonus[k] == 0) ==> r == 0
    ensures (forall k :: k in cfg.bonus ==> cfg.bonus[k] >= 0) ==> r >= 0
  {
    2 * BonusSum(cfg, c.authorsFullnames.value) + 2 * BonusSum(cfg, c.authors) +
    BonusSum(cfg, c.participants) + (if c.component.Some? then Bonus(cfg, c.component.value) else 0) +
    Bonus(cfg, c.status) + Bonus(cfg, c.priority) + Bonus(cfg, IntToString(c.ticket.id))
  }

  /** The uniqueness tuple of one report: its machine compared with ours, turned into
      `(0, 0, 0, 0, 1)` when the machines agree but the report's base differs from ours
      by `onlyInBase` commits. */
  function ReportUniqueness(rep: Report, cfg: BotConfig, onlyInBase: int): (r: seq<int>)
    ensures forall i :: 0 <= i < |r| ==> r[i] == 0 || r[i] == 1
    ensures AllZero(r) <==> onlyInBase == 0 && Truncate(rep.machine, cfg.machineMatch) == Truncate(cfg.machine, cfg.machineMatch)
  {
    var diff := CompareMachines(rep.machine, cfg.machine, cfg.machineMatch);
    CompareMachinesSame(rep.machine, cfg.machine, cfg.machineMatch);
    if onlyInBase != 0 && AllZero(diff) then
      var r := [0, 0, 0, 0, 1];
      assert r[4] == 1;
      r
    else diff
  }

  /** The state of the report loop: the uniqueness so far, the rating so far, and the
      last `only_in_base` computed (`None` before any). */
  datatype Scan = Scan(uniqueness: seq<int>, score: int, onlyInBase: Option<int>)

  /** The report has a truthy `git_base`. */
  predicate HasBase(rep: Report) {
    rep.gitBase.Some? && rep.gitBase.value != ""
  }

  /** Every entry is at least 0. */
  predicate NonNeg(xs: seq<int>) {
    forall i :: 0 <= i < |xs| ==> xs[i] >= 0
  }

  /** One pass of the report loop. `behind(b)` is `git rev-list --count b..patchbot/base`,
      -1 when `b` is not in the local repository. A report without a base reuses the
      previous report's count; before any there is none, and Python raises
      `UnboundLocalError`. `bonus['behind']` is looked up without a default. */
  function ScanOne(rep: Report, cfg: BotConfig, behind: string -> int, s: Scan): (r: Result<Scan>)
    ensures r.Err? <==> (HasBase(rep) && "behind" !in cfg.bonus) || (!HasBase(rep) && s.onlyInBase.None?)
    ensures r.Ok? ==> r.value.onlyInBase.Some?
    ensures r.Ok? ==>
      var ru := ReportUniqueness(rep, cfg, r.value.onlyInBase.value);
      && LexLe(r.value.uniqueness, s.uniqueness, IntLt)
      && LexLe(r.value.uniqueness, ru, IntLt)
      && (r.value.uniqueness == s.uniqueness || r.value.uniqueness == ru)
    ensures r.Ok? ==> r.value.onlyInBase == if HasBase(rep) then Some(behind(rep.gitBase.value)) else s.onlyInBase
  {
    if HasBase(rep) && "behind" !in cfg.bonus then Err("KeyError")
    else
      var only := if HasBase(rep) then Some(behind(rep.gitBase.value)) else s.onlyInBase;
      if only.None? then Err("UnboundLocalError")
      else
        var score := if HasBase(rep) then s.score + cfg.bonus["behind"] * only.value else s.score;
        var ru := ReportUniqueness(rep, cfg, only.value);
        IntsLtTotal(ru, s.uniqueness);
        var u := if IntsLt(ru, s.uniqueness) then ru else s.uniqueness;
        var applies := if rep.status != "ApplyFailed" then Bonus(cfg, "applies") else 0;
        Ok(Scan(u, score + applies - Bonus(cfg, "unique"), only))
  }

  /** The report loop of `rate_ticket`, over the ticket's current reports. */
  function ScanReports(reports: seq<Report>, cfg: BotConfig, behind: string -> int, s: Scan): (r: Result<Scan>)
    ensures r.Ok? ==> LexLe(r.value.uniqueness, s.uniqueness, IntLt)
    ensures r.Ok? && NonNeg(s.uniqueness) ==> NonNeg(r.value.uniqueness)
    decreases |reports|
  {
    if |reports| == 0 then Ok(s)
    else
      var next :- ScanOne(reports[0], cfg, behind, s);
      var r := ScanReports(reports[1..], cfg, behind, next);
      assert r.Ok? ==> LexLe(r.value.uniqueness, s.uniqueness, IntLt) by {
        if r.Ok? {
          LexLeTransitive(r.value.uniqueness, next.uniqueness, s.uniqueness);
        }
      }
      r
  }

  lemma LexLeTransitive(a: seq<int>, b: seq<int>, c: seq<int>)
    requires LexLe(a, b, IntLt) && LexLe(b, c, IntLt)
    ensures LexLe(a, c, IntLt)
  {
    if a != b && b != c {
      IntsLtTransitive(a, b, c);
    }
  }

  /** A list no greater than a list of zeros, with no negative entry, is all zeros. */
  lemma {:induction false} BelowZeros(a: seq<int>, z: seq<int>)
    requires AllZero(z) && NonNeg(a) && LexLe(a, z, IntLt)
    ensures AllZero(a)
  {
    if |a| > 0 && a != z {
      assert |z| > 0 && a[0] == z[0];
      assert a == [a[0]] + a[1..] && z == [z[0]] + z[1..];
      BelowZeros(a[1..], z[1..]);
    }
  }

  /** What one report adds to the rating, independently of the reports before it: the
      `behind` bonus times its own count when it has a base, the `applies` bonus unless
      it failed to apply, less the `unique` bonus. */
  function ReportScore(rep: Report, cfg: BotConfig, behind: string -> int): int {
    (if HasBase(rep) then Bonus(cfg, "behind") * behind(rep.gitBase.value) else 0) +
    (if rep.status != "ApplyFailed" then Bonus(cfg, "applies") else 0) - Bonus(cfg, "unique")
  }

  /** Reference definition: the sum of what each report adds. */
  function ScoreSum(reports: seq<Report>, cfg: BotConfig, behind: string -> int): int {
    if |reports| == 0 then 0 else ReportScore(reports[0], cfg, behind) + ScoreSum(reports[1..], cfg, behind)
  }

  /** The report loop adds exactly the sum of what each report adds: the `only_in_base`
      carried over from an earlier report changes the uniqueness, never the score. */
  lemma {:induction false} ScanScore(reports: seq<Report>, cfg: BotConfig, behind: string -> int, s: Scan)
    ensures ScanReports(reports, cfg, behind, s).Ok? ==>
      ScanReports(reports, cfg, behind, s).value.score == s.score + ScoreSum(reports, cfg, behind)
  {
    if |reports| > 0 && ScanReports(reports, cfg, behind, s).Ok? {
      var next := ScanOne(reports[0], cfg, behind, s).value;
      assert next.score == s.score + ReportScore(reports[0], cfg, behind);
      ScanScore(reports[1..], cfg, behind, next);
    }
  }

  /** The `only_in_base` in effect once `reports[..k]` have been scanned: the count of
      the last of them with a base, or `init` when none has one. */
  function OnlyAfter(reports: seq<Report>, k: nat, behind: string -> int, init: Option<int>): Option<int>
    requires k <= |reports|
  {
    if k == 0 then init
    else if HasBase(reports[k - 1]) then Some(behind(reports[k - 1].gitBase.value))
    else OnlyAfter(reports, k - 1, behind, init)
  }

  /** Scanning the tail after the first report sees the values the whole scan sees. */
  lemma {:induction false} OnlyAfterTail(reports: seq<Report>, k: nat, behind: string -> int, init: Option<int>)
    requires 0 < |reports| && k < |reports|
    ensures OnlyAfter(reports[1..], k, behind, OnlyAfter(reports, 1, behind, init)) ==
            OnlyAfter(reports, k + 1, behind, init)
  {
    if k > 0 {
      assert reports[1..][k - 1] == reports[k];
      OnlyAfterTail(reports, k - 1, behind, init);
    }
  }

  /** The `only_in_base` report `i` is scored with: the one in effect once it is scanned. */
  function OnlyAt(reports: seq<Report>, i: nat, behind: string -> int, init: Option<int>): Option<int>
    requires i < |reports|
  {
    OnlyAfter(reports, i + 1, behind, init)
  }

  /** The uniqueness tuple report `i` is compared with. */
  function TupleAt(reports: seq<Report>, i: nat, cfg: BotConfig, behind: string -> int, init: Option<int>): seq<int>
    requires i < |reports| && OnlyAt(reports, i, behind, init).Some?
  {
    ReportUniqueness(reports[i], cfg, OnlyAt(reports, i, behind, init).value)
  }

  /** Report `i` of the tail sees what report `i + 1` of the whole sequence sees. */
  lemma TupleAtTail(reports: seq<Report>, i: nat, cfg: BotConfig, behind: string -> int, init: Option<int>)
    requires 0 < i < |reports|
    ensures OnlyAt(reports[1..], i - 1, behind, OnlyAfter(reports, 1, behind, init)) == OnlyAt(reports, i, behind, init)
    ensures OnlyAt(reports, i, behind, init).Some? ==>
      TupleAt(reports[1..], i - 1, cfg, behind, OnlyAfter(reports, 1, behind, init)) == TupleAt(reports, i, cfg, behind, init)
  {
    OnlyAfterTail(reports, i, behind, init);
    assert reports[1..][i - 1] == reports[i];
  }

  /** One step of a successful loop: the first report scans, the rest continue from its
      state, and that state carries the first report's `only_in_base`. */
  lemma ScanStep(reports: seq<Report>, cfg: BotConfig, behind: string -> int, s: Scan)
    requires |reports| > 0 && ScanReports(reports, cfg, behind, s).Ok?
    ensures ScanOne(reports[0], cfg, behind, s).Ok?
    ensures var next := ScanOne(reports[0], cfg, behind, s).value;
      && ScanReports(reports[1..], cfg, behind, next) == ScanReports(reports, cfg, behind, s)
      && next.onlyInBase == OnlyAt(reports, 0, behind, s.onlyInBase)
      && OnlyAt(reports, 0, behind, s.onlyInBase).Some?
      && (next.uniqueness == s.uniqueness || next.uniqueness == TupleAt(reports, 0, cfg, behind, s.onlyInBase))
  {
    assert OnlyAfter(reports, 0, behind, s.onlyInBase) == s.onlyInBase;
  }

  /** The loop's uniqueness is no greater than the first report's tuple. */
  lemma ScanBoundFirst(reports: seq<Report>, cfg: BotConfig, behind: string -> int, s: Scan)
    requires |reports| > 0 && ScanReports(reports, cfg, behind, s).Ok?
    ensures OnlyAt(reports, 0, behind, s.onlyInBase).Some?
    ensures LexLe(ScanReports(reports, cfg, behind, s).value.uniqueness, TupleAt(reports, 0, cfg, behind, s.onlyInBase), IntLt)
  {
    ScanStep(reports, cfg, behind, s);
    var next := ScanOne(reports[0], cfg, behind, s).value;
    LexLeTransitive(ScanReports(reports, cfg, behind, s).value.uniqueness, next.uniqueness,
                    TupleAt(reports, 0, cfg, behind, s.onlyInBase));
  }

  /** The bound for a later report follows from the bound the rest of the loop gives. */
  lemma ScanBoundLater(reports: seq<Report>, cfg: BotConfig, behind: string -> int, s: Scan, i: nat)
    requires 0 < i < |reports| && ScanReports(reports, cfg, behind, s).Ok?
    requires ScanOne(reports[0], cfg, behind, s).Ok?
    requires var next := ScanOne(reports[0], cfg, behind, s).value;
      && ScanReports(reports[1..], cfg, behind, next) == ScanReports(reports, cfg, behind, s)
      && next.onlyInBase == OnlyAt(reports, 0, behind, s.onlyInBase)
      && OnlyAt(reports[1..], i - 1, behind, next.onlyInBase).Some?
      && LexLe(ScanReports(reports, cfg, behind, s).value.uniqueness,
               TupleAt(reports[1..], i - 1, cfg, behind, next.onlyInBase), IntLt)
    ensures OnlyAt(reports, i, behind, s.onlyInBase).Some?
    ensures LexLe(ScanReports(reports, cfg, behind, s).value.uniqueness, TupleAt(reports, i, cfg, behind, s.onlyInBase), IntLt)
  {
    TupleAtTail(reports, i, cfg, behind, s.onlyInBase);
  }

  /** The loop's uniqueness is no greater than the tuple of any report. */
  lemma {:induction false} ScanUniquenessBound(reports: seq<Report>, cfg: BotConfig, behind: string -> int, s: Scan)
    ensures ScanReports(reports, cfg, behind, s).Ok? ==>
      forall i :: 0 <= i < |reports| ==>
        && OnlyAt(reports, i, behind, s.onlyInBase).Some?
        && LexLe(ScanReports(reports, cfg, behind, s).value.uniqueness, TupleAt(reports, i, cfg, behind, s.onlyInBase), IntLt)
  {
    if |reports| > 0 && ScanReports(reports, cfg, behind, s).Ok? {
      ScanStep(reports, cfg, behind, s);
      var next := ScanOne(reports[0], cfg, behind, s).value;
      ScanUniquenessBound(reports[1..], cfg, behind, next);
      forall i | 0 <= i < |reports|
        ensures OnlyAt(reports, i, behind, s.onlyInBase).Some?
        ensures LexLe(ScanReports(reports, cfg, behind, s).value.uniqueness, TupleAt(reports, i, cfg, behind, s.onlyInBase), IntLt)
      {
        if i == 0 {
          ScanBoundFirst(reports, cfg, behind, s);
        } else {
          ScanBoundLater(reports, cfg, behind, s, i);
        }
      }
    }
  }

  /** The loop's uniqueness is the start value or the tuple of one of the reports, so
      with the bound above it is their minimum. */
  lemma {:induction false} ScanUniquenessAttained(reports: seq<Report>, cfg: BotConfig, behind: string -> int, s: Scan)
    ensures var r := ScanReports(reports, cfg, behind, s);
      r.Ok? ==>
        r.value.uniqueness == s.uniqueness ||
        exists i :: 0 <= i < |reports| && OnlyAt(reports, i, behind, s.onlyInBase).Some? &&
                    r.value.uniqueness == TupleAt(reports, i, cfg, behind, s.onlyInBase)
  {
    var r := ScanReports(reports, cfg, behind, s);
    if |reports| > 0 && r.Ok? {
      ScanStep(reports, cfg, behind, s);
      var next := ScanOne(reports[0], cfg, behind, s).value;
      var tail := reports[1..];
      ScanUniquenessAttained(tail, cfg, behind, next);
      if r.value.uniqueness != next.uniqueness {
        var j :| 0 <= j < |tail| && OnlyAt(tail, j, behind, next.onlyInBase).Some? &&
                 r.value.uniqueness == TupleAt(tail, j, cfg, behind, next.onlyInBase);
        TupleAtTail(reports, j + 1, cfg, behind, s.onlyInBase);
      }
    }
  }

  /** A current report from a machine like ours on a base we are level with makes the
      whole uniqueness zero, whatever the other reports say. */
  lemma {:induction false} DuplicateMakesZero(reports: seq<Report>, cfg: BotConfig, behind: string -> int,
                                              s: Scan, i: nat)
    requires i < |reports| && HasBase(reports[i]) && behind(reports[i].gitBase.value) == 0
    requires Truncate(reports[i].machine, cfg.machineMatch) == Truncate(cfg.machine, cfg.machineMatch)
    requires NonNeg(s.uniqueness)
    requires ScanReports(reports, cfg, behind, s).Ok?
    ensures AllZero(ScanReports(reports, cfg, behind, s).value.uniqueness)
    decreases |reports|, 1
  {
    if i == 0 {
      DuplicateFirst(reports, cfg, behind, s);
    } else {
      DuplicateLater(reports, cfg, behind, s, i);
    }
  }

  lemma DuplicateFirst(reports: seq<Report>, cfg: BotConfig, behind: string -> int, s: Scan)
    requires |reports| > 0 && HasBase(reports[0]) && behind(reports[0].gitBase.value) == 0
    requires Truncate(reports[0].machine, cfg.machineMatch) == Truncate(cfg.machine, cfg.machineMatch)
    requires NonNeg(s.uniqueness)
    requires ScanReports(reports, cfg, behind, s).Ok?
    ensures AllZero(ScanReports(reports, cfg, behind, s).value.uniqueness)
  {
    var next := ScanOne(reports[0], cfg, behind, s).value;
    var r := ScanReports(reports, cfg, behind, s).value;
    assert ScanReports(reports[1..], cfg, behind, next) == Ok(r);
    var ru := ReportUniqueness(reports[0], cfg, 0);
    assert AllZero(ru);
    BelowZeros(next.uniqueness, ru);
    BelowZeros(r.uniqueness, next.uniqueness);
  }

  lemma {:induction false} DuplicateLater(reports: seq<Report>, cfg: BotConfig, behind: string -> int,
                                          s: Scan, i: nat)
    requires 0 < i < |reports| && HasBase(reports[i]) && behind(reports[i].gitBase.value) == 0
    requires Truncate(reports[i].machine, cfg.machineMatch) == Truncate(cfg.machine, cfg.machineMatch)
    requires NonNeg(s.uniqueness)
    requires ScanReports(reports, cfg, behind, s).Ok?
    ensures AllZero(ScanReports(reports, cfg, behind, s).value.uniqueness)
    decreases |reports|, 0
  {
    var next := ScanOne(reports[0], cfg, behind, s).value;
    var r := ScanReports(reports, cfg, behind, s).value;
    assert ScanReports(reports[1..], cfg, behind, next) == Ok(r);
    assert NonNeg(next.uniqueness) by {
      if next.uniqueness != s.uniqueness {
        assert next.uniqueness == ReportUniqueness(reports[0], cfg, next.onlyInBase.value);
      }
    }
    var rest := reports[1..];
    assert rest[i - 1] == reports[i];
    assert ScanReports(rest, cfg, behind, next).Ok?;
    DuplicateMakesZero(rest, cfg, behind, next, i - 1);
  }

  /** What `rate_ticket` leaves behind: the rating (`None` to skip the ticket) and the
      `to_skip` table, from which an expired entry for the ticket is deleted. */
  datatype RateOutcome = RateOutcome(rating: Option<Rating>, toSkip: map<int, Deadline>)

  /** The ticket after `prune_pending(ticket)` (no machine, now `clock.now`), which
      removes Pending reports in place. */
  function PrunedTicket(t: Ticket, clock: Clock): (r: Result<Ticket>)
    ensures r.Err? <==> PrunePending(t, None, clock, PendingTimeout).Err?
    ensures r.Ok? ==> r.value.(reports := t.reports) == t
    ensures r.Ok? && t.reports.Some? ==> r.value.reports == Some(PrunePending(t, None, clock, PendingTimeout).value)
  {
    var pruned :- PrunePending(t, None, clock, PendingTimeout);
    Ok(if t.reports.Some? then t.(reports := Some(pruned)) else t)
  }

  /** The ticket's current reports as the rating sees them: its Pending reports pruned,
      then `current_reports` against our base with `newer=True`. */
  function CurrentFor(c: Candidate, cfg: BotConfig, clock: Clock): (r: Result<seq<Report>>)
    ensures cfg.base == "" ==> r.Err?
    ensures r.Ok? ==> PrunedTicket(c.ticket, clock).Ok?
  {
    var t :- PrunedTicket(c.ticket, clock);
    CurrentReports(t, Some(cfg.base), false, true)
  }

  /** The uniqueness and score after the report loop: the loop runs only when the ticket
      does not ask for a retry, and only then are the current reports looked up. */
  function ScanFor(c: Candidate, cfg: BotConfig, behind: string -> int, clock: Clock): (r: Result<Scan>)
    requires c.authorsFullnames.Some?
    ensures c.ticket.retry == Some(true) ==>
      (r.Ok? <==> PrunedTicket(c.ticket, clock).Ok?) &&
      (r.Ok? ==> r.value.uniqueness == [100] && r.value.score == BaseScore(c, cfg))
    ensures c.ticket.retry != Some(true) && r.Ok? ==>
      CurrentFor(c, cfg, clock).Ok? &&
      r == ScanReports(CurrentFor(c, cfg, clock).value, cfg, behind, Scan([100], BaseScore(c, cfg), None))
  {
    var start := Scan([100], BaseScore(c, cfg), None);
    var t :- PrunedTicket(c.ticket, clock);
    if c.ticket.retry == Some(true) then Ok(start)
    else
      var reports :- CurrentReports(t, Some(cfg.base), false, true);
      ScanReports(reports, cfg, behind, start)
  }

  /** `rate_ticket(ticket)`; `now` is `time.time()` and `toSkip` maps a ticket to the time
      until which it is skipped. */
  function RateTicket(c: Candidate, cfg: BotConfig, behind: string -> int, clock: Clock,
                      toSkip: map<int, Deadline>, now: int): (r: Result<RateOutcome>)
    ensures c.ticket.id == 0 ==> r == Ok(RateOutcome(Some(BaseRating), toSkip))
    ensures c.ticket.id != 0 && Untestable(c, cfg) ==> r == Ok(RateOutcome(None, toSkip))
    ensures r.Ok? && r.value.rating.Some? && r.value.rating.value.Rated? ==>
      var u := r.value.rating.value.uniqueness;
      && c.ticket.id != 0 && !Untestable(c, cfg)
      && r.value.rating.value.negId == -c.ticket.id
      && !AllZero(u) && LexLe(u, [100], IntLt)
      && (c.ticket.id !in toSkip || Expired(toSkip[c.ticket.id], now))
    ensures r.Ok? ==> r.value.toSkip == toSkip || r.value.toSkip == toSkip - {c.ticket.id}
    ensures r.Ok? && r.value.toSkip != toSkip ==> c.ticket.id in toSkip && Expired(toSkip[c.ticket.id], now)
    ensures r.Ok? ==> KeepsRunning(toSkip, r.value.toSkip, now)
    ensures r.Ok? && r.value.rating.Some? && c.ticket.id != 0 ==>
      c.ticket.id !in toSkip || Expired(toSkip[c.ticket.id], now)
    ensures r.Ok? && r.value.rating.Some? && c.ticket.retry == Some(true) && c.ticket.id != 0 ==>
      r.value.rating.value.Rated? && r.value.rating.value.uniqueness == [100]
  {
    if c.ticket.id == 0 then Ok(RateOutcome(Some(BaseRating), toSkip))
    else if Untestable(c, cfg) then Ok(RateOutcome(None, toSkip))
    else
      var scanned :- ScanFor(c, cfg, behind, clock);
      assert NonNeg([100]);
      RateScanned(c.ticket.id, Ok(scanned), toSkip, now)
  }

  /** A ticket that asks for a retry is rated on its base score alone, and its reports
      are never looked up, so a missing base does not matter; only pruning can raise. */
  lemma RetryRating(c: Candidate, cfg: BotConfig, behind: string -> int, clock: Clock,
                    toSkip: map<int, Deadline>, now: int)
    requires c.ticket.id != 0 && !Untestable(c, cfg) && c.ticket.retry == Some(true)
    ensures var r := RateTicket(c, cfg, behind, clock, toSkip, now);
      r == if PrunedTicket(c.ticket, clock).Err? then Err(PrunedTicket(c.ticket, clock).error)
           else if c.ticket.id in toSkip && !Expired(toSkip[c.ticket.id], now) then Ok(RateOutcome(None, toSkip))
           else Ok(RateOutcome(Some(Rated([100], BaseScore(c, cfg), -c.ticket.id)), toSkip - {c.ticket.id}))
  {
    if PrunedTicket(c.ticket, clock).Ok? {
      assert ScanFor(c, cfg, behind, clock) == Ok(Scan([100], BaseScore(c, cfg), None));
      assert !AllZero([100]) by {
        assert [100][0] != 0;
      }
    }
  }

  /** A testable ticket whose scan succeeds without ending at all zeros, and which no
      running skip holds back, is rated with the scan's uniqueness and score, and its
      expired skip entry, if any, is dropped. */
  lemma RatedWhenScanned(c: Candidate, cfg: BotConfig, behind: string -> int, clock: Clock,
                         toSkip: map<int, Deadline>, now: int, s: Scan)
    requires c.ticket.id != 0 && !Untestable(c, cfg)
    requires ScanFor(c, cfg, behind, clock) == Ok(s) && !AllZero(s.uniqueness)
    requires c.ticket.id !in toSkip || Expired(toSkip[c.ticket.id], now)
    ensures RateTicket(c, cfg, behind, clock, toSkip, now) ==
      Ok(RateOutcome(Some(Rated(s.uniqueness, s.score, -c.ticket.id)), toSkip - {c.ticket.id}))
  {
    RateOf(c, cfg, behind, clock, toSkip, now);
  }

  /** `rate_ticket` past the early rejections is decided by the scan alone. */
  lemma RateOf(c: Candidate, cfg: BotConfig, behind: string -> int, clock: Clock,
               toSkip: map<int, Deadline>, now: int)
    requires c.ticket.id != 0 && !Untestable(c, cfg)
    ensures RateTicket(c, cfg, behind, clock, toSkip, now) ==
      RateScanned(c.ticket.id, ScanFor(c, cfg, behind, clock), toSkip, now)
  {
  }

  /** The tail of `rate_ticket` once the scan result is known. */
  function RateScanned(id: int, scan: Result<Scan>, toSkip: map<int, Deadline>, now: int): (r: Result<RateOutcome>)
    ensures r.Ok? ==> r.value.toSkip == toSkip || r.value.toSkip == toSkip - {id}
    ensures r.Ok? && r.value.toSkip != toSkip ==> id in toSkip && Expired(toSkip[id], now)
    ensures r.Ok? ==> KeepsRunning(toSkip, r.value.toSkip, now)
    ensures r.Ok? && r.value.rating.Some? ==>
      && scan.Ok? && !AllZero(scan.value.uniqueness)
      && (id !in toSkip || Expired(toSkip[id], now))
      && r.value.rating.value == Rated(scan.value.uniqueness, scan.value.score, -id)
  {
    var scanned :- scan;
    if AllZero(scanned.uniqueness) then Ok(RateOutcome(None, toSkip))
    else if id in toSkip && !Expired(toSkip[id], now) then Ok(RateOutcome(None, toSkip))
    else Ok(RateOutcome(Some(Rated(scanned.uniqueness, scanned.score, -id)), toSkip - {id}))
  }

  /** The rating of a rated ticket that did not ask for a retry is what the scan of its
      current reports, started at `(100,)` and the base score, ends with. */
  lemma RatedIsScan(c: Candidate, cfg: BotConfig, behind: string -> int, clock: Clock,
                    toSkip: map<int, Deadline>, now: int)
    requires c.ticket.id != 0 && c.ticket.retry != Some(true)
    requires var r := RateTicket(c, cfg, behind, clock, toSkip, now);
      r.Ok? && r.value.rating.Some?
    ensures c.authorsFullnames.Some? && CurrentFor(c, cfg, clock).Ok?
    ensures var s := ScanReports(CurrentFor(c, cfg, clock).value, cfg, behind, Scan([100], BaseScore(c, cfg), None));
      s.Ok? &&
      RateTicket(c, cfg, behind, clock, toSkip, now).value.rating.value == Rated(s.value.uniqueness, s.value.score, -c.ticket.id)
  {
    assert !Untestable(c, cfg) && ScanFor(c, cfg, behind, clock).Ok?;
  }

  /** A rated ticket that did not ask for a retry scores its base score plus what each of
      its current reports adds. */
  lemma RatedScore(c: Candidate, cfg: BotConfig, behind: string -> int, clock: Clock,
                   toSkip: map<int, Deadline>, now: int)
    requires c.ticket.id != 0 && c.ticket.retry != Some(true)
    requires var r := RateTicket(c, cfg, behind, clock, toSkip, now);
      r.Ok? && r.value.rating.Some?
    ensures CurrentFor(c, cfg, clock).Ok?
    ensures RateTicket(c, cfg, behind, clock, toSkip, now).value.rating.value.Rated?
    ensures RateTicket(c, cfg, behind, clock, toSkip, now).value.rating.value.score ==
            BaseScore(c, cfg) + ScoreSum(CurrentFor(c, cfg, clock).value, cfg, behind)
  {
    RatedIsScan(c, cfg, behind, clock, toSkip, now);
    ScanScore(CurrentFor(c, cfg, clock).value, cfg, behind, Scan([100], BaseScore(c, cfg), None));
  }

  /** A rated ticket that did not ask for a retry carries the least uniqueness tuple among
      its current reports (or `(100,)` when there are none). */
  lemma RatedUniqueness(c: Candidate, cfg: BotConfig, behind: string -> int, clock: Clock,
                        toSkip: map<int, Deadline>, now: int)
    requires c.ticket.id != 0 && c.ticket.retry != Some(true)
    requires var r := RateTicket(c, cfg, behind, clock, toSkip, now);
      r.Ok? && r.value.rating.Some?
    ensures CurrentFor(c, cfg, clock).Ok?
    ensures var reports := CurrentFor(c, cfg, clock).value;
      var rating := RateTicket(c, cfg, behind, clock, toSkip, now).value.rating.value;
      && rating.Rated?
      && (forall i :: 0 <= i < |reports| ==>
            && OnlyAt(reports, i, behind, None).Some?
            && LexLe(rating.uniqueness, TupleAt(reports, i, cfg, behind, None), IntLt))
      && (rating.uniqueness == [100] ||
          exists i :: 0 <= i < |reports| && OnlyAt(reports, i, behind, None).Some? &&
                      rating.uniqueness == TupleAt(reports, i, cfg, behind, None))
  {
    RatedIsScan(c, cfg, behind, clock, toSkip, now);
    var reports := CurrentFor(c, cfg, clock).value;
    var start := Scan([100], BaseScore(c, cfg), None);
    ScanUniquenessBound(reports, cfg, behind, start);
    ScanUniquenessAttained(reports, cfg, behind, start);
  }

  /** A ticket that already has a current report from a machine like ours, on a base level
      with ours, is not picked again unless it asks for a retry. */
  lemma AlreadyTestedNotPicked(c: Candidate, cfg: BotConfig, behind: string -> int, clock: Clock,
                               toSkip: map<int, Deadline>, now: int, i: nat)
    requires c.ticket.id != 0 && c.ticket.retry != Some(true)
    requires CurrentFor(c, cfg, clock).Ok? && i < |CurrentFor(c, cfg, clock).value|
    requires var rep := CurrentFor(c, cfg, clock).value[i];
      HasBase(rep) && behind(rep.gitBase.value) == 0 &&
      Truncate(rep.machine, cfg.machineMatch) == Truncate(cfg.machine, cfg.machineMatch)
    ensures RateTicket(c, cfg, behind, clock, toSkip, now).Ok? ==>
      RateTicket(c, cfg, behind, clock, toSkip, now).value.rating.None?
  {
    if !Untestable(c, cfg) && ScanFor(c, cfg, behind, clock).Ok? {
      DuplicateScanZero(c, cfg, behind, clock, i);
    }
  }

  /** The scan `rate_ticket` runs over such a ticket's reports ends at all zeros. */
  lemma DuplicateScanZero(c: Candidate, cfg: BotConfig, behind: string -> int, clock: Clock, i: nat)
    requires c.ticket.retry != Some(true) && c.authorsFullnames.Some?
    requires CurrentFor(c, cfg, clock).Ok? && i < |CurrentFor(c, cfg, clock).value|
    requires var rep := CurrentFor(c, cfg, clock).value[i];
      HasBase(rep) && behind(rep.gitBase.value) == 0 &&
      Truncate(rep.machine, cfg.machineMatch) == Truncate(cfg.machine, cfg.machineMatch)
    requires ScanFor(c, cfg, behind, clock).Ok?
    ensures AllZero(ScanFor(c, cfg, behind, clock).value.uniqueness)
  {
    DuplicateFromStart(CurrentFor(c, cfg, clock).value, cfg, behind, BaseScore(c, cfg), i);
  }

  /** The same, for a scan started as `rate_ticket` starts it. */
  lemma DuplicateFromStart(reports: seq<Report>, cfg: BotConfig, behind: string -> int, base: int, i: nat)
    requires i < |reports|
    requires var rep := reports[i];
      HasBase(rep) && behind(rep.gitBase.value) == 0 &&
      Truncate(rep.machine, cfg.machineMatch) == Truncate(cfg.machine, cfg.machineMatch)
    requires ScanReports(reports, cfg, behind, Scan([100], base, None)).Ok?
    ensures AllZero(ScanReports(reports, cfg, behind, Scan([100], base, None)).value.uniqueness)
  {
    assert NonNeg([100]);
    DuplicateMakesZero(reports, cfg, behind, Scan([100], base, None), i);
  }

  /** A scan that leaves every uniqueness entry at zero gives no rating. */
  lemma ZeroScanNotRated(c: Candidate, cfg: BotConfig, behind: string -> int, clock: Clock,
                         toSkip: map<int, Deadline>, now: int)
    requires c.ticket.id != 0 && !Untestable(c, cfg)
    requires ScanFor(c, cfg, behind, clock).Ok? && AllZero(ScanFor(c, cfg, behind, clock).value.uniqueness)
    ensures RateTicket(c, cfg, behind, clock, toSkip, now) == Ok(RateOutcome(None, toSkip))
  {
  }

  // ---- get_one_ticket ----

  /** Python's order on two `(uniqueness, rating, -id)` tuples. */
  predicate RatingLt(a: Rating, b: Rating)
    requires a.Rated? && b.Rated?
  {
    || IntsLt(a.uniqueness, b.uniqueness)
    || (a.uniqueness == b.uniqueness && a.score < b.score)
    || (a.uniqueness == b.uniqueness && a.score == b.score && a.negId < b.negId)
  }

  /** Between two tickets equally unique and equally rated, the older (smaller number)
      one is preferred. */
  lemma SmallerIdPreferred(u: seq<int>, score: int, a: int, b: int)
    requires a < b
    ensures RatingLt(Rated(u, score, -b), Rated(u, score, -a))
  {
  }

  lemma RatingLtAsymmetric(a: Rating, b: Rating)
    requires a.Rated? && b.Rated?
    ensures !(RatingLt(a, b) && RatingLt(b, a))
  {
    IntsLtAsymmetric(a.uniqueness, b.uniqueness);
    IntLtIsStrictTotal();
    LexLtIrreflexive(a.uniqueness, IntLt);
  }

  lemma RatingLtTransitive(a: Rating, b: Rating, c: Rating)
    requires a.Rated? && b.Rated? && c.Rated?
    requires RatingLt(a, b) && RatingLt(b, c)
    ensures RatingLt(a, c)
  {
    if IntsLt(a.uniqueness, b.uniqueness) && IntsLt(b.uniqueness, c.uniqueness) {
      IntsLtTransitive(a.uniqueness, b.uniqueness, c.uniqueness);
    }
  }

  lemma RatingLtTotal(a: Rating, b: Rating)
    requires a.Rated? && b.Rated?
    ensures a == b || RatingLt(a, b) || RatingLt(b, a)
  {
    IntsLtTotal(a.uniqueness, b.uniqueness);
  }

  /** The ids of the listed tickets are distinct, and every rating carries its ticket's
      negated id, as `rate_ticket` makes it. */
  predicate WellRated(pairs: seq<(Rating, Candidate)>) {
    && (forall i, j :: 0 <= i < j < |pairs| ==> pairs[i].1.ticket.id != pairs[j].1.ticket.id)
    && (forall i :: 0 <= i < |pairs| && pairs[i].0.Rated? ==> pairs[i].0.negId == -pairs[i].1.ticket.id)
  }

  /** The position of the greatest rating of a non-empty list of tuple ratings. */
  function MaxIndex(pairs: seq<(Rating, Candidate)>): (k: nat)
    requires |pairs| > 0
    requires forall i :: 0 <= i < |pairs| ==> pairs[i].0.Rated?
    ensures k < |pairs|
    ensures forall i :: 0 <= i < |pairs| && pairs[i].0 != pairs[k].0 ==> RatingLt(pairs[i].0, pairs[k].0)
  {
    if |pairs| == 1 then 0
    else
      var m := MaxIndex(pairs[..|pairs| - 1]);
      var last := pairs[|pairs| - 1];
      assert pairs[m] == pairs[..|pairs| - 1][m];
      RatingLtTotal(pairs[m].0, last.0);
      if RatingLt(pairs[m].0, last.0) then
        forall i | 0 <= i < |pairs| - 1 && pairs[i].0 != last.0
          ensures RatingLt(pairs[i].0, last.0)
        {
          assert pairs[i] == pairs[..|pairs| - 1][i];
          if pairs[i].0 != pairs[m].0 {
            RatingLtTransitive(pairs[i].0, pairs[m].0, last.0);
          }
        }
        |pairs| - 1
      else
        assert forall i :: 0 <= i < |pairs| - 1 ==> pairs[i] == pairs[..|pairs| - 1][i];
        m
  }

  /** The ticket `get_one_ticket` returns, from the rated tickets (those rated `None`
      already dropped): `None` for none; Python 3's `TypeError` when the base ticket's
      int-headed rating has to be compared with a tuple-headed one; otherwise the last
      pair of the ascending sort, which is the pair with the greatest rating. */
  function PickBest(pairs: seq<(Rating, Candidate)>): (r: Result<Option<(Rating, Candidate)>>)
    requires WellRated(pairs)
    ensures r == Ok(None) <==> |pairs| == 0
    ensures r.Err? <==> |pairs| >= 2 && exists i :: 0 <= i < |pairs| && pairs[i].0.BaseRating?
    ensures r.Ok? && r.value.Some? ==> r.value.value in pairs
    ensures r.Ok? && r.value.Some? ==>
      forall i :: 0 <= i < |pairs| && pairs[i] != r.value.value ==> RatingLt(pairs[i].0, r.value.value.0)
  {
    if |pairs| == 0 then Ok(None)
    else if |pairs| == 1 then Ok(Some(pairs[0]))
    else if exists i :: 0 <= i < |pairs| && pairs[i].0.BaseRating? then Err("TypeError")
    else
      var k := MaxIndex(pairs);
      forall i | 0 <= i < |pairs| && pairs[i] != pairs[k]
        ensures pairs[i].0 != pairs[k].0
      {
        if i < k {
          assert pairs[i].1.ticket.id != pairs[k].1.ticket.id;
        } else if i > k {
          assert pairs[k].1.ticket.id != pairs[i].1.ticket.id;
        }
      }
      Ok(Some(pairs[k]))
  }

  /** The rated tickets, in the server's order. */
  function KeepRated(rated: seq<(Option<Rating>, Candidate)>): (r: seq<(Rating, Candidate)>)
    ensures forall p :: p in r <==> (Some(p.0), p.1) in rated
  {
    if |rated| == 0 then []
    else
      var rest := KeepRated(rated[1..]);
      assert forall q :: q in rated <==> q == rated[0] || q in rated[1..];
      if rated[0].0.Some? then [(rated[0].0.value, rated[0].1)] + rest else rest
  }

  /** `get_one_ticket`: rate every listed ticket in order (each rating may delete its
      ticket's expired `to_skip` entry, and a failing rating ends the whole call), drop
      the unrated ones and pick the best. */
  function RateAll(cands: seq<Candidate>, cfg: BotConfig, behind: string -> int, clock: Clock,
                   toSkip: map<int, Deadline>, now: int): (r: Result<(seq<(Option<Rating>, Candidate)>, map<int, Deadline>)>)
    ensures r.Ok? ==> |r.value.0| == |cands|
    ensures r.Ok? ==> forall i :: 0 <= i < |cands| ==> r.value.0[i].1 == cands[i]
    ensures r.Ok? ==> forall i :: 0 <= i < |cands| && r.value.0[i].0.Some? && r.value.0[i].0.value.Rated? ==>
      r.value.0[i].0.value.negId == -cands[i].ticket.id
    ensures r.Ok? ==> r.value.1.Keys <= toSkip.Keys
    decreases |cands|
  {
    if |cands| == 0 then Ok(([], toSkip))
    else
      var first :- RateTicket(cands[0], cfg, behind, clock, toSkip, now);
      var rest :- RateAll(cands[1..], cfg, behind, clock, first.toSkip, now);
      Ok(([(first.rating, cands[0])] + rest.0, rest.1))
  }

  /** Every skip in `before` that has not expired is still in `after`, unchanged. */
  predicate KeepsRunning(before: map<int, Deadline>, after: map<int, Deadline>, now: int) {
    forall id :: id in before && !Expired(before[id], now) ==> id in after && after[id] == before[id]
  }

  /** Rating the listed tickets in turn never drops or changes a skip that is still
      running. */
  lemma {:induction false} RateAllKeepsRunning(cands: seq<Candidate>, cfg: BotConfig, behind: string -> int,
                                               clock: Clock, toSkip: map<int, Deadline>, now: int)
    ensures var r := RateAll(cands, cfg, behind, clock, toSkip, now);
      r.Ok? ==> KeepsRunning(toSkip, r.value.1, now)
    decreases |cands|
  {
    if |cands| > 0 {
      var first := RateTicket(cands[0], cfg, behind, clock, toSkip, now);
      if first.Ok? {
        var rest := RateAll(cands[1..], cfg, behind, clock, first.value.toSkip, now);
        RateAllKeepsRunning(cands[1..], cfg, behind, clock, first.value.toSkip, now);
        if rest.Ok? {
          KeepsRunningTrans(toSkip, first.value.toSkip, rest.value.1, now);
        }
      }
    }
  }

  lemma KeepsRunningTrans(a: map<int, Deadline>, b: map<int, Deadline>, c: map<int, Deadline>, now: int)
    requires KeepsRunning(a, b, now) && KeepsRunning(b, c, now)
    ensures KeepsRunning(a, c, now)
  {
  }

  /** No ticket other than 0 whose skip is still running gets a rating, however many
      tickets are rated before it. */
  lemma {:induction false} RateAllHonoursSkips(cands: seq<Candidate>, cfg: BotConfig, behind: string -> int,
                                               clock: Clock, toSkip: map<int, Deadline>, now: int, i: nat)
    requires i < |cands| && cands[i].ticket.id != 0
    ensures var r := RateAll(cands, cfg, behind, clock, toSkip, now);
      r.Ok? && r.value.0[i].0.Some? ==>
      cands[i].ticket.id !in toSkip || Expired(toSkip[cands[i].ticket.id], now)
    decreases |cands|
  {
    var first := RateTicket(cands[0], cfg, behind, clock, toSkip, now);
    if i > 0 && first.Ok? {
      var after := first.value.toSkip;
      var rest := RateAll(cands[1..], cfg, behind, clock, after, now);
      RateAllHonoursSkips(cands[1..], cfg, behind, clock, after, now, i - 1);
      if rest.Ok? {
        assert RateAll(cands, cfg, behind, clock, toSkip, now).value.0[i] == rest.value.0[i - 1];
      }
    }
  }

  /** The listed tickets have distinct numbers, as the server's ticket list does. */
  predicate DistinctIds(cands: seq<Candidate>) {
    forall i, j :: 0 <= i < j < |cands| ==> cands[i].ticket.id != cands[j].ticket.id
  }

  /** Dropping the unrated tickets keeps ids distinct and ratings tied to their tickets. */
  lemma {:induction false} KeepRatedWellRated(rated: seq<(Option<Rating>, Candidate)>)
    requires forall i, j :: 0 <= i < j < |rated| ==> rated[i].1.ticket.id != rated[j].1.ticket.id
    requires forall i :: 0 <= i < |rated| && rated[i].0.Some? && rated[i].0.value.Rated? ==>
      rated[i].0.value.negId == -rated[i].1.ticket.id
    ensures WellRated(KeepRated(rated))
  {
    if |rated| > 0 {
      var tail := rated[1..];
      assert forall i :: 0 <= i < |tail| ==> tail[i] == rated[i + 1];
      KeepRatedWellRated(tail);
      var rest := KeepRated(tail);
      if rated[0].0.Some? {
        var head := (rated[0].0.value, rated[0].1);
        forall j | 0 <= j < |rest|
          ensures head.1.ticket.id != rest[j].1.ticket.id
        {
          assert rest[j] in rest;
          assert (Some(rest[j].0), rest[j].1) in tail;
          var k :| 0 <= k < |tail| && tail[k] == (Some(rest[j].0), rest[j].1);
          assert rated[k + 1].1 == rest[j].1;
        }
        ConsWellRated(head, rest);
      }
    }
  }

  lemma ConsWellRated(head: (Rating, Candidate), rest: seq<(Rating, Candidate)>)
    requires WellRated(rest)
    requires forall j :: 0 <= j < |rest| ==> head.1.ticket.id != rest[j].1.ticket.id
    requires head.0.Rated? ==> head.0.negId == -head.1.ticket.id
    ensures WellRated([head] + rest)
  {
    var r := [head] + rest;
    forall i, j | 0 <= i < j < |r|
      ensures r[i].1.ticket.id != r[j].1.ticket.id
    {
      if i == 0 {
        assert r[j] == rest[j - 1];
      } else {
        assert r[i] == rest[i - 1] && r[j] == rest[j - 1];
      }
    }
    forall i | 0 <= i < |r| && r[i].0.Rated?
      ensures r[i].0.negId == -r[i].1.ticket.id
    {
      if i > 0 {
        assert r[i] == rest[i - 1];
      }
    }
  }

  /** `get_one_ticket`: the best-rated ticket of the listed ones, or `None`, and the
      `to_skip` table the ratings leave behind. */
  function GetOneTicket(cands: seq<Candidate>, cfg: BotConfig, behind: string -> int, clock: Clock,
                        toSkip: map<int, Deadline>, now: int): (r: Result<(Option<(Rating, Candidate)>, map<int, Deadline>)>)
    requires DistinctIds(cands)
    ensures r.Ok? && r.value.0.Some? ==> r.value.0.value.1 in cands
    ensures r.Ok? && r.value.0.Some? && r.value.0.value.0.Rated? ==>
      r.value.0.value.0.negId == -r.value.0.value.1.ticket.id
    ensures r.Ok? && r.value.0.Some? && r.value.0.value.1.ticket.id != 0 ==>
      var id := r.value.0.value.1.ticket.id;
      id !in toSkip || Expired(toSkip[id], now)
    ensures r.Ok? ==> KeepsRunning(toSkip, r.value.1, now)
  {
    var rated :- RateAll(cands, cfg, behind, clock, toSkip, now);
    KeepRatedWellRated(rated.0);
    RateAllKeepsRunning(cands, cfg, behind, clock, toSkip, now);
    var best :- PickBest(KeepRated(rated.0));
    assert best.Some? ==> (Some(best.value.0), best.value.1) in rated.0;
    if best.Some? && best.value.1.ticket.id != 0 then
      var k :| 0 <= k < |rated.0| && rated.0[k] == (Some(best.value.0), best.value.1);
      RateAllHonoursSkips(cands, cfg, behind, clock, toSkip, now, k);
      Ok((best, rated.1))
    else Ok((best, rated.1))
  }

  /** A ticket skipped with the default `float('inf')` delay is never picked again, and
      its `to_skip` entry is never deleted. */
  lemma SkippedForeverNeverPicked(cands: seq<Candidate>, cfg: BotConfig, behind: string -> int, clock: Clock,
                                  toSkip: map<int, Deadline>, now: int, id: int)
    requires DistinctIds(cands)
    requires id != 0 && id in toSkip && toSkip[id] == SkipUntil(now, Forever)
    ensures var r := GetOneTicket(cands, cfg, behind, clock, toSkip, now);
      r.Ok? ==> (r.value.0.Some? ==> r.value.0.value.1.ticket.id != id) && id in r.value.1 && r.value.1[id] == Never
  {
    assert !Expired(toSkip[id], now);
  }
}

=== FILE: seqs.dfy ===
/** The Python list operations the model relies on: comprehension filters, `list.remove`,
    `list.sort(key=...)` and `max(..., key=...)`. `sort` and `max` take a key order `lt`
    that is a strict total order; `sort` is stable (elements with equal keys keep their
    relative order) and `max` returns the first element whose key is maximal. */
module Seqs {
  import opened Wrappers
  import opened Lex

  predicate SortedBy<T, K>(xs: seq<T>, key: T -> K, lt: (K, K) -> bool) {
    forall i, j :: 0 <= i < j < |xs| ==> !lt(key(xs[j]), key(xs[i]))
  }

  /** The elements of `xs` whose key is `k`, in their order in `xs`. */
  function WithKey<T, K(==)>(xs: seq<T>, key: T -> K, k: K): (r: seq<T>)
    ensures |r| <= |xs|
    ensures forall y :: y in r ==> y in xs && key(y) == k
  {
    if |xs| == 0 then []
    else (if key(xs[0]) == k then [xs[0]] else []) + WithKey(xs[1..], key, k)
  }

  /** Insert `x` before the first element whose key is strictly greater than its own. */
  function InsertBy<T, K>(x: T, ys: seq<T>, key: T -> K, lt: (K, K) -> bool): (r: seq<T>)
    ensures multiset(r) == multiset(ys) + multiset{x}
  {
    if |ys| == 0 then [x]
    else if lt(key(x), key(ys[0])) then [x] + ys
    else
      assert ys == [ys[0]] + ys[1..];
      [ys[0]] + InsertBy(x, ys[1..], key, lt)
  }

  /** Stable insertion sort: each element goes after every earlier element with an equal key. */
  function SortBy<T, K>(xs: seq<T>, key: T -> K, lt: (K, K) -> bool): (r: seq<T>)
    ensures multiset(r) == multiset(xs)
  {
    if |xs| == 0 then []
    else
      assert xs == xs[..|xs| - 1] + [xs[|xs| - 1]];
      InsertBy(xs[|xs| - 1], SortBy(xs[..|xs| - 1], key, lt), key, lt)
  }

  lemma {:induction false} InsertBySorted<T, K(!new)>(x: T, ys: seq<T>, key: T -> K, lt: (K, K) -> bool)
    requires StrictTotal(lt) && SortedBy(ys, key, lt)
    ensures SortedBy(InsertBy(x, ys, key, lt), key, lt)
  {
    if |ys| > 0 && !lt(key(x), key(ys[0])) {
      InsertBySorted(x, ys[1..], key, lt);
      var r := InsertBy(x, ys, key, lt);
      var t := InsertBy(x, ys[1..], key, lt);
      assert r == [ys[0]] + t;
      forall j | 0 < j < |r|
        ensures !lt(key(r[j]), key(ys[0]))
      {
        assert r[j] in multiset(t);
        assert r[j] in multiset(ys[1..]) + multiset{x};
        if r[j] != x {
          assert r[j] in ys[1..];
        }
      }
    }
  }

  /** The result of `SortBy` is ordered by key. */
  lemma {:induction false} SortBySorted<T, K(!new)>(xs: seq<T>, key: T -> K, lt: (K, K) -> bool)
    requires StrictTotal(lt)
    ensures SortedBy(SortBy(xs, key, lt), key, lt)
  {
    if |xs| > 0 {
      SortBySorted(xs[..|xs| - 1], key, lt);
      InsertBySorted(xs[|xs| - 1], SortBy(xs[..|xs| - 1], key, lt), key, lt);
    }
  }

  lemma {:induction false} WithKeyAppend<T, K>(a: seq<T>, b: seq<T>, key: T -> K, k: K)
    ensures WithKey(a + b, key, k) == WithKey(a, key, k) + WithKey(b, key, k)
  {
    if |a| == 0 {
      assert a + b == b;
    } else {
      assert (a + b)[0] == a[0] && (a + b)[1..] == a[1..] + b;
      WithKeyAppend(a[1..], b, key, k);
    }
  }

  lemma {:induction false} InsertByWithKey<T, K(!new)>(x: T, ys: seq<T>, key: T -> K, lt: (K, K) -> bool, k: K)
    requires StrictTotal(lt) && SortedBy(ys, key, lt)
    ensures WithKey(InsertBy(x, ys, key, lt), key, k) ==
      WithKey(ys, key, k) + (if key(x) == k then [x] else [])
  {
    if |ys| == 0 {
    } else if lt(key(x), key(ys[0])) {
      if key(x) == k {
        KeysAboveFirst(x, ys, key, lt, k);
      }
      WithKeyAppend([x], ys, key, k);
    } else {
      InsertByWithKey(x, ys[1..], key, lt, k);
      InsertByWithKeyStep(x, ys, key, lt, k);
    }
  }

  /** An element inserted in front of a sorted list has a key none of the list has. */
  lemma KeysAboveFirst<T, K(!new)>(x: T, ys: seq<T>, key: T -> K, lt: (K, K) -> bool, k: K)
    requires StrictTotal(lt) && SortedBy(ys, key, lt)
    requires |ys| > 0 && lt(key(x), key(ys[0])) && key(x) == k
    ensures WithKey(ys, key, k) == []
  {
    forall y | y in ys
      ensures key(y) != k
    {
      var j :| 0 <= j < |ys| && ys[j] == y;
      assert j == 0 || !lt(key(ys[j]), key(ys[0]));
    }
    WithKeyNone(ys, key, k);
  }

  lemma InsertByWithKeyStep<T, K(!new)>(x: T, ys: seq<T>, key: T -> K, lt: (K, K) -> bool, k: K)
    requires |ys| > 0 && !lt(key(x), key(ys[0]))
    requires WithKey(InsertBy(x, ys[1..], key, lt), key, k) ==
      WithKey(ys[1..], key, k) + (if key(x) == k then [x] else [])
    ensures WithKey(InsertBy(x, ys, key, lt), key, k) ==
      WithKey(ys, key, k) + (if key(x) == k then [x] else [])
  {
    var rest := InsertBy(x, ys[1..], key, lt);
    var a := InsertBy(x, ys, key, lt);
    assert a == [ys[0]] + rest;
    assert a[0] == ys[0] && a[1..] == rest;
    var h: seq<T> := if key(ys[0]) == k then [ys[0]] else [];
    var t := WithKey(ys[1..], key, k);
    var e: seq<T> := if key(x) == k then [x] else [];
    assert WithKey(a, key, k) == h + (t + e);
    assert WithKey(ys, key, k) == h + t;
    ConcatAssoc(h, t, e);
  }

  lemma ConcatAssoc<T>(a: seq<T>, b: seq<T>, c: seq<T>)
    ensures a + (b + c) == (a + b) + c
  {
  }

  /** Dropping a prefix no longer than `a` from `a + b` drops it from `a`. */
  lemma DropFromFront<T>(a: seq<T>, b: seq<T>, k: nat)
    requires k <= |a|
    ensures (a + b)[k..] == a[k..] + b
  {
  }

  /** Four pieces regrouped from the left to around the middle two. */
  lemma ConcatRegroup<T>(a: seq<T>, b: seq<T>, c: seq<T>, d: seq<T>)
    ensures ((a + b) + c) + d == a + ((b + c) + d)
  {
  }

  lemma {:induction false} WithKeyNone<T, K>(ys: seq<T>, key: T -> K, k: K)
    requires forall y :: y in ys ==> key(y) != k
    ensures WithKey(ys, key, k) == []
  {
    if |ys| > 0 {
      assert ys[0] in ys;
      assert forall y :: y in ys[1..] ==> y in ys;
      WithKeyNone(ys[1..], key, k);
    }
  }

  /** Stability: for every key, the elements carrying it appear in the sorted list in the
      same order as in the input. */
  lemma {:induction false} SortByStable<T, K(!new)>(xs: seq<T>, key: T -> K, lt: (K, K) -> bool, k: K)
    requires StrictTotal(lt)
    ensures WithKey(SortBy(xs, key, lt), key, k) == WithKey(xs, key, k)
  {
    if |xs| > 0 {
      var init := xs[..|xs| - 1];
      var x := xs[|xs| - 1];
      var sorted := SortBy(init, key, lt);
      assert SortBy(xs, key, lt) == InsertBy(x, sorted, key, lt);
      SortByStable(init, key, lt, k);
      SortBySorted(init, key, lt);
      InsertByWithKey(x, sorted, key, lt, k);
      WithKeySnoc(xs, key, k);
    }
  }

  /** `WithKey` of a non-empty list: that of all but the last, then the last if it has
      the key. */
  lemma WithKeySnoc<T, K>(xs: seq<T>, key: T -> K, k: K)
    requires |xs| > 0
    ensures WithKey(xs, key, k) ==
      WithKey(xs[..|xs| - 1], key, k) + (if key(xs[|xs| - 1]) == k then [xs[|xs| - 1]] else [])
  {
    var x := xs[|xs| - 1];
    assert xs == xs[..|xs| - 1] + [x];
    WithKeyAppend(xs[..|xs| - 1], [x], key, k);
    assert WithKey([x], key, k) == (if key(x) == k then [x] else []) by {
      assert [x][1..] == [];
    }
  }

  /** The index Python's `max(xs, key=...)` picks: the first element with a maximal key. */
  function FirstMaxIndex<T, K(!new)>(xs: seq<T>, key: T -> K, lt: (K, K) -> bool): (i: nat)
    requires |xs| > 0 && StrictTotal(lt)
    ensures i < |xs|
    ensures forall j :: 0 <= j < |xs| ==> !lt(key(xs[i]), key(xs[j]))
    ensures forall j :: 0 <= j < i ==> lt(key(xs[j]), key(xs[i]))
  {
    if |xs| == 1 then 0
    else
      var init := xs[..|xs| - 1];
      var m := FirstMaxIndex(init, key, lt);
      assert forall j :: 0 <= j < |init| ==> init[j] == xs[j];
      if lt(key(xs[m]), key(xs[|xs| - 1])) then |xs| - 1 else m
  }

  /** `[x for x in xs if p(x)]`. */
  function Filter<T(==)>(xs: seq<T>, p: T -> bool): (r: seq<T>)
    ensures |r| <= |xs|
    ensures forall i :: 0 <= i < |r| ==> r[i] in xs && p(r[i])
    ensures forall i :: 0 <= i < |xs| && p(xs[i]) ==> xs[i] in r
    ensures multiset(r) <= multiset(xs)
  {
    if |xs| == 0 then []
    else
      assert xs == [xs[0]] + xs[1..];
      (if p(xs[0]) then [xs[0]] else []) + Filter(xs[1..], p)
  }

  /** What a filter keeps, stated on elements. */
  lemma FilterMembers<T>(xs: seq<T>, p: T -> bool)
    ensures forall x :: x in Filter(xs, p) <==> x in xs && p(x)
  {
    var r := Filter(xs, p);
    forall x | x in xs && p(x)
      ensures x in r
    {
      var i :| 0 <= i < |xs| && xs[i] == x;
    }
    forall x | x in r
      ensures x in xs && p(x)
    {
      var i :| 0 <= i < |r| && r[i] == x;
    }
  }

  lemma {:induction false} FilterAppend<T>(a: seq<T>, b: seq<T>, p: T -> bool)
    ensures Filter(a + b, p) == Filter(a, p) + Filter(b, p)
  {
    if |a| == 0 {
      assert a + b == b;
    } else {
      assert (a + b)[0] == a[0] && (a + b)[1..] == a[1..] + b;
      FilterAppend(a[1..], b, p);
    }
  }

  /** A filter keeps the order of what it keeps. */
  lemma {:induction false} FilterSorted<T, K>(xs: seq<T>, p: T -> bool, key: T -> K, lt: (K, K) -> bool)
    requires SortedBy(xs, key, lt)
    ensures SortedBy(Filter(xs, p), key, lt)
  {
    if |xs| > 0 {
      FilterSorted(xs[1..], p, key, lt);
      var rest := Filter(xs[1..], p);
      forall j | 0 <= j < |rest|
        ensures !lt(key(rest[j]), key(xs[0]))
      {
        assert rest[j] in xs[1..];
        var k :| 0 <= k < |xs[1..]| && xs[1..][k] == rest[j];
        assert xs[k + 1] == rest[j];
      }
    }
  }

  /** Every element carrying the key is selected. */
  lemma {:induction false} WithKeyComplete<T, K>(xs: seq<T>, key: T -> K, k: K, i: nat)
    requires i < |xs| && key(xs[i]) == k
    ensures xs[i] in WithKey(xs, key, k)
  {
    if i > 0 {
      WithKeyComplete(xs[1..], key, k, i - 1);
    }
  }

  /** Selecting one key keeps the order of what it keeps. */
  lemma {:induction false} WithKeySorted<T, K, L>(xs: seq<T>, key: T -> K, k: K, order: T -> L, lt: (L, L) -> bool)
    requires SortedBy(xs, order, lt)
    ensures SortedBy(WithKey(xs, key, k), order, lt)
  {
    if |xs| > 0 {
      WithKeySorted(xs[1..], key, k, order, lt);
      var rest := WithKey(xs[1..], key, k);
      forall j | 0 <= j < |rest|
        ensures !lt(order(rest[j]), order(xs[0]))
      {
        assert rest[j] in xs[1..];
        var m :| 0 <= m < |xs[1..]| && xs[1..][m] == rest[j];
        assert xs[m + 1] == rest[j];
      }
    }
  }

  /** Python's `xs.index(x)`, with `None` where it raises. */
  function FirstIndex<T(==)>(xs: seq<T>, x: T): (r: Option<nat>)
    ensures r.None? <==> x !in xs
    ensures r.Some? ==> r.value < |xs| && xs[r.value] == x && x !in xs[..r.value]
  {
    if |xs| == 0 then None
    else if xs[0] == x then Some(0)
    else match FirstIndex(xs[1..], x)
      case None => None
      case Some(k) =>
        assert xs[..k + 1] == [xs[0]] + xs[1..][..k];
        Some(k + 1)
  }
  /** An element at position `k` with no earlier copy is first found at `k`. */
  lemma FirstIndexAt<T>(xs: seq<T>, x: T, k: nat)
    requires k < |xs| && xs[k] == x && x !in xs[..k]
    ensures FirstIndex(xs, x) == Some(k)
  {
  }


  /** Python's `xs.remove(x)` when `x` is present: drop the first element equal to `x`.
      When `x` is absent Python raises; here the list is returned unchanged. */
  function RemoveFirst<T(==)>(xs: seq<T>, x: T): (r: seq<T>)
    ensures x in xs ==> |r| == |xs| - 1
    ensures x !in xs ==> r == xs
  {
    if |xs| == 0 then []
    else if xs[0] == x then xs[1..]
    else
      assert xs == [xs[0]] + xs[1..];
      [xs[0]] + RemoveFirst(xs[1..], x)
  }

  /** `remove` takes exactly one copy of `x` out of the list. */
  lemma {:induction false} RemoveFirstMultiset<T>(xs: seq<T>, x: T)
    requires x in xs
    ensures multiset(RemoveFirst(xs, x)) == multiset(xs) - multiset{x}
  {
    assert xs == [xs[0]] + xs[1..];
    if xs[0] != x {
      RemoveFirstMultiset(xs[1..], x);
    }
  }

  /** Removing one copy of `x` leaves every other element's count alone and adds nothing. */
  lemma RemoveFirstOthers<T>(xs: seq<T>, x: T)
    requires x in xs
    ensures forall y :: y != x ==> multiset(RemoveFirst(xs, x))[y] == multiset(xs)[y]
    ensures forall y :: y in RemoveFirst(xs, x) ==> y in xs
  {
    RemoveFirstMultiset(xs, x);
    forall y | y in RemoveFirst(xs, x)
      ensures y in xs
    {
      assert y in multiset(RemoveFirst(xs, x));
    }
  }

  /** The elements of `xs` whose key is not yet in `seen`, each the first of its key:
      the `seen`-set idiom of `current_reports(..., unique=True)`. */
  function FirstPerKey<T(==), K(==)>(xs: seq<T>, key: T -> K, seen: set<K>): (r: seq<T>)
    ensures forall i :: 0 <= i < |r| ==> r[i] in xs && key(r[i]) !in seen
    ensures forall i, j :: 0 <= i < j < |r| ==> key(r[i]) != key(r[j])
  {
    if |xs| == 0 then []
    else if key(xs[0]) in seen then FirstPerKey(xs[1..], key, seen)
    else
      var r' := FirstPerKey(xs[1..], key, seen + {key(xs[0])});
      assert forall i :: 0 <= i < |r'| ==> r'[i] in xs[1..];
      [xs[0]] + r'
  }

  /** Every key of `xs` that was not seen before is represented in the result. */
  lemma {:induction false} FirstPerKeyComplete<T, K>(xs: seq<T>, key: T -> K, seen: set<K>, i: nat)
    requires i < |xs| && key(xs[i]) !in seen
    ensures exists j :: 0 <= j < |FirstPerKey(xs, key, seen)| && key(FirstPerKey(xs, key, seen)[j]) == key(xs[i])
  {
    var r := FirstPerKey(xs, key, seen);
    if key(xs[0]) in seen {
      FirstPerKeyComplete(xs[1..], key, seen, i - 1);
      var j :| 0 <= j < |r| && key(r[j]) == key(xs[1..][i - 1]);
    } else if i == 0 || key(xs[i]) == key(xs[0]) {
      assert key(r[0]) == key(xs[i]);
    } else {
      FirstPerKeyComplete(xs[1..], key, seen + {key(xs[0])}, i - 1);
      var r' := FirstPerKey(xs[1..], key, seen + {key(xs[0])});
      var j :| 0 <= j < |r'| && key(r'[j]) == key(xs[1..][i - 1]);
      assert r[j + 1] == r'[j];
    }
  }

  /** Each element kept is the first element of `xs` carrying its key. */
  lemma {:induction false} FirstPerKeyEarliest<T, K>(xs: seq<T>, key: T -> K, seen: set<K>, i: nat)
    requires i < |FirstPerKey(xs, key, seen)|
    ensures FirstWithKey(xs, key, FirstPerKey(xs, key, seen)[i])
  {
    var r := FirstPerKey(xs, key, seen);
    var y := r[i];
    if key(xs[0]) in seen || i > 0 {
      var seen' := if key(xs[0]) in seen then seen else seen + {key(xs[0])};
      var i' := if key(xs[0]) in seen then i else i - 1;
      var r' := FirstPerKey(xs[1..], key, seen');
      assert r'[i'] == y;
      FirstPerKeyEarliest(xs[1..], key, seen', i');
      var j :| 0 <= j < |xs[1..]| && xs[1..][j] == y &&
        forall k :: 0 <= k < j ==> key(xs[1..][k]) != key(y);
      assert key(y) !in seen';
      assert xs[j + 1] == y;
      forall k | 0 <= k < j + 1
        ensures key(xs[k]) != key(y)
      {
        if k > 0 {
          assert xs[k] == xs[1..][k - 1];
        }
      }
    } else {
      assert xs[0] == y;
    }
  }

  /** Started with nothing seen: each kept element is the first with its key, and every
      key of `xs` is kept. */
  lemma FirstPerKeyExact<T, K>(xs: seq<T>, key: T -> K)
    ensures var r := FirstPerKey(xs, key, {});
      (forall i :: 0 <= i < |r| ==> FirstWithKey(xs, key, r[i])) &&
      (forall i :: 0 <= i < |xs| ==> exists j :: 0 <= j < |r| && key(r[j]) == key(xs[i]))
  {
    forall i | 0 <= i < |FirstPerKey(xs, key, {})|
      ensures FirstWithKey(xs, key, FirstPerKey(xs, key, {})[i])
    {
      FirstPerKeyEarliest(xs, key, {}, i);
    }
    forall i | 0 <= i < |xs|
      ensures exists j :: 0 <= j < |FirstPerKey(xs, key, {})| && key(FirstPerKey(xs, key, {})[j]) == key(xs[i])
    {
      FirstPerKeyComplete(xs, key, {}, i);
    }
  }

  /** `y` occurs in `xs` at a position no earlier element shares its key with. */
  predicate FirstWithKey<T(==), K(==)>(xs: seq<T>, key: T -> K, y: T) {
    exists j :: 0 <= j < |xs| && xs[j] == y && forall k :: 0 <= k < j ==> key(xs[k]) != key(y)
  }

  // ---- sorted listings of sets of strings ----

  /** `ys` is sorted ascending without repetitions. */
  predicate StrictlySorted(ys: seq<string>) {
    forall i, j :: 0 <= i < j < |ys| ==> StrLt(ys[i], ys[j])
  }

  /** Insert `x` into a strictly sorted list unless it is already there. */
  function InsertUnique(x: string, ys: seq<string>): (r: seq<string>)
    requires StrictlySorted(ys)
    ensures StrictlySorted(r)
    ensures forall z :: z in r <==> z == x || z in ys
  {
    if |ys| == 0 then [x]
    else if x == ys[0] then ys
    else if StrLt(x, ys[0]) then
      forall j | 0 <= j < |ys|
        ensures StrLt(x, ys[j])
      {
        if j > 0 {
          StrLtTransitive(x, ys[0], ys[j]);
        }
      }
      [x] + ys
    else
      var rest := InsertUnique(x, ys[1..]);
      StrLtTotal(x, ys[0]);
      assert forall z :: z in ys <==> z == ys[0] || z in ys[1..];
      forall j | 0 <= j < |rest|
        ensures StrLt(ys[0], rest[j])
      {
        assert rest[j] in rest;
        if rest[j] != x {
          assert rest[j] in ys[1..];
          var k :| 0 <= k < |ys[1..]| && ys[1..][k] == rest[j];
          assert ys[k + 1] == rest[j];
        }
      }
      [ys[0]] + rest
  }

  /** `sorted(set(xs))`. */
  function SortedSet(xs: seq<string>): (r: seq<string>)
    ensures StrictlySorted(r)
    ensures forall z :: z in r <==> z in xs
  {
    if |xs| == 0 then []
    else
      assert forall z :: z in xs <==> z == xs[|xs| - 1] || z in xs[..|xs| - 1];
      InsertUnique(xs[|xs| - 1], SortedSet(xs[..|xs| - 1]))
  }

  /** A set has one sorted listing: two strictly sorted lists with the same elements are
      the same list, so `SortedSet` is `sorted(set(xs))` whatever order the set yields. */
  lemma {:induction false} StrictlySortedUnique(a: seq<string>, b: seq<string>)
    requires StrictlySorted(a) && StrictlySorted(b)
    requires forall i :: 0 <= i < |a| ==> a[i] in b
    requires forall i :: 0 <= i < |b| ==> b[i] in a
    ensures a == b
  {
    SameEmptiness(a, b);
    if |a| > 0 && |b| > 0 {
      SortedHeadsEqual(a, b);
      TailIn(a, b);
      TailIn(b, a);
      StrictlySortedUnique(a[1..], b[1..]);
      HeadTail(a);
      HeadTail(b);
    }
  }

  lemma HeadTail<T>(a: seq<T>)
    requires |a| > 0
    ensures a == [a[0]] + a[1..]
  {
  }

  /** Two strictly sorted lists with the same elements start alike. */
  lemma SortedHeadsEqual(a: seq<string>, b: seq<string>)
    requires StrictlySorted(a) && StrictlySorted(b) && |a| > 0 && |b| > 0
    requires a[0] in b && b[0] in a
    ensures a[0] == b[0]
  {
    if a[0] != b[0] {
      var i :| 0 <= i < |b| && b[i] == a[0];
      var j :| 0 <= j < |a| && a[j] == b[0];
      assert StrLt(b[0], a[0]) && StrLt(a[0], b[0]);
      StrLtAsymmetric(a[0], b[0]);
    }
  }

  /** Past a shared head, every later element of `a` is among the later elements of `b`. */
  lemma TailIn(a: seq<string>, b: seq<string>)
    requires StrictlySorted(a) && |a| > 0 && |b| > 0 && a[0] == b[0]
    requires forall i :: 0 <= i < |a| ==> a[i] in b
    ensures forall i :: 0 <= i < |a[1..]| ==> a[1..][i] in b[1..]
  {
    forall i | 1 <= i < |a|
      ensures a[i] in b[1..]
    {
      assert StrLt(a[0], a[i]);
      if a[i] == b[0] {
        StrLtAsymmetric(a[i], a[i]);
      }
      var k :| 0 <= k < |b| && b[k] == a[i];
      assert b[1..][k - 1] == a[i];
    }
    forall i | 0 <= i < |a[1..]|
      ensures a[1..][i] in b[1..]
    {
      assert a[1..][i] == a[i + 1];
    }
  }

  /** Lists with the same elements are both empty or both not. */
  lemma SameEmptiness(a: seq<string>, b: seq<string>)
    requires forall i :: 0 <= i < |a| ==> a[i] in b
    requires forall i :: 0 <= i < |b| ==> b[i] in a
    ensures |a| == 0 <==> |b| == 0
  {
    if |a| > 0 {
      assert a[0] in b;
    }
    if |b| > 0 {
      assert b[0] in a;
    }
  }

  /** Removing the first element after `p`, when `p` does not hold it. */
  lemma RemoveFirstHead<T>(p: seq<T>, s: seq<T>)
    requires |s| > 0 && s[0] !in p
    ensures RemoveFirst(p + s, s[0]) == p + s[1..]
  {
    assert p + s == p + [s[0]] + s[1..];
    RemoveFirstAfter(p, s[0], s[1..]);
  }

  lemma ConsTail<T>(u: seq<T>, rest: seq<T>)
    requires |u| > 0
    ensures [u[0]] + (u[1..] + rest) == u + rest
  {
    assert [u[0]] + u[1..] == u;
  }

  lemma AppendEmpty<T>(p: seq<T>, s: seq<T>)
    requires |s| == 0
    ensures p + s == p
  {
  }

  /** The first element of `s` joins the prefix. */
  lemma ShiftIntoPrefix<T>(p: seq<T>, s: seq<T>)
    requires |s| > 0
    ensures p + s == (p + [s[0]]) + s[1..]
    ensures |p + [s[0]]| == |p| + 1
    ensures NoDup(p + s) ==> NoDup((p + [s[0]]) + s[1..])
  {
    assert p + s == (p + [s[0]]) + s[1..];
  }

  /** With the first element of `s` dropped, the second joins the prefix. */
  lemma ShiftPastNext<T>(p: seq<T>, s: seq<T>)
    requires |s| > 1
    ensures p + s[1..] == (p + [s[1]]) + s[2..]
    ensures |p + [s[1]]| == |p| + 1
    ensures NoDup(p + s[1..]) ==> NoDup((p + [s[1]]) + s[2..])
  {
    assert s[1..] == [s[1]] + s[2..];
    assert p + s[1..] == (p + [s[1]]) + s[2..];
  }

  /** No element occurs twice. */
  predicate NoDup<T(==)>(xs: seq<T>) {
    forall i, j :: 0 <= i < j < |xs| ==> xs[i] != xs[j]
  }

  /** Dropping the element at `k` keeps a list free of repeats. */
  lemma NoDupRemoveAt<T>(xs: seq<T>, k: nat)
    requires NoDup(xs) && k < |xs|
    ensures NoDup(xs[..k] + xs[k + 1..])
  {
    var ys := xs[..k] + xs[k + 1..];
    assert forall i :: 0 <= i < |ys| ==> ys[i] == xs[if i < k then i else i + 1];
  }

  /** Removing `x` from a list whose first copy of `x` comes after `a` drops just that copy. */
  lemma {:induction false} RemoveFirstAfter<T>(a: seq<T>, x: T, b: seq<T>)
    requires x !in a
    ensures RemoveFirst(a + [x] + b, x) == a + b
  {
    if |a| == 0 {
      var w := a + [x] + b;
      assert w[0] == x && w[1..] == b;
    } else {
      RemoveFirstAfter(a[1..], x, b);
      RemoveFirstStep(a, x, b);
    }
  }

  lemma RemoveFirstStep<T>(a: seq<T>, x: T, b: seq<T>)
    requires |a| > 0 && a[0] != x
    ensures RemoveFirst(a + [x] + b, x) == [a[0]] + RemoveFirst(a[1..] + [x] + b, x)
    ensures a + b == [a[0]] + (a[1..] + b)
  {
    var w := a + [x] + b;
    assert w[0] == a[0] && w[1..] == a[1..] + [x] + b;
  }

  /** Two kept segments at the end of a list are the last two the filter keeps. */
  lemma FilterLastTwo<T>(front: seq<T>, x: T, y: T, p: T -> bool)
    requires p(x) && p(y)
    ensures var f := Filter(front + [x, y], p); |f| >= 2 && f[|f| - 2] == x
  {
    FilterAppend(front, [x, y], p);
    FilterKeepsTwo(x, y, p);
    LastTwo(Filter(front, p), x, y);
  }

  lemma FilterKeepsTwo<T>(x: T, y: T, p: T -> bool)
    requires p(x) && p(y)
    ensures Filter([x, y], p) == [x, y]
  {
    assert [x, y][1..] == [y];
    assert [y][1..] == [];
  }

  lemma LastTwo<T>(g: seq<T>, x: T, y: T)
    ensures var f := g + [x, y]; |f| >= 2 && f[|f| - 2] == x
  {
  }

  // ---- sums that stop at the first error ----

  /** `sum(rs)` over results computed one after another: the first error is raised, the
      values are added otherwise. */
  function SumResults(rs: seq<Result<nat>>): (r: Result<nat>)
    ensures r.Ok? <==> forall i :: 0 <= i < |rs| ==> rs[i].Ok?
    ensures r.Err? ==> r in rs
    ensures r == Ok(0) <==> forall i :: 0 <= i < |rs| ==> rs[i] == Ok(0)
    ensures r.Ok? ==> (r.value > 0 <==> exists i :: 0 <= i < |rs| && rs[i].Ok? && rs[i].value > 0)
  {
    if |rs| == 0 then Ok(0)
    else if rs[0].Err? then rs[0]
    else
      var rest := SumResults(rs[1..]);
      assert forall i :: 1 <= i < |rs| ==> rs[i] == rs[1..][i - 1];
      if rest.Err? then rest else Ok(rs[0].value + rest.value)
  }
}

=== FILE: server.dfy ===
/** The report server (sage_patchbot/server/serve.py): accepting a report a patchbot
    posts, naming and pruning report logs, summarising a ticket's status, and cutting one
    plugin's output out of a stored log. The database, the request, the log store and the
    clock are replaced by values passed in; what the server would write is returned. */
module Server {
  import opened Wrappers
  import opened Strings
  import opened Lex
  import opened Seqs
  import opened Reports
  import opened Markers

  /** Machines refused by `post_report`, by the last component of their name. */
  const Blacklist: seq<string> := ["sage4", "Gentoo Base System/2.2/x86_64/4.14.78-gentoo/sage4"]

  /** `status_order`: the statuses from the worst to the least informative. */
  const StatusOrder: seq<string> := [
    "New", "ApplyFailed", "BuildFailed", "TestsFailed", "PluginFailed", "TestsPassed",
    "TestsPassedOnRetry", "Pending", "PluginOnlyFailed", "PluginOnly", "NoPatch", "Spkg"]

  /** `order.index(status)`. */
  function RankIn(order: seq<string>, status: string): nat
    requires status in order
  {
    FirstIndex(order, status).value
  }

  /** `status_order.index(status)`. */
  function Rank(status: string): nat
    requires status in StatusOrder
  {
    RankIn(StatusOrder, status)
  }

  predicate KnownIn(order: seq<string>, statuses: seq<string>) {
    forall i :: 0 <= i < |statuses| ==> statuses[i] in order
  }

  predicate Known(statuses: seq<string>) {
    KnownIn(StatusOrder, statuses)
  }

  // ---- min_status ----

  /** `min(statuses, key=order.index)`: the status of the list that comes first in
      `order`. `min` of nothing and `index` of a status not in `order` raise `ValueError`. */
  function MinIn(order: seq<string>, statuses: seq<string>): (r: Result<string>)
    ensures r.Ok? <==> |statuses| > 0 && KnownIn(order, statuses)
    ensures r.Ok? ==> r.value in statuses
    ensures r.Ok? ==> forall i :: 0 <= i < |statuses| ==> RankIn(order, r.value) <= RankIn(order, statuses[i])
  {
    if |statuses| == 0 || statuses[0] !in order then Err("ValueError")
    else if |statuses| == 1 then Ok(statuses[0])
    else
      match MinIn(order, statuses[1..])
      case Err(e) =>
        assert !KnownIn(order, statuses[1..]);
        var i :| 0 <= i < |statuses[1..]| && statuses[1..][i] !in order;
        assert statuses[i + 1] !in order;
        Err(e)
      case Ok(m) =>
        assert forall i :: 1 <= i < |statuses| ==> statuses[i] == statuses[1..][i - 1];
        Ok(if RankIn(order, statuses[0]) <= RankIn(order, m) then statuses[0] else m)
  }

  /** `min_status`: the status of the list that comes first in `StatusOrder`. */
  function MinStatus(statuses: seq<string>): (r: Result<string>)
    ensures r.Ok? <==> |statuses| > 0 && Known(statuses)
    ensures r.Ok? ==> r.value in statuses
    ensures r.Ok? ==> forall i :: 0 <= i < |statuses| ==> Rank(r.value) <= Rank(statuses[i])
  {
    MinIn(StatusOrder, statuses)
  }

  /** Of two known statuses, the one ranked first is the minimum. */
  lemma MinOfTwo(order: seq<string>, a: string, b: string)
    requires a in order && b in order && RankIn(order, b) < RankIn(order, a)
    ensures MinIn(order, [a, b]) == Ok(b)
  {
    assert [a, b][1..] == [b];
  }

  /** The example of `min_status`'s documentation: a failure outranks a pass. */
  lemma MinStatusFailureFirst()
    ensures MinStatus(["TestsPassed", "TestsFailed"]) == Ok("TestsFailed")
  {
    FailedRank();
    PassedRank();
    MinOfTwo(StatusOrder, "TestsPassed", "TestsFailed");
  }

  lemma FailedRank()
    ensures "TestsFailed" in StatusOrder && Rank("TestsFailed") == 3
  {
    assert StatusOrder[..3] == ["New", "ApplyFailed", "BuildFailed"];
    FirstIndexAt(StatusOrder, "TestsFailed", 3);
  }

  lemma PassedRank()
    ensures "TestsPassed" in StatusOrder && Rank("TestsPassed") == 5
  {
    assert StatusOrder[..5] == ["New", "ApplyFailed", "BuildFailed", "TestsFailed", "PluginFailed"];
    FirstIndexAt(StatusOrder, "TestsPassed", 5);
  }

  // ---- get_ticket_status ----

  function Machine(rep: Report): seq<string> {
    rep.machine
  }

  function Statuses(reports: seq<Report>): (r: seq<string>)
    ensures |r| == |reports|
    ensures forall i :: 0 <= i < |r| ==> r[i] == reports[i].status
  {
    seq(|reports|, i requires 0 <= i < |reports| => reports[i].status)
  }

  /** The reports `get_ticket_status` summarises: the current ones (no uniqueness, no
      newer bases), restricted to one machine when one is given. */
  function ShownReports(t: Ticket, base: Option<string>, machine: Option<seq<string>>)
    : (r: seq<Report>)
    ensures t.reports.None? ==> r == []
    ensures t.reports.Some? ==> forall i :: 0 <= i < |r| ==> r[i] in t.reports.value
    ensures machine.Some? ==> forall i :: 0 <= i < |r| ==> r[i].machine == machine.value
  {
    var all := CurrentReports(t, base, false, false).value;
    match machine
    case None => all
    case Some(m) => OfMachine(all, m)
  }

  /** The reports from machine `m`, in their order. */
  function OfMachine(reports: seq<Report>, m: seq<string>): (r: seq<Report>)
    ensures forall i :: 0 <= i < |r| ==> r[i] in reports && r[i].machine == m
  {
    var r := WithKey(reports, Machine, m);
    assert forall i :: 0 <= i < |r| ==> r[i] in reports && Machine(r[i]) == m;
    r
  }

  /** `len(set(status_list)) == 1` for a non-empty list. */
  predicate AllSame(statuses: seq<string>) {
    forall i :: 0 <= i < |statuses| ==> statuses[i] == statuses[0]
  }

  /** The status of a ticket no report speaks about. */
  function Unreported(t: Ticket): string {
    if t.spkgs then "Spkg"
    else if t.gitCommit.None? || t.gitCommit.value == "" then "NoPatch"
    else "New"
  }

  /** The triple `get_ticket_status` returns. */
  datatype Summary = Summary(count: nat, single: string, composite: string)

  /** `get_ticket_status(ticket, base, machine)`. */
  function GetTicketStatus(t: Ticket, base: Option<string>, machine: Option<seq<string>>)
    : (r: Result<Summary>)
    ensures var shown := ShownReports(t, base, machine);
      |shown| == 0 ==> r == Ok(Summary(0, Unreported(t), Unreported(t)))
    ensures var sts := Statuses(ShownReports(t, base, machine));
      r.Err? <==> |sts| > 0 && !AllSame(sts) && !Known(sts)
    ensures var sts := Statuses(ShownReports(t, base, machine));
      r.Ok? && |sts| > 0 ==> r.value.count == |sts| && r.value.single in sts
    ensures var sts := Statuses(ShownReports(t, base, machine));
      r.Ok? && |sts| > 0 && AllSame(sts) ==> r.value.single == r.value.composite == sts[0]
    ensures var sts := Statuses(ShownReports(t, base, machine));
      r.Ok? && !AllSame(sts) ==> r.value.composite == Join(sts, ",")
  {
    var shown := ShownReports(t, base, machine);
    var sts := Statuses(shown);
    if |shown| == 0 then Ok(Summary(0, Unreported(t), Unreported(t)))
    else if AllSame(sts) then Ok(Summary(|shown|, sts[0], sts[0]))
    else
      match MinStatus(sts)
      case Err(e) => Err(e)
      case Ok(worst) => Ok(Summary(|shown|, worst, Join(sts, ",")))
  }

  /** The single status is the worst status of the shown reports. */
  lemma SingleIsWorst(t: Ticket, base: Option<string>, machine: Option<seq<string>>)
    requires GetTicketStatus(t, base, machine).Ok?
    requires Known(Statuses(ShownReports(t, base, machine)))
    ensures var sts := Statuses(ShownReports(t, base, machine));
      var single := GetTicketStatus(t, base, machine).value.single;
      |sts| > 0 ==> single in StatusOrder && forall i :: 0 <= i < |sts| ==> Rank(single) <= Rank(sts[i])
  {
    var sts := Statuses(ShownReports(t, base, machine));
    if |sts| > 0 && AllSame(sts) {
      SameAreMin(sts);
    }
  }

  /** Equal known statuses: the first is ranked no later than any. */
  lemma SameAreMin(sts: seq<string>)
    requires |sts| > 0 && AllSame(sts) && Known(sts)
    ensures sts[0] in StatusOrder && forall i :: 0 <= i < |sts| ==> Rank(sts[0]) <= Rank(sts[i])
  {
  }

  /** The composite status lists every shown report's status, and splitting it on commas
      gives them back. */
  lemma CompositeRoundTrip(t: Ticket, base: Option<string>, machine: Option<seq<string>>)
    requires GetTicketStatus(t, base, machine).Ok?
    requires var sts := Statuses(ShownReports(t, base, machine));
      |sts| > 0 && forall i :: 0 <= i < |sts| ==> ',' !in sts[i]
    ensures Split(GetTicketStatus(t, base, machine).value.composite, ",") ==
      (var sts := Statuses(ShownReports(t, base, machine));
       if AllSame(sts) then [sts[0]] else sts)
  {
    var sts := Statuses(ShownReports(t, base, machine));
    if AllSame(sts) {
      SplitNoSep(sts[0], ',');
    } else {
      SplitJoin(sts, ',');
    }
  }

  // ---- is_good_machine ----

  /** The short name of a machine: the last component of its description. */
  function ShortName(rep: Report): string {
    if |rep.machine| == 0 then "" else rep.machine[|rep.machine| - 1]
  }

  predicate GoodStatus(status: string) {
    status == "TestsPassed" || status == "TestsFailed"
  }

  /** `reports[i]` is from machine `name` and no report from it is more recent. */
  predicate Latest(reports: seq<Report>, name: string, i: int) {
    && 0 <= i < |reports| && ShortName(reports[i]) == name
    && forall j :: 0 <= j < |reports| && ShortName(reports[j]) == name ==>
         !StrLt(reports[i].time, reports[j].time)
  }

  /** `is_good_machine(name)`: ticket 0 (given, `None` when the database lacks it) has no
      report list, or the most recent report of the machine tested the base cleanly. */
  function IsGoodMachine(name: string, ticket0: Option<Ticket>): (r: Result<bool>)
    ensures ticket0.None? ==> r.Err?
    ensures ticket0.Some? && ticket0.value.reports.None? ==> r == Ok(true)
    ensures ticket0.Some? && ticket0.value.reports.Some? ==>
      r == MachineVerdict(name, ticket0.value.reports.value)
  {
    match ticket0
    case None => Err("TypeError")
    case Some(t0) =>
      match t0.reports
      case None => Ok(true)
      case Some(reps) => MachineVerdict(name, reps)
  }

  /** The verdict on ticket 0's report list: `IndexError` when a report has an empty
      machine, otherwise whether the machine's newest report passed or failed its tests. */
  function MachineVerdict(name: string, reps: seq<Report>): (r: Result<bool>)
    ensures r.Err? <==> exists i :: 0 <= i < |reps| && |reps[i].machine| == 0
    ensures r == Ok(true) ==> exists i :: Latest(reps, name, i) && GoodStatus(reps[i].status)
    ensures r == Ok(false) ==>
      (forall j :: 0 <= j < |reps| ==> ShortName(reps[j]) != name) ||
      exists i :: Latest(reps, name, i) && !GoodStatus(reps[i].status)
  {
    if exists i :: 0 <= i < |reps| && |reps[i].machine| == 0 then Err("IndexError")
    else Ok(NewestGood(name, reps))
  }

  /** Whether the machine's newest report passed or failed its tests; false when the
      machine has no report. */
  function NewestGood(name: string, reps: seq<Report>): (b: bool)
    ensures b ==> exists i :: Latest(reps, name, i) && GoodStatus(reps[i].status)
    ensures !b ==>
      (forall j :: 0 <= j < |reps| ==> ShortName(reps[j]) != name) ||
      exists i :: Latest(reps, name, i) && !GoodStatus(reps[i].status)
  {
    var mine := WithKey(SortBy(reps, ByTime, StrLt), ShortName, name);
    if |mine| == 0 then
      NoneOnMachine(reps, name);
      false
    else
      LatestDecides(reps, name);
      GoodStatus(mine[|mine| - 1].status)
  }

  /** The status of the last report of the machine is that of a `Latest` one. */
  lemma LatestDecides(reps: seq<Report>, name: string)
    requires |WithKey(SortBy(reps, ByTime, StrLt), ShortName, name)| > 0
    ensures var mine := WithKey(SortBy(reps, ByTime, StrLt), ShortName, name);
      var good := GoodStatus(mine[|mine| - 1].status);
      exists i :: Latest(reps, name, i) && GoodStatus(reps[i].status) == good
  {
    LastIsLatest(reps, name);
  }

  /** The newest report of the machine in the time-sorted list is `Latest`. */
  lemma LastIsLatest(reps: seq<Report>, name: string)
    requires |WithKey(SortBy(reps, ByTime, StrLt), ShortName, name)| > 0
    ensures var mine := WithKey(SortBy(reps, ByTime, StrLt), ShortName, name);
      exists i :: Latest(reps, name, i) && reps[i] == mine[|mine| - 1]
  {
    var sorted := SortBy(reps, ByTime, StrLt);
    var mine := WithKey(sorted, ShortName, name);
    var last := mine[|mine| - 1];
    MineSorted(reps, name);
    assert last in mine;
    assert last in sorted;
    assert last in multiset(reps);
    var i :| 0 <= i < |reps| && reps[i] == last;
    LastOfMineIsLatest(reps, name, i);
  }

  /** The report at `i`, the last of the machine's reports in time order, is `Latest`. */
  lemma LastOfMineIsLatest(reps: seq<Report>, name: string, i: int)
    requires var mine := WithKey(SortBy(reps, ByTime, StrLt), ShortName, name);
      |mine| > 0 && 0 <= i < |reps| && reps[i] == mine[|mine| - 1]
    requires SortedBy(WithKey(SortBy(reps, ByTime, StrLt), ShortName, name), ByTime, StrLt)
    ensures Latest(reps, name, i)
  {
    var mine := WithKey(SortBy(reps, ByTime, StrLt), ShortName, name);
    assert mine[|mine| - 1] in mine;
    forall j | 0 <= j < |reps| && ShortName(reps[j]) == name
      ensures !StrLt(reps[i].time, reps[j].time)
    {
      NotLaterThanLast(reps, name, mine, j);
    }
  }

  lemma NotLaterThanLast(reps: seq<Report>, name: string, mine: seq<Report>, j: int)
    requires mine == WithKey(SortBy(reps, ByTime, StrLt), ShortName, name) && |mine| > 0
    requires SortedBy(mine, ByTime, StrLt)
    requires 0 <= j < |reps| && ShortName(reps[j]) == name
    ensures !StrLt(mine[|mine| - 1].time, reps[j].time)
  {
    OnMachineInMine(reps, name, j);
    var p :| 0 <= p < |mine| && mine[p] == reps[j];
    LastNotBefore(mine, p);
  }

  /** In a time-sorted list no element is later than the last one. */
  lemma LastNotBefore(xs: seq<Report>, p: int)
    requires SortedBy(xs, ByTime, StrLt) && 0 <= p < |xs|
    ensures !StrLt(xs[|xs| - 1].time, xs[p].time)
  {
    if p == |xs| - 1 {
      StrLtAsymmetric(xs[p].time, xs[p].time);
    } else {
      assert !StrLt(ByTime(xs[|xs| - 1]), ByTime(xs[p]));
    }
  }

  lemma MineSorted(reps: seq<Report>, name: string)
    ensures SortedBy(WithKey(SortBy(reps, ByTime, StrLt), ShortName, name), ByTime, StrLt)
  {
    StrLtIsStrictTotal();
    SortBySorted(reps, ByTime, StrLt);
    WithKeySorted(SortBy(reps, ByTime, StrLt), ShortName, name, ByTime, StrLt);
  }

  /** Every report of the machine is among the machine's reports in the sorted list. */
  lemma OnMachineInMine(reps: seq<Report>, name: string, j: nat)
    requires j < |reps| && ShortName(reps[j]) == name
    ensures reps[j] in WithKey(SortBy(reps, ByTime, StrLt), ShortName, name)
  {
    var sorted := SortBy(reps, ByTime, StrLt);
    assert reps[j] in multiset(reps);
    assert reps[j] in multiset(sorted);
    var m :| 0 <= m < |sorted| && sorted[m] == reps[j];
    WithKeyComplete(sorted, ShortName, name, m);
  }

  /** When the sorted list holds no report of the machine, neither does the ticket. */
  lemma NoneOnMachine(reps: seq<Report>, name: string)
    requires |WithKey(SortBy(reps, ByTime, StrLt), ShortName, name)| == 0
    ensures forall j :: 0 <= j < |reps| ==> ShortName(reps[j]) != name
  {
    forall j | 0 <= j < |reps|
      ensures ShortName(reps[j]) != name
    {
      if ShortName(reps[j]) == name {
        OnMachineInMine(reps, name, j);
      }
    }
  }

  /** When the machine's most recent report is unique, it alone decides. */
  lemma GoodMachineDecidedByLatest(name: string, ticket0: Ticket, i: nat)
    requires ticket0.reports.Some? && Latest(ticket0.reports.value, name, i)
    requires forall j :: 0 <= j < |ticket0.reports.value| && j != i && ShortName(ticket0.reports.value[j]) == name ==>
      StrLt(ticket0.reports.value[j].time, ticket0.reports.value[i].time)
    requires forall j :: 0 <= j < |ticket0.reports.value| ==> |ticket0.reports.value[j].machine| > 0
    ensures IsGoodMachine(name, Some(ticket0)) == Ok(GoodStatus(ticket0.reports.value[i].status))
  {
    var reps := ticket0.reports.value;
    var r := IsGoodMachine(name, Some(ticket0));
    if r.value {
      var k :| Latest(reps, name, k) && GoodStatus(reps[k].status);
      assert k == i;
    } else {
      var k :| Latest(reps, name, k) && !GoodStatus(reps[k].status);
      assert k == i;
    }
  }

  // ---- log_name and prune_pending ----

  /** `txt.replace('#', '%23')`. */
  function Escape(part: string): string {
    ReplaceChar(part, '#', "%23")
  }

  function EscapeAll(parts: seq<string>): (r: seq<string>)
    ensures |r| == |parts|
    ensures forall i :: 0 <= i < |r| ==> r[i] == Escape(parts[i])
  {
    seq(|parts|, i requires 0 <= i < |parts| => Escape(parts[i]))
  }

  /** `log_name(ticket, report)`: the log store key of a report, where `ticketText` is
      how the ticket is written into it (`str` of the ticket argument). */
  function LogName(ticketText: string, rep: Report): (r: string)
    ensures |r| > 5 && r[..5] == "/log/"
    ensures rep.status == "Pending" ==> |r| > 13 + |ticketText| && r[..13] == "/log/Pending/" && r[13..13 + |ticketText|] == ticketText
    ensures rep.status != "Pending" ==> |r| > 5 + |ticketText| && r[5..5 + |ticketText|] == ticketText
    ensures |r| > |rep.time| && r[|r| - |rep.time| - 1..] == "/" + rep.time
  {
    "/log" + (if rep.status == "Pending" then "/Pending" else "") + "/" + ticketText + "/" +
    Join(EscapeAll(rep.machine), "/") + "/" + rep.time
  }

  /** The character of a log name right after `/log/` (or `/log/Pending/`). */
  lemma LogNameTicketChar(ticketText: string, rep: Report)
    requires |ticketText| > 0
    ensures var name := LogName(ticketText, rep);
      |name| > 5 &&
      name[5] == (if rep.status == "Pending" then 'P' else ticketText[0]) &&
      (rep.status == "Pending" ==> |name| > 13 && name[13] == ticketText[0])
  {
    var pending := if rep.status == "Pending" then "/Pending" else "";
    var head := "/log" + pending + "/";
    var tail := "/" + Join(EscapeAll(rep.machine), "/") + "/" + rep.time;
    assert LogName(ticketText, rep) == head + ticketText + tail;
    assert (head + ticketText + tail)[|head|] == ticketText[0];
    if rep.status == "Pending" {
      assert head == "/log/Pending/";
    } else {
      assert head == "/log/";
    }
  }

  /** The log names `prune_pending` deletes: those of the stale reports it meets before the
      first Pending report whose time does not parse (where it raises). */
  function PruneLogs(reports: seq<Report>, machine: Option<seq<string>>, clock: Clock,
                     timeout: int, ticketText: string): (r: seq<string>)
    ensures |r| <= |reports|
    ensures NamesStale(r, reports, machine, clock, timeout, ticketText)
  {
    if |reports| == 0 || Unparsable(reports[0], clock) then []
    else
      var rest := PruneLogs(reports[1..], machine, clock, timeout, ticketText);
      var here := if Stale(reports[0], machine, clock, timeout) then [LogName(ticketText, reports[0])] else [];
      var r := here + rest;
      forall i | 0 <= i < |r|
        ensures StaleName(r[i], reports, machine, clock, timeout, ticketText)
      {
        if i < |here| {
          assert Stale(reports[0], machine, clock, timeout) && r[i] == LogName(ticketText, reports[0]);
        } else {
          assert StaleName(rest[i - |here|], reports[1..], machine, clock, timeout, ticketText);
          var j :| 0 <= j < |reports[1..]| && Stale(reports[1..][j], machine, clock, timeout) &&
            rest[i - |here|] == LogName(ticketText, reports[1..][j]);
          assert reports[1..][j] == reports[j + 1];
        }
      }
      assert NamesStale(r, reports, machine, clock, timeout, ticketText);
      r
  }

  /** `name` is the log name of one of the stale reports. */
  predicate StaleName(name: string, reports: seq<Report>, machine: Option<seq<string>>,
                      clock: Clock, timeout: int, ticketText: string) {
    exists j :: 0 <= j < |reports| && Stale(reports[j], machine, clock, timeout) &&
      name == LogName(ticketText, reports[j])
  }

  /** Every name in `names` is the log name of a stale report. */
  predicate NamesStale(names: seq<string>, reports: seq<Report>, machine: Option<seq<string>>,
                       clock: Clock, timeout: int, ticketText: string) {
    forall i :: 0 <= i < |names| ==> StaleName(names[i], reports, machine, clock, timeout, ticketText)
  }

  /** What the server's `prune_pending` leaves and which logs it deletes on the way. */
  datatype Pruned = Pruned(reports: Result<seq<Report>>, removedLogs: seq<string>)

  /** The server's `prune_pending(ticket, machine)`, as written: `log_name` receives the
      ticket dict, so `ticketText` is the dict's `str`, which starts with '{'. */
  function ServerPrune(reports: seq<Report>, machine: Option<seq<string>>, clock: Clock,
                       timeout: int, ticketText: string): (r: Pruned)
    requires |ticketText| > 0 && ticketText[0] == '{'
    ensures r.reports == PruneCopy(reports, machine, clock, timeout)
    ensures r.removedLogs == PruneLogs(reports, machine, clock, timeout, ticketText)
  {
    Pruned(PruneCopy(reports, machine, clock, timeout), PruneLogs(reports, machine, clock, timeout, ticketText))
  }

  /** The deleted names never name a stored log: every stored log of the ticket is
      named after its id, written in decimal. */
  lemma ServerPruneMissesLogs(id: int, reports: seq<Report>, machine: Option<seq<string>>,
                              clock: Clock, timeout: int, ticketText: string)
    requires |ticketText| > 0 && ticketText[0] == '{'
    ensures var removed := ServerPrune(reports, machine, clock, timeout, ticketText).removedLogs;
      forall i, j :: 0 <= i < |removed| && 0 <= j < |reports| ==>
        removed[i] != LogName(IntToString(id), reports[j])
  {
    var removed := ServerPrune(reports, machine, clock, timeout, ticketText).removedLogs;
    var idText := IntToString(id);
    assert |idText| > 0 && (idText[0] == '-' || IsDigit(idText[0]));
    forall i, j | 0 <= i < |removed| && 0 <= j < |reports|
      ensures removed[i] != LogName(idText, reports[j])
    {
      assert StaleName(removed[i], reports, machine, clock, timeout, ticketText);
      var k :| 0 <= k < |reports| && Stale(reports[k], machine, clock, timeout) &&
        removed[i] == LogName(ticketText, reports[k]);
      LogNameTicketChar(ticketText, reports[k]);
      LogNameTicketChar(idText, reports[j]);
    }
  }

  /** `prune_pending` with the log names built from the ticket's id, as `post_report`
      stores them. */
  function ServerPruneFixed(t: Ticket, machine: Option<seq<string>>, clock: Clock, timeout: int)
    : (r: Pruned)
    ensures r.reports == PruneCopy(t.reports.GetOr([]), machine, clock, timeout)
    ensures NamesStale(r.removedLogs, t.reports.GetOr([]), machine, clock, timeout, IntToString(t.id))
  {
    var reports := t.reports.GetOr([]);
    Pruned(PruneCopy(reports, machine, clock, timeout),
           PruneLogs(reports, machine, clock, timeout, IntToString(t.id)))
  }

  /** When pruning succeeds, the log of every report it drops is deleted, and only those:
      one deleted name per dropped report. */
  lemma {:induction false} PruneLogsComplete(reports: seq<Report>, machine: Option<seq<string>>,
                                             clock: Clock, timeout: int, ticketText: string)
    requires forall i :: 0 <= i < |reports| ==> !Unparsable(reports[i], clock)
    ensures var logs := PruneLogs(reports, machine, clock, timeout, ticketText);
      |logs| + |Fresh(reports, machine, clock, timeout)| == |reports| &&
      forall j :: 0 <= j < |reports| && Stale(reports[j], machine, clock, timeout) ==>
        LogName(ticketText, reports[j]) in logs
  {
    PruneLogsCount(reports, machine, clock, timeout, ticketText);
    PruneLogsNames(reports, machine, clock, timeout, ticketText);
  }

  lemma {:induction false} PruneLogsCount(reports: seq<Report>, machine: Option<seq<string>>,
                                          clock: Clock, timeout: int, ticketText: string)
    requires forall i :: 0 <= i < |reports| ==> !Unparsable(reports[i], clock)
    ensures |PruneLogs(reports, machine, clock, timeout, ticketText)| + |Fresh(reports, machine, clock, timeout)|
      == |reports|
  {
    if |reports| > 0 {
      assert forall i :: 0 <= i < |reports[1..]| ==> reports[1..][i] == reports[i + 1];
      PruneLogsCount(reports[1..], machine, clock, timeout, ticketText);
    }
  }

  lemma {:induction false} PruneLogsNames(reports: seq<Report>, machine: Option<seq<string>>,
                                          clock: Clock, timeout: int, ticketText: string)
    requires forall i :: 0 <= i < |reports| ==> !Unparsable(reports[i], clock)
    ensures forall j :: 0 <= j < |reports| && Stale(reports[j], machine, clock, timeout) ==>
      LogName(ticketText, reports[j]) in PruneLogs(reports, machine, clock, timeout, ticketText)
  {
    if |reports| > 0 {
      assert forall i :: 0 <= i < |reports[1..]| ==> reports[1..][i] == reports[i + 1];
      PruneLogsNames(reports[1..], machine, clock, timeout, ticketText);
      forall j | 0 < j < |reports| && Stale(reports[j], machine, clock, timeout)
        ensures LogName(ticketText, reports[j]) in PruneLogs(reports, machine, clock, timeout, ticketText)
      {
        assert reports[1..][j - 1] == reports[j];
      }
    }
  }

  // ---- post_report ----

  /** The report dict a patchbot posts; each key may be missing. */
  datatype Posted = Posted(
    status: Option<string>,
    spkgs: Option<bool>,
    base: Option<string>,
    machine: Option<seq<string>>,
    time: Option<string>,
    gitCommit: Option<string>,
    deps: Option<seq<Dep>>,
    gitBase: Option<string>)

  /** The posted dict as a report, when the five required keys are present. */
  function ToReport(p: Posted): (r: Option<Report>)
    ensures r.Some? <==> p.status.Some? && p.spkgs.Some? && p.base.Some? && p.machine.Some? && p.time.Some?
  {
    if p.status.Some? && p.spkgs.Some? && p.base.Some? && p.machine.Some? && p.time.Some? then
      Some(Report(p.status.value, p.machine.value, p.time.value, p.base.value, p.spkgs.value,
                  p.gitCommit, p.deps, p.gitBase))
    else None
  }

  /** What handling a post leaves behind: the ticket saved (if any), the key the log was
      stored under, the log keys deleted (which happens even when the post fails
      afterwards), and the keys of the stored logs afterwards. */
  datatype Posting = Posting(saved: Option<Ticket>, logName: Option<string>, removedLogs: seq<string>,
                             logs: set<string>)

  /** The text `post_report` answers with. */
  function Response(p: Posting): string {
    if p.saved.Some? then "ok (report successfully posted)" else "error in posting the report"
  }

  /** Every check `post_report` makes before touching the reports passes. */
  predicate Admissible(stored: Ticket, rep: Report, ticket0: Option<Ticket>) {
    && |rep.machine| > 0
    && ShortName(rep) !in Blacklist
    && (stored.id == 0 || IsGoodMachine(ShortName(rep), ticket0) == Ok(true))
  }

  /** `post_report(ticket_id)`: `stored` is the ticket found (or scraped) under the id,
      `posted` the decoded request (`None` when it is not a dict), `ticket0` the stored
      ticket 0, `now` the current time as the server writes it, `ticketText` the `str` of
      the ticket dict that `prune_pending` hands to `log_name`, and `logs` the keys of
      the logs stored so far. `db.logs.put` raises when its key is already taken, before
      the ticket is saved. */
  function PostReport(stored: Ticket, posted: Option<Posted>, ticket0: Option<Ticket>,
                      clock: Clock, now: string, ticketText: string, logs: set<string>): (r: Posting)
    requires |ticketText| > 0 && ticketText[0] == '{'
    ensures r.saved.Some? <==>
      && posted.Some? && ToReport(posted.value).Some?
      && Admissible(stored, ToReport(posted.value).value, ticket0)
      && (forall i :: 0 <= i < |stored.reports.GetOr([])| ==> !Unparsable(stored.reports.GetOr([])[i], clock))
      && LogName(IntToString(stored.id), ToReport(posted.value).value) !in logs
    ensures r.saved.Some? ==>
      var rep := ToReport(posted.value).value;
      && r.saved.value.reports == Some(Fresh(stored.reports.GetOr([]), Some(rep.machine), clock, PendingTimeout) + [rep])
      && r.logName == Some(LogName(IntToString(stored.id), rep))
      && r.saved.value.retry == (if stored.retry.Some? then Some(false) else None)
      && r.saved.value.lastActivity == Some(now)
    ensures r.saved.Some? ==>
      r.saved.value.(reports := stored.reports, retry := stored.retry, lastActivity := stored.lastActivity) == stored
    ensures r.saved.None? ==> r.logName.None?
    ensures |r.removedLogs| > 0 ==>
      && posted.Some? && ToReport(posted.value).Some?
      && NamesStale(r.removedLogs, stored.reports.GetOr([]), Some(ToReport(posted.value).value.machine),
                    clock, PendingTimeout, ticketText)
    ensures forall n :: n in r.logs <==> (n in logs && n !in r.removedLogs) || r.logName == Some(n)
  {
    var refused := Posting(None, None, [], logs);
    match posted
    case None => refused
    case Some(p) =>
      match ToReport(p)
      case None => refused
      case Some(rep) =>
        if !Admissible(stored, rep, ticket0) then refused
        else
          var pruned := ServerPrune(stored.reports.GetOr([]), Some(rep.machine), clock, PendingTimeout, ticketText);
          var left := logs - set n | n in pruned.removedLogs;
          var name := LogName(IntToString(stored.id), rep);
          DeletedNeverStored(stored.id, stored.reports.GetOr([]), Some(rep.machine), clock, PendingTimeout,
                             ticketText, rep);
          match pruned.reports
          case Err(_) => Posting(None, None, pruned.removedLogs, left)
          case Ok(kept) =>
            if name in left then Posting(None, None, pruned.removedLogs, left)
            else
              var saved := stored.(reports := Some(kept + [rep]),
                                   retry := if stored.retry.Some? then Some(false) else None,
                                   lastActivity := Some(now));
              Posting(Some(saved), Some(name), pruned.removedLogs, left + {name})
  }

  /** A log key built from a ticket dict's text never equals one built from a ticket
      number: they differ right after `/log/` or after `/log/Pending/`. */
  lemma DictNameNotIdName(ticketText: string, id: int, a: Report, b: Report)
    requires |ticketText| > 0 && ticketText[0] == '{'
    ensures LogName(ticketText, a) != LogName(IntToString(id), b)
  {
    var idText := IntToString(id);
    IntToStringChars(id);
    assert idText[0] in idText;
    LogNameTicketChar(ticketText, a);
    LogNameTicketChar(idText, b);
  }

  /** The keys the server's prune deletes never include `LogName(id, rep)`. */
  lemma DeletedNeverStored(id: int, reports: seq<Report>, machine: Option<seq<string>>, clock: Clock,
                           timeout: int, ticketText: string, rep: Report)
    requires |ticketText| > 0 && ticketText[0] == '{'
    ensures LogName(IntToString(id), rep) !in ServerPrune(reports, machine, clock, timeout, ticketText).removedLogs
  {
    var removed := ServerPrune(reports, machine, clock, timeout, ticketText).removedLogs;
    forall i | 0 <= i < |removed|
      ensures removed[i] != LogName(IntToString(id), rep)
    {
      assert StaleName(removed[i], reports, machine, clock, timeout, ticketText);
      var k :| 0 <= k < |reports| && Stale(reports[k], machine, clock, timeout) &&
        removed[i] == LogName(ticketText, reports[k]);
      DictNameNotIdName(ticketText, id, reports[k], rep);
    }
  }

  /** Pruning what pruning left changes nothing. */
  lemma {:induction false} FreshIdempotent(reports: seq<Report>, machine: Option<seq<string>>,
                                           clock: Clock, timeout: int)
    ensures Fresh(Fresh(reports, machine, clock, timeout), machine, clock, timeout) ==
            Fresh(reports, machine, clock, timeout)
  {
    if |reports| > 0 {
      FreshIdempotent(reports[1..], machine, clock, timeout);
    }
  }

  /** A post's own report survives the pruning, and afterwards the posting machine has no
      other Pending report on the ticket. */
  lemma PostKeepsOnePending(stored: Ticket, posted: Option<Posted>, ticket0: Option<Ticket>,
                            clock: Clock, now: string, ticketText: string, logs: set<string>)
    requires |ticketText| > 0 && ticketText[0] == '{'
    requires PostReport(stored, posted, ticket0, clock, now, ticketText, logs).saved.Some?
    ensures var reps := PostReport(stored, posted, ticket0, clock, now, ticketText, logs).saved.value.reports.value;
      var rep := ToReport(posted.value).value;
      |reps| > 0 && reps[|reps| - 1] == rep &&
      forall i :: 0 <= i < |reps| - 1 ==> !(reps[i].status == "Pending" && reps[i].machine == rep.machine)
  {
    var rep := ToReport(posted.value).value;
    var old_ := stored.reports.GetOr([]);
    var kept := Fresh(old_, Some(rep.machine), clock, PendingTimeout);
    var reps := kept + [rep];
    forall i | 0 <= i < |reps| - 1
      ensures !(reps[i].status == "Pending" && reps[i].machine == rep.machine)
    {
      assert reps[i] == kept[i];
      assert !Stale(kept[i], Some(rep.machine), clock, PendingTimeout);
      assert kept[i] in old_;
      var j :| 0 <= j < |old_| && old_[j] == kept[i];
      assert !Unparsable(old_[j], clock);
    }
  }

  /** Posting the same report a second time is refused: its log key is taken by the
      first post's log, and the prune deletes keys built from the ticket dict only. The
      ticket keeps the single copy the first post saved. */
  lemma PostTwiceRefused(stored: Ticket, posted: Posted, ticket0: Option<Ticket>, clock: Clock,
                         now: string, later: string, ticketText: string, ticketText2: string,
                         logs: set<string>)
    requires |ticketText| > 0 && ticketText[0] == '{'
    requires |ticketText2| > 0 && ticketText2[0] == '{'
    requires PostReport(stored, Some(posted), ticket0, clock, now, ticketText, logs).saved.Some?
    ensures var first := PostReport(stored, Some(posted), ticket0, clock, now, ticketText, logs);
      var second := PostReport(first.saved.value, Some(posted), ticket0, clock, later, ticketText2, first.logs);
      second.saved.None? && first.logName.value in second.logs
  {
    var first := PostReport(stored, Some(posted), ticket0, clock, now, ticketText, logs);
    var rep := ToReport(posted).value;
    var name := LogName(IntToString(stored.id), rep);
    assert first.logName == Some(name) && name in first.logs;
    var t := first.saved.value;
    assert t.id == stored.id;
    var second := PostReport(t, Some(posted), ticket0, clock, later, ticketText2, first.logs);
    DeletedNeverStored(t.id, t.reports.GetOr([]), Some(rep.machine), clock, PendingTimeout, ticketText2, rep);
  }

  // ---- extract_plugin_log ----

  /** The loop of `extract_plugin_log` over the lines of the log, collecting from the
      start marker on and stopping after the end marker. */
  function ExtractLines<T(==)>(lines: seq<T>, start: T, end: T, collecting: bool): seq<T> {
    if |lines| == 0 then []
    else
      var inc := collecting || lines[0] == start;
      var here := if inc then [lines[0]] else [];
      if lines[0] == end then here else here + ExtractLines(lines[1..], start, end, inc)
  }

  /** Reference definition: the lines from the first start marker through the first end
      marker, nothing when the end marker comes first, the rest when it never comes. */
  function Section<T(==)>(lines: seq<T>, start: T, end: T): seq<T> {
    match FirstIndex(lines, start)
    case None => []
    case Some(i) =>
      match FirstIndex(lines, end)
      case None => lines[i..]
      case Some(e) => if e < i then [] else lines[i..e + 1]
  }

  /** Once collecting, the loop takes everything up to and including the end marker. */
  lemma {:induction false} ExtractIncluding<T>(lines: seq<T>, start: T, end: T)
    ensures ExtractLines(lines, start, end, true) ==
      (match FirstIndex(lines, end) case None => lines case Some(e) => lines[..e + 1])
  {
    if |lines| > 0 && lines[0] != end {
      ExtractIncluding(lines[1..], start, end);
      match FirstIndex(lines[1..], end)
      case None =>
      case Some(e) =>
        assert lines[..e + 2] == [lines[0]] + lines[1..][..e + 1];
    }
  }

  lemma {:induction false} ExtractLinesIsSection<T>(lines: seq<T>, start: T, end: T)
    ensures ExtractLines(lines, start, end, false) == Section(lines, start, end)
  {
    if |lines| > 0 && lines[0] != end {
      if lines[0] == start {
        SectionAtStart(lines, start, end);
      } else {
        ExtractLinesIsSection(lines[1..], start, end);
        SectionSkipsHead(lines, start, end);
      }
    }
  }

  /** A log opening with the start marker is collected through the first end marker. */
  lemma SectionAtStart<T>(lines: seq<T>, start: T, end: T)
    requires |lines| > 0 && lines[0] == start && start != end
    ensures ExtractLines(lines, start, end, false) == Section(lines, start, end)
  {
    var tail := lines[1..];
    assert ExtractLines(lines, start, end, false) == [lines[0]] + ExtractLines(tail, start, end, true);
    ExtractIncluding(tail, start, end);
    FirstIndexPastHead(lines, end);
    assert FirstIndex(lines, start) == Some(0);
    match FirstIndex(tail, end)
    case None =>
      assert ExtractLines(tail, start, end, true) == tail;
      assert Section(lines, start, end) == lines[0..];
      assert lines[0..] == [lines[0]] + tail;
    case Some(e) =>
      assert ExtractLines(tail, start, end, true) == tail[..e + 1];
      assert Section(lines, start, end) == lines[0..e + 2];
      HeadThenPrefix(lines, e + 2);
  }

  lemma HeadThenPrefix<T>(xs: seq<T>, n: nat)
    requires 0 < n <= |xs|
    ensures xs[0..n] == [xs[0]] + xs[1..][..n - 1]
  {
  }

  /** A first line that is neither marker does not change the section. */
  lemma SectionSkipsHead<T>(lines: seq<T>, start: T, end: T)
    requires |lines| > 0 && lines[0] != start && lines[0] != end
    ensures Section(lines, start, end) == Section(lines[1..], start, end)
  {
    var tail := lines[1..];
    FirstIndexPastHead(lines, start);
    FirstIndexPastHead(lines, end);
    match FirstIndex(tail, start)
    case None =>
    case Some(i) =>
      match FirstIndex(tail, end)
      case None => SkipsHeadUnclosed(lines, start, end, i);
      case Some(e) => SkipsHeadClosed(lines, start, end, i, e);
  }

  lemma SkipsHeadUnclosed<T>(lines: seq<T>, start: T, end: T, i: nat)
    requires |lines| > 0 && i < |lines| - 1
    requires FirstIndex(lines, start) == Some(i + 1) && FirstIndex(lines, end).None?
    requires FirstIndex(lines[1..], start) == Some(i) && FirstIndex(lines[1..], end).None?
    ensures Section(lines, start, end) == Section(lines[1..], start, end)
  {
    SliceOfTail(lines, i, |lines| - 1);
  }

  lemma SkipsHeadClosed<T>(lines: seq<T>, start: T, end: T, i: nat, e: nat)
    requires |lines| > 0 && i < |lines| - 1 && e < |lines| - 1
    requires FirstIndex(lines, start) == Some(i + 1) && FirstIndex(lines, end) == Some(e + 1)
    requires FirstIndex(lines[1..], start) == Some(i) && FirstIndex(lines[1..], end) == Some(e)
    ensures Section(lines, start, end) == Section(lines[1..], start, end)
  {
    if i <= e {
      SliceOfTail(lines, i, e + 1);
    }
  }

  lemma SliceOfTail<T>(xs: seq<T>, i: nat, j: nat)
    requires 1 <= |xs| && i <= j <= |xs| - 1
    ensures xs[1..][i..j] == xs[i + 1..j + 1]
  {
  }

  lemma FirstIndexPastHead<T>(xs: seq<T>, x: T)
    requires |xs| > 0 && xs[0] != x
    ensures FirstIndex(xs, x) ==
      (match FirstIndex(xs[1..], x) case None => None case Some(k) => Some(k + 1))
  {
  }

  /** `extract_plugin_log(data, plugin)`: the part of the log between the plugin's
      marker lines, markers included. */
  function ExtractPluginLog(data: string, plugin: string): (r: string)
    ensures r == Concat(Section(Lines(data), Boundary(plugin, PluginPart) + "\n",
                                Boundary(plugin, PluginEnd) + "\n"))
  {
    var start := Boundary(plugin, PluginPart) + "\n";
    var end := Boundary(plugin, PluginEnd) + "\n";
    ExtractLinesIsSection(Lines(data), start, end);
    Concat(ExtractLines(Lines(data), start, end, false))
  }

  /** A plugin's output printed between its markers, with neither marker line occurring
      earlier in the log nor the end marker inside the output, is extracted exactly. */
  lemma ExtractPluginLogRoundTrip(before: string, body: string, after: string, plugin: string)
    requires '\n' !in plugin
    requires |before| == 0 || before[|before| - 1] == '\n'
    requires |body| == 0 || body[|body| - 1] == '\n'
    requires Boundary(plugin, PluginPart) + "\n" !in Lines(before)
    requires Boundary(plugin, PluginEnd) + "\n" !in Lines(before) + Lines(body)
    ensures var start := Boundary(plugin, PluginPart) + "\n";
      var end := Boundary(plugin, PluginEnd) + "\n";
      ExtractPluginLog(before + (start + (body + (end + after))), plugin) == start + body + end
  {
    var start := Boundary(plugin, PluginPart) + "\n";
    var end := Boundary(plugin, PluginEnd) + "\n";
    PluginMarkersDiffer(plugin);
    MarkerLine(plugin, PluginPart);
    MarkerLine(plugin, PluginEnd);
    LinesOfFramed(before, start, body, end, after);
    SectionOfFramed(Lines(before), start, Lines(body), end, Lines(after));
    ConcatAppend([start] + Lines(body), end);
    ConcatPrepend(start, Lines(body));
  }

  /** A marker followed by a newline is read back as one line. */
  lemma MarkerLine(plugin: string, kind: Part)
    requires '\n' !in plugin
    ensures Lines(Boundary(plugin, kind) + "\n") == [Boundary(plugin, kind) + "\n"]
  {
    var line := Boundary(plugin, kind) + "\n";
    BoundaryHasNoNewline(plugin, kind);
    forall k | 0 <= k < |line| - 1
      ensures line[k] != '\n'
    {
      assert line[k] == Boundary(plugin, kind)[k];
    }
    LinesSingle(line);
  }

  /** The lines of a log with a framed part are the lines of its pieces. */
  lemma LinesOfFramed(before: string, start: string, body: string, end: string, after: string)
    requires |before| == 0 || before[|before| - 1] == '\n'
    requires |body| == 0 || body[|body| - 1] == '\n'
    requires |start| > 0 && start[|start| - 1] == '\n' && Lines(start) == [start]
    requires |end| > 0 && end[|end| - 1] == '\n' && Lines(end) == [end]
    ensures Lines(before + (start + (body + (end + after)))) ==
      Lines(before) + ([start] + (Lines(body) + ([end] + Lines(after))))
  {
    var x1 := end + after;
    var x2 := body + x1;
    var x3 := start + x2;
    LinesAppend(end, after);
    LinesAppend(body, x1);
    LinesAppend(start, x2);
    LinesAppend(before, x3);
  }

  /** The section of framed lines is the frame with what it encloses. */
  lemma SectionOfFramed<T>(before: seq<T>, start: T, body: seq<T>, end: T, after: seq<T>)
    requires start != end && start !in before && end !in before + body
    ensures Section(before + ([start] + (body + ([end] + after))), start, end) == [start] + body + [end]
  {
    FramedPrefixes(before, start, body, end, after);
    EndNotBefore(before, start, body, end);
    SectionOfMarked(before + ([start] + (body + ([end] + after))), start, end, before, body);
  }

  /** Lines whose first start marker and first end marker enclose `body`. */
  lemma SectionOfMarked<T>(lines: seq<T>, start: T, end: T, before: seq<T>, body: seq<T>)
    requires start !in before && end !in before + [start] + body
    requires |before| + 1 + |body| < |lines|
    requires lines[|before|] == start && lines[|before| + 1 + |body|] == end
    requires lines[..|before|] == before && lines[..|before| + 1 + |body|] == before + [start] + body
    requires lines[|before|..|before| + 1 + |body| + 1] == [start] + body + [end]
    ensures Section(lines, start, end) == [start] + body + [end]
  {
    var i := |before|;
    var e := i + 1 + |body|;
    FirstIndexAt(lines, start, i);
    FirstIndexAt(lines, end, e);
    SectionBetween(lines, start, end, i, e);
  }

  lemma SectionBetween<T>(lines: seq<T>, start: T, end: T, i: nat, e: nat)
    requires FirstIndex(lines, start) == Some(i) && FirstIndex(lines, end) == Some(e) && i <= e
    ensures Section(lines, start, end) == lines[i..e + 1]
  {
  }

  lemma EndNotBefore<T>(before: seq<T>, start: T, body: seq<T>, end: T)
    requires start != end && end !in before + body
    ensures end !in before + [start] + body
  {
    assert before + [start] + body == before + ([start] + body);
  }

  /** Where the markers sit among framed lines, and what lies before and between them. */
  lemma FramedPrefixes<T>(before: seq<T>, start: T, body: seq<T>, end: T, after: seq<T>)
    ensures var lines := before + ([start] + (body + ([end] + after)));
      var i := |before|;
      var e := i + 1 + |body|;
      && e < |lines| && lines[i] == start && lines[e] == end
      && lines[..i] == before && lines[..e] == before + [start] + body
      && lines[i..e + 1] == [start] + body + [end]
  {
  }

  lemma ConcatPrepend(s: string, parts: seq<string>)
    ensures Concat([s] + parts) == s + Concat(parts)
  {
    assert ([s] + parts)[1..] == parts;
  }
}

=== FILE: skips.dfy ===
/** The patchbot's `to_skip` table maps a ticket number to the time until which the
    ticket is not tested again. A `SkipTicket` raised without a delay asks for
    `float('inf')` seconds, and a deadline of infinity never passes. */
module Skips {
  /** The `seconds_till_retry` of a `SkipTicket`: a number of seconds, or the default
      `float('inf')`. */
  datatype Delay = Seconds(n: int) | Forever

  /** A `to_skip` value: a time, or infinity. */
  datatype Deadline = At(time: int) | Never

  /** `to_skip[id] < time.time()`: the skip has run out. Infinity is below no clock
      reading. */
  predicate Expired(d: Deadline, now: int) {
    d.At? && d.time < now
  }

  /** `time.time() + delay`: the deadline runs out exactly when the clock has gone past
      `now` by more than a finite delay. */
  function SkipUntil(now: int, d: Delay): (r: Deadline)
    ensures r.Never? <==> d.Forever?
    ensures forall later :: Expired(r, later) <==> d.Seconds? && later > now + d.n
  {
    match d
    case Seconds(n) => At(now + n)
    case Forever => Never
  }
}

=== FILE: strings.dfy ===
/** The handful of Python `str` operations the patchbot leans on: `find`, `split` with an
    explicit separator, `join`, `strip`, `startswith`/`endswith`, `str(int)` and `int(str)`.
    Only ASCII whitespace and ASCII digits are modelled. */
module Strings {
  import opened Wrappers
  import Seqs

  predicate IsDigit(c: char) { '0' <= c <= '9' }

  /** The ASCII characters Python's `str.strip()` removes. */
  predicate IsSpace(c: char) {
    c == ' ' || 9 <= c as int <= 13 || 28 <= c as int <= 31
  }

  predicate StartsWith(s: string, p: string) { |p| <= |s| && s[..|p|] == p }

  predicate EndsWith(s: string, p: string) { |p| <= |s| && s[|s| - |p|..] == p }

  predicate OccursAt(s: string, pat: string, i: nat) {
    i + |pat| <= |s| && s[i..i + |pat|] == pat
  }

  /** Python's `pat in s`. */
  predicate Contains(s: string, pat: string) {
    exists i: nat | i <= |s| :: OccursAt(s, pat, i)
  }

  /** Python's `s.find(pat, from)`, with `None` for -1. */
  function Find(s: string, pat: string, from: nat): (r: Option<nat>)
    ensures r.Some? ==> from <= r.value && OccursAt(s, pat, r.value)
    ensures r.Some? ==> forall k: nat :: from <= k < r.value ==> !OccursAt(s, pat, k)
    ensures r.None? ==> forall k: nat :: from <= k ==> !OccursAt(s, pat, k)
    decreases |s| - from
  {
    if from + |pat| > |s| then None
    else if OccursAt(s, pat, from) then Some(from)
    else Find(s, pat, from + 1)
  }

  /** Python's `sep.join(parts)`. */
  function Join(parts: seq<string>, sep: string): string {
    if |parts| == 0 then ""
    else if |parts| == 1 then parts[0]
    else parts[0] + sep + Join(parts[1..], sep)
  }

  /** Concatenation of a sequence of strings (`''.join(parts)`). */
  function Concat(parts: seq<string>): string {
    if |parts| == 0 then "" else parts[0] + Concat(parts[1..])
  }

  lemma ConcatAppend(parts: seq<string>, last: string)
    ensures Concat(parts + [last]) == Concat(parts) + last
  {
    if |parts| > 0 {
      assert (parts + [last])[1..] == parts[1..] + [last];
    }
  }

  lemma NoOccurrenceInPrefix(s: string, pat: string, i: nat)
    requires |pat| > 0 && i <= |s|
    requires forall k: nat :: k < i ==> !OccursAt(s, pat, k)
    ensures !Contains(s[..i], pat)
  {
    forall k: nat
      ensures !OccursAt(s[..i], pat, k)
    {
      if k + |pat| <= i {
        assert s[..i][k..k + |pat|] == s[k..k + |pat|];
        assert k < i && !OccursAt(s, pat, k);
      }
    }
  }

  /** Python's `s.split(sep)` for a non-empty separator: the pieces between the
      leftmost non-overlapping occurrences of `sep`. */
  function Split(s: string, sep: string): (r: seq<string>)
    requires |sep| > 0
    ensures |r| >= 1
    ensures Join(r, sep) == s
    ensures forall i :: 0 <= i < |r| ==> !Contains(r[i], sep)
    decreases |s|
  {
    match Find(s, sep, 0)
    case None =>
      assert s[..|s|] == s;
      NoOccurrenceInPrefix(s, sep, |s|);
      [s]
    case Some(i) =>
      NoOccurrenceInPrefix(s, sep, i);
      var rest := Split(s[i + |sep|..], sep);
      assert s == s[..i] + sep + s[i + |sep|..];
      [s[..i]] + rest
  }

  /** `Find` from the start returns the first occurrence. */
  lemma FindIsFirst(s: string, pat: string, i: nat)
    requires OccursAt(s, pat, i)
    requires forall k: nat :: k < i ==> !OccursAt(s, pat, k)
    ensures Find(s, pat, 0) == Some(i)
  {
  }

  lemma NoCharOccurrence(t: string, c: char)
    requires c !in t
    ensures forall k: nat :: !OccursAt(t, [c], k)
  {
    forall k: nat
      ensures !OccursAt(t, [c], k)
    {
      if k < |t| {
        assert t[k] in t;
        assert t[k..k + 1] == [t[k]];
      }
    }
  }

  /** A string with no occurrence of a one-character separator splits into itself. */
  lemma SplitNoSep(t: string, c: char)
    requires c !in t
    ensures Split(t, [c]) == [t]
  {
    NoCharOccurrence(t, c);
  }

  /** The first separator of `s + [c] + t` is the first one of `s`, or the appended one. */
  lemma FindCharInAppend(s: string, c: char, t: string)
    ensures Find(s + [c] + t, [c], 0) ==
      (if Find(s, [c], 0).Some? then Find(s, [c], 0) else Some(|s|))
  {
    var w := s + [c] + t;
    var fs := Find(s, [c], 0);
    var i := if fs.Some? then fs.value else |s|;
    assert w[..|s|] == s;
    forall k: nat | k < i
      ensures !OccursAt(w, [c], k)
    {
      assert !OccursAt(s, [c], k);
      assert w[k..k + 1] == s[k..k + 1];
    }
    assert w[i..i + 1] == [c];
    FindIsFirst(w, [c], i);
  }

  /** Splitting on one character distributes over a final separator. */
  lemma {:induction false} SplitCharAppend(s: string, c: char, t: string)
    requires c !in t
    ensures Split(s + [c] + t, [c]) == Split(s, [c]) + [t]
    decreases |s|
  {
    var w := s + [c] + t;
    var fs := Find(s, [c], 0);
    FindCharInAppend(s, c, t);
    if fs.None? {
      assert w[..|s|] == s && w[|s| + 1..] == t;
      SplitNoSep(t, c);
      assert Split(w, [c]) == [s] + Split(t, [c]);
    } else {
      var i := fs.value;
      assert w[..i] == s[..i];
      assert w[i + 1..] == s[i + 1..] + [c] + t by {
        Seqs.ConcatAssoc(s, [c], t);
        Seqs.DropFromFront(s, [c] + t, i + 1);
        Seqs.ConcatAssoc(s[i + 1..], [c], t);
      }
      SplitCharAppend(s[i + 1..], c, t);
      assert Split(w, [c]) == [w[..i]] + Split(w[i + 1..], [c]);
      assert Split(s, [c]) == [s[..i]] + Split(s[i + 1..], [c]);
      Seqs.ConcatAssoc([s[..i]], Split(s[i + 1..], [c]), [t]);
    }
  }

  lemma {:induction false} JoinAppend(parts: seq<string>, last: string, sep: string)
    requires |parts| >= 1
    ensures Join(parts + [last], sep) == Join(parts, sep) + sep + last
  {
    if |parts| > 1 {
      assert (parts + [last])[1..] == parts[1..] + [last];
      JoinAppend(parts[1..], last, sep);
    }
  }

  lemma {:induction false} JoinConcat(a: seq<string>, b: seq<string>, sep: string)
    requires |a| >= 1 && |b| >= 1
    ensures Join(a + b, sep) == Join(a, sep) + sep + Join(b, sep)
  {
    assert (a + b)[0] == a[0];
    if |a| == 1 {
      assert (a + b)[1..] == b;
    } else {
      assert (a + b)[1..] == a[1..] + b;
      JoinConcat(a[1..], b, sep);
    }
  }

  /** Splitting on a one-character separator undoes joining pieces that do not contain it. */
  lemma {:induction false} SplitJoin(parts: seq<string>, c: char)
    requires |parts| >= 1
    requires forall i :: 0 <= i < |parts| ==> c !in parts[i]
    ensures Split(Join(parts, [c]), [c]) == parts
  {
    if |parts| == 1 {
      SplitNoSep(parts[0], c);
    } else {
      var init := parts[..|parts| - 1];
      var last := parts[|parts| - 1];
      assert parts == init + [last];
      JoinAppend(init, last, [c]);
      SplitJoin(init, c);
      SplitCharAppend(Join(init, [c]), c, last);
    }
  }

  /** `s.replace(c, rep)` for a single character `c`. */
  function ReplaceChar(s: string, c: char, rep: string): (r: string)
    ensures c !in s ==> r == s
    ensures forall x :: x in r ==> x in s || x in rep
  {
    if |s| == 0 then ""
    else (if s[0] == c then rep else [s[0]]) + ReplaceChar(s[1..], c, rep)
  }

  /** The lines `io.StringIO(s)` yields: `s` cut after every '\n'. */
  function Lines(s: string): (r: seq<string>)
    ensures Concat(r) == s
    decreases |s|
  {
    if |s| == 0 then []
    else match Find(s, "\n", 0)
      case None => [s]
      case Some(i) =>
        assert s == s[..i + 1] + s[i + 1..];
        [s[..i + 1]] + Lines(s[i + 1..])
  }

  predicate LineShaped(r: seq<string>) {
    && (forall i :: 0 <= i < |r| ==> |r[i]| > 0 && '\n' !in r[i][..|r[i]| - 1])
    && (forall i :: 0 <= i < |r| - 1 ==> r[i][|r[i]| - 1] == '\n')
  }

  /** Each line is non-empty and ends at its only '\n'; only the last may lack one. */
  lemma {:induction false} LinesShape(s: string)
    ensures LineShaped(Lines(s))
    decreases |s|
  {
    if |s| > 0 {
      match Find(s, "\n", 0)
      case None =>
        BeforeFirstNewline(s, |s|);
        assert s[..|s|] == s;
        assert Lines(s) == [s];
      case Some(i) =>
        BeforeFirstNewline(s, i);
        assert s[..i + 1][..i] == s[..i];
        LinesShape(s[i + 1..]);
        LineShapedCons(s[..i + 1], Lines(s[i + 1..]));
    }
  }

  /** No '\n' comes before the first one `Find` reports (or anywhere, if none). */
  lemma BeforeFirstNewline(s: string, i: nat)
    requires i <= |s|
    requires Find(s, "\n", 0) == (if i == |s| then None else Some(i))
    ensures '\n' !in s[..i]
    ensures i < |s| ==> s[i] == '\n'
  {
    forall k: nat | k < i
      ensures s[k] != '\n'
    {
      assert !OccursAt(s, "\n", k);
      assert s[k..k + 1] == [s[k]];
    }
    if i < |s| {
      assert s[i..i + 1] == "\n";
    }
  }

  lemma LineShapedCons(line: string, rest: seq<string>)
    requires |line| > 0 && '\n' !in line[..|line| - 1]
    requires |rest| > 0 ==> line[|line| - 1] == '\n'
    requires LineShaped(rest)
    ensures LineShaped([line] + rest)
  {
    var r := [line] + rest;
    forall j | 0 < j < |r|
      ensures r[j] == rest[j - 1]
    {
    }
  }

  /** The first newline of `s` is still the first one once more text follows. */
  lemma FindNewlineAppend(s: string, t: string, i: nat)
    requires Find(s, "\n", 0) == Some(i)
    ensures Find(s + t, "\n", 0) == Some(i)
  {
    var w := s + t;
    assert w[i..i + 1] == s[i..i + 1];
    forall k: nat | k < i
      ensures !OccursAt(w, "\n", k)
    {
      assert !OccursAt(s, "\n", k);
      assert w[k..k + 1] == s[k..k + 1];
    }
    FindIsFirst(w, "\n", i);
  }

  /** One newline-terminated line without other newlines is a single line. */
  lemma LinesSingle(line: string)
    requires |line| > 0 && line[|line| - 1] == '\n'
    requires forall k :: 0 <= k < |line| - 1 ==> line[k] != '\n'
    ensures Lines(line) == [line]
  {
    var n := |line| - 1;
    NewlineOnlyAtEnd(line);
    assert line[..n + 1] == line;
    assert line[n + 1..] == [];
  }

  lemma NewlineOnlyAtEnd(line: string)
    requires |line| > 0 && line[|line| - 1] == '\n'
    requires forall k :: 0 <= k < |line| - 1 ==> line[k] != '\n'
    ensures Find(line, "\n", 0) == Some(|line| - 1)
  {
    var n := |line| - 1;
    assert OccursAt(line, "\n", n) by {
      assert line[n..n + 1] == [line[n]];
    }
    forall k: nat | k < n
      ensures !OccursAt(line, "\n", k)
    {
      assert line[k..k + 1] == [line[k]];
    }
    FindIsFirst(line, "\n", n);
  }

  /** Text that ends with a newline contributes its own lines to whatever follows it. */
  lemma {:induction false} LinesAppend(a: string, b: string)
    requires |a| == 0 || a[|a| - 1] == '\n'
    ensures Lines(a + b) == Lines(a) + Lines(b)
    decreases |a|
  {
    if |a| == 0 {
      assert a + b == b;
    } else {
      assert OccursAt(a, "\n", |a| - 1) by {
        assert a[|a| - 1..|a|] == [a[|a| - 1]];
      }
      match Find(a, "\n", 0)
      case None =>
        assert false;
      case Some(i) =>
        var rest := a[i + 1..];
        LinesAppendStep(a, b, i);
        assert |rest| == 0 || rest[|rest| - 1] == '\n';
        LinesAppend(rest, b);
        Seqs.ConcatAssoc([a[..i + 1]], Lines(rest), Lines(b));
    }
  }

  /** The first line of `a + b` is that of `a` when `a` holds a newline. */
  lemma LinesAppendStep(a: string, b: string, i: nat)
    requires Find(a, "\n", 0) == Some(i)
    ensures Lines(a + b) == [a[..i + 1]] + Lines(a[i + 1..] + b)
    ensures Lines(a) == [a[..i + 1]] + Lines(a[i + 1..])
  {
    FindNewlineAppend(a, b, i);
    assert (a + b)[..i + 1] == a[..i + 1];
    assert (a + b)[i + 1..] == a[i + 1..] + b;
  }

  /** Python's `s.lstrip()`. */
  function LStrip(s: string): (r: string)
    ensures |r| <= |s| && r == s[|s| - |r|..]
    ensures forall i :: 0 <= i < |s| - |r| ==> IsSpace(s[i])
    ensures |r| > 0 ==> !IsSpace(r[0])
  {
    if |s| > 0 && IsSpace(s[0]) then LStrip(s[1..]) else s
  }

  /** Python's `s.rstrip()`. */
  function RStrip(s: string): (r: string)
    ensures |r| <= |s| && r == s[..|r|]
    ensures forall i :: |r| <= i < |s| ==> IsSpace(s[i])
    ensures |r| > 0 ==> !IsSpace(r[|r| - 1])
  {
    if |s| > 0 && IsSpace(s[|s| - 1]) then RStrip(s[..|s| - 1]) else s
  }

  /** Python's `s.strip()`: the slice left after removing leading and trailing whitespace. */
  function Strip(s: string): (r: string)
    ensures exists i, j :: 0 <= i <= j <= |s| && r == s[i..j]
    ensures |r| > 0 ==> !IsSpace(r[0]) && !IsSpace(r[|r| - 1])
    ensures (forall c :: c in s ==> IsSpace(c)) <==> r == ""
  {
    var l := LStrip(s);
    var r := RStrip(l);
    assert r == s[|s| - |l|..|s| - |l| + |r|];
    StripEmptyIffSpaces(s, l, r);
    r
  }

  /** Stripping twice is stripping once. */
  lemma StripIdempotent(s: string)
    ensures Strip(Strip(s)) == Strip(s)
  {
    var t := Strip(s);
    if |t| > 0 {
      assert !IsSpace(t[0]) && !IsSpace(t[|t| - 1]);
      assert LStrip(t) == t;
      assert RStrip(t) == t;
    }
  }

  lemma StripEmptyIffSpaces(s: string, l: string, r: string)
    requires l == LStrip(s) && r == RStrip(l)
    ensures (forall c :: c in s ==> IsSpace(c)) <==> r == ""
  {
    if r == "" {
      assert l == "";
    } else {
      assert r[0] == s[|s| - |l|];
      assert !IsSpace(r[0]) && r[0] in s;
    }
  }

  /** Python's `s.lstrip(chars)`. */
  function LStripChars(s: string, chars: set<char>): (r: string)
    ensures |r| <= |s| && r == s[|s| - |r|..]
    ensures |r| > 0 ==> r[0] !in chars
    ensures forall j :: 0 <= j < |s| - |r| ==> s[j] in chars
  {
    if |s| > 0 && s[0] in chars then
      var r := LStripChars(s[1..], chars);
      LStripStep(s, chars, r);
      r
    else s
  }

  /** One step of `lstrip`: a stripped first character joins the stripped prefix. */
  lemma LStripStep(s: string, chars: set<char>, r: string)
    requires |s| > 0 && s[0] in chars
    requires |r| <= |s| - 1 && r == s[1..][|s| - 1 - |r|..]
    requires forall j :: 0 <= j < |s| - 1 - |r| ==> s[1..][j] in chars
    ensures r == s[|s| - |r|..]
    ensures forall j :: 0 <= j < |s| - |r| ==> s[j] in chars
  {
    forall j | 0 <= j < |s| - |r|
      ensures s[j] in chars
    {
      if j > 0 {
        assert s[j] == s[1..][j - 1];
      }
    }
  }

  /** Python's `s.rstrip(chars)`. */
  function RStripChars(s: string, chars: set<char>): (r: string)
    ensures |r| <= |s| && r == s[..|r|]
    ensures |r| > 0 ==> r[|r| - 1] !in chars
    ensures forall j :: |r| <= j < |s| ==> s[j] in chars
  {
    if |s| > 0 && s[|s| - 1] in chars then RStripChars(s[..|s| - 1], chars) else s
  }

  /** `r` is `s[i..j]`, and everything of `s` outside that slice is in `chars`. */
  predicate TrimmedSlice(s: string, r: string, chars: set<char>, i: int, j: int) {
    0 <= i <= j <= |s| && r == s[i..j] &&
    (forall k :: 0 <= k < i ==> s[k] in chars) && (forall k :: j <= k < |s| ==> s[k] in chars)
  }

  /** Python's `s.strip(chars)`: the slice left after removing leading and trailing
      members of `chars`. */
  function StripChars(s: string, chars: set<char>): (r: string)
    ensures exists i, j :: TrimmedSlice(s, r, chars, i, j)
    ensures forall i :: 0 <= i < |r| ==> r[i] in s
    ensures |r| > 0 ==> r[0] !in chars && r[|r| - 1] !in chars
  {
    var l := LStripChars(s, chars);
    var r := RStripChars(l, chars);
    StripCharsSlice(s, chars, l, r);
    r
  }

  /** A prefix `r` of a suffix `l` of `s`, each cut off part made of `chars`, is a slice
      of `s` with the parts around it made of `chars`. */
  lemma StripCharsSlice(s: string, chars: set<char>, l: string, r: string)
    requires |l| <= |s| && l == s[|s| - |l|..] && forall k :: 0 <= k < |s| - |l| ==> s[k] in chars
    requires |r| <= |l| && r == l[..|r|] && forall k :: |r| <= k < |l| ==> l[k] in chars
    ensures exists i, j :: TrimmedSlice(s, r, chars, i, j)
    ensures forall i :: 0 <= i < |r| ==> r[i] in s
  {
    var i := |s| - |l|;
    var j := i + |r|;
    assert r == s[i..j];
    forall k | j <= k < |s|
      ensures s[k] in chars
    {
      assert s[k] == l[k - i];
    }
    forall k | 0 <= k < |r|
      ensures r[k] in s
    {
      assert r[k] == s[i + k];
    }
    assert TrimmedSlice(s, r, chars, i, j);
  }

  /** `strip(chars)` keeps a final character outside `chars`. */
  lemma StripCharsKeepsLast(s: string, chars: set<char>)
    requires |s| > 0 && s[|s| - 1] !in chars
    ensures var r := StripChars(s, chars); |r| > 0 && r[|r| - 1] == s[|s| - 1]
  {
    var r := StripChars(s, chars);
    var i, j :| TrimmedSlice(s, r, chars, i, j);
    assert j == |s|;
    assert i < |s|;
  }

  /** The characters Python 2's `str.strip()` and `int()` skip in a byte string: space,
      tab, newline, vertical tab, form feed and carriage return. */
  const Py2Space: set<char> := {' ', '\t', '\n', 11 as char, 12 as char, '\r'}

  /** No character of the four ASCII information separators (0x1c to 0x1f), which
      Python 3 counts as whitespace and Python 2 does not. */
  predicate NoInfoSeparators(s: string) {
    forall i :: 0 <= i < |s| ==> !(28 <= s[i] as int <= 31)
  }

  /** Off the information separators, Python 2's `lstrip()` is Python 3's. */
  lemma {:induction false} LStripPy2(s: string)
    requires NoInfoSeparators(s)
    ensures LStripChars(s, Py2Space) == LStrip(s)
    decreases |s|
  {
    if |s| > 0 {
      assert IsSpace(s[0]) <==> s[0] in Py2Space;
      if IsSpace(s[0]) {
        assert forall i :: 0 <= i < |s[1..]| ==> s[1..][i] == s[i + 1];
        LStripPy2(s[1..]);
      }
    }
  }

  /** Off the information separators, Python 2's `rstrip()` is Python 3's. */
  lemma {:induction false} RStripPy2(s: string)
    requires NoInfoSeparators(s)
    ensures RStripChars(s, Py2Space) == RStrip(s)
    decreases |s|
  {
    if |s| > 0 {
      assert IsSpace(s[|s| - 1]) <==> s[|s| - 1] in Py2Space;
      if IsSpace(s[|s| - 1]) {
        assert forall i :: 0 <= i < |s| - 1 ==> s[..|s| - 1][i] == s[i];
        RStripPy2(s[..|s| - 1]);
      }
    }
  }

  /** Off the information separators, Python 2's `strip()` is Python 3's. */
  lemma StripPy2(s: string)
    requires NoInfoSeparators(s)
    ensures StripChars(s, Py2Space) == Strip(s)
  {
    LStripPy2(s);
    var l := LStrip(s);
    assert forall i :: 0 <= i < |l| ==> l[i] == s[|s| - |l| + i];
    RStripPy2(l);
  }

  function DigitValue(c: char): nat
    requires IsDigit(c)
  {
    (c as int) - ('0' as int)
  }

  function DigitChar(d: nat): (c: char)
    requires d < 10
    ensures IsDigit(c) && DigitValue(c) == d
  {
    (('0' as int) + d) as char
  }

  predicate AllDigits(s: string) {
    forall i :: 0 <= i < |s| ==> IsDigit(s[i])
  }

  /** The value of a run of decimal digits (as `int('007') == 7`). */
  function DigitsValue(s: string): nat
    requires AllDigits(s)
  {
    if |s| == 0 then 0 else 10 * DigitsValue(s[..|s| - 1]) + DigitValue(s[|s| - 1])
  }

  /** Python's `str(n)` for a natural number. */
  function NatToString(n: nat): (r: string)
    ensures |r| > 0 && AllDigits(r)
    ensures r[0] == '0' ==> r == "0"
    decreases n
  {
    if n < 10 then [DigitChar(n)]
    else NatToString(n / 10) + [DigitChar(n % 10)]
  }

  /** Python's `str(n)` for any int. */
  function IntToString(n: int): string {
    if n < 0 then "-" + NatToString(-n) else NatToString(n)
  }

  /** A rendered int is a minus sign and digits. */
  lemma IntToStringChars(n: int)
    ensures forall c :: c in IntToString(n) ==> c == '-' || IsDigit(c)
  {
    var digits := NatToString(if n < 0 then -n else n);
    assert forall k :: 0 <= k < |digits| ==> IsDigit(digits[k]);
  }

  /** `int(str(n)) == n`: decimal rendering and reading are inverse. */
  lemma {:induction false} NatToStringRoundTrip(n: nat)
    ensures DigitsValue(NatToString(n)) == n
    decreases n
  {
    var r := NatToString(n);
    if n >= 10 {
      NatToStringRoundTrip(n / 10);
      assert r[..|r| - 1] == NatToString(n / 10);
    }
  }

  /** Python's `int(s)` for base 10: surrounding whitespace, an optional sign, and
      digits with single underscores between them. `None` stands for `ValueError`. */
  function PyInt(s: string): (r: Option<int>)
    ensures r.Some? ==> Strip(s) != ""
  {
    SignedNumber(Strip(s))
  }

  /** The stripped text of Python's `int(s)`: an optional sign before digits with
      single underscores between them. */
  function SignedNumber(t: string): (r: Option<int>)
    ensures r.Some? ==> t != ""
  {
    if |t| > 0 && (t[0] == '+' || t[0] == '-') then
      match UnderscoredDigits(t[1..])
      case None => None
      case Some(v) =>
        var n: int := if t[0] == '-' then 0 - v else v;
        Some(n)
    else UnderscoredDigits(t)
  }

  /** A non-empty digit string where `_` may only separate two digits. */
  function UnderscoredDigits(s: string): (r: Option<nat>)
    ensures AllDigits(s) && |s| > 0 ==> r == Some(DigitsValue(s))
    ensures r.Some? ==> |s| > 0
    decreases |s|
  {
    if |s| == 0 then None
    else if !IsDigit(s[|s| - 1]) then None
    else if |s| == 1 then Some(DigitValue(s[0]))
    else
      var init := s[..|s| - 1];
      var d := DigitValue(s[|s| - 1]);
      if init[|init| - 1] == '_' then
        match UnderscoredDigits(init[..|init| - 1])
        case None => None
        case Some(v) => Some(10 * v + d)
      else
        match UnderscoredDigits(init)
        case None => None
        case Some(v) => Some(10 * v + d)
  }

  /** Python 2's `int(s)` for base 10 on a byte string: as `PyInt`, but underscores are
      not accepted and only `Py2Space` counts as surrounding whitespace. */
  function Py2Int(s: string): (r: Option<int>)
    ensures r.Some? ==> StripChars(s, Py2Space) != ""
  {
    Py2SignedNumber(StripChars(s, Py2Space))
  }

  /** The stripped text of Python 2's `int(s)`: an optional sign before digits. */
  function Py2SignedNumber(t: string): (r: Option<int>)
    ensures r.Some? ==> t != ""
  {
    var sign := |t| > 0 && (t[0] == '+' || t[0] == '-');
    var digits := if sign then t[1..] else t;
    if |digits| == 0 || !AllDigits(digits) then None
    else if |t| > 0 && t[0] == '-' then Some(0 - DigitsValue(digits))
    else Some(DigitsValue(digits))
  }

  /** Python 2 reads every string without underscores and information separators the
      way Python 3 does. */
  lemma Py2IntAgrees(s: string)
    requires '_' !in s && NoInfoSeparators(s)
    ensures Py2Int(s) == PyInt(s)
  {
    StripPy2(s);
    StripKeepsOut(s, '_');
    SignedNumbersAgree(Strip(s));
  }

  lemma SignedNumbersAgree(t: string)
    requires '_' !in t
    ensures Py2SignedNumber(t) == SignedNumber(t)
  {
    var digits := if |t| > 0 && (t[0] == '+' || t[0] == '-') then t[1..] else t;
    assert '_' !in digits by {
      if digits != t {
        assert forall k :: 0 <= k < |digits| ==> digits[k] == t[k + 1];
      }
    }
    UnderscoreFree(digits);
  }

  /** `strip()` adds no character that was not there. */
  lemma StripKeepsOut(s: string, c: char)
    requires c !in s
    ensures c !in Strip(s)
  {
    var i, j :| 0 <= i <= j <= |s| && Strip(s) == s[i..j];
    assert forall k :: 0 <= k < j - i ==> s[i..j][k] == s[i + k];
  }

  /** Without underscores, `UnderscoredDigits` accepts exactly the non-empty digit runs. */
  lemma {:induction false} UnderscoreFree(s: string)
    requires '_' !in s
    ensures UnderscoredDigits(s).Some? <==> |s| > 0 && AllDigits(s)
    decreases |s|
  {
    if |s| > 1 && IsDigit(s[|s| - 1]) {
      var init := s[..|s| - 1];
      assert init[|init| - 1] in s;
      assert '_' !in init;
      UnderscoreFree(init);
      if AllDigits(init) {
        assert AllDigits(s);
      }
    }
  }

  /** `strip()` keeps a final character that is not whitespace. */
  lemma StripKeepsLast(s: string)
    requires |s| > 0 && !IsSpace(s[|s| - 1])
    ensures |Strip(s)| > 0 && Strip(s)[|Strip(s)| - 1] == s[|s| - 1]
  {
    var l := LStrip(s);
    assert |l| > 0;
    assert l[|l| - 1] == s[|s| - 1];
    assert RStrip(l) == l;
  }

  /** A string ending in a character that is neither a digit nor whitespace is not an
      integer, for either Python's `int()`. */
  lemma NotIntWhenLastNotDigit(s: string)
    requires |s| > 0 && !IsDigit(s[|s| - 1]) && !IsSpace(s[|s| - 1])
    ensures PyInt(s) == None && Py2Int(s) == None
  {
    NotPyIntWhenLastNotDigit(s);
    NotPy2IntWhenLastNotDigit(s);
  }

  lemma NotPyIntWhenLastNotDigit(s: string)
    requires |s| > 0 && !IsDigit(s[|s| - 1]) && !IsSpace(s[|s| - 1])
    ensures PyInt(s) == None
  {
    StripKeepsLast(s);
    NotNumberWhenLastNotDigit(Strip(s));
  }

  lemma NotPy2IntWhenLastNotDigit(s: string)
    requires |s| > 0 && !IsDigit(s[|s| - 1]) && !IsSpace(s[|s| - 1])
    ensures Py2Int(s) == None
  {
    assert s[|s| - 1] !in Py2Space;
    StripCharsKeepsLast(s, Py2Space);
    NotNumberWhenLastNotDigit(StripChars(s, Py2Space));
  }

  lemma NotNumberWhenLastNotDigit(t: string)
    requires |t| > 0 && !IsDigit(t[|t| - 1])
    ensures SignedNumber(t) == None && Py2SignedNumber(t) == None
  {
    if |t| > 1 {
      assert t[1..][|t| - 2] == t[|t| - 1];
    }
  }

  /** Python 3's `int()` skips a leading information separator; Python 2's does not. */
  lemma Py2IntInfoSeparator()
    ensures PyInt([28 as char] + "12") == Some(12)
    ensures Py2Int([28 as char] + "12") == None
  {
    var s := [28 as char] + "12";
    StripSeparator(s);
    TwelveValue();
    KeptSeparator(s);
  }

  lemma StripSeparator(s: string)
    requires s == [28 as char] + "12"
    ensures Strip(s) == "12"
  {
    assert s[1..] == "12";
    assert LStrip(s) == LStrip("12");
    assert RStrip("12") == "12";
  }

  lemma TwelveValue()
    ensures SignedNumber("12") == Some(12)
  {
    assert "12"[..1] == "1";
    assert DigitsValue("12") == 12;
  }

  lemma KeptSeparator(s: string)
    requires s == [28 as char] + "12"
    ensures StripChars(s, Py2Space) == s && Py2SignedNumber(s) == None
  {
    assert LStripChars(s, Py2Space) == s;
    assert RStripChars(s, Py2Space) == s;
    assert !AllDigits(s);
  }

  lemma PyIntOfNatString(n: nat)
    ensures PyInt(NatToString(n)) == Some(n)
  {
    var s := NatToString(n);
    assert Strip(s) == s by {
      assert !IsSpace(s[0]) && !IsSpace(s[|s| - 1]);
      assert LStrip(s) == s;
      assert RStrip(s) == s;
    }
    NatToStringRoundTrip(n);
  }

  lemma Py2IntOfNatString(n: nat)
    ensures Py2Int(NatToString(n)) == Some(n)
  {
    var s := NatToString(n);
    assert '_' !in s && NoInfoSeparators(s) by {
      forall i | 0 <= i < |s| ensures s[i] != '_' && !(28 <= s[i] as int <= 31) {
        assert IsDigit(s[i]);
      }
    }
    Py2IntAgrees(s);
    PyIntOfNatString(n);
  }
}

=== FILE: tools.dfy ===
/** Maintenance helpers of the report server (sage_patchbot/server/tools.py): finding
    the machines behind a list of stored logs, and trimming tickets with many reports.
    The database is a sequence of tickets; a log is known by its id. */
module Tools {
  import opened Wrappers
  import opened Strings
  import opened Lex
  import opened Seqs
  import opened Reports
  import opened Server

  // ---- extraction_machine ----

  predicate NotPending(segment: string) {
    segment != "Pending"
  }

  /** The segment `extraction_machine` reads from one log id: split on '/', drop the
      'Pending' segments, take the second-to-last (`IndexError` when fewer than two). */
  function MachineOfLog(id: string): (r: Result<string>)
    ensures r.Ok? <==> |Filter(Split(id, "/"), NotPending)| >= 2
    ensures r.Ok? ==> r.value != "Pending" && r.value in Split(id, "/")
  {
    var f := Filter(Split(id, "/"), NotPending);
    if |f| < 2 then Err("IndexError") else Ok(f[|f| - 2])
  }

  /** The machine segments of all ids, or the `IndexError` of the first bad one. */
  function MachinesOfLogs(ids: seq<string>): (r: Result<seq<string>>)
    ensures r.Err? <==> exists i :: 0 <= i < |ids| && MachineOfLog(ids[i]).Err?
    ensures r.Ok? ==> |r.value| == |ids| && forall i :: 0 <= i < |ids| ==> Ok(r.value[i]) == MachineOfLog(ids[i])
  {
    if exists i :: 0 <= i < |ids| && MachineOfLog(ids[i]).Err? then Err("IndexError")
    else Ok(seq(|ids|, i requires 0 <= i < |ids| => MachineOfLog(ids[i]).value))
  }

  /** `extraction_machine(list_of_logs)`, over the ids of the logs. */
  function ExtractionMachine(ids: seq<string>): (r: Result<seq<string>>)
    ensures r.Err? <==> exists i :: 0 <= i < |ids| && MachineOfLog(ids[i]).Err?
    ensures r.Ok? ==> StrictlySorted(r.value)
    ensures r.Ok? ==> forall z :: z in r.value <==> exists i :: 0 <= i < |ids| && MachineOfLog(ids[i]) == Ok(z)
  {
    match MachinesOfLogs(ids)
    case Err(e) => Err(e)
    case Ok(ms) =>
      assert forall z :: z in ms <==> exists i :: 0 <= i < |ids| && MachineOfLog(ids[i]) == Ok(z) by {
        forall z | z in ms
          ensures exists i :: 0 <= i < |ids| && MachineOfLog(ids[i]) == Ok(z)
        {
          var i :| 0 <= i < |ms| && ms[i] == z;
          assert MachineOfLog(ids[i]) == Ok(z);
        }
      }
      Ok(SortedSet(ms))
  }

  /** The segments a log name is made of. */
  function LogSegments(ticketText: string, rep: Report): seq<string> {
    ["", "log"] + (if rep.status == "Pending" then ["Pending"] else []) + [ticketText] +
    EscapeAll(rep.machine) + [rep.time]
  }

  /** A log name is its segments joined by '/'. */
  lemma LogNameSegments(ticketText: string, rep: Report)
    requires |rep.machine| > 0
    ensures LogName(ticketText, rep) == Join(LogSegments(ticketText, rep), "/")
  {
    var head: seq<string> := ["", "log"] + (if rep.status == "Pending" then ["Pending"] else []);
    assert Join(head, "/") == "/log" + (if rep.status == "Pending" then "/Pending" else "") by {
      if rep.status == "Pending" {
        JoinAppend(["", "log"], "Pending", "/");
        assert Join(["", "log"], "/") == "/log" by {
          assert ["", "log"][1..] == ["log"];
        }
      } else {
        assert ["", "log"][1..] == ["log"];
      }
    }
    JoinAppend(head, ticketText, "/");
    JoinConcat(head + [ticketText], EscapeAll(rep.machine), "/");
    JoinAppend(head + [ticketText] + EscapeAll(rep.machine), rep.time, "/");
  }

  lemma EscapeHasNoSlash(part: string)
    requires '/' !in part
    ensures '/' !in Escape(part)
  {
  }

  /** No segment of a log name contains '/' when none of its parts does. */
  lemma SegmentsHaveNoSlash(ticketText: string, rep: Report)
    requires '/' !in ticketText && '/' !in rep.time
    requires forall i :: 0 <= i < |rep.machine| ==> '/' !in rep.machine[i]
    ensures forall i :: 0 <= i < |LogSegments(ticketText, rep)| ==> '/' !in LogSegments(ticketText, rep)[i]
  {
    var segs := LogSegments(ticketText, rep);
    var escaped := EscapeAll(rep.machine);
    forall i | 0 <= i < |segs|
      ensures '/' !in segs[i]
    {
      var k := |segs| - 1 - |escaped|;
      if k <= i < |segs| - 1 {
        assert segs[i] == escaped[i - k];
        EscapeHasNoSlash(rep.machine[i - k]);
      }
    }
  }

  /** For a log stored by `post_report`, `extraction_machine` recovers the machine's
      short name (escaped as in the log name), provided no piece of the name contains '/'
      and neither it nor the time is 'Pending'. */
  lemma MachineOfLogName(id: int, rep: Report)
    requires |rep.machine| > 0
    requires forall i :: 0 <= i < |rep.machine| ==> '/' !in rep.machine[i]
    requires '/' !in rep.time && rep.time != "Pending"
    requires Escape(ShortName(rep)) != "Pending"
    ensures MachineOfLog(LogName(IntToString(id), rep)) == Ok(Escape(ShortName(rep)))
  {
    var idText := IntToString(id);
    var segs := LogSegments(idText, rep);
    SplitOfLogName(id, rep);
    LogSegmentsEnd(idText, rep);
    FilterLastTwo(segs[..|segs| - 2], Escape(ShortName(rep)), rep.time, NotPending);
  }

  /** Splitting a stored log name on '/' gives back its segments. */
  lemma SplitOfLogName(id: int, rep: Report)
    requires |rep.machine| > 0
    requires forall i :: 0 <= i < |rep.machine| ==> '/' !in rep.machine[i]
    requires '/' !in rep.time
    ensures Split(LogName(IntToString(id), rep), "/") == LogSegments(IntToString(id), rep)
  {
    var idText := IntToString(id);
    IntToStringChars(id);
    assert '/' !in idText;
    LogNameSegments(idText, rep);
    SegmentsHaveNoSlash(idText, rep);
    SplitJoin(LogSegments(idText, rep), '/');
  }

  /** A log name ends with the escaped short name of the machine and then the time. */
  lemma LogSegmentsEnd(ticketText: string, rep: Report)
    requires |rep.machine| > 0
    ensures var segs := LogSegments(ticketText, rep);
      |segs| >= 2 && segs == segs[..|segs| - 2] + [Escape(ShortName(rep)), rep.time]
  {
    var segs := LogSegments(ticketText, rep);
    var escaped := EscapeAll(rep.machine);
    assert segs[|segs| - 1] == rep.time;
    assert segs[|segs| - 2] == escaped[|escaped| - 1];
  }

  // ---- get_tickets_with_many_reports and purge_tickets_with_many_reports ----

  /** The ticket has a report list longer than `n`. */
  predicate Long(t: Ticket, n: int) {
    t.reports.Some? && |t.reports.value| > n
  }

  /** `get_tickets_with_many_reports(n)`. */
  function TicketsWithManyReports(tickets: seq<Ticket>, n: int): (r: seq<int>)
    ensures |r| <= |tickets|
    ensures forall id :: id in r <==> HasLong(tickets, n, id)
  {
    if |tickets| == 0 then []
    else
      var rest := TicketsWithManyReports(tickets[1..], n);
      forall id
        ensures HasLong(tickets, n, id) <==> (Long(tickets[0], n) && tickets[0].id == id) || HasLong(tickets[1..], n, id)
      {
        if HasLong(tickets[1..], n, id) {
          var i :| 0 <= i < |tickets[1..]| && Long(tickets[1..][i], n) && tickets[1..][i].id == id;
          assert tickets[i + 1] == tickets[1..][i];
        }
        if HasLong(tickets, n, id) {
          var i :| 0 <= i < |tickets| && Long(tickets[i], n) && tickets[i].id == id;
          if i > 0 {
            assert tickets[1..][i - 1] == tickets[i];
          }
        }
      }
      (if Long(tickets[0], n) then [tickets[0].id] else []) + rest
  }

  /** Some ticket with id `id` has more than `n` reports. */
  predicate HasLong(tickets: seq<Ticket>, n: int, id: int) {
    exists i :: 0 <= i < |tickets| && Long(tickets[i], n) && tickets[i].id == id
  }

  /** Python's `xs[k:]` for any int `k`: a negative `k` counts from the end, and both
      directions clamp to the list. */
  function PyTail<T>(xs: seq<T>, k: int): (r: seq<T>)
    ensures k >= 0 ==> r == xs[if k <= |xs| then k else |xs|..]
    ensures k < 0 ==> r == xs[if |xs| + k >= 0 then |xs| + k else 0..]
  {
    var start := if k >= 0 then (if k <= |xs| then k else |xs|) else (if |xs| + k >= 0 then |xs| + k else 0);
    xs[start..]
  }

  function MapTickets(tickets: seq<Ticket>, bigN: int, n: int, keep: (seq<Report>, int) -> seq<Report>)
    : (r: seq<Ticket>)
    ensures |r| == |tickets|
    ensures forall i :: 0 <= i < |r| ==>
      r[i] == (if Long(tickets[i], bigN) then tickets[i].(reports := Some(keep(tickets[i].reports.value, n))) else tickets[i])
  {
    seq(|tickets|, i requires 0 <= i < |tickets| =>
      if Long(tickets[i], bigN) then tickets[i].(reports := Some(keep(tickets[i].reports.value, n))) else tickets[i])
  }

  function PyTailNeg(xs: seq<Report>, n: int): seq<Report> {
    PyTail(xs, -n)
  }

  /** `purge_tickets_with_many_reports(bigN, n)`, as written: the assertion `n < bigN`,
      then `old[-n:]` for every selected ticket. */
  function Purge(tickets: seq<Ticket>, bigN: int, n: int): (r: Result<seq<Ticket>>)
    ensures r.Err? <==> n >= bigN
    ensures r.Ok? ==> |r.value| == |tickets|
    ensures r.Ok? ==> forall i :: 0 <= i < |tickets| && !Long(tickets[i], bigN) ==> r.value[i] == tickets[i]
    ensures r.Ok? ==> forall i :: 0 <= i < |tickets| && Long(tickets[i], bigN) ==>
      r.value[i] == tickets[i].(reports := Some(PyTail(tickets[i].reports.value, -n)))
  {
    if n >= bigN then Err("AssertionError") else Ok(MapTickets(tickets, bigN, n, PyTailNeg))
  }

  /** With `n = 0`, `old[-0:]` is the whole list: nothing is purged. */
  lemma PurgeZeroKeepsAll(tickets: seq<Ticket>, bigN: int)
    requires bigN > 0
    ensures Purge(tickets, bigN, 0) == Ok(tickets)
  {
    var r := Purge(tickets, bigN, 0).value;
    forall i | 0 <= i < |tickets|
      ensures r[i] == tickets[i]
    {
      if Long(tickets[i], bigN) {
        assert PyTail(tickets[i].reports.value, 0) == tickets[i].reports.value;
      }
    }
    assert r == tickets;
  }

  /** The latest `n` reports (none when `n <= 0`). */
  function KeepLast(xs: seq<Report>, n: int): (r: seq<Report>)
    ensures |r| == if n <= 0 then 0 else if n <= |xs| then n else |xs|
    ensures r == xs[|xs| - |r|..]
  {
    if n <= 0 then [] else if n <= |xs| then xs[|xs| - n..] else xs
  }

  /** For every positive `n` the written slice is the intended one; they part only at 0. */
  lemma PyTailIsKeepLast(xs: seq<Report>, n: int)
    requires n > 0
    ensures PyTail(xs, -n) == KeepLast(xs, n)
  {
  }

  /** The purge with `n` meaning "keep the latest n": every selected ticket is left with
      exactly its last `n` reports. */
  function PurgeKeepLast(tickets: seq<Ticket>, bigN: int, n: int): (r: Result<seq<Ticket>>)
    ensures r.Err? <==> n >= bigN
    ensures r.Ok? ==> |r.value| == |tickets|
    ensures r.Ok? ==> forall i :: 0 <= i < |tickets| && !Long(tickets[i], bigN) ==> r.value[i] == tickets[i]
    ensures r.Ok? ==> forall i :: 0 <= i < |tickets| && Long(tickets[i], bigN) ==>
      r.value[i] == tickets[i].(reports := Some(KeepLast(tickets[i].reports.value, n)))
  {
    if n >= bigN then Err("AssertionError") else Ok(MapTickets(tickets, bigN, n, KeepLast))
  }

  /** The written purge and the intended one agree on every positive `n`. */
  lemma PurgeAgreesWhenPositive(tickets: seq<Ticket>, bigN: int, n: int)
    requires n > 0
    ensures Purge(tickets, bigN, n) == PurgeKeepLast(tickets, bigN, n)
  {
    if n < bigN {
      var a := Purge(tickets, bigN, n).value;
      var b := PurgeKeepLast(tickets, bigN, n).value;
      forall i | 0 <= i < |tickets|
        ensures a[i] == b[i]
      {
        if Long(tickets[i], bigN) {
          PyTailIsKeepLast(tickets[i].reports.value, n);
        }
      }
      assert a == b;
    }
  }
}

=== FILE: trac.dfy ===
/** The parsing and decision logic of the patchbot's trac client (sage_patchbot/trac.py):
    tag extraction from trac's RSS and HTML, the dependency field, the in-place safety
    of a diff, the fields of a ticket record, and the branches of `pull_from_trac`.
    The trac server, git and the file system are outcomes passed in. */
module Trac {
  import opened Wrappers
  import opened Strings
  import opened Reports

  // ---- extract_tag ----

  /** The first index of `c` in `s`, if any. */
  function CharIndex(s: string, c: char): (r: Option<nat>)
    ensures r.Some? ==> r.value < |s| && s[r.value] == c && c !in s[..r.value]
    ensures r.None? ==> c !in s
  {
    if |s| == 0 then None
    else if s[0] == c then Some(0)
    else match CharIndex(s[1..], c)
      case None => None
      case Some(i) =>
        assert s[..i + 1] == [s[0]] + s[1..][..i];
        Some(i + 1)
  }

  /** `tag[1:-1]`, cut at its first space: the name the end tag repeats. */
  function TagName(tag: string): (r: string)
    ensures ' ' !in r
  {
    var inner := if |tag| >= 2 then tag[1..|tag| - 1] else "";
    match CharIndex(inner, ' ')
    case None => inner
    case Some(i) => inner[..i]
  }

  function EndTag(tag: string): string {
    "</" + TagName(tag) + ">"
  }

  /** Python's `s[lo:hi]` for in-range bounds: empty when `lo > hi`. */
  function Slice(s: string, lo: nat, hi: nat): string
    requires lo <= |s| && hi <= |s|
  {
    if lo <= hi then s[lo..hi] else ""
  }

  /** `extract_tag(sgml, tag)`: the stripped text from the end of the first `tag` up to
      the first end tag found from the start of that `tag`, or `None` when either is
      missing. */
  function ExtractTag(sgml: string, tag: string): (r: Option<string>)
    ensures r.Some? ==> Contains(sgml, tag) && Contains(sgml, EndTag(tag))
    ensures r.Some? && |r.value| > 0 ==> !IsSpace(r.value[0]) && !IsSpace(r.value[|r.value| - 1])
  {
    match Find(sgml, tag, 0)
    case None => None
    case Some(start) =>
      match Find(sgml, EndTag(tag), start)
      case None => None
      case Some(end) => Some(Strip(Slice(sgml, start + |tag|, end)))
  }

  /** A missing tag gives `None`; a found one gives trimmed text. */
  lemma ExtractTagShape(sgml: string, tag: string)
    ensures !Contains(sgml, tag) ==> ExtractTag(sgml, tag).None?
    ensures ExtractTag(sgml, tag).Some? ==> Strip(ExtractTag(sgml, tag).value) == ExtractTag(sgml, tag).value
  {
    match Find(sgml, tag, 0)
    case None =>
    case Some(start) =>
      match Find(sgml, EndTag(tag), start)
      case None =>
      case Some(end) => StripIdempotent(Slice(sgml, start + |tag|, end));
  }

  /** A plain tag name: no space (attributes), no '<' and no '/'. */
  predicate PlainName(name: string) {
    ' ' !in name && '<' !in name && '/' !in name
  }

  lemma TagNameOfPlain(name: string)
    requires ' ' !in name
    ensures TagName("<" + name + ">") == name
  {
    var tag := "<" + name + ">";
    assert tag[1..|tag| - 1] == name;
  }

  /** An occurrence of `pat` at `k` starts with the first character of `pat`. */
  lemma OccursAtHead(w: string, pat: string, k: nat)
    requires |pat| > 0
    ensures OccursAt(w, pat, k) ==> k < |w| && w[k] == pat[0]
  {
    if OccursAt(w, pat, k) {
      assert w[k..k + |pat|][0] == w[k];
    }
  }

  /** An occurrence of `pat` at `k` continues with the second character of `pat`. */
  lemma OccursAtSecond(w: string, pat: string, k: nat)
    requires |pat| >= 2
    ensures OccursAt(w, pat, k) ==> k + 1 < |w| && w[k + 1] == pat[1]
  {
    if OccursAt(w, pat, k) {
      assert w[k..k + |pat|][1] == w[k + 1];
    }
  }

  /** Between two indexes no '<' occurs, so the end tag cannot start there. */
  lemma NoEndTagWithout(w: string, end: string, lo: nat, hi: nat)
    requires |end| > 0 && end[0] == '<' && hi <= |w|
    requires forall k :: lo <= k < hi ==> w[k] != '<'
    ensures forall k: nat :: lo <= k < hi ==> !OccursAt(w, end, k)
  {
    forall k: nat | lo <= k < hi
      ensures !OccursAt(w, end, k)
    {
      OccursAtHead(w, end, k);
    }
  }

  /** `tag` is found at the start of `tag + rest`. */
  lemma OpeningFound(tag: string, rest: string)
    ensures Find(tag + rest, tag, 0) == Some(0)
  {
    assert (tag + rest)[..|tag|] == tag;
    FindIsFirst(tag + rest, tag, 0);
  }

  /** An end tag starting with '<' is first found at `e` when no other '<' comes before
      it and it does not start at 0. */
  lemma FirstEndTag(w: string, end: string, e: nat)
    requires |end| > 0 && end[0] == '<' && OccursAt(w, end, e) && !OccursAt(w, end, 0)
    requires forall k :: 0 < k < e ==> w[k] != '<'
    ensures Find(w, end, 0) == Some(e)
  {
    NoEndTagWithout(w, end, 1, e);
    FindIsFirst(w, end, e);
  }

  /** In `tag + content + end`, where only the first character of `tag` is a '<', the
      text holds none and `end` is a '</…' tag, the first `end` is the closing one. */
  lemma ClosingFound(tag: string, content: string, end: string)
    requires |tag| >= 2 && tag[0] == '<' && tag[1] != '/'
    requires forall k :: 1 <= k < |tag| ==> tag[k] != '<'
    requires '<' !in content
    requires |end| >= 2 && end[0] == '<' && end[1] == '/'
    ensures Find(tag + content + end, end, 0) == Some(|tag| + |content|)
  {
    var front := tag + content;
    var w := front + end;
    var e := |front|;
    assert w[e..e + |end|] == end;
    assert forall k :: 0 < k < e ==> w[k] != '<' by {
      forall k | 0 < k < e
        ensures w[k] != '<'
      {
        if k < |tag| {
          assert w[k] == tag[k];
        } else {
          assert w[k] == content[k - |tag|];
        }
      }
    }
    assert w[1] == tag[1];
    OccursAtSecond(w, end, 0);
    FirstEndTag(w, end, e);
  }

  /** The characters of a plain tag and of its end tag that the search depends on. */
  lemma PlainTagShape(name: string)
    requires PlainName(name)
    ensures var tag := "<" + name + ">";
      && |tag| >= 2 && tag[0] == '<' && tag[1] != '/'
      && (forall k :: 1 <= k < |tag| ==> tag[k] != '<')
      && EndTag(tag) == "</" + name + ">"
  {
    var tag := "<" + name + ">";
    TagNameOfPlain(name);
    assert tag[1] == (if |name| > 0 then name[0] else '>');
    assert forall k :: 1 <= k < |tag| - 1 ==> tag[k] == name[k - 1];
  }

  /** `ExtractTag` on `tag + content + end` when the tag opens the text and `end`,
      its end tag, is first found right after `content`. */
  lemma ExtractTagAt(tag: string, content: string, end: string)
    requires EndTag(tag) == end
    requires Find(tag + content + end, tag, 0) == Some(0)
    requires Find(tag + content + end, end, 0) == Some(|tag| + |content|)
    requires Strip(content) == content
    ensures ExtractTag(tag + content + end, tag) == Some(content)
  {
    MiddleOf(tag, content, end);
  }

  /** The middle of a three-part concatenation. */
  lemma MiddleOf(a: string, b: string, c: string)
    ensures (a + b + c)[|a|..|a| + |b|] == b
  {
  }

  /** Wrapping trimmed text without '<' in a plain tag and its end tag, and extracting the
      tag again, gives the text back. */
  lemma ExtractTagRoundTrip(name: string, content: string)
    requires PlainName(name)
    requires '<' !in content && Strip(content) == content
    ensures ExtractTag("<" + name + ">" + content + "</" + name + ">", "<" + name + ">") == Some(content)
  {
    var tag := "<" + name + ">";
    var end := "</" + name + ">";
    assert "<" + name + ">" + content + "</" + name + ">" == tag + content + end;
    PlainTagShape(name);
    WrappedFound(tag, content, end);
    ExtractTagAt(tag, content, end);
  }

  /** In a plain tag, text without '<' and its end tag, the search finds both tags where
      they were put. */
  lemma WrappedFound(tag: string, content: string, end: string)
    requires |tag| >= 2 && tag[0] == '<' && tag[1] != '/'
    requires forall k :: 1 <= k < |tag| ==> tag[k] != '<'
    requires |end| >= 2 && end[0] == '<' && end[1] == '/'
    requires '<' !in content
    ensures Find(tag + content + end, tag, 0) == Some(0)
    ensures Find(tag + content + end, end, 0) == Some(|tag| + |content|)
  {
    OpeningFound(tag, content + end);
    assert tag + (content + end) == tag + content + end;
    ClosingFound(tag, content, end);
  }

  // ---- extract_participants ----

  /** The distinct non-empty values `extract` finds in the chunks of a feed. */
  function Creators(items: seq<string>, extract: string -> Option<string>): (r: set<string>)
    ensures "" !in r
  {
    if |items| == 0 then {}
    else
      var rest := Creators(items[1..], extract);
      match extract(items[0])
      case Some(who) => if who != "" then {who} + rest else rest
      case None => rest
  }

  /** A name is collected exactly when some chunk yields it. */
  lemma {:induction false} CreatorsMembers(items: seq<string>, extract: string -> Option<string>, x: string)
    ensures x in Creators(items, extract) <==>
      x != "" && exists i :: 0 <= i < |items| && extract(items[i]) == Some(x)
  {
    if |items| > 0 {
      CreatorsMembers(items[1..], extract, x);
      assert forall i :: 1 <= i < |items| ==> items[i] == items[1..][i - 1];
      if x != "" && (exists i :: 0 <= i < |items| && extract(items[i]) == Some(x)) {
        var i :| 0 <= i < |items| && extract(items[i]) == Some(x);
        if i > 0 {
          assert extract(items[1..][i - 1]) == Some(x);
        }
      }
    }
  }

  /** `extract_participants(rss)`, as the set `list(all)` is made from: the creators
      named in the '<item>' chunks of the ticket's RSS feed. */
  function ExtractParticipants(rss: string): (r: set<string>)
    ensures "" !in r
  {
    Creators(Split(rss, "<item>"), s => ExtractTag(s, "<dc:creator>"))
  }

  // ---- extract_depends_on ----

  /** The end of the run of digits that starts at `i`. */
  function DigitRunEnd(s: string, i: nat): (k: nat)
    requires i <= |s|
    ensures i <= k <= |s| && AllDigits(s[i..k]) && (k == |s| || !IsDigit(s[k]))
    decreases |s| - i
  {
    if i < |s| && IsDigit(s[i]) then
      var k := DigitRunEnd(s, i + 1);
      assert s[i..k] == [s[i]] + s[i + 1..k];
      k
    else i
  }

  lemma {:induction false} DigitRunEndAt(s: string, i: nat, j: nat)
    requires i <= j <= |s| && AllDigits(s[i..j]) && (j == |s| || !IsDigit(s[j]))
    ensures DigitRunEnd(s, i) == j
    decreases j - i
  {
    if i < j {
      assert s[i] == s[i..j][0];
      assert s[i + 1..j] == s[i..j][1..];
      DigitRunEndAt(s, i + 1, j);
    }
  }

  /** `[int(m.group(1)) for m in re.finditer(r'#(\d+)', s)]`. */
  function HashNumbers(s: string): (r: seq<nat>)
    ensures |r| <= |s| / 2
    decreases |s|
  {
    if |s| < 2 then []
    else if s[0] == '#' && IsDigit(s[1]) then
      var k := DigitRunEnd(s, 1);
      [DigitsValue(s[1..k])] + HashNumbers(s[k..])
    else HashNumbers(s[1..])
  }

  predicate IsWordChar(c: char) {
    IsDigit(c) || 'a' <= c <= 'z' || 'A' <= c <= 'Z' || c == '_'
  }

  /** The greedy end of `(\.\d)*` from `i`. */
  function DotDigitsEnd(s: string, i: nat): (k: nat)
    requires i <= |s|
    ensures i <= k <= |s|
    decreases |s| - i
  {
    if i + 1 < |s| && s[i] == '.' && IsDigit(s[i + 1]) then DotDigitsEnd(s, i + 2) else i
  }

  /** The greedy end of `\w*` from `i`. */
  function WordRunEnd(s: string, i: nat): (k: nat)
    requires i <= |s|
    ensures i <= k <= |s|
    decreases |s| - i
  {
    if i < |s| && IsWordChar(s[i]) then WordRunEnd(s, i + 1) else i
  }

  /** Where a match of `sage-\d+(\.\d)+(\.\w+)?` that starts at `i` ends, if one does. */
  function VersionMatchAt(s: string, i: nat): (r: Option<nat>)
    requires i <= |s|
    ensures r.Some? ==> i + 8 <= r.value <= |s| && OccursAt(s, "sage-", i)
  {
    if !OccursAt(s, "sage-", i) then None
    else
      var d := DigitRunEnd(s, i + 5);
      if d == i + 5 then None
      else
        var e := DotDigitsEnd(s, d);
        if e == d then None
        else if e + 1 < |s| && s[e] == '.' && IsWordChar(s[e + 1]) then Some(WordRunEnd(s, e + 1))
        else Some(e)
  }

  /** `re.search(r'sage-\d+(\.\d)+(\.\w+)?', s)` from index `from`: the leftmost match. */
  function VersionSearch(s: string, from: nat): (r: Option<string>)
    requires from <= |s|
    ensures r.Some? ==> StartsWith(r.value, "sage-")
    decreases |s| - from
  {
    match VersionMatchAt(s, from)
    case Some(e) =>
      assert s[from..e][..5] == s[from..from + 5];
      Some(s[from..e])
    case None => if from == |s| then None else VersionSearch(s, from + 1)
  }

  /** Text without an 's' holds no version. */
  lemma {:induction false} NoVersionWithoutS(s: string, from: nat)
    requires from <= |s| && 's' !in s
    ensures VersionSearch(s, from) == None
    decreases |s| - from
  {
    OccursAtHead(s, "sage-", from);
    if from < |s| {
      NoVersionWithoutS(s, from + 1);
    }
  }

  /** `extract_depends_on(deps_field)`: the '#N' ticket numbers in order, preceded by the
      first Sage version mentioned, if any. */
  function ExtractDependsOn(field: string): (r: seq<Dep>)
    ensures |r| == |HashNumbers(field)| + (if VersionSearch(field, 0).Some? then 1 else 0)
    ensures forall i :: 0 < i < |r| ==> r[i].DTicket?
  {
    var tickets := TicketDeps(HashNumbers(field));
    match VersionSearch(field, 0)
    case Some(v) => [DVersion(v)] + tickets
    case None => tickets
  }

  /** The dependencies hold the version (when one is mentioned) first, then one ticket
      per '#N' in the order they appear. */
  lemma DependsOnLayout(field: string, i: nat)
    ensures var off := if VersionSearch(field, 0).Some? then 1 else 0;
      && |ExtractDependsOn(field)| == |HashNumbers(field)| + off
      && (off == 1 ==> ExtractDependsOn(field)[0] == DVersion(VersionSearch(field, 0).value))
      && (i < |HashNumbers(field)| ==> ExtractDependsOn(field)[i + off] == DTicket(HashNumbers(field)[i]))
  {
  }

  /** The version pattern allows one digit after each dot, so a two-digit minor version
      is cut short: 'sage-9.10' is read as 'sage-9.1'. */
  lemma TwoDigitMinorCut()
    ensures VersionSearch("sage-9.10", 0) == Some("sage-9.1")
  {
    var s := "sage-9.10";
    assert OccursAt(s, "sage-", 0) by {
      assert s[0..5] == "sage-";
    }
    assert DigitRunEnd(s, 5) == 6;
    assert DotDigitsEnd(s, 6) == 8;
    assert s[0..8] == "sage-9.1";
  }

  function TicketDeps(ns: seq<nat>): (r: seq<Dep>)
    ensures |r| == |ns| && forall i :: 0 <= i < |ns| ==> r[i] == DTicket(ns[i])
  {
    if |ns| == 0 then [] else [DTicket(ns[0])] + TicketDeps(ns[1..])
  }

  /** How trac shows a list of dependencies: '#a, #b, #c'. */
  function DependencyField(ns: seq<nat>): string {
    if |ns| == 0 then ""
    else if |ns| == 1 then "#" + NatToString(ns[0])
    else "#" + NatToString(ns[0]) + ", " + DependencyField(ns[1..])
  }

  lemma HashNumbersCons(n: nat, rest: string)
    requires rest == "" || !IsDigit(rest[0])
    ensures HashNumbers("#" + NatToString(n) + rest) == [n] + HashNumbers(rest)
  {
    var d := NatToString(n);
    var s := "#" + d + rest;
    assert s[1..1 + |d|] == d;
    assert s[1] == d[0];
    DigitRunEndAt(s, 1, 1 + |d|);
    NatToStringRoundTrip(n);
    assert s[1 + |d|..] == rest;
  }

  lemma DependencyFieldChars(ns: seq<nat>)
    ensures 's' !in DependencyField(ns)
    ensures |ns| > 0 ==> |DependencyField(ns)| > 0
  {
    if |ns| > 0 {
      var d := NatToString(ns[0]);
      assert forall k :: 0 <= k < |d| ==> IsDigit(d[k]);
      assert 's' !in d;
    }
  }

  /** The ticket numbers of a dependency field are read back in order. */
  lemma {:induction false} HashNumbersOfField(ns: seq<nat>)
    ensures HashNumbers(DependencyField(ns)) == ns
  {
    if |ns| == 1 {
      HashNumbersCons(ns[0], "");
      assert "#" + NatToString(ns[0]) + "" == DependencyField(ns);
    } else if |ns| > 1 {
      var tail := DependencyField(ns[1..]);
      DependencyFieldChars(ns[1..]);
      HashNumbersCons(ns[0], ", " + tail);
      assert ("#" + NatToString(ns[0]) + (", " + tail)) == DependencyField(ns);
      assert (", " + tail)[1..] == " " + tail;
      assert (" " + tail)[1..] == tail;
      HashNumbersOfField(ns[1..]);
    }
  }

  /** A field that only lists tickets yields exactly those tickets, in order. */
  lemma DependsOnOfTicketList(ns: seq<nat>)
    ensures ExtractDependsOn(DependencyField(ns)) == TicketDeps(ns)
  {
    HashNumbersOfField(ns);
    DependencyFieldChars(ns);
    NoVersionWithoutS(DependencyField(ns), 0);
  }

  // ---- inplace_safe ----

  /** A changed path that does not force a clone of the repository. */
  predicate SafePath(f: string) {
    || StartsWith(f, "src/sage") || StartsWith(f, "src/sage_setup")
    || StartsWith(f, "src/doc") || StartsWith(f, "src/.tox")
    || EndsWith(f, ".yml") || EndsWith(f, ".txt") || EndsWith(f, ".json")
    || EndsWith(f, ".ini") || EndsWith(f, ".md")
    || StartsWith(f, "build/pkgs")
    || f in ["src/setup.py", ".gitignore", "src/bin/sage-banner", "src/bin/sage-version.sh"]
  }

  /** The loop of `inplace_safe`: empty lines are skipped, the first unsafe path stops it. */
  function AllSafe(files: seq<string>): (b: bool)
    ensures b <==> forall i :: 0 <= i < |files| && files[i] != "" ==> SafePath(files[i])
  {
    if |files| == 0 then true
    else if files[0] != "" && !SafePath(files[0]) then false
    else
      assert forall i :: 1 <= i < |files| ==> files[i] == files[1..][i - 1];
      AllSafe(files[1..])
  }

  /** `inplace_safe()`, from the output of `git diff --name-only`. */
  function InplaceSafe(names: string): (b: bool)
    ensures b ==> forall i :: 0 <= i < |Split(names, "\n")| && Split(names, "\n")[i] != "" ==> SafePath(Split(names, "\n")[i])
    ensures b <== forall i :: 0 <= i < |Split(names, "\n")| && Split(names, "\n")[i] != "" ==> SafePath(Split(names, "\n")[i])
  {
    AllSafe(Split(names, "\n"))
  }

  /** An empty diff is safe. */
  lemma EmptyDiffIsSafe()
    ensures InplaceSafe("")
  {
    assert Split("", "\n") == [""];
  }

  /** The verdict does not depend on how the list of paths is cut in two. */
  lemma AllSafeAppend(a: seq<string>, b: seq<string>)
    ensures AllSafe(a + b) <==> AllSafe(a) && AllSafe(b)
  {
    assert forall i :: 0 <= i < |a| ==> (a + b)[i] == a[i];
    assert forall i :: 0 <= i < |b| ==> (a + b)[|a| + i] == b[i];
  }

  // ---- pull_from_trac ----

  /** How each part of the `try` block of `pull_from_trac` ends: `None` when it returns,
      the name of the exception it raises otherwise. `prepare` covers the chdir, the
      scrape, the free-space check and the checkout of the base; `zeroBranches` the two
      branch resets of ticket 0; `fetch` the fetch and branch set-up of other tickets;
      `merge` and `abort` the merge and its abort; `diff` the output of the name-only
      diff `inplace_safe` reads; `mkdtemp` the creation of the temporary directory;
      `clone` the clone and configuration inside it. */
  datatype PullSteps = PullSteps(
    prepare: Option<string>,
    zeroBranches: Option<string>,
    fetch: Option<string>,
    merge: Option<string>,
    abort: Option<string>,
    diff: Result<string>,
    mkdtemp: Option<string>,
    clone: Option<string>)

  /** How the `try` block ends: with the local variables the `except` clause reads. */
  datatype TryEnd =
    | Returned(tempDir: Option<string>)
    | Raised(exn: string, mergeFailure: bool, isSafe: bool, tempDir: Option<string>)

  const TempBuildSuffix: string := "-sage-git-temp-"

  /** `tempfile.mkdtemp(temp_build_suffix + str(ticket_id))`: `prefix` is the random
      part of the path. */
  function TempDirName(prefix: string, ticketId: int): string {
    prefix + TempBuildSuffix + IntToString(ticketId)
  }

  lemma TempDirNameEnds(prefix: string, ticketId: int)
    ensures EndsWith(TempDirName(prefix, ticketId), TempBuildSuffix + IntToString(ticketId))
  {
    var n := TempDirName(prefix, ticketId);
    assert n == prefix + (TempBuildSuffix + IntToString(ticketId));
  }

  function TryBlock(ticketId: int, safeOnly: bool, steps: PullSteps, prefix: string): (t: TryEnd)
    ensures t.Raised? ==> !t.isSafe
    ensures t.Raised? ==>
      (t.exn == "SkipTicket" ||
       Some(t.exn) in {steps.prepare, steps.zeroBranches, steps.fetch, steps.merge, steps.abort,
                       steps.mkdtemp, steps.clone} || (steps.diff.Err? && t.exn == steps.diff.error))
    ensures t.tempDir.Some? ==> t.tempDir.value == TempDirName(prefix, ticketId) && !safeOnly
  {
    if steps.prepare.Some? then Raised(steps.prepare.value, false, false, None)
    else if ticketId == 0 then
      if steps.zeroBranches.Some? then Raised(steps.zeroBranches.value, false, false, None)
      else Returned(None)
    else if steps.fetch.Some? then Raised(steps.fetch.value, false, false, None)
    else if steps.merge.Some? then
      if steps.abort.Some? then Raised(steps.abort.value, false, false, None)
      else Raised(steps.merge.value, true, false, None)
    else if steps.diff.Err? then Raised(steps.diff.error, false, false, None)
    else if InplaceSafe(steps.diff.value) then Returned(None)
    else if safeOnly then Raised("SkipTicket", false, false, None)
    else if steps.mkdtemp.Some? then Raised(steps.mkdtemp.value, false, false, None)
    else
      var dir := TempDirName(prefix, ticketId);
      if steps.clone.Some? then Raised(steps.clone.value, false, false, Some(dir))
      else Returned(Some(dir))
  }

  /** What `pull_from_trac` leaves behind: the exception it lets out (if any), the value
      of `SAGE_ROOT`, and the temporary clone still on disk. */
  datatype Pulled = Pulled(raised: Option<string>, sageRootEnv: string, tempDir: Option<string>)

  /** The `except` clause: an unsafe run without `safe_only` removes its clone and
      restores `SAGE_ROOT`; a merge failure or an unsafe run re-raises, and any other
      exception would be wrapped through `exn.message`, which Python 3 exceptions lack. */
  function Handle(t: TryEnd, safeOnly: bool, sageRoot: string, env: string): (p: Pulled)
    ensures p.raised.None? <==> t.Returned?
    ensures t.Raised? && (t.mergeFailure || !t.isSafe) ==> p.raised == Some(t.exn)
    ensures t.Raised? && !t.isSafe && !safeOnly ==> p.tempDir.None? && (t.tempDir.Some? ==> p.sageRootEnv == sageRoot)
    ensures t.Raised? && (t.isSafe || safeOnly) ==> p.tempDir == t.tempDir && p.sageRootEnv == env
  {
    match t
    case Returned(dir) => Pulled(None, if dir.Some? then dir.value else env, dir)
    case Raised(exn, mergeFailure, isSafe, dir) =>
      var cleaned := !isSafe && !safeOnly && dir.Some?;
      var env' := if cleaned then sageRoot else env;
      var dir' := if cleaned then None else dir;
      Pulled(if mergeFailure || !isSafe then Some(exn) else Some("AttributeError"), env', dir')
  }

  /** `pull_from_trac(sage_root, ticket_id, safe_only=...)`, with `SAGE_ROOT` equal to
      `env` on entry. */
  function PullFromTrac(sageRoot: string, env: string, ticketId: int, safeOnly: bool,
                        steps: PullSteps, prefix: string): (p: Pulled)
    ensures p.raised.Some? ==> p.tempDir.None?
    ensures p.raised.Some? && p.raised.value != "SkipTicket" ==>
      p.raised in {steps.prepare, steps.zeroBranches, steps.fetch, steps.merge, steps.abort,
                         steps.mkdtemp, steps.clone} || (steps.diff.Err? && p.raised.value == steps.diff.error)
    ensures p.tempDir.Some? ==> EndsWith(p.tempDir.value, TempBuildSuffix + IntToString(ticketId))
    ensures p.tempDir.Some? ==> p.sageRootEnv == p.tempDir.value && !safeOnly
  {
    var t := TryBlock(ticketId, safeOnly, steps, prefix);
    TempDirNameEnds(prefix, ticketId);
    Handle(t, safeOnly, sageRoot, env)
  }

  /** The `exn.message` branch cannot be reached: whenever the `try` block raises,
      `is_safe` is still False, so the original exception is re-raised. */
  lemma MessageBranchUnreachable(sageRoot: string, env: string, ticketId: int, safeOnly: bool,
                                 steps: PullSteps, prefix: string)
    ensures var t := TryBlock(ticketId, safeOnly, steps, prefix);
      t.Raised? ==> PullFromTrac(sageRoot, env, ticketId, safeOnly, steps, prefix).raised == Some(t.exn)
  {
  }

  /** Ticket 0 only resets its branches to the base; nothing is cloned. */
  lemma TicketZeroStaysInPlace(sageRoot: string, env: string, safeOnly: bool, steps: PullSteps, prefix: string)
    requires steps.prepare.None? && steps.zeroBranches.None?
    ensures PullFromTrac(sageRoot, env, 0, safeOnly, steps, prefix) == Pulled(None, env, None)
  {
  }

  /** Every step succeeding until an unsafe diff, `safe_only` skips the ticket. */
  lemma UnsafeSkippedWhenSafeOnly(sageRoot: string, env: string, ticketId: int, steps: PullSteps, prefix: string)
    requires ticketId != 0 && steps.prepare.None? && steps.fetch.None? && steps.merge.None?
    requires steps.diff.Ok? && !InplaceSafe(steps.diff.value)
    ensures PullFromTrac(sageRoot, env, ticketId, true, steps, prefix) == Pulled(Some("SkipTicket"), env, None)
  {
  }

  /** Without `safe_only`, an unsafe diff is built in a fresh clone that `SAGE_ROOT`
      points at, unless setting it up fails, in which case the clone is gone and
      `SAGE_ROOT` is back at the original tree. */
  lemma UnsafeCloned(sageRoot: string, env: string, ticketId: int, steps: PullSteps, prefix: string)
    requires ticketId != 0 && steps.prepare.None? && steps.fetch.None? && steps.merge.None?
    requires steps.diff.Ok? && !InplaceSafe(steps.diff.value) && steps.mkdtemp.None?
    ensures var p := PullFromTrac(sageRoot, env, ticketId, false, steps, prefix);
      if steps.clone.None? then p == Pulled(None, TempDirName(prefix, ticketId), Some(TempDirName(prefix, ticketId)))
      else p == Pulled(steps.clone, sageRoot, None)
  {
  }

  /** A failed merge re-raises its own exception (or the abort's). */
  lemma MergeFailureReraised(sageRoot: string, env: string, ticketId: int, safeOnly: bool,
                             steps: PullSteps, prefix: string)
    requires ticketId != 0 && steps.prepare.None? && steps.fetch.None? && steps.merge.Some?
    ensures PullFromTrac(sageRoot, env, ticketId, safeOnly, steps, prefix).raised ==
      (if steps.abort.Some? then steps.abort else steps.merge)
  {
  }

  // ---- git_commit ----

  /** The end of the run of non-space characters from `i`. */
  function WordEnd(s: string, i: nat): (k: nat)
    requires i <= |s|
    ensures i <= k <= |s| && (forall j :: i <= j < k ==> !IsSpace(s[j]))
    decreases |s| - i
  {
    if i < |s| && !IsSpace(s[i]) then WordEnd(s, i + 1) else i
  }

  /** `s.split()[0]`, `None` for the `IndexError` of a blank string. */
  function FirstWord(s: string): (r: Option<string>)
    ensures r.Some? ==> |r.value| > 0 && forall c :: c in r.value ==> !IsSpace(c)
  {
    var t := LStrip(s);
    if |t| == 0 then None else Some(t[..WordEnd(t, 0)])
  }

  /** `git_commit(branch)`, with `lsRemote` the output of `git ls-remote` or the name
      of the exception it raised. Every failure gives 'unknown'. */
  function GitCommit(branch: string, lsRemote: Result<string>): (r: string)
    ensures Strip(branch) == "" ==> r == "unknown"
    ensures r != "unknown" ==> lsRemote.Ok? && FirstWord(lsRemote.value) == Some(r)
  {
    if Strip(branch) == "" then "unknown"
    else match lsRemote
      case Err(_) => "unknown"
      case Ok(out) => match FirstWord(out)
        case None => "unknown"
        case Some(w) => w
  }

  // ---- get_ticket_info_from_trac_server ----

  const TracRepo: string := "git://trac.sagemath.org/sage.git"

  /** The fields of a trac ticket the patchbot reads. */
  datatype TracTicket = TracTicket(
    title: string, status: string, resolution: string, milestone: string, priority: string,
    component: string, dependencies: string, branch: string, author: string)

  /** The ticket record the patchbot builds; keys that ticket 0's record lacks are
      `None`. `spkgs` is the truth value of the record's `spkgs`. */
  datatype TicketInfo = TicketInfo(
    id: int, title: string, status: string, priority: string, component: string,
    resolution: Option<string>, milestone: Option<string>, dependsOn: seq<Dep>, spkgs: bool,
    authors: set<string>, authorsFullnames: Option<set<string>>, participants: set<string>,
    gitBranch: Option<string>, gitRepo: Option<string>, gitCommit: Option<string>)

  /** The fixed record of ticket 0, the base release itself. */
  const BaseTicket: TicketInfo :=
    TicketInfo(0, "base", "base", "base", "base", None, None, [], false, {}, None, {}, None, None, None)

  /** The author a 'u/<name>/…' branch names; none for other branches. */
  function BranchAuthors(branch: string): (r: set<string>)
    ensures |r| <= 1
    ensures !StartsWith(branch, "u/") ==> r == {}
  {
    if branch != "" && StartsWith(branch, "u/") then
      var parts := Split(branch, "/");
      if |parts| >= 2 then {Strip(parts[1])} else {}
    else {}
  }

  /** The distinct non-empty trimmed pieces of a comma-separated list. */
  function NamesOf(pieces: seq<string>): (r: set<string>)
    ensures "" !in r
  {
    if |pieces| == 0 then {}
    else
      var rest := NamesOf(pieces[1..]);
      var a := Strip(pieces[0]);
      if a != "" then {a} + rest else rest
  }

  /** A full name is listed exactly when it is a non-empty trimmed comma-separated piece. */
  lemma {:induction false} NamesOfMembers(pieces: seq<string>, x: string)
    ensures x in NamesOf(pieces) <==> x != "" && exists i :: 0 <= i < |pieces| && Strip(pieces[i]) == x
  {
    if |pieces| > 0 {
      NamesOfMembers(pieces[1..], x);
      MappedSomewhereStep(pieces, Strip, x);
    }
  }

  /** Some element maps to `x` iff the first does or some later one does. */
  lemma MappedSomewhereStep<A, B>(s: seq<A>, f: A -> B, x: B)
    requires |s| > 0
    ensures (exists i :: 0 <= i < |s| && f(s[i]) == x) <==>
      f(s[0]) == x || exists i :: 0 <= i < |s[1..]| && f(s[1..][i]) == x
  {
    if exists i :: 0 <= i < |s| && f(s[i]) == x {
      var i :| 0 <= i < |s| && f(s[i]) == x;
      if i > 0 {
        assert s[1..][i - 1] == s[i];
      }
    }
    if exists i :: 0 <= i < |s[1..]| && f(s[1..][i]) == x {
      var i :| 0 <= i < |s[1..]| && f(s[1..][i]) == x;
      assert s[i + 1] == s[1..][i];
    }
  }

  /** A user branch 'u/<name>/<topic>' credits `name`, trimmed. */
  lemma UserBranchAuthor(name: string, topic: string)
    requires '/' !in name && '/' !in topic
    ensures BranchAuthors("u/" + name + "/" + topic) == {Strip(name)}
  {
    var parts := ["u", name, topic];
    assert forall i :: 0 <= i < |parts| ==> '/' !in parts[i];
    SplitJoin(parts, '/');
    assert Join(parts, "/") == "u/" + name + "/" + topic;
    assert StartsWith("u/" + name + "/" + topic, "u/");
  }

  /** The full names written as a comma-separated list are read back as a set. */
  lemma FullnamesRoundTrip(names: seq<string>)
    requires |names| >= 1
    requires forall i :: 0 <= i < |names| ==> ',' !in names[i] && names[i] != "" && Strip(names[i]) == names[i]
    ensures NamesOf(Split(Join(names, ","), ",")) == set i | 0 <= i < |names| :: names[i]
  {
    SplitJoin(names, ',');
    assert Split(Join(names, ","), ",") == names;
    forall x
      ensures x in NamesOf(names) <==> x in set i | 0 <= i < |names| :: names[i]
    {
      NamesOfMembers(names, x);
    }
  }

  /** `get_ticket_info_from_trac_server(id)`, given the trac record, the RSS feed and the
      `git ls-remote` outcome. */
  function TicketInfoOf(id: int, trac: TracTicket, rss: string, lsRemote: Result<string>): (r: TicketInfo)
    ensures r.id == id
    ensures id == 0 ==> r == BaseTicket
    ensures id != 0 ==> r.spkgs == Contains(trac.component, "packages")
    ensures id != 0 ==> (r.gitRepo.Some? <==> Strip(trac.branch) != "")
    ensures id != 0 ==> r.gitRepo.Some? ==> r.gitRepo.value == TracRepo
    ensures id != 0 ==> r.authorsFullnames.Some? && "" !in r.authorsFullnames.value
    ensures id != 0 ==> r.gitCommit == Some(GitCommit(trac.branch, lsRemote))
    ensures id != 0 ==> r.dependsOn == ExtractDependsOn(trac.dependencies)
  {
    if id == 0 then BaseTicket
    else
      TicketInfo(id, trac.title, trac.status, trac.priority, trac.component,
        Some(trac.resolution), Some(trac.milestone), ExtractDependsOn(trac.dependencies),
        Contains(trac.component, "packages"),
        BranchAuthors(trac.branch), Some(NamesOf(Split(trac.author, ","))),
        ExtractParticipants(rss), Some(trac.branch),
        if Strip(trac.branch) != "" then Some(TracRepo) else None,
        Some(GitCommit(trac.branch, lsRemote)))
  }
}

=== FILE: version.dfy ===
/** Sage version strings and their order (`comparable_version`, `compare_version` and
    `latest_version` of sage_patchbot/util.py and src/util.py). A version is split into
    tagged segments: a segment Python's `int()` reads becomes `(1, n)`, any other `(0, s)`.
    Tuples compare on the tag first, so every word segment sorts below every number. */
module Version {
  import opened Wrappers
  import opened Strings
  import opened Lex
  import opened Seqs

  datatype Seg = Word(w: string) | Num(n: int)

  /** Python's `<` on the tuples `(0, s)` and `(1, n)`. */
  predicate SegLt(x: Seg, y: Seg) {
    match (x, y)
    case (Word(a), Word(b)) => StrLt(a, b)
    case (Word(_), Num(_)) => true
    case (Num(_), Word(_)) => false
    case (Num(a), Num(b)) => a < b
  }

  lemma SegLtIsStrictTotal()
    ensures StrictTotal(SegLt)
  {
    forall x: Seg
      ensures !SegLt(x, x)
    {
      if x.Word? {
        StrLtAsymmetric(x.w, x.w);
      }
    }
    forall x: Seg, y: Seg, z: Seg | SegLt(x, y) && SegLt(y, z)
      ensures SegLt(x, z)
    {
      if x.Word? && y.Word? && z.Word? {
        StrLtTransitive(x.w, y.w, z.w);
      }
    }
    forall x: Seg, y: Seg | x != y
      ensures SegLt(x, y) || SegLt(y, x)
    {
      if x.Word? && y.Word? {
        StrLtTotal(x.w, y.w);
      }
    }
  }

  /** Python's `<` on two lists of segments. */
  predicate SegsLt(a: seq<Seg>, b: seq<Seg>) {
    LexLt(a, b, SegLt)
  }

  /** The position the substitution `([^.0-9])(\d+) -> \1.\2` puts a dot in front of:
      a digit right after a character that is neither a dot nor a digit. */
  predicate DotBefore(v: string, i: int) {
    0 < i < |v| && IsDigit(v[i]) && !IsDigit(v[i - 1]) && v[i - 1] != '.'
  }

  predicate NoDotNeeded(v: string) {
    forall i :: 0 <= i < |v| ==> !DotBefore(v, i)
  }

  /** The characters of `v` other than '.'. */
  function Undotted(v: string): (r: string)
    ensures |r| <= |v| && '.' !in r
  {
    if |v| == 0 then ""
    else Undotted(v[..|v| - 1]) + (if v[|v| - 1] == '.' then "" else [v[|v| - 1]])
  }

  /** `re.sub(r'([^.0-9])(\d+)', r'\1.\2', v)`: the matches never overlap, so the effect
      is one dot inserted at every `DotBefore` position. Only ASCII digits are modelled. */
  function InsertDots(v: string): (r: string)
    ensures |r| >= |v|
    ensures |v| > 0 ==> |r| > 0 && r[|r| - 1] == v[|v| - 1] && r[0] == v[0]
  {
    if |v| == 0 then ""
    else InsertDots(v[..|v| - 1]) + (if DotBefore(v, |v| - 1) then "." else "") + [v[|v| - 1]]
  }

  /** After the substitution no digit follows a character other than a digit or a dot. */
  lemma {:induction false} InsertDotsComplete(v: string)
    ensures NoDotNeeded(InsertDots(v))
  {
    if |v| > 0 {
      var init := v[..|v| - 1];
      var pre := InsertDots(init);
      var dot: string := if DotBefore(v, |v| - 1) then "." else "";
      var r := InsertDots(v);
      InsertDotsComplete(init);
      assert r == pre + dot + [v[|v| - 1]];
      forall i | 0 <= i < |r|
        ensures !DotBefore(r, i)
      {
        if i < |pre| {
          assert r[i] == pre[i];
          if i > 0 {
            assert r[i - 1] == pre[i - 1];
          }
          assert !DotBefore(pre, i);
        } else if i == |r| - 1 && |init| > 0 && dot == "" {
          assert r[i - 1] == pre[|pre| - 1] == init[|init| - 1] == v[|v| - 2];
        }
      }
    }
  }

  lemma {:induction false} UndottedAppend(a: string, b: string)
    ensures Undotted(a + b) == Undotted(a) + Undotted(b)
    decreases |b|
  {
    if |b| == 0 {
      assert a + b == a;
    } else {
      assert (a + b)[..|a + b| - 1] == a + b[..|b| - 1];
      UndottedAppend(a, b[..|b| - 1]);
    }
  }

  lemma UndottedSkipsDot(pre: string, dot: string, c: string)
    requires dot == "." || dot == ""
    ensures Undotted((pre + dot) + c) == Undotted(pre) + Undotted(c)
  {
    UndottedAppend(pre + dot, c);
    UndottedAppend(pre, dot);
    UndottedDot();
  }

  lemma UndottedDot()
    ensures Undotted(".") == "" && Undotted("") == ""
  {
    assert "."[..0] == "";
  }

  /** The substitution only inserts dots: the other characters are kept, in order. */
  lemma {:induction false} InsertDotsKeepsText(v: string)
    ensures Undotted(InsertDots(v)) == Undotted(v)
  {
    if |v| > 0 {
      var init := v[..|v| - 1];
      var c := [v[|v| - 1]];
      var pre := InsertDots(init);
      var dot: string := if DotBefore(v, |v| - 1) then "." else "";
      assert Undotted(v) == Undotted(init) + Undotted(c) by {
        assert v == init + c;
        UndottedAppend(init, c);
      }
      assert InsertDots(v) == (pre + dot) + c;
      UndottedSkipsDot(pre, dot, c);
      InsertDotsKeepsText(init);
    }
  }

  /** The substitution works piecewise: a split point only matters through the dot it may
      need itself. */
  lemma {:induction false} InsertDotsConcat(a: string, b: string)
    requires |b| > 0
    ensures InsertDots(a + b) ==
      InsertDots(a) + (if DotBefore(a + b, |a|) then "." else "") + InsertDots(b)
    decreases |b|
  {
    var w := a + b;
    assert w[..|w| - 1] == a + b[..|b| - 1];
    if |b| == 1 {
      assert w[..|w| - 1] == a;
      assert InsertDots(b) == [b[0]] by {
        assert b[..0] == "";
      }
    } else {
      var b' := b[..|b| - 1];
      InsertDotsConcat(a, b');
      assert DotBefore(a + b', |a|) == DotBefore(w, |a|) by {
        assert (a + b')[|a|] == w[|a|];
        if |a| > 0 {
          assert (a + b')[|a| - 1] == w[|a| - 1];
        }
      }
      assert DotBefore(w, |w| - 1) == DotBefore(b, |b| - 1) by {
        assert w[|w| - 1] == b[|b| - 1] && w[|w| - 2] == b[|b| - 2];
      }
      var front := InsertDots(a) + (if DotBefore(w, |a|) then "." else "");
      var dot: string := if DotBefore(b, |b| - 1) then "." else "";
      ConcatRegroup(front, InsertDots(b'), dot, [b[|b| - 1]]);
    }
  }

  /** A version whose digits already follow a digit or a dot is left unchanged. */
  lemma {:induction false} InsertDotsFixed(v: string)
    requires NoDotNeeded(v)
    ensures InsertDots(v) == v
  {
    if |v| > 0 {
      var init := v[..|v| - 1];
      assert NoDotNeeded(init) by {
        forall i | 0 <= i < |init|
          ensures !DotBefore(init, i)
        {
          assert !DotBefore(v, i);
        }
      }
      InsertDotsFixed(init);
      assert !DotBefore(v, |v| - 1);
      assert v == init + [v[|v| - 1]];
    }
  }

  /** The substitution is idempotent. */
  lemma InsertDotsIdempotent(v: string)
    ensures InsertDots(InsertDots(v)) == InsertDots(v)
  {
    InsertDotsComplete(v);
    InsertDotsFixed(InsertDots(v));
  }

  /** `maybe_int`: `(1, int(s))` when `int` accepts `s`, otherwise `(0, s)`. */
  function Tag(s: string, python2: bool): (r: Seg)
    ensures r.Word? ==> r.w == s
  {
    match (if python2 then Py2Int(s) else PyInt(s))
    case Some(n) => Num(n)
    case None => Word(s)
  }

  function TagAll(pieces: seq<string>, python2: bool): (r: seq<Seg>)
    ensures |r| == |pieces|
    ensures forall i :: 0 <= i < |r| ==> r[i] == Tag(pieces[i], python2)
  {
    if |pieces| == 0 then [] else [Tag(pieces[0], python2)] + TagAll(pieces[1..], python2)
  }

  /** `comparable_version(v)`. `python2` selects the `int()` of src/util.py, which
      does not accept underscores. */
  function Comparable(v: string, python2: bool): (r: seq<Seg>)
    ensures |r| >= 1
  {
    TagAll(Split(InsertDots(v) + ".z", "."), python2)
  }

  /** A segment ending in a letter (or any character other than a digit or whitespace)
      stays a word. */
  lemma TagWord(s: string, python2: bool)
    requires |s| > 0 && !IsDigit(s[|s| - 1]) && !IsSpace(s[|s| - 1])
    ensures Tag(s, python2) == Word(s)
  {
    NotIntWhenLastNotDigit(s);
  }

  /** A segment holding the decimal rendering of `n` becomes `(1, n)`. */
  lemma TagNat(n: nat, python2: bool)
    ensures Tag(NatToString(n), python2) == Num(n)
  {
    PyIntOfNatString(n);
    Py2IntOfNatString(n);
  }

  /** The appended ".z" always becomes the final segment `(0, 'z')`. */
  lemma ComparableEndsWithZ(v: string, python2: bool)
    ensures var r := Comparable(v, python2); r[|r| - 1] == Word("z")
  {
    var d := InsertDots(v);
    assert d + ".z" == d + ['.'] + "z";
    SplitCharAppend(d, '.', "z");
    TagWord("z", python2);
  }

  /** `piece` is the decimal rendering of a natural number `seg`, or a word `seg` ending
      in a character that is neither a digit nor whitespace. */
  predicate PlainPiece(piece: string, seg: Seg) {
    match seg
    case Num(n) => n >= 0 && piece == NatToString(n)
    case Word(w) =>
      w == piece && |piece| > 0 && !IsDigit(piece[|piece| - 1]) && !IsSpace(piece[|piece| - 1])
  }

  /** Tagging pieces that are decimal renderings or end in a non-digit, non-space
      character. */
  lemma TagPieces(pieces: seq<string>, segs: seq<Seg>, python2: bool)
    requires |pieces| == |segs|
    requires forall i :: 0 <= i < |pieces| ==>
      PlainPiece(pieces[i], segs[i])
    ensures TagAll(pieces, python2) == segs
  {
    forall i | 0 <= i < |pieces|
      ensures TagAll(pieces, python2)[i] == segs[i]
    {
      if segs[i].Num? {
        TagNat(segs[i].n, python2);
      } else {
        TagWord(pieces[i], python2);
      }
    }
  }

  /** When the substituted version plus ".z" is the dot-join of `pieces`, the segments
      are the tagged pieces. */
  lemma ComparableOfPieces(v: string, pieces: seq<string>, segs: seq<Seg>, python2: bool)
    requires |pieces| >= 1 && forall i :: 0 <= i < |pieces| ==> '.' !in pieces[i]
    requires InsertDots(v) + ".z" == Join(pieces, ".")
    requires |pieces| == |segs|
    requires forall i :: 0 <= i < |pieces| ==>
      PlainPiece(pieces[i], segs[i])
    ensures Comparable(v, python2) == segs
  {
    SplitJoin(pieces, '.');
    TagPieces(pieces, segs, python2);
  }

  /** `InsertDots` on a version whose only letters-to-digit step is at its last digit. */
  lemma InsertDotsBeforeLast(prefix: string, d: char)
    requires NoDotNeeded(prefix) && |prefix| > 0 && IsDigit(d)
    requires !IsDigit(prefix[|prefix| - 1]) && prefix[|prefix| - 1] != '.'
    ensures InsertDots(prefix + [d]) == prefix + "." + [d]
  {
    InsertDotsFixed(prefix);
    InsertDotsConcat(prefix, [d]);
    assert InsertDots([d]) == [d] by {
      assert [d][..0] == "";
    }
  }

  /** Python's `comparable_version(a) < comparable_version(b)`. */
  predicate VersionLt(a: string, b: string) {
    SegsLt(Comparable(a, false), Comparable(b, false))
  }

  /** A pre-release tag such as "rc" or "beta": no digits, dots or whitespace. */
  predicate TagWordText(w: string) {
    |w| > 0 && forall i :: 0 <= i < |w| ==> !IsDigit(w[i]) && w[i] != '.' && !IsSpace(w[i])
  }

  /** Versions "a.b.wn" with one-digit numbers, such as "6.6.rc0": the digit after the tag
      gets its own segment. */
  lemma ComparablePre(a: nat, b: nat, w: string, n: nat, python2: bool)
    requires a < 10 && b < 10 && n < 10 && TagWordText(w)
    ensures Comparable([DigitChar(a), '.', DigitChar(b), '.'] + w + [DigitChar(n)], python2)
         == [Num(a), Num(b), Word(w), Num(n), Word("z")]
  {
    var v := [DigitChar(a), '.', DigitChar(b), '.'] + w + [DigitChar(n)];
    var pieces := [[DigitChar(a)], [DigitChar(b)], w, [DigitChar(n)], "z"];
    var segs := [Num(a), Num(b), Word(w), Num(n), Word("z")];
    PreInsertDots(DigitChar(a), DigitChar(b), w, DigitChar(n));
    PreJoin(DigitChar(a), DigitChar(b), w, DigitChar(n));
    PrePieces(a, b, w, n);
    ComparableOfPieces(v, pieces, segs, python2);
  }

  /** The substitution puts one dot between the tag and the digit after it. */
  lemma PreInsertDots(x: char, y: char, w: string, d: char)
    requires IsDigit(x) && IsDigit(y) && IsDigit(d) && TagWordText(w)
    ensures InsertDots([x, '.', y, '.'] + w + [d]) == [x, '.', y, '.'] + w + "." + [d]
  {
    var p := [x, '.', y, '.'] + w;
    assert NoDotNeeded(p) by {
      forall i | 0 <= i < |p|
        ensures !DotBefore(p, i)
      {
        if i >= 4 {
          assert p[i] == w[i - 4];
        }
      }
    }
    assert p[|p| - 1] == w[|w| - 1];
    InsertDotsBeforeLast(p, d);
  }

  lemma PreJoin(x: char, y: char, w: string, d: char)
    ensures [x, '.', y, '.'] + w + "." + [d] + ".z" == Join([[x], [y], w, [d], "z"], ".")
  {
    var pieces := [[x], [y], w, [d], "z"];
    assert Join(pieces[3..], ".") == [d] + ".z" by {
      assert pieces[3..][1..] == ["z"];
    }
    assert Join(pieces[2..], ".") == w + "." + [d] + ".z" by {
      assert pieces[2..][1..] == pieces[3..];
    }
    assert Join(pieces[1..], ".") == [y] + "." + w + "." + [d] + ".z" by {
      assert pieces[1..][1..] == pieces[2..];
    }
  }

  lemma PrePieces(a: nat, b: nat, w: string, n: nat)
    requires a < 10 && b < 10 && n < 10 && TagWordText(w)
    ensures var pieces := [[DigitChar(a)], [DigitChar(b)], w, [DigitChar(n)], "z"];
      var segs := [Num(a), Num(b), Word(w), Num(n), Word("z")];
      forall i :: 0 <= i < |pieces| ==> '.' !in pieces[i] && PlainPiece(pieces[i], segs[i])
  {
    assert '.' !in w by {
      forall i | 0 <= i < |w|
        ensures w[i] != '.'
      {
      }
    }
    assert PlainPiece(w, Word(w));
  }

  /** Releases "a.b" with one-digit numbers, such as "6.6". */
  lemma ComparableRelease(a: nat, b: nat, python2: bool)
    requires a < 10 && b < 10
    ensures Comparable([DigitChar(a), '.', DigitChar(b)], python2) == [Num(a), Num(b), Word("z")]
  {
    var v := [DigitChar(a), '.', DigitChar(b)];
    assert NoDotNeeded(v);
    InsertDotsFixed(v);
    var pieces := [[DigitChar(a)], [DigitChar(b)], "z"];
    var segs := [Num(a), Num(b), Word("z")];
    assert Join(pieces[1..], ".") == [DigitChar(b)] + ".z" by {
      assert pieces[1..][1..] == ["z"];
    }
    assert v + ".z" == Join(pieces, ".");
    assert forall i :: 0 <= i < |pieces| ==> '.' !in pieces[i] && PlainPiece(pieces[i], segs[i]);
    ComparableOfPieces(v, pieces, segs, python2);
  }

  /** Point releases "a.b.c" with one-digit numbers, such as "6.3.1". */
  lemma ComparablePoint(a: nat, b: nat, c: nat, python2: bool)
    requires a < 10 && b < 10 && c < 10
    ensures Comparable([DigitChar(a), '.', DigitChar(b), '.', DigitChar(c)], python2)
         == [Num(a), Num(b), Num(c), Word("z")]
  {
    var v := [DigitChar(a), '.', DigitChar(b), '.', DigitChar(c)];
    assert NoDotNeeded(v);
    InsertDotsFixed(v);
    var pieces := [[DigitChar(a)], [DigitChar(b)], [DigitChar(c)], "z"];
    var segs := [Num(a), Num(b), Num(c), Word("z")];
    assert Join(pieces[2..], ".") == [DigitChar(c)] + ".z" by {
      assert pieces[2..][1..] == ["z"];
    }
    assert Join(pieces[1..], ".") == [DigitChar(b)] + "." + [DigitChar(c)] + ".z" by {
      assert pieces[1..][1..] == pieces[2..];
    }
    assert v + ".z" == Join(pieces, ".");
    assert forall i :: 0 <= i < |pieces| ==> '.' !in pieces[i] && PlainPiece(pieces[i], segs[i]);
    ComparableOfPieces(v, pieces, segs, python2);
  }

  lemma ComparableRc0(python2: bool)
    ensures Comparable("6.6.rc0", python2) == [Num(6), Num(6), Word("rc"), Num(0), Word("z")]
  {
    assert "6.6.rc0" == [DigitChar(6), '.', DigitChar(6), '.'] + "rc" + [DigitChar(0)];
    ComparablePre(6, 6, "rc", 0, python2);
  }

  lemma ComparableSixSix(python2: bool)
    ensures Comparable("6.6", python2) == [Num(6), Num(6), Word("z")]
  {
    assert "6.6" == [DigitChar(6), '.', DigitChar(6)];
    ComparableRelease(6, 6, python2);
  }

  lemma ComparableBeta4(python2: bool)
    ensures Comparable("6.6.beta4", python2) == [Num(6), Num(6), Word("beta"), Num(4), Word("z")]
  {
    assert "6.6.beta4" == [DigitChar(6), '.', DigitChar(6), '.'] + "beta" + [DigitChar(4)];
    ComparablePre(6, 6, "beta", 4, python2);
  }

  /** The documented examples of `comparable_version` are ordered beta < rc < release. */
  lemma BetaBeforeRc()
    ensures VersionLt("6.6.beta4", "6.6.rc0")
  {
    ComparableRc0(false);
    ComparableBeta4(false);
    BetaBeforeRcTag();
    PreTagsOrdered(6, 6, "beta", 4, "rc", 0);
  }

  lemma BetaBeforeRcTag()
    ensures StrLt("beta", "rc")
  {
    assert "beta"[0] < "rc"[0];
  }

  lemma RcBeforeZ()
    ensures StrLt("rc", "z")
  {
    assert "rc"[0] < "z"[0];
  }

  lemma RcBeforeRelease()
    ensures VersionLt("6.6.rc0", "6.6")
  {
    ComparableRc0(false);
    ComparableSixSix(false);
    RcBeforeZ();
    PreBeforeRelease(6, 6, "rc", 0);
  }

  /** Two pre-releases of one version are ordered by their tags. */
  lemma PreTagsOrdered(a: int, b: int, w1: string, n1: int, w2: string, n2: int)
    requires StrLt(w1, w2)
    ensures SegsLt([Num(a), Num(b), Word(w1), Num(n1), Word("z")], [Num(a), Num(b), Word(w2), Num(n2), Word("z")])
  {
    var x := [Num(a), Num(b), Word(w1), Num(n1), Word("z")];
    var y := [Num(a), Num(b), Word(w2), Num(n2), Word("z")];
    StrLtAsymmetric(w1, w2);
    assert LexLt(x[2..], y[2..], SegLt);
    assert x[1..][1..] == x[2..] && y[1..][1..] == y[2..];
  }

  /** A pre-release comes before the release, whose next segment is the final 'z'. */
  lemma PreBeforeRelease(a: int, b: int, w: string, n: int)
    requires StrLt(w, "z")
    ensures SegsLt([Num(a), Num(b), Word(w), Num(n), Word("z")], [Num(a), Num(b), Word("z")])
  {
    var x := [Num(a), Num(b), Word(w), Num(n), Word("z")];
    var y := [Num(a), Num(b), Word("z")];
    LexLtAtMismatch(x, y, SegLt);
  }

  lemma ComparableFourRc0(python2: bool)
    ensures Comparable("6.4.rc0", python2) == [Num(6), Num(4), Word("rc"), Num(0), Word("z")]
  {
    assert "6.4.rc0" == [DigitChar(6), '.', DigitChar(4), '.'] + "rc" + [DigitChar(0)];
    ComparablePre(6, 4, "rc", 0, python2);
  }

  lemma ComparableFourBeta2(python2: bool)
    ensures Comparable("6.4.beta2", python2) == [Num(6), Num(4), Word("beta"), Num(2), Word("z")]
  {
    assert "6.4.beta2" == [DigitChar(6), '.', DigitChar(4), '.'] + "beta" + [DigitChar(2)];
    ComparablePre(6, 4, "beta", 2, python2);
  }

  lemma ComparableSixFour(python2: bool)
    ensures Comparable("6.4", python2) == [Num(6), Num(4), Word("z")]
  {
    assert "6.4" == [DigitChar(6), '.', DigitChar(4)];
    ComparableRelease(6, 4, python2);
  }

  lemma ComparableSixThree(python2: bool)
    ensures Comparable("6.3", python2) == [Num(6), Num(3), Word("z")]
  {
    assert "6.3" == [DigitChar(6), '.', DigitChar(3)];
    ComparableRelease(6, 3, python2);
  }

  lemma ComparableSixThreeOne(python2: bool)
    ensures Comparable("6.3.1", python2) == [Num(6), Num(3), Num(1), Word("z")]
  {
    assert "6.3.1" == [DigitChar(6), '.', DigitChar(3), '.', DigitChar(1)];
    ComparablePoint(6, 3, 1, python2);
  }

  /** Python 2's `cmp(comparable_version(a), comparable_version(b))` (src/util.py). */
  function CompareVersion(a: string, b: string): (r: int)
    ensures r == 0 <==> Comparable(a, true) == Comparable(b, true)
    ensures r == -1 <==> SegsLt(Comparable(a, true), Comparable(b, true))
    ensures r == 1 <==> SegsLt(Comparable(b, true), Comparable(a, true))
  {
    var ca := Comparable(a, true);
    var cb := Comparable(b, true);
    SegLtIsStrictTotal();
    LexLtTotal(ca, cb, SegLt);
    LexLtAsymmetric(ca, cb, SegLt);
    LexLtIrreflexive(ca, SegLt);
    if SegsLt(ca, cb) then -1 else if ca == cb then 0 else 1
  }

  /** Swapping the arguments negates the comparison. */
  lemma CompareVersionAntisymmetric(a: string, b: string)
    ensures CompareVersion(a, b) == -CompareVersion(b, a)
  {
  }

  /** Releases of one major version are ordered by their minor version. */
  lemma ReleasesOrdered(a: int, b: int, c: int)
    requires b < c
    ensures SegsLt([Num(a), Num(b), Word("z")], [Num(a), Num(c), Word("z")])
  {
    var x := [Num(a), Num(b), Word("z")];
    var y := [Num(a), Num(c), Word("z")];
    assert x[1..][0] == Num(b) && y[1..][0] == Num(c);
  }

  /** A release comes before its point releases: its final 'z' is a word, and words sort
      below numbers. */
  lemma ReleaseBeforePoint(a: int, b: int, c: int)
    ensures SegsLt([Num(a), Num(b), Word("z")], [Num(a), Num(b), Num(c), Word("z")])
  {
    var x := [Num(a), Num(b), Word("z")];
    var y := [Num(a), Num(b), Num(c), Word("z")];
    assert x[1..][1..] == x[2..] && y[1..][1..] == y[2..];
    assert LexLt(x[2..], y[2..], SegLt);
  }

  /** The documented examples of `compare_version`. */
  lemma CompareRcWithRelease()
    ensures CompareVersion("6.4.rc0", "6.4") == -1
  {
    ComparableFourRc0(true);
    ComparableSixFour(true);
    RcBeforeZ();
    PreBeforeRelease(6, 4, "rc", 0);
  }

  lemma CompareRcWithBeta()
    ensures CompareVersion("6.4.rc0", "6.4.beta2") == 1
  {
    ComparableFourRc0(true);
    ComparableFourBeta2(true);
    BetaBeforeRcTag();
    PreTagsOrdered(6, 4, "beta", 2, "rc", 0);
  }

  lemma CompareReleases()
    ensures CompareVersion("6.4", "6.3") == 1
  {
    ComparableSixFour(true);
    ComparableSixThree(true);
    ReleasesOrdered(6, 3, 4);
  }

  lemma ComparePointRelease()
    ensures CompareVersion("6.3", "6.3.1") == -1
  {
    ComparableSixThree(true);
    ComparableSixThreeOne(true);
    ReleaseBeforePoint(6, 3, 1);
  }

  /** `latest_version`: `None` for no reports, otherwise `max(bases, key=comparable_version)`,
      the first base whose comparable form is maximal. */
  function LatestVersion(bases: seq<string>, python2: bool): (r: Option<string>)
    ensures r.None? <==> |bases| == 0
    ensures r.Some? ==> r.value in bases
    ensures r.Some? ==> forall b :: b in bases ==>
      !SegsLt(Comparable(r.value, python2), Comparable(b, python2))
  {
    if |bases| == 0 then None
    else
      SegLtIsStrictTotal();
      LexIsStrictTotal();
      var i := FirstMaxIndex(bases, (s: string) => Comparable(s, python2), SegsLt);
      Some(bases[i])
  }

  /** Lexicographic order on segment lists is itself a strict total order. */
  lemma LexIsStrictTotal()
    ensures StrictTotal(SegsLt)
  {
    SegLtIsStrictTotal();
    forall a: seq<Seg>
      ensures !SegsLt(a, a)
    {
      LexLtIrreflexive(a, SegLt);
    }
    forall a: seq<Seg>, b: seq<Seg>, c: seq<Seg> | SegsLt(a, b) && SegsLt(b, c)
      ensures SegsLt(a, c)
    {
      LexLtTransitive(a, b, c, SegLt);
    }
    forall a: seq<Seg>, b: seq<Seg> | a != b
      ensures SegsLt(a, b) || SegsLt(b, a)
    {
      LexLtTotal(a, b, SegLt);
    }
  }
}

=== FILE: wrappers.dfy ===
/** Option and Result, the two failure-carrying datatypes the rest of the model uses
    in place of Python's None and raised exceptions. */
module Wrappers {

  datatype Option<+T> = None | Some(value: T) {

    predicate IsFailure() {
      None?
    }

    function PropagateFailure<U>(): Option<U>
      requires None?
    {
      None
    }

    function Extract(): T
      requires Some?
    {
      value
    }

    function GetOr(default: T): T {
      match this
      case Some(v) => v
      case None => default
    }
  }

  /** `Err` carries the name of the Python exception the source would raise. */
  datatype Result<+R> = Ok(value: R) | Err(error: string) {

    predicate IsFailure() {
      Err?
    }

    function PropagateFailure<U>(): Result<U>
      requires Err?
    {
      Err(error)
    }

    function Extract(): R
      requires Ok?
    {
      value
    }
  }
}
